=== FILE: README.md ===
# labeloo frontend core, modelled in Dafny

This project models the logic at the heart of the labeloo annotation
frontend, a Nuxt application for labelling images with polygons,
rectangles, circles, lines, dots and freehand strokes and for reviewing
those annotations. It covers the following parts.

- **Polygon capture and simplification.** The sliding buffer that records
  a freehand or polygon stroke point by point, and the Ramer–Douglas–Peucker
  simplifier. The source has four copies of the simplifier: the sliding
  buffer's, the web worker's, the hit-region one and the polygon
  optimisation one. The model has one generic simplifier, and each copy
  instantiates it with its own distance measure and tolerance. Also covered
  are the worker's message handler and the manager that sends requests to
  the worker.
- **Rendering budgets.** The performance budget levels, the polygon
  performance monitor, drag batching and the two-tier hit regions.
- **Geometry and annotation rules.** Coordinate conversion and clamping,
  the drag-end and transform-end handlers, the Konva configuration of
  polygons and freehand strokes, the class colour palette, and the
  annotation lifecycle.
- **Keyboard shortcuts.** The shortcut table and the shortcut manager.
- **Review and task rules.** Workflow and status rules of reviews and
  tasks, the task review filters, and the review popup on the canvas.
- **Completion and notifications.** Annotation completion messages, the
  review notification and count caches, and the per-organisation backend
  selection.
- **URLs and tokens.** Joining API URLs and reading JSON Web Tokens.

Coordinates are real numbers. Every distance is compared squared, against
the squared tolerance. This changes no decision for a non-negative
tolerance, since the square root is monotone and the searches start at 0.
Classes stand for the source's stateful classes and composables: their
fields are the refs and private fields, and their methods the operations
that change them. The following become parameters: the clock, answers of
the server, local storage, `atob`, `JSON.parse` and `parseInt`. Timers and
animation frames become explicit methods that a caller invokes when the
timer fires.

## Model

| member | source | states |
|---|---|---|
| Geometry.Flatten | composables/useCoordinateUtils.ts:153-155 | the flat array holds the x and then the y of each point, in order, and is twice as long |
| Geometry.Pairs | composables/useCoordinateUtils.ts:163-175 | the points are read two values at a time while a full pair remains: value 2k and 2k+1 make point k, and an odd trailing value is dropped |
| Geometry.PairsOfFlatten | composables/useCoordinateUtils.ts:153-175 | reading a flattened point list back two values at a time gives the same points |
| Geometry.FlattenOfPairs | composables/useCoordinateUtils.ts:153-175 | flattening the points read from a flat array gives the array back without an odd trailing value |
| Distance.SegmentParameter | public/workers/polygonSimplificationWorker.js:95-107 | the projection parameter of the segment distance is clamped to [0, 1] |
| Distance.DistancesNonNegative | utils/polygonHitboxOptimization.ts:87-110 | the segment distance and the infinite-line distance are never negative |
| Distance.DegenerateChord | utils/polygonOptimization.ts:62-76 | when the chord's ends coincide, both measures are the distance to that point |
| Distance.SegmentDistSq | utils/polygonHitboxOptimization.ts:87-110 | the squared distance to the closest point of the segment (no contract of its own; Distance.SegmentParameter and Distance.DistancesNonNegative state its properties) |
| Distance.LineDistSq | utils/polygonOptimization.ts:62-76 | the squared distance to the infinite line, or to the point when the chord is degenerate (no contract of its own; see Distance.DistancesNonNegative and Distance.DegenerateChord) |
| DouglasPeucker.ScanIsFarthest | utils/slidingBufferOptimization.ts:236-246 | the farthest-point search yields the first interior point of greatest distance, or index 0 with distance 0 when no distance is positive |
| DouglasPeucker.ScanUnique | utils/slidingBufferOptimization.ts:236-246 | any outcome meeting the farthest-point description is the search's outcome |
| DouglasPeucker.FindFarthest | utils/slidingBufferOptimization.ts:236-246 | the loop over the interior points computes the first farthest point |
| DouglasPeucker.SplitUnfolds | utils/slidingBufferOptimization.ts:248-254 | beyond the threshold, the result is the simplified left half, without its last point, followed by the simplified right half |
| DouglasPeucker.CollapseUnfolds | utils/slidingBufferOptimization.ts:255-258 | within the threshold, the result is the first and last point |
| DouglasPeucker.RamerDouglasPeucker | utils/slidingBufferOptimization.ts:225-259 | the recursive procedure computes the simplification function |
| DouglasPeucker.Simplify | utils/slidingBufferOptimization.ts:225-259 | the simplification function itself (no contract of its own; the lemmas in these rows state its properties) |
| DouglasPeucker.SimplifyLength | utils/slidingBufferOptimization.ts:225-259 | the result is no longer than the input, and two or more points never shrink below two |
| DouglasPeucker.KeptIsSubsequence | utils/slidingBufferOptimization.ts:225-259 | the result is the input at strictly increasing positions that start at the first point and end at the last |
| DouglasPeucker.KeptSpansEnds | utils/slidingBufferOptimization.ts:225-259 | the kept positions lie within the input and include both ends |
| DouglasPeucker.SimplifyKeepsEndpoints | utils/slidingBufferOptimization.ts:228-229 | the first and last point are always kept |
| DouglasPeucker.DroppedPointsWithinThreshold | utils/slidingBufferOptimization.ts:225-259 | every dropped point lies within the threshold of the chord between the kept points around it |
| DouglasPeucker.HigherThresholdKeepsNoMore | utils/slidingBufferOptimization.ts:225-259 | raising the threshold never keeps more points |
| DouglasPeucker.KeepsInteriorIffSomeFar | utils/slidingBufferOptimization.ts:247-258 | three or more points keep an interior point exactly when some interior point lies beyond the threshold |
| DouglasPeucker.NegativeThresholdRecursesOnItself | utils/slidingBufferOptimization.ts:247-251 | with a negative threshold and no positive distance, the split is at index 0 and the right half is the whole input again, so the source does not terminate |
| DouglasPeucker.SubsequenceKeepsFarthest | utils/slidingBufferOptimization.ts:236-246 | a subsequence that keeps the ends and the first farthest point has that point as its own first farthest point |
| DouglasPeucker.ResimplifySplitsAtSamePoint | utils/slidingBufferOptimization.ts:236-254 | in the simplified polyline the old split point is again the first farthest point, at the same distance |
| DouglasPeucker.SimplifiedHalvesGlued | utils/slidingBufferOptimization.ts:248-254 | the simplification of a split polyline is its simplified halves glued at the split point |
| DouglasPeucker.SimplifyIdempotent | utils/slidingBufferOptimization.ts:225-259 | simplifying a simplified polyline again changes nothing |
| FlatPolygon.ToPoints | utils/slidingBufferOptimization.ts:199-206 | the reading loop produces the pairs of the flat array |
| FlatPolygon.ToFlat | utils/slidingBufferOptimization.ts:213-217 | the write-back loop produces the flattened points |
| FlatPolygon.SimplifyFlatArray | utils/slidingBufferOptimization.ts:196-220 | reading, simplifying and writing back computes the flat simplification |
| FlatPolygon.SimplifyFlatShape | utils/slidingBufferOptimization.ts:196-220 | fewer than six values come back unchanged; otherwise the result is a whole number of points, at least two and no more than the input, forming a subsequence of its points with the first and last |
| FlatPolygon.SimplifyFlatCollapses | utils/slidingBufferOptimization.ts:255-258 | with no interior point beyond the threshold, three or more points collapse to the first and last |
| FlatPolygon.SimplifyFlatIdempotent | utils/slidingBufferOptimization.ts:196-220 | simplifying a simplified flat array again changes nothing |
| FlatPolygon.SimplifyFlatMonotone | utils/slidingBufferOptimization.ts:196-220 | a higher threshold keeps no more values |
| SlidingBuffer.MergeIdempotent | utils/slidingBufferOptimization.ts:317-319 | applying the same configuration update twice equals applying it once, and an empty update changes nothing |
| SlidingBuffer.RejectionRule | utils/slidingBufferOptimization.ts:46-58 | a point is rejected exactly when it is unforced, a last point exists, and it is both nearer than the minimum distance and sooner than the minimum interval |
| SlidingBuffer.BuildRenderWindow | utils/slidingBufferOptimization.ts:111-157 | the three loops build the render window function |
| SlidingBuffer.RenderWindowEnds | utils/slidingBufferOptimization.ts:111-157 | a buffer of at most maxVisiblePoints points is shown whole; a longer one starts with its first three points and ends with its last point |
| SlidingBuffer.RecentLength | utils/slidingBufferOptimization.ts:133-144 | with a step of two or more, the recent pairs take no more values than the range they cover |
| SlidingBuffer.RenderWindowBound | utils/slidingBufferOptimization.ts:111-157 | with a step of two or more, the window holds at most 6 + 2·maxVisiblePoints + 2 values |
| SlidingBuffer.RecentStepOne | utils/slidingBufferOptimization.ts:133-144 | with a step of one, the recent loop takes two values per position, nearly twice the points it covers |
| SlidingBuffer.EvenStepReadsPoints | utils/slidingBufferOptimization.ts:133-144 | with an even start and an even step, every recent pair is a point of the buffer |
| SlidingBuffer.OddStepMisreadsPoints | utils/slidingBufferOptimization.ts:133-144 | with an odd step, the second recent pair is the y of one point and the x of the next |
| SlidingBuffer.SimplifyPoints | utils/slidingBufferOptimization.ts:196-220 | fewer than six values come back unchanged; otherwise an even-length result of 4 to n values, keeping the input's points in order with the first and last |
| SlidingBuffer.SimplifyPointsLoop | utils/slidingBufferOptimization.ts:225-259 | the procedure with the segment distance computes simplifyPoints |
| SlidingBuffer.SlidingBufferOptimizer.constructor | utils/slidingBufferOptimization.ts:21-37 | the default configuration, with empty buffers and cleared flags |
| SlidingBuffer.SlidingBufferOptimizer.AddPoint | utils/slidingBufferOptimization.ts:43-81 | a rejected point returns nothing and changes no field; an admitted one is appended and becomes the last point; optimizing turns on at the threshold; batching returns the current window and schedules a frame, otherwise the window is rebuilt and returned |
| SlidingBuffer.SlidingBufferOptimizer.ScheduleBatchedRender | utils/slidingBufferOptimization.ts:86-99 | a frame is requested only when none is pending, and the pending flag is then set |
| SlidingBuffer.SlidingBufferOptimizer.Flush | utils/slidingBufferOptimization.ts:90-98 | the frame rebuilds the window, clears the pending flag and notifies the callback when one is set |
| SlidingBuffer.SlidingBufferOptimizer.SetRenderCallback | utils/slidingBufferOptimization.ts:104-106 | a render callback is set |
| SlidingBuffer.SlidingBufferOptimizer.GetOptimizedRenderPoints | utils/slidingBufferOptimization.ts:111-157 | the window is rebuilt from the full buffer, stored and returned |
| SlidingBuffer.SlidingBufferOptimizer.CompletePolygon | utils/slidingBufferOptimization.ts:162-164 | every recorded value: whole points, empty exactly with no last point, and ending with the last point |
| SlidingBuffer.SlidingBufferOptimizer.OptimizedCompletePolygon | utils/slidingBufferOptimization.ts:169-173 | a buffer of fewer than six values is returned as a copy; otherwise the result is its simplification, no longer than it and keeping its points in order |
| SlidingBuffer.SlidingBufferOptimizer.OptimizedCompletePolygonAsync | utils/slidingBufferOptimization.ts:178-191 | a short buffer is returned as a copy; the worker's points are returned on success; any worker failure falls back to the synchronous simplification |
| SlidingBuffer.SlidingBufferOptimizer.Reset | utils/slidingBufferOptimization.ts:292-299 | every point and flag is cleared, and the configuration and callback are kept |
| SlidingBuffer.SlidingBufferOptimizer.UpdateConfig | utils/slidingBufferOptimization.ts:317-319 | the supplied fields replace the current configuration's |
| SimplificationWorker.SimplifyPolygon | public/workers/polygonSimplificationWorker.js:15-40 | fewer than six values come back unchanged; otherwise an even-length result of 4 to n values that keeps the input's points in order with the first and last |
| SimplificationWorker.EffectiveTolerance | public/workers/polygonSimplificationWorker.js:69 | the requested tolerance without shape preservation; with it, a positive tolerance never grows and stays positive |
| SimplificationWorker.SimplifyPolygonLoop | public/workers/polygonSimplificationWorker.js:15-82 | the read, scan and write-back loops compute the worker's simplification |
| SimplificationWorker.PreserveShapeIsScaled | public/workers/polygonSimplificationWorker.js:69-74 | simplifying with the shape preserved gives exactly the result of asking for 0.7 of the tolerance without it |
| SimplificationWorker.SimplifyPolygonMonotone | public/workers/polygonSimplificationWorker.js:15-40 | a larger effective tolerance never keeps more points |
| SimplificationWorker.PreserveShapeKeepsMore | public/workers/polygonSimplificationWorker.js:69-74 | preserving the shape is simplifying with 0.7 of the tolerance, applied at every level without compounding, and never keeps fewer points |
| SimplificationWorker.PreserveShapeIntended | public/workers/polygonSimplificationWorker.js:147 | the corrected flag is the requested value, and true only by default |
| SimplificationWorker.PreserveShapeFlagIgnored | public/workers/polygonSimplificationWorker.js:147 | as written, a request for preserveShape false still gets the 0.7 factor, which the corrected flag does not apply |
| SimplificationWorker.CompressionRatioBounds | public/workers/polygonSimplificationWorker.js:151-153 | a result that keeps at least one and at most all values has a ratio in (0, 100] |
| SimplificationWorker.CompressionRatio | public/workers/polygonSimplificationWorker.js:151-153 | the ratio times the original count is 100 times the kept count |
| SimplificationWorker.HandleRequest | public/workers/polygonSimplificationWorker.js:116-187 | every answer carries the request's id; an unknown type, too few points and a non-positive tolerance give their error messages in that order; a valid request gets the simplified points, the original point count and the ratio |
| SimplificationWorker.HandleRequestAsWritten | public/workers/polygonSimplificationWorker.js:144-148 | the handler as written answers as the corrected one does for a request that preserves the shape |
| SimplificationWorker.AsWrittenAnswersAlike | public/workers/polygonSimplificationWorker.js:147 | as written, requests with preserveShape false and true get the same answer |
| WorkerManager.RequestIdInjective | utils/polygonWorkerManager.ts:122 | two equal request ids carry the same counter value, whatever their timestamps |
| WorkerManager.AddFreshRequest | utils/polygonWorkerManager.ts:122-137 | the next request's id is not pending, and it and every pending id count as issued once the counter moves on |
| WorkerManager.FreshId | utils/polygonWorkerManager.ts:122 | an id made from a counter beyond every earlier one differs from all ids issued before |
| WorkerManager.Rejections | utils/polygonWorkerManager.ts:196-198 | one rejection with the reason for each of the given ids, and nothing else |
| WorkerManager.PolygonSimplificationWorkerManager.constructor | utils/polygonWorkerManager.ts:39-42 | no worker, not ready, counter 0 and no pending requests |
| WorkerManager.PolygonSimplificationWorkerManager.Initialize | utils/polygonWorkerManager.ts:47-98 | nothing happens while a worker exists, even an unready one; otherwise the worker is ready when it signalled in time; a timeout keeps the worker but fails; a failed creation leaves no worker |
| WorkerManager.PolygonSimplificationWorkerManager.LateReady | utils/polygonWorkerManager.ts:87-94 | a ready signal after the handshake timeout still marks the worker ready |
| WorkerManager.PolygonSimplificationWorkerManager.SimplifyPolygon | utils/polygonWorkerManager.ts:103-154 | with an existing worker, ready or not, the worker state is kept; without one, a timed-out handshake fails with the initialisation error and keeps an unready worker, a failed creation fails with its reason and leaves no worker, and a timely handshake leaves a ready worker; once a worker is usable, fewer than six values and a tolerance that is not positive give their errors in that order; an error leaves the counter and the pending map unchanged; otherwise the counter goes up by one and exactly one entry is added, under a new id, and that request is what the worker is sent |
| WorkerManager.PolygonSimplificationWorkerManager.PostRequest | utils/polygonWorkerManager.ts:112-151 | fewer than six values fail first, then a tolerance that is not positive, and either error leaves the counter and the pending map unchanged; valid input raises the counter by one and adds exactly one pending entry, under an id no earlier request had, and returns the request sent to the worker |
| WorkerManager.PolygonSimplificationWorkerManager.HandleWorkerMessage | utils/polygonWorkerManager.ts:159-190 | ready signals, messages without an id and unknown ids change nothing; otherwise only that entry is removed and resolved on simplified, rejected with the message on error, and rejected as unknown on any other type |
| WorkerManager.PolygonSimplificationWorkerManager.Timeout | utils/polygonWorkerManager.ts:141-147 | the timer removes and rejects the request only if it is still pending |
| WorkerManager.PolygonSimplificationWorkerManager.RejectAllPending | utils/polygonWorkerManager.ts:195-200 | the promise of every pending request, and of no other, is rejected with the given reason, and the map is left empty |
| WorkerManager.PolygonSimplificationWorkerManager.WorkerError | utils/polygonWorkerManager.ts:62-65 | every pending request is rejected with "Worker error: " and the message, and none is left |
| WorkerManager.PolygonSimplificationWorkerManager.Terminate | utils/polygonWorkerManager.ts:216-224 | with a worker, every pending request is rejected with "Worker terminated", and the worker is dropped and marked not ready; without one nothing changes |
| WorkerManager.PolygonSimplificationWorkerManager.TimeoutThenResponse | utils/polygonWorkerManager.ts:141-182 | a response that arrives after its request timed out is dropped |
| WorkerManager.SentRequestsAreSimplified | utils/polygonWorkerManager.ts:112-119 | every request the manager sends passes the worker's own validation |
| Hitbox.CreateHitboxPolygon | utils/polygonHitboxOptimization.ts:25-46 | fewer than six values come back unchanged; otherwise an even-length subsequence of the points with the first and last, no longer than the input |
| Hitbox.CreateHitboxPolygonLoop | utils/polygonHitboxOptimization.ts:25-82 | the loops compute the hit-region simplification |
| Hitbox.HitboxStable | utils/polygonHitboxOptimization.ts:25-82 | a simplified hit region is left unchanged by simplifying it again |
| Hitbox.CreateTwoTierPolygon | utils/polygonHitboxOptimization.ts:116-144 | the visual polygon is always the input; the hit region is simplified and isSimplified set exactly when there are more than 20 points or at least 8 polygons |
| Hitbox.ShouldUseSimplifiedHitbox | utils/polygonHitboxOptimization.ts:116-118 | more than 20 points or at least 8 polygons (no contract of its own; Hitbox.CreateTwoTierPolygon states its use) |
| Hitbox.SimplifiedFlagWithoutRemoval | utils/polygonHitboxOptimization.ts:131-136 | a triangle among eight polygons is marked simplified though no point is removed |
| Hitbox.CalculateOptimalTolerance | utils/polygonHitboxOptimization.ts:149-166 | the tolerance is never below the 2-pixel minimum |
| Hitbox.OptimalToleranceBases | utils/polygonHitboxOptimization.ts:149-166 | the tolerance is max(2, base / max(zoom, 0.3)) with base 8 above 50 points and 5 otherwise; the base 12 is unreachable, and the tolerance never exceeds 8 / 0.3 |
| PolygonOptimization.SimplifyPolygonShape | utils/polygonOptimization.ts:18-52 | two points or fewer come back unchanged; otherwise a subsequence with the first and last point, of at least two points and no longer than the input |
| PolygonOptimization.SimplifyPolygon | utils/polygonOptimization.ts:18-52 | two points or fewer come back unchanged; the result is never longer, and two or more points never shrink below two |
| PolygonOptimization.ShouldSimplifyPolygon | utils/polygonOptimization.ts:103-106 | more than five points while zoomed out below 1.2 (no contract of its own; AnnotationConfig.ZoomedInDrawsEveryPoint states its use) |
| PolygonOptimization.SimplifyPolygonLoop | utils/polygonOptimization.ts:18-52 | the farthest-point loop with the infinite-line distance computes the simplification |
| PolygonOptimization.SplitIsInterior | utils/polygonOptimization.ts:29-47 | a split happens only beyond epsilon and at an interior index, so both halves are shorter than the input |
| PolygonOptimization.SimplifyPolygonIdempotent | utils/polygonOptimization.ts:18-52 | simplifying the result again with the same epsilon returns it unchanged |
| PolygonOptimization.DroppedPointsNearLine | utils/polygonOptimization.ts:18-76 | every dropped point lies within epsilon of the line through the kept points around it |
| PolygonOptimization.AdaptiveEpsilon | utils/polygonOptimization.ts:87-94 | epsilon is the base divided by the zoom, taken as at least 0.1 |
| PolygonOptimization.AdaptiveSimplifyPolygon | utils/polygonOptimization.ts:87-94 | the result is the simplification with the adaptive epsilon |
| PolygonOptimization.ZoomOutKeepsNoMore | utils/polygonOptimization.ts:87-94 | a smaller zoom never keeps more points |
| PerformanceBudget.BudgetDegrades | utils/performanceBudgetSystem.ts:41-78 | from a better level to a worse one, the stroke factor, tension and fill opacity never grow and the hit stroke never shrinks; shadows and exact drawing only go off and dashes only go on |
| PerformanceBudget.DoubledScoreCompares | utils/performanceBudgetSystem.ts:84-94 | the whole-number doubled score compares with doubled thresholds exactly as the score compares with the thresholds |
| PerformanceBudget.ScoreExample | utils/performanceBudgetSystem.ts:84-94 | an example, not an all-input fact: 30 annotations, 2 complex polygons and 60 points on average score 60 while zooming |
| PerformanceBudget.LevelBands | utils/performanceBudgetSystem.ts:97-105 | the level is optimal, good, reduced or minimal exactly when the score falls in that band; the critical threshold is never consulted |
| PerformanceBudget.LevelFor | utils/performanceBudgetSystem.ts:83-105 | the level of a score (no contract of its own; PerformanceBudget.LevelBands and PerformanceBudget.LevelMonotone state its properties) |
| PerformanceBudget.LevelMonotone | utils/performanceBudgetSystem.ts:97-105 | with ordered thresholds, a higher score never gives a better level |
| PerformanceBudget.ApplyBudgetToPolygon | utils/performanceBudgetSystem.ts:119-152 | the stroke is the larger of 1 and the base width times the budget factor; a shadow exactly at the optimal level, or at the good level for a selected shape; exact drawing exactly at the optimal level; the hit stroke of the budget; the budget's tension only where the configuration has the key; a [3, 3] dash on unselected shapes at the reduced and minimal levels, whose budgets turn dashes on, and the dash untouched otherwise; other keys are kept |
| PerformanceBudget.ApplyBudgetToBasicShape | utils/performanceBudgetSystem.ts:157-177 | the stroke is the larger of 1 and the base width times the budget factor; a shadow exactly at the optimal level, or at the good level for a selected shape; exact drawing exactly at the optimal level; hit stroke, tension, dash and other keys are untouched |
| PerformanceBudget.AppliersAgree | utils/performanceBudgetSystem.ts:119-177 | both appliers set the same stroke width and shadow |
| PerformanceBudget.MergeThresholds | utils/performanceBudgetSystem.ts:218-220 | each supplied threshold replaces the current one, and each one not supplied is kept |
| PerformanceBudget.PerformanceBudgetManager.constructor | utils/performanceBudgetSystem.ts:34-39 | the default thresholds |
| PerformanceBudget.PerformanceBudgetManager.GetBudget | utils/performanceBudgetSystem.ts:111-114 | the result is the table row of the scene's level, returned as a value, so the table cannot be changed through it |
| PerformanceBudget.PerformanceBudgetManager.GetPerformanceLevel | utils/performanceBudgetSystem.ts:83-105 | the level for the manager's current thresholds (no contract of its own) |
| PerformanceBudget.PerformanceBudgetManager.GetMetrics | utils/performanceBudgetSystem.ts:225-236 | the reported score is annotations plus twice the complex polygons, without the density and interaction terms; the level and budget are those of getBudget |
| PerformanceBudget.PerformanceBudgetManager.UpdateThresholds | utils/performanceBudgetSystem.ts:218-220 | the new thresholds are the merge of the old ones with the update, so the supplied thresholds take effect and only they change |
| PerformanceMonitor.Polygons | utils/polygonPerformanceMonitor.ts:50-52 | the polygons are exactly the annotations of type polygon or freehand |
| PerformanceMonitor.ComplexCount | utils/polygonPerformanceMonitor.ts:53 | the complex polygons never outnumber the polygons |
| PerformanceMonitor.ComplexCountMonotone | utils/polygonPerformanceMonitor.ts:53 | a higher point limit counts no more polygons as complex |
| PerformanceMonitor.PolygonsAppend | utils/polygonPerformanceMonitor.ts:50-52 | the polygons of two annotation lists are those of each list, in order |
| PerformanceMonitor.LastFrames | utils/polygonPerformanceMonitor.ts:72-75 | the history keeps its last 30 entries at most, dropping the oldest first |
| PerformanceMonitor.FrameRateTimesTotal | utils/polygonPerformanceMonitor.ts:77-79 | the frame rate times the total frame time is 1000 per frame, so the rate is 1000 over the average frame time |
| PerformanceMonitor.MergeConfig | utils/polygonPerformanceMonitor.ts:146-148 | each of the four fields takes the supplied value when there is one and keeps the current one otherwise |
| PerformanceMonitor.PerformanceModeImpliesOptimize | utils/polygonPerformanceMonitor.ts:87-104 | with the default configuration, a scene that calls for performance mode also calls for optimizing |
| PerformanceMonitor.ShouldOptimize | utils/polygonPerformanceMonitor.ts:87-93 | the optimisation test (no contract of its own; PerformanceMonitor.PerformanceModeImpliesOptimize relates it to the next) |
| PerformanceMonitor.ShouldActivatePerformanceMode | utils/polygonPerformanceMonitor.ts:98-104 | the performance-mode test (no contract of its own; see PerformanceMonitor.PerformanceModeWithoutOptimize) |
| PerformanceMonitor.PerformanceModeWithoutOptimize | utils/polygonPerformanceMonitor.ts:87-104 | an example, not an all-input fact: with a performance threshold below the optimization threshold, the implication fails |
| PerformanceMonitor.PerformanceStatus | utils/polygonPerformanceMonitor.ts:134-141 | critical exactly below 15 fps or above 20 polygons; good exactly at 30 fps or more and at most 10 polygons; warning otherwise |
| PerformanceMonitor.PolygonPerformanceMonitor.constructor | utils/polygonPerformanceMonitor.ts:25-44 | zero metrics at 60 fps, the default configuration and an empty history |
| PerformanceMonitor.PolygonPerformanceMonitor.UpdateMetrics | utils/polygonPerformanceMonitor.ts:49-61 | counts the polygons and the complex ones; the average point count changes only when there are polygons; then one frame is recorded: the first call keeps the frame rate and frame time, later ones set the frame time to the elapsed time and the rate from the history; the simplified and cached counts and the performance-mode flag are kept |
| PerformanceMonitor.PolygonPerformanceMonitor.CountPolygons | utils/polygonPerformanceMonitor.ts:50-58 | the total becomes the number of polygon and freehand shapes and the complex count the number with more than the threshold's worth of points; the average is their mean point count when there are any and is kept otherwise; every other metric is kept |
| PerformanceMonitor.PolygonPerformanceMonitor.UpdateFrameRate | utils/polygonPerformanceMonitor.ts:66-82 | the first call only records the time; later calls add the elapsed time to the bounded history, set the frame time to it and the rate from the history, and keep every other metric |
| PerformanceMonitor.PolygonPerformanceMonitor.UpdateConfig | utils/polygonPerformanceMonitor.ts:146-148 | the new configuration is the merge of the old one with the update, so the supplied fields take effect and only they change |
| PerformanceMonitor.PolygonPerformanceMonitor.SetPerformanceMode | utils/polygonPerformanceMonitor.ts:167-169 | only the performance-mode flag changes |
| DragPerformance.ClampFps | utils/dragPerformanceOptimization.ts:112-115 | the rate is clamped to [15, 120], and a rate within that range is kept |
| DragPerformance.DragPerformanceManager.constructor | utils/dragPerformanceOptimization.ts:24-27 | the rate is taken as given, without clamping, with nothing pending |
| DragPerformance.DragPerformanceManager.ScheduleDragUpdate | utils/dragPerformanceOptimization.ts:33-42 | the node's latest position replaces any earlier one, and a frame is requested only when none is scheduled |
| DragPerformance.DragPerformanceManager.ProcessBatchedUpdates | utils/dragPerformanceOptimization.ts:47-76 | sooner than one frame interval, the frame is requested again and nothing is applied; otherwise every pending position is applied once, the map emptied, the flag cleared and the time recorded |
| DragPerformance.DragPerformanceManager.CancelPendingUpdates | utils/dragPerformanceOptimization.ts:89-96 | the map is emptied and both the schedule and the frame are cleared |
| DragPerformance.DragPerformanceManager.SetTargetFPS | utils/dragPerformanceOptimization.ts:112-115 | the rate is clamped, and the interval lies between 1000/120 and 1000/15 ms |
| DragPerformance.IntervalBounds | utils/dragPerformanceOptimization.ts:112-115 | a clamped rate gives an interval between 1000/120 and 1000/15 ms |
| DragPerformance.LastWriteWins | utils/dragPerformanceOptimization.ts:33-76 | two drags of one node within a frame apply only the later position |
| DragPerformance.TargetFpsTwoWays | utils/dragPerformanceOptimization.ts:169-180 | the rate is 30 for a complex scene and 60 otherwise; the 20 branch is unreachable |
| DragPerformance.BatchedDragHandlers.constructor | utils/dragPerformanceOptimization.ts:124-126 | a fresh manager at the requested rate |
| DragPerformance.BatchedDragHandlers.HandleDragMove | utils/dragPerformanceOptimization.ts:131-133 | the new position is scheduled for the node, an update is scheduled, a frame is requested only when none was scheduled, and the rate, interval and last update time are kept |
| DragPerformance.BatchedDragHandlers.HandleDragEnd | utils/dragPerformanceOptimization.ts:146-149 | pending positions of every node are cancelled, not only the dragged node's, together with the schedule and the frame; the rate, interval and last update time are kept |
| DragPerformance.BatchedDragHandlers.AdjustPerformanceForComplexity | utils/dragPerformanceOptimization.ts:169-180 | the rate becomes 30 above 15 polygons or 50 average points, and 60 otherwise, with the frame interval following it; pending positions, schedule, frame and last update time are kept |
| CoordinateUtils.DisplayRoundTrip | composables/useCoordinateUtils.ts:41-57 | converting a stage point to the image and back returns it |
| CoordinateUtils.DisplayToOriginal | composables/useCoordinateUtils.ts:41-44 | the image point that the stage scale and offset put at the given stage point |
| CoordinateUtils.OriginalToDisplay | composables/useCoordinateUtils.ts:54-57 | the stage point that converting back to the image maps to the given image point |
| CoordinateUtils.DisplaySizeToOriginal | composables/useCoordinateUtils.ts:65-68 | the image size the stage scale shows as the given size, the offset playing no part |
| CoordinateUtils.OriginalSizeToDisplay | composables/useCoordinateUtils.ts:76-79 | the stage size that the inverse scaling maps back to the given image size |
| CoordinateUtils.IsPointInImageBounds | composables/useCoordinateUtils.ts:88-95 | always inside without a display size; otherwise inside only within the displayed image, edges included |
| CoordinateUtils.OriginalRoundTrip | composables/useCoordinateUtils.ts:41-57 | converting an image point to the stage and back returns it |
| CoordinateUtils.SizeRoundTrips | composables/useCoordinateUtils.ts:65-79 | the two size conversions undo each other |
| CoordinateUtils.ClampPointToImageBounds | composables/useCoordinateUtils.ts:107-123 | without a display size the point is kept; with one, the result lies inside the image; a point already inside is not moved |
| CoordinateUtils.ClampIdempotent | composables/useCoordinateUtils.ts:107-123 | clamping a clamped point changes nothing |
| CoordinateUtils.DisplayPointsToOriginal | composables/useCoordinateUtils.ts:132-134 | each point is converted to the image, in order |
| CoordinateUtils.OriginalPointsToDisplay | composables/useCoordinateUtils.ts:143-145 | each point is converted to the stage, in order |
| CoordinateUtils.PointListRoundTrip | composables/useCoordinateUtils.ts:132-145 | converting a point list either way and back gives it back |
| CoordinateUtils.CalculateRectangleCenter | composables/useCoordinateUtils.ts:195-198 | the centre is equally far from both edges on each axis |
| CoordinateUtils.MinOf | composables/useCoordinateUtils.ts:211-214 | the minimum is a member no larger than any other |
| CoordinateUtils.MaxOf | composables/useCoordinateUtils.ts:211-214 | the maximum is a member no smaller than any other |
| CoordinateUtils.CalculateBoundingBox | composables/useCoordinateUtils.ts:206-224 | all zeros for no points; otherwise the smallest box holding every point, each edge touched by a point, with a width and height that are non-negative |
| ClassColorPalette.IndexOf | utils/classColorPalette.ts:21 | the first position holding the name, or -1 exactly when it is absent |
| ClassColorPalette.GetClassColor | utils/classColorPalette.ts:18-25 | the default colour for a missing or empty name or a name not in the list; otherwise the palette colour at the name's first position modulo 20 |
| ClassColorPalette.PaletteDistinct | utils/classColorPalette.ts:5-10 | the twenty palette colours are pairwise different |
| ClassColorPalette.SameColorIffSamePaletteSlot | utils/classColorPalette.ts:18-25 | two listed classes share a colour exactly when their first positions differ by a multiple of 20 |
| ClassColorPalette.LeadingHexCount | utils/classColorPalette.ts:31-33 | the count of hexadecimal digits a text starts with |
| ClassColorPalette.ParseHexInt | utils/classColorPalette.ts:31-33 | a text made of hexadecimal digits, without a 0x prefix, parses to its value |
| ClassColorPalette.Slice | utils/classColorPalette.ts:31-33 | a slice is never longer than the requested range |
| ClassColorPalette.TwoDigitsValue | utils/classColorPalette.ts:31-33 | two hexadecimal digits denote a number below 256 |
| ClassColorPalette.ParsePair | utils/classColorPalette.ts:31-33 | a digit pair of a #RRGGBB colour parses to its component |
| ClassColorPalette.WithOpacityOfHexColor | utils/classColorPalette.ts:30-35 | a #RRGGBB colour becomes the rgba text of its three components and the opacity |
| ClassColorPalette.WithOpacity | utils/classColorPalette.ts:30-35 | always an rgba( ... ) text whose last component is the opacity text |
| ClassColorPalette.RgbaText | utils/classColorPalette.ts:34 | the template starts with rgba(, ends with the opacity and ), and is 12 characters longer than its pieces |
| ClassColorPalette.PaletteColorsAreHex | utils/classColorPalette.ts:5-12 | every palette colour and the default are #RRGGBB colours |
| ClassColorPalette.ClassFillIsRgba | utils/classColorPalette.ts:18-35 | a class colour is a #RRGGBB colour, so its fill is a well-formed rgba text with components below 256 |
| AnnotationConfig.ProcessedPoints | composables/usePolygonConfig.ts:57-69 | points are simplified only when the gate holds; the result is never longer and keeps the first and last point |
| AnnotationConfig.MapPoints | composables/usePolygonConfig.ts:72-74 | each point goes through the display transform, in order |
| AnnotationConfig.CreatePolygonConfig | composables/usePolygonConfig.ts:41-102 | no configuration for missing or empty points; otherwise the flat points read back as the transformed processed points; selection wins over hover for stroke, fill and width (3/2.5/2); draggable and listening both equal interacting and enabled; closed, not drawn exactly, named polygon |
| AnnotationConfig.CreateFreehandConfig | composables/useFreehandConfig.ts:16-61 | no configuration unless a freehand annotation has points; otherwise simplified with epsilon 2.0 under the same gate; the flat points read back as the transformed path; selection wins over hover (4/3/2); open, transparent, hit stroke 20, tension 0.3 |
| AnnotationConfig.FreehandKeepsNoMore | composables/useFreehandConfig.ts:31-34 | a freehand path is drawn with no more points than the same points drawn as a polygon |
| AnnotationConfig.ZoomedInDrawsEveryPoint | composables/usePolygonConfig.ts:57-74 | from a zoom of 1.2 on, every point is drawn |
| DragHandlers.KonvaNode.constructor | components/annotation/handlers/handleRectangleDragEnd.ts:12-33 | a node at the given position and size, at scale 1 |
| DragHandlers.KonvaNode.SetPosition | components/annotation/handlers/handleRectangleDragEnd.ts:27 | the node's position becomes the point; its scale and size are unchanged |
| DragHandlers.ClampAxis | components/annotation/handlers/handleRectangleDragEnd.ts:24-25 | the value is never below the low bound; it is not above the high bound when the range is non-empty; a value in range is kept |
| DragHandlers.ClampAxisIdempotent | components/annotation/handlers/handleRectangleDragEnd.ts:24-25 | clamping twice is clamping once |
| DragHandlers.ClampAxisMonotone | components/annotation/handlers/handleRectangleDragEnd.ts:24-25 | a larger position never clamps to a smaller one |
| DragHandlers.RectangleDropStaysOnImage | components/annotation/handlers/handleRectangleDragEnd.ts:12-33 | at a positive scale, a rectangle that fits on the image is dropped wholly on it, in image coordinates |
| DragHandlers.HandleRectangleDragEnd | composables/useAnnotationDragHandlers.ts:54-75 | a rectangle without a non-zero width and height is returned unchanged; otherwise the node moves to the clamped position, and only the start point changes, to that position in image coordinates |
| DragHandlers.DiscDropPosition | components/annotation/handlers/handleDotDragEnd.ts:23-25 | a disc that fits on the image is dropped with the whole disc on it |
| DragHandlers.HandleDotDragEnd | components/annotation/handlers/handleDotDragEnd.ts:12-33 | without a centre or a non-zero radius nothing changes; otherwise the node moves to the clamped position, and only the centre changes, to that position in image coordinates |
| DragHandlers.HandleCircleDragEnd | components/annotation/handlers/handleCircleDragEnd.ts:12-34 | the same centre as the dot handler, with the node put back at the stage origin |
| DragHandlers.CircleHandlersAgree | composables/useAnnotationDragHandlers.ts:166-187 | the composable's and the component's circle handlers give the same annotation |
| DragHandlers.Translate | components/annotation/handlers/handlePolygonDragEnd.ts:21-24 | every point is shifted by the same offset, in order |
| DragHandlers.TranslateBack | components/annotation/handlers/handlePolygonDragEnd.ts:21-24 | shifting back undoes a shift |
| DragHandlers.DraggedPoints | components/annotation/handlers/handlePolygonDragEnd.ts:21-36 | all points move when every moved point stays on the image, and none otherwise |
| DragHandlers.DragKeepsShapeOnImage | components/annotation/handlers/handlePolygonDragEnd.ts:21-36 | a shape on the image stays on it after any drag |
| DragHandlers.HandlePolygonDragEnd | composables/useAnnotationDragHandlers.ts:77-105 | without points nothing changes; otherwise the drag divided by the scale moves all points or none, and the node goes back to the stage origin |
| DragHandlers.LineOffset | components/annotation/handlers/handleLineDragEnd.ts:23-28 | the shift is the drag position divided by the scale |
| DragHandlers.HandleLineDragEnd | components/annotation/handlers/handleLineDragEnd.ts:11-45 | without both end points nothing changes; otherwise both move by the same offset, keeping direction and length, and the node goes back to the stage origin |
| TransformHandlers.FitAxis | composables/useAnnotationTransformHandlers.ts:35-48 | the side starts at 0 or later and ends within the image; its length is the requested one raised to 5 and cut to the image, so at least 5 when the image is; a span that fits is kept |
| TransformHandlers.HandleRectangleTransformEnd | composables/useAnnotationTransformHandlers.ts:12-60 | the node's scale is reset to 1; the copy differs from the annotation only in start point, width and height, which are the fitted spans in image coordinates |
| TransformHandlers.FitAxisIdempotent | composables/useAnnotationTransformHandlers.ts:35-48 | fitting a fitted span again changes nothing |
| AnnotationLifecycle.Centroid | composables/useAnnotationLifecycle.ts:49-51 | the centre exists exactly when the path has points |
| AnnotationLifecycle.MeanWithin | composables/useAnnotationLifecycle.ts:49-51 | the mean of a non-empty list lies between its least and greatest member |
| AnnotationLifecycle.CentroidInBoundingBox | composables/useAnnotationLifecycle.ts:49-51 | the class selector is placed within the path's bounding box |
| AnnotationLifecycle.AnnotationLifecycle.constructor | composables/useAnnotationLifecycle.ts:19-30 | an idle state with nothing emitted |
| AnnotationLifecycle.AnnotationLifecycle.CurrentAnnotationType | composables/useAnnotationLifecycle.ts:170-172 | the type of the current annotation, if any |
| AnnotationLifecycle.AnnotationLifecycle.IsAnnotationInProgress | composables/useAnnotationLifecycle.ts:163-165 | in progress exactly when an annotation is current or a shape or polygon is being drawn; never in the idle state |
| AnnotationLifecycle.AnnotationLifecycle.ResetAnnotationState | composables/useAnnotationLifecycle.ts:89-96 | every drawing field is cleared and nothing is emitted |
| AnnotationLifecycle.AnnotationLifecycle.StartAnnotation | composables/useAnnotationLifecycle.ts:102-158 | the start point is set and an annotation of the type begun there; polygons set only the polygon flag, dots no flag, the other types the drawing flag; then isAnnotating true is emitted |
| AnnotationLifecycle.AnnotationLifecycle.CompleteAnnotation | composables/useAnnotationLifecycle.ts:35-39 | the annotation is emitted, then isAnnotating false, and the state is cleared |
| AnnotationLifecycle.AnnotationLifecycle.CompletePolygon | composables/useAnnotationLifecycle.ts:45-61 | with points and project classes, the selector is shown at the path's centre and the annotation, path, start point and mouse position stay; with points and no classes, it is completed; without points nothing else changes; isAnnotating false is always emitted last, and the polygon flag cleared |
| AnnotationLifecycle.AnnotationLifecycle.CompleteCurrentAnnotation | composables/useAnnotationLifecycle.ts:67-74 | with no annotation nothing happens and the path, start point, mouse position and flags are kept; otherwise it takes a given class name and is completed |
| AnnotationLifecycle.AnnotationLifecycle.CancelCurrentAnnotation | composables/useAnnotationLifecycle.ts:80-83 | the state is cleared and isAnnotating false is emitted |
| Shortcuts.GetDefaultShortcut | types/shortcuts.ts:259-261 | a table entry for the action, or nothing exactly when the table has no entry for it |
| Shortcuts.GetShortcutsByCategory | types/shortcuts.ts:266-268 | exactly the table entries of the category (their order in Shortcuts.CategoryInTableOrder) |
| Shortcuts.GetShortcutsByScope | types/shortcuts.ts:273-275 | exactly the table entries of the scope (their order in Shortcuts.ScopeInTableOrder) |
| Shortcuts.CategoryInTableOrder | types/shortcuts.ts:266-268 | the entries of a category are the table read at that category's positions, one per position, in ascending table order |
| Shortcuts.ScopeInTableOrder | types/shortcuts.ts:273-275 | the entries of a scope are the table read at that scope's positions, one per position, in ascending table order |
| Shortcuts.Table | types/shortcuts.ts:68-254 | the factory table pairs each action with its entry's key, label, description, scope and category, in order |
| Shortcuts.DefaultActionsDistinct | types/shortcuts.ts:68-254 | no two factory entries share an action |
| Shortcuts.ScopedActionsDistinct | types/shortcuts.ts:273-275 | no two entries of one scope share an action |
| Shortcuts.LastOverrideIndex | types/shortcuts.ts:284 | the position of the last override for the action, with none after it |
| Shortcuts.OverrideFor | types/shortcuts.ts:284-287 | the map built from the overrides gives the last override for the action, or nothing when there is none |
| Shortcuts.MergeShortcuts | types/shortcuts.ts:280-295 | one entry per table entry, in order, with the table's fields; the key of the last override for the action or else the table key; isCustom exactly when there is an override; defaultKey the table key |
| Shortcuts.MergeWithoutOverrides | types/shortcuts.ts:280-295 | without overrides every entry keeps its table key and is not custom |
| Shortcuts.LastOverrideWins | types/shortcuts.ts:280-295 | a later override for an action wins over every earlier one |
| Shortcuts.UnknownOverrideIgnored | types/shortcuts.ts:280-295 | an override for an action the table lacks changes nothing |
| Shortcuts.KeyParts | types/shortcuts.ts:343 | one trimmed lower-case part per `+`-separated piece |
| Shortcuts.IsValidKeyCombo | types/shortcuts.ts:340-351 | valid exactly when the key is not blank and not every part is a modifier |
| Shortcuts.BlankKeyInvalid | types/shortcuts.ts:341 | an empty or all-blank key is never valid |
| Shortcuts.KeyPartsOfPair | types/shortcuts.ts:343 | the parts of a+b, for lower-case a and b without `+`, are their trims |
| Shortcuts.TwoPartValidity | types/shortcuts.ts:340-350 | a non-blank two-part key is valid exactly when one part is not a modifier |
| Shortcuts.SingleKeyValidity | types/shortcuts.ts:340-350 | a single plain key is valid exactly when it is not a modifier |
| Shortcuts.ModifiersOnlyInvalid | types/shortcuts.ts:340-350 | ctrl+shift is not a valid combination |
| Shortcuts.TrailingPlusValid | types/shortcuts.ts:340-350 | ctrl+ passes, because its empty part is not a modifier |
| Shortcuts.FindConflicts | types/shortcuts.ts:355-366 | exactly the shortcuts, in order, whose normalised key equals the normalised new key and whose action is not the excluded one |
| Shortcuts.NormalizeKey | types/shortcuts.ts:360-363 | the lower-cased key without whitespace at either end, never longer than the key |
| Shortcuts.FormattedParts | types/shortcuts.ts:300-335 | one display symbol per `+`-separated part |
| Shortcuts.FormatKeyForDisplay | types/shortcuts.ts:300-335 | the part symbols joined by " + "; a key without `+` is shown as the symbol of that one key |
| ShortcutManager.FirstOverrideIndex | composables/useShortcuts.ts:120-122 | the first override for the action, or -1 when there is none |
| ShortcutManager.Upsert | composables/useShortcuts.ts:120-127 | the saved override is present, replacing one in place or appended |
| ShortcutManager.UpsertEach | composables/useShortcuts.ts:178-187 | the bulk update loop upserts each assignment in turn |
| ShortcutManager.WithoutAction | composables/useShortcuts.ts:227-229 | exactly the overrides for other actions remain |
| ShortcutManager.BoundKeysFor | composables/useShortcuts.ts:387-395 | a key is bound exactly when some entry with a handler has it |
| ShortcutManager.UpsertKeepsOthers | composables/useShortcuts.ts:120-127 | saving an override leaves the override in force for every other action unchanged |
| ShortcutManager.UpsertTakesEffect | composables/useShortcuts.ts:120-127 | with at most one override per action, the saved override is in force afterwards, and one per action is kept |
| ShortcutManager.DuplicateOverrideShadowsSave | composables/useShortcuts.ts:120-127 | with two overrides for one action, saving replaces the first while the merge still uses the second |
| ShortcutManager.ResetTakesEffect | composables/useShortcuts.ts:227-229 | no override remains for a reset action |
| ShortcutManager.ResetKeepsOthers | composables/useShortcuts.ts:227-229 | a reset leaves every other action's override unchanged |
| ShortcutManager.BulkSaveTakesEffect | composables/useShortcuts.ts:178-187 | after a bulk save each assignment's action has the last assignment for it in force |
| ShortcutManager.BulkSaveDistinct | composables/useShortcuts.ts:178-187 | a bulk save keeps one override per action |
| ShortcutManager.MergedActionsDistinct | composables/useShortcuts.ts:288-291 | a table with one entry per action merges to one entry per action |
| ShortcutManager.SaveShowsInTable | composables/useShortcuts.ts:120-131 | after a save, the action's entry has the saved key and is custom, and every other entry is unchanged |
| ShortcutManager.ResetShowsInTable | composables/useShortcuts.ts:227-232 | after a reset, the action's entry is back to its factory key and not custom, and every other entry is unchanged |
| ShortcutManager.ShortcutManager.constructor | composables/useShortcuts.ts:34-51 | the scope's factory entries are kept as the defaults; the table, overrides, handlers and bound keys start empty, and the manager is not initialised |
| ShortcutManager.ShortcutManager.GetShortcut | composables/useShortcuts.ts:435-437 | the merged entry for the action, or nothing exactly when there is none |
| ShortcutManager.ShortcutManager.CheckConflicts | composables/useShortcuts.ts:442-447 | exactly the merged entries whose key conflicts with the new key, other than the excluded action's |
| ShortcutManager.ShortcutManager.FetchUserOverrides | composables/useShortcuts.ts:56-83 | without a token the overrides are emptied; otherwise they become the fetched list, or an empty list and an error when the call fails |
| ShortcutManager.ShortcutManager.UpdateMergedShortcuts | composables/useShortcuts.ts:288-291 | the table is the scope's factory entries merged with the overrides, one per action |
| ShortcutManager.ShortcutManager.BindShortcut | composables/useShortcuts.ts:333-362 | the key is bound only when the action has a handler |
| ShortcutManager.ShortcutManager.UnbindShortcut | composables/useShortcuts.ts:367-372 | the key is no longer bound |
| ShortcutManager.ShortcutManager.UnbindAllShortcuts | composables/useShortcuts.ts:377-382 | no key is bound |
| ShortcutManager.ShortcutManager.RebindAllShortcuts | composables/useShortcuts.ts:387-395 | exactly the keys of entries with a handler are bound |
| ShortcutManager.ShortcutManager.RegisterHandler | composables/useShortcuts.ts:296-306 | the handler is kept; once initialised, the action's key is bound at once |
| ShortcutManager.ShortcutManager.UnregisterHandler | composables/useShortcuts.ts:311-319 | the handler is dropped and the action's key unbound |
| ShortcutManager.ShortcutManager.RegisterHandlers | composables/useShortcuts.ts:324-328 | the handlers of all the given actions are added; once initialised, exactly the keys of their table entries are bound in addition |
| ShortcutManager.KeysOfEntriesMembers | composables/useShortcuts.ts:324-328 | a key is bound by registering a list exactly when one of its actions has a table entry with that key |
| ShortcutManager.EntryOfIndex | composables/useShortcuts.ts:435-437 | in a table without two entries for one action, looking up an entry's action finds that entry |
| ShortcutManager.DropHandlerKeepsBound | composables/useShortcuts.ts:311-319 | dropping an action's handler and unbinding its entry's key keeps every bound key among the keys of handled actions |
| ShortcutManager.ShortcutManager.Commit | composables/useShortcuts.ts:119-131 | the overrides are stored, the table merged and rebound, and loading stops |
| ShortcutManager.ShortcutManager.Initialize | composables/useShortcuts.ts:400-416 | runs only once; fetches the overrides, merges and binds, and only then marks the manager initialised; without a token the error and loading flag are kept, a fetched list clears the error, and a failed fetch leaves "Failed to load custom shortcuts"; loading has stopped either way |
| ShortcutManager.ShortcutManager.SaveShortcutOverride | composables/useShortcuts.ts:88-141 | success exactly with a token, a valid key and a saved call; without a token or with an invalid key only the error is set; a failed call sets its error; a save is upserted, merged and bound |
| Seqs.FindLoop | composables/useShortcuts.ts:155-160 | the loop that checks a bulk save stops at the first assignment that fails, exactly what `find` returns |
| ShortcutManager.ShortcutManager.SaveShortcutOverrides | composables/useShortcuts.ts:146-201 | success exactly with a token, every key valid and a saved call; without a token or at the first invalid key only the error is set; a failed call sets "Failed to save shortcuts" and stops loading; a saved batch is upserted in order, merged and bound |
| ShortcutManager.ShortcutManager.ResetShortcut | composables/useShortcuts.ts:206-243 | a confirmed reset drops every override for the action, merges and binds; a failure sets its error and keeps the overrides |
| ShortcutManager.ShortcutManager.ResetAllShortcuts | composables/useShortcuts.ts:248-283 | a confirmed reset drops every override, so the table is the factory one |
| Text.NatToStringInjective | utils/polygonWorkerManager.ts:122 | two numbers print the same decimal text only when they are equal |
| Text.Trim | types/shortcuts.ts:343 | the trim is a piece of the string with no white space at either end, taken as long as possible |
| Text.Split | utils/jwt.ts:21 | the pieces between separators, empty ones included |
| Text.JoinOfSplit | utils/jwt.ts:21 | joining the pieces of a split with the separator gives the string back |
| Text.SplitOfJoin | utils/jwt.ts:21 | splitting a join of separator-free pieces gives the pieces back |
| Seqs.Filter | composables/useTaskReviewFilters.ts:182 | the members that pass the test, in order |
| Seqs.PassingPositions | composables/useTaskReviewFilters.ts:182 | the positions of the members that pass the test, each in range, ascending, and none missing |
| Seqs.FilterAtPassingPositions | composables/useTaskReviewFilters.ts:182 | filter keeps order: its result is the list read at the passing positions, one member per position |
| Seqs.FilterIdempotent | composables/useTaskReviewFilters.ts:171-183 | filtering a filtered list again with the same test changes nothing |
| Seqs.Find | composables/useBackendRelations.ts:62 | the first member that passes the test, or nothing when none does |
| StableSort.InsertSorted | utils/reviewWorkflow.ts:296 | inserting an element into a list sorted by non-increasing key keeps it sorted |
| StableSort.SortDescending | utils/reviewWorkflow.ts:296 | the result is a permutation of the input, ordered by non-increasing key |
| StableSort.SortIsStable | utils/reviewWorkflow.ts:296 | elements that share a key keep their input order, as Array.prototype.sort guarantees |
| StableSort.SortIdempotent | utils/reviewWorkflow.ts:296 | sorting a sorted list again changes nothing |
| StableSort.StableSortUnique | utils/reviewWorkflow.ts:296 | any stably sorted arrangement of the same elements is the sort's result |
| ReviewWorkflow.GetTaskStatusColor | utils/reviewWorkflow.ts:219-229 | a theme from the five-colour set, and neutral for an unknown status |
| ReviewWorkflow.GetTaskStatusLabel | utils/reviewWorkflow.ts:202-212 | a non-empty label different from a known status, and the status itself when unknown |
| ReviewWorkflow.GetReviewActionLabel | utils/reviewWorkflow.ts:186-195 | a non-empty label different from a known review status or action, and the input itself when unknown |
| ReviewWorkflow.KnownLabelsDistinct | utils/reviewWorkflow.ts:186-212 | distinct known statuses get distinct labels in both tables |
| ReviewWorkflow.GetWorkflowStatusDisplay | utils/reviewWorkflow.ts:58-131 | the colour is always the task-status colour; the title is Unknown exactly for a missing or unknown status; in review, Pending Review exactly with a pending review; completed, approved or never reviewed according to the review status and the always-skip mode |
| ReviewWorkflow.DisplayDependsOnlyWhereRead | utils/reviewWorkflow.ts:58-131 | the review status matters only in review or once completed, and the workflow mode only once completed |
| ReviewWorkflow.CanUserSubmitReview | utils/reviewWorkflow.ts:145-175 | allowed exactly when in review, not the user's own unless self-review is on, and reviews not skipped; a reason is given exactly when not allowed, and it is the first failing check's: not in review, else own annotation, else reviews disabled under always-skip |
| ReviewWorkflow.SubmittableIsShownInReview | utils/reviewWorkflow.ts:58-175 | a task that may be reviewed shows a warning badge titled Pending Review or In Review |
| ReviewWorkflow.Prefix | utils/reviewWorkflow.ts:259 | substring(0, n) of a longer string is its first n characters, with a negative n counted as 0 |
| ReviewWorkflow.Truncate | utils/reviewWorkflow.ts:258-260 | a cut message ends in `...`, is at most maxLength + 3 long, and what precedes the dots is a piece of the message |
| ReviewWorkflow.TruncateKeepsStart | utils/reviewWorkflow.ts:258-260 | what precedes the dots starts the message once its leading white space is dropped, so it is a prefix of a message that does not start with white space |
| ReviewWorkflow.CutOfMessage | utils/reviewWorkflow.ts:259 | substring(0, maxLength).trim() is at most maxLength long, lies within the message, and starts the message once its leading white space is dropped |
| ReviewWorkflow.FormatReviewMessage | utils/reviewWorkflow.ts:241-263 | never empty; the auto-approved text first; the no-feedback text for a blank message; a trimmed message that fits is shown whole; a longer one is cut to at most maxLength characters that start the trimmed message, followed by `...` |
| ReviewWorkflow.FormatReviewMessageFull | utils/reviewWorkflow.ts:270-282 | never empty; the same cases with the long texts and the whole trimmed message |
| ReviewWorkflow.ShortFormIsFullWhenItFits | utils/reviewWorkflow.ts:241-282 | a message that fits once trimmed reads the same in the short and the full form |
| ReviewWorkflow.SortReviewsByRound | utils/reviewWorkflow.ts:293-297 | the same reviews from the highest round to the lowest, each round's reviews in input order |
| ReviewWorkflow.SortReviewsByDate | utils/reviewWorkflow.ts:304-308 | the same reviews from newest to oldest, equal times in input order |
| ReviewWorkflow.GroupTotalAdd | utils/reviewWorkflow.ts:321-325 | adding one review to a group, new or existing, adds one to the total |
| ReviewWorkflow.NoRoundNoReviews | utils/reviewWorkflow.ts:315-328 | a round that does not occur has no reviews |
| ReviewWorkflow.GroupStep | utils/reviewWorkflow.ts:321-325 | appending a review to its round's group keeps the grouping correct for one more review |
| ReviewWorkflow.GroupReviewsByRound | utils/reviewWorkflow.ts:315-328 | one group per round that occurs, holding that round's reviews in input order; the groups together hold every review once |
| ReviewWorkflow.ReviewStatusPartition | utils/reviewWorkflow.ts:339-359 | a known review status satisfies exactly one of approved, needs changes and pending, and an unknown one none |
| ReviewWorkflow.IsReviewApproved | utils/reviewWorkflow.ts:339-341 | the approved test (no contract of its own; ReviewWorkflow.ReviewStatusPartition states its place among the three) |
| ReviewWorkflow.IsReviewNeedsChanges | utils/reviewWorkflow.ts:348-350 | a change request or a rejection (no contract of its own; see ReviewWorkflow.ReviewStatusPartition) |
| ReviewWorkflow.IsReviewPending | utils/reviewWorkflow.ts:357-359 | the pending test (no contract of its own; see ReviewWorkflow.ReviewStatusPartition) |
| ReviewWorkflow.LatestIndex | utils/reviewWorkflow.ts:371-378 | the position the reduce ends on: no review is later, and it is strictly later than every review before it, so the earliest of a full tie is kept |
| ReviewWorkflow.GetLatestReview | utils/reviewWorkflow.ts:366-379 | nothing exactly for no reviews; otherwise a listed review that no other review is later than |
| ReviewWorkflow.LatestIsInFirstSortedRound | utils/reviewWorkflow.ts:293-379 | the latest review is in the round that sorting by round puts first |
| Tasks.StatusName | types/tasks.ts:6 | every status has one of the five wire names |
| Tasks.ParseStatus | types/tasks.ts:6 | a name stands for a status exactly when it is one of the five |
| Tasks.StatusNameRoundTrip | types/tasks.ts:6 | names and statuses correspond one to one |
| Tasks.GetTaskStatusLabel | types/tasks.ts:101-110 | every status has a non-empty label |
| Tasks.GetTaskStatusColor | types/tasks.ts:115-124 | every status has a non-empty colour |
| Tasks.GetTaskStatusIcon | types/tasks.ts:129-138 | every status has a non-empty icon |
| Tasks.TablesDistinguishStatuses | types/tasks.ts:101-138 | each of the label, colour and icon tables tells the five statuses apart |
| Tasks.CanSubmitForReview | types/tasks.ts:143-145 | an annotator may hand in every task except an unassigned, in-review or completed one |
| Tasks.IsInReviewWorkflow | types/tasks.ts:150-154 | every task except an unassigned or annotating one has been handed in |
| Tasks.TablesAgreeWithReviewWorkflow | types/tasks.ts:101-124 | the two colour tables agree on every status; the label tables agree on all but annotating |
| Tasks.IconsAgreeWithWorkflowDisplay | types/tasks.ts:129-138 | without a review status, the review pages' badge has this table's icon and colour, except that an in-review task shows an eye rather than a clock |
| Tasks.SubmitAndWorkflowOverlap | types/tasks.ts:143-154 | the two tests overlap only on changes_needed, and only an unassigned task passes neither |
| TaskReviewFilters.FilterTasks | composables/useTaskReviewFilters.ts:171-183 | the list itself for all; otherwise exactly the tasks that pass the option's test (their order in TaskReviewFilters.FilterTasksInOrder) |
| TaskReviewFilters.FilterTasksInOrder | composables/useTaskReviewFilters.ts:171-183 | a filtered list is the input read at the passing positions, one task per position, in ascending order |
| TaskReviewFilters.FilterTasksIdempotent | composables/useTaskReviewFilters.ts:171-183 | filtering again with the same option changes nothing |
| TaskReviewFilters.GetReviewStatusOrder | composables/useTaskReviewFilters.ts:188-197 | changes_needed, in_review, annotating, unassigned and completed take the places 0 to 4, each exactly its own |
| TaskReviewFilters.ReviewStatusOrderInjective | composables/useTaskReviewFilters.ts:188-197 | distinct statuses have distinct places |
| TaskReviewFilters.SortTasks | composables/useTaskReviewFilters.ts:202-225 | a copy holding the same tasks, ordered by the option's field, downwards for the desc orders and upwards otherwise, with equal fields in input order |
| TaskReviewFilters.ProcessedTasks | composables/useTaskReviewFilters.ts:230-233 | the filtered tasks, sorted, as many as the filter's count in the dropdown |
| TaskReviewFilters.GetFilterCounts | composables/useTaskReviewFilters.ts:238-250 | each count is the number of tasks that option's filter keeps; the five status counts add up to all; needs-my-review never exceeds in-review |
| TaskReviewFilters.StatusCountsAddUp | composables/useTaskReviewFilters.ts:241-245 | every task has exactly one of the five statuses |
| TaskReviewFilters.NeedsMineAreInReview | composables/useTaskReviewFilters.ts:246-248 | a task that needs my review is in review |
| TaskReviewFilters.GetFilterOptionsWithCounts | composables/useTaskReviewFilters.ts:255-261 | the dropdown entries in order, each with the number of tasks its filter keeps |
| TaskReviewFilters.FilterState.constructor | composables/useTaskReviewFilters.ts:75-77 | the defaults, so no filter is active |
| TaskReviewFilters.FilterState.HasActiveFilters | composables/useTaskReviewFilters.ts:275-279 | some choice differs from its default (no contract of its own; the constructor and ResetFilters state that none is active) |
| TaskReviewFilters.FilterState.ResetFilters | composables/useTaskReviewFilters.ts:266-279 | back to the defaults, so no filter is active |
| TaskReviewFilters.FilterState.CurrentFilter | composables/useTaskReviewFilters.ts:284-286 | the dropdown entry of the selected filter, which always exists |
| TaskReviewFilters.FilterState.CurrentSort | composables/useTaskReviewFilters.ts:291-293 | the dropdown entry of the selected sort, which always exists |
| TaskReviewFilters.OptionIndex | composables/useTaskReviewFilters.ts:82-125 | every filter option has an entry in the dropdown |
| TaskReviewFilters.SortIndex | composables/useTaskReviewFilters.ts:130-166 | every sort option has an entry in the dropdown |
| CanvasReview.ReviewableIsInWorkflow | composables/useCanvasReview.ts:84-99 | a reviewable annotation's task is in the review workflow, yet for a task waiting on changes the review pages' submit check refuses |
| CanvasReview.CheckAnnotationReviewable | composables/useCanvasReview.ts:84-99 | reviewable exactly when the review is pending or has changes requested and the task is in review or waiting on changes; a missing status, an approved review and a completed task are never reviewable |
| CanvasReview.CanvasReviewState.constructor | composables/useCanvasReview.ts:25-31 | hidden, nothing selected, at the origin, not reviewable, with no pending timer |
| CanvasReview.CanvasReviewState.OpenReviewPopup | composables/useCanvasReview.ts:41-52 | the annotation and project are selected, the popup is placed at the click and shown, and reviewability is recorded |
| CanvasReview.CanvasReviewState.CloseReviewPopup | composables/useCanvasReview.ts:57-66 | the popup is hidden at once and the selection kept for the exit animation, with one more clear timer pending |
| CanvasReview.CanvasReviewState.ClearTimerFires | composables/useCanvasReview.ts:60-65 | the timer clears the selection, position and reviewability, whether or not the popup was reopened |
| CanvasReview.CanvasReviewState.OnReviewSuccess | composables/useCanvasReview.ts:71-75 | a successful review only closes the popup |
| CanvasReview.CloseThenTimer | composables/useCanvasReview.ts:57-66 | a close followed by its timer leaves the popup fully cleared |
| CanvasReview.ReopenBeforeTimer | composables/useCanvasReview.ts:41-66 | reopening within 200 ms of a close leaves a visible popup whose selection the earlier timer has emptied |
| AnnotationCompletion.FormatError | composables/useAnnotationCompletion.ts:60-69 | an Error's own message; for another object the first non-empty of data.message and message; otherwise the fixed text; empty only for an Error with an empty message |
| AnnotationCompletion.GetCompletionMessage | composables/useAnnotationCompletion.ts:76-114 | a success toast exactly when no review follows; otherwise an info toast naming the reviewer's email when a reviewer and an email came back, a generic one for a reviewer alone, and a waiting one without a reviewer |
| AnnotationCompletion.GetStatusMessage | composables/useAnnotationCompletion.ts:121-135 | auto-approved exactly when no review follows; otherwise the reviewer's email when there is one, "Pending review" for a reviewer id alone, and "Submitted for review" otherwise |
| AnnotationCompletion.StatusAgreesWithToast | composables/useAnnotationCompletion.ts:76-135 | toast and status agree on every case except an email without a reviewer id, where the status names the email and the toast waits for a reviewer |
| AnnotationCompletion.MessagesIgnoreStatus | composables/useAnnotationCompletion.ts:142-144 | success is decided by the status field alone, which neither message reads |
| AnnotationCompletion.IsCompletionSuccessful | composables/useAnnotationCompletion.ts:142-144 | success exactly when the status names the completed or the in-review task status; never for an empty, rejected or changes-needed status |
| AnnotationCompletion.ToastFor | composables/useAnnotationCompletion.ts:170-272 | an error toast exactly on failure, titled for its request and carrying the formatted error; after a complete, the completion message's title, description and colour, titled Annotation Completed exactly when auto-approved; after a submit, the fixed Submitted for Review toast in info; after a resubmit, Changes Resubmitted with the completion message's description and colour |
| AnnotationCompletion.FailureTitlesDiffer | composables/useAnnotationCompletion.ts:182-272 | the three requests fail under three different titles |
| AnnotationCompletion.RequestBody | composables/useAnnotationCompletion.ts:167 | a body exactly for a truthy task id, so a task id of 0 is not sent |
| AnnotationCompletion.ResultOf | composables/useAnnotationCompletion.ts:171-186 | the response exactly when the request was answered, nothing on failure |
| AnnotationCompletion.CompletionState.constructor | composables/useAnnotationCompletion.ts:47 | not busy, no toasts shown |
| AnnotationCompletion.CompletionState.BeginRequest | composables/useAnnotationCompletion.ts:158 | busy until the answer is handled; no toast yet |
| AnnotationCompletion.CompletionState.FinishRequest | composables/useAnnotationCompletion.ts:171-190 | exactly one toast added for the outcome, the flag lowered, the response or nothing returned |
| AnnotationCompletion.CompletionState.CompleteAnnotation | composables/useAnnotationCompletion.ts:153-191 | sends the complete request with the truthy task id as body; one toast; not busy afterwards; returns the response or nothing |
| AnnotationCompletion.CompletionState.SubmitForReviewCall | composables/useAnnotationCompletion.ts:199-234 | sends the submit request with no body; one toast; not busy afterwards; returns the response or nothing |
| AnnotationCompletion.CompletionState.ResubmitAfterChanges | composables/useAnnotationCompletion.ts:242-278 | sends the resubmit request with no body; one toast; not busy afterwards; returns the response or nothing |
| ReviewNotifications.CountUnseen | composables/useReviewNotifications.ts:116-118 | at most the number of reviews, and zero exactly when every review is seen |
| ReviewNotifications.CountUnseenAppend | composables/useReviewNotifications.ts:116-118 | the unseen count of two lists joined is the sum of their counts |
| ReviewNotifications.CountUnseenUpdate | composables/useReviewNotifications.ts:116-118 | replacing one review changes the unseen count by that review alone |
| ReviewNotifications.NewReviews | composables/useReviewNotifications.ts:172-173 | exactly the fetched reviews whose ids are not yet present, in fetched order |
| ReviewNotifications.MergeReviews | composables/useReviewNotifications.ts:172-177 | the list as it was, seen flags included, followed by the fetched reviews it did not know |
| ReviewNotifications.MergedIds | composables/useReviewNotifications.ts:172-177 | after a merge the ids are the old ones plus every fetched one, and the unseen count grows by the unseen reviews added |
| ReviewNotifications.MergeIdempotent | composables/useReviewNotifications.ts:172-177 | merging the same answer again adds nothing |
| ReviewNotifications.NothingNew | composables/useReviewNotifications.ts:172-177 | a fetch whose ids are all present adds nothing |
| ReviewNotifications.FindReview | composables/useReviewNotifications.ts:232 | the index of the first review with the id, and nothing exactly when no review has it |
| ReviewNotifications.MarkSeen | composables/useReviewNotifications.ts:231-236 | the same reviews with the first one carrying the id marked seen, and everything else unchanged; nothing changes for an unknown id |
| ReviewNotifications.MarkSeenNeverRaisesUnseen | composables/useReviewNotifications.ts:231-236 | marking never raises the unseen count, and lowers it by one when the review was unseen |
| ReviewNotifications.ReviewNotificationsState.constructor | composables/useReviewNotifications.ts:96-107 | zero pending, no reviews or project counts, never fetched, not polling |
| ReviewNotifications.ReviewNotificationsState.OwnReviewedCount | composables/useReviewNotifications.ts:116-118 | at most the number of own reviews, zero exactly when all are seen |
| ReviewNotifications.ReviewNotificationsState.HasNotifications | composables/useReviewNotifications.ts:123-125 | nothing to notify exactly when nothing is pending and every own review is seen |
| ReviewNotifications.ReviewNotificationsState.IsCacheValid | composables/useReviewNotifications.ts:130-132 | the last fetch is less than 30 seconds old (no contract of its own; Refresh states what it skips) |
| ReviewNotifications.ReviewNotificationsState.Refresh | composables/useReviewNotifications.ts:137-192 | nothing changes while the cache is valid or without a token; otherwise the pending count comes from the stats answer (0 on failure), new reviews are merged in, and the fetch time is stamped |
| ReviewNotifications.ReviewNotificationsState.Fetch | composables/useReviewNotifications.ts:147-191 | the pending count of the answer, the reviews merged, the time stamped, and loading ended |
| ReviewNotifications.ReviewNotificationsState.FetchProjectPendingCount | composables/useReviewNotifications.ts:197-226 | a cached count while the cache is valid; 0 without a token; a fetched count, which is stored; 0 on failure, which stores nothing |
| ReviewNotifications.ReviewNotificationsState.MarkOwnReviewSeen | composables/useReviewNotifications.ts:231-236 | the reviews become MarkSeen of the old ones and nothing else changes |
| ReviewNotifications.ReviewNotificationsState.StartPolling | composables/useReviewNotifications.ts:241-258 | a timer is installed exactly when polling was off; polling is on afterwards |
| ReviewNotifications.ReviewNotificationsState.PollTick | composables/useReviewNotifications.ts:252-256 | each tick invalidates the cache, so a refresh fetches unless there is no token or the clock is within the cache window of the epoch with a non-negative count; a fetch sets the pending count, merges the own reviews, stamps both times and leaves loading off; otherwise only the fetch time is reset; project counts and polling are kept |
| ReviewNotifications.ReviewNotificationsState.StopPolling | composables/useReviewNotifications.ts:263-269 | the timer is gone and polling is off; the data stays |
| ReviewNotifications.ReviewNotificationsState.ClearCache | composables/useReviewNotifications.ts:274-280 | counts, reviews, project counts and times forgotten, so nothing is to be notified; polling left alone |
| ReviewNotifications.ReviewNotificationsState.FetchBatch | composables/useReviewNotifications.ts:366-367 | the project counts after one batch are those of fetching each of its projects |
| ReviewNotifications.ReviewNotificationsState.FetchInBatches | composables/useReviewNotifications.ts:364-368 | the batches sent are the ids cut in fives, and the counts those of fetching every listed project |
| ReviewNotifications.ReviewNotificationsState.GetCount | composables/useReviewNotifications.ts:378-380 | the cached count, 0 for a project without one |
| ReviewNotifications.FetchedCountIsReported | composables/useReviewNotifications.ts:197-226 | a count just fetched is what getCount then reports |
| ReviewNotifications.Batches | composables/useReviewNotifications.ts:364-365 | every batch holds one to five ids |
| ReviewNotifications.BatchesCoverIds | composables/useReviewNotifications.ts:364-365 | the batches hold every id once, in order, and there are as few as batches of five allow |
| ReviewNotifications.BatchesStep | composables/useReviewNotifications.ts:364-365 | the batches from a position on are one batch there followed by the rest |
| ReviewNotifications.StoreAllFacts | composables/useReviewNotifications.ts:358-373 | after fetching a list, unlisted projects are as they were and each listed project not served from the cache that got an answer holds it |
| ReviewNotifications.StoreAllAppend | composables/useReviewNotifications.ts:364-368 | fetching two lists in turn is fetching their concatenation |
| ReviewNotifications.ProjectReviewCounts.constructor | composables/useReviewNotifications.ts:349-354 | the shared notifications and the ids, not loading |
| ReviewNotifications.ProjectReviewCounts.FetchAll | composables/useReviewNotifications.ts:358-373 | nothing for no ids; otherwise the ids are sent in batches of five and every listed project's count is fetched or kept from the cache; loading is off afterwards; the shared state's other fields, polling and loading flag are kept |
| ReviewCounts.CountStatus | composables/useReviewCounts.ts:97-98 | at most the number of reviews, and zero exactly when no review has the status |
| ReviewCounts.StatusCountsBounded | composables/useReviewCounts.ts:142-144 | pending, approved and changes-requested reviews together never outnumber the reviews |
| ReviewCounts.GlobalCountsOf | composables/useReviewCounts.ts:97-107 | the pending and changes-requested counts of the answer, which together fit in it; nothing known about today |
| ReviewCounts.ProjectCountsOf | composables/useReviewCounts.ts:141-152 | the project's id and its three status counts, which together fit in the answer; nothing known about today |
| ReviewCounts.ReviewCountsState.constructor | composables/useReviewCounts.ts:47-50 | zero pending, not loading, nothing cached, never fetched |
| ReviewCounts.ReviewCountsState.IsCacheValid | composables/useReviewCounts.ts:62-64 | the last global fetch is less than 30 seconds old (no contract of its own; see ReviewCounts.ProjectCacheFollowsGlobalTime) |
| ReviewCounts.ReviewCountsState.FetchGlobalCounts | composables/useReviewCounts.ts:70-116 | the cached pending count while the cache is valid and that count positive; otherwise the answer's counts, whose pending count and time are kept; zeros on failure, keeping nothing |
| ReviewCounts.ReviewCountsState.FetchProjectCounts | composables/useReviewCounts.ts:122-168 | the cached counts while the global cache time is valid; otherwise the answer's counts, cached for the project; zeros on failure, caching nothing; the global time never moves |
| ReviewCounts.ReviewCountsState.GetProjectPendingCount | composables/useReviewCounts.ts:173-175 | the cached pending count, 0 for an uncached project |
| ReviewCounts.ReviewCountsState.ClearCache | composables/useReviewCounts.ts:180-184 | everything zero and empty, so every project reports 0 |
| ReviewCounts.ReviewCountsState.Refresh | composables/useReviewCounts.ts:189-192 | the cache is invalidated, so the global count is fetched unless the clock is within 30 s of the epoch with a positive cached count; a fetch leaves loading off and stores the count and time of an answer, or keeps the count on failure |
| ReviewCounts.ProjectCacheFollowsGlobalTime | composables/useReviewCounts.ts:126-129 | with the global cache stale, a project is fetched again on every call, since its own fetch never refreshes the global time |
| BackendRelations.NumberAndTextShareKey | composables/useBackendRelations.ts:37 | an organization given as a number and as its decimal text share one cache entry, and two different numbers never share one |
| BackendRelations.SelectAfterFetch | composables/useBackendRelations.ts:53-67 | with a non-empty list the selection is a listed backend: kept when truthy and listed, otherwise the first; an empty list keeps the selection |
| BackendRelations.BackendRelationsState.constructor | composables/useBackendRelations.ts:3-6 | no backends cached, nothing selected |
| BackendRelations.BackendRelationsState.InitFromStorage | composables/useBackendRelations.ts:16-21 | an unset selection is taken from local storage; a set one is kept |
| BackendRelations.BackendRelationsState.GetBackends | composables/useBackendRelations.ts:77-80 | the cached list, empty for a falsy id or an uncached organization |
| BackendRelations.BackendRelationsState.GetSelectedBackend | composables/useBackendRelations.ts:82-85 | the organization's backend carrying the selected id, and nothing exactly when there is no selection or it is not listed |
| BackendRelations.BackendRelationsState.FetchBackends | composables/useBackendRelations.ts:33-75 | nothing for a falsy organization; the non-empty cached list unless forced; otherwise a fetched list replaces the cache and a selection that then names a listed backend; a failure or an answer without a list changes nothing |
| BackendRelations.BackendRelationsState.SetSelectedBackend | composables/useBackendRelations.ts:87-96 | the selection, stored in local storage when truthy and removed from it otherwise |
| ApiUrl.GetFullApiUrl | utils/url.ts:10-32 | empty stays empty, absolute and data URLs are kept, anything else becomes the base, exactly one slash, and the path |
| ApiUrl.GetFullApiUrlIdempotent | utils/url.ts:10-32 | with an absolute or empty base, converting a converted URL changes nothing |
| ApiUrl.RelativeBaseRepeats | utils/url.ts:28-31 | for every relative path and every base starting with a slash, a second pass puts the base in front again, so the conversion is not idempotent |
| Jwt.Parts | utils/jwt.ts:23 | splitting always gives at least one part |
| Jwt.ThreeParts | utils/jwt.ts:93-94 | the token splits into exactly three parts (no contract of its own; DecodeJWT and IsValidJWT state what follows from it) |
| Jwt.PaddingLength | utils/jwt.ts:30 | the one count of padding below four that makes the length a multiple of four |
| Jwt.Pad | utils/jwt.ts:30 | the payload followed by at most three '=' up to a multiple of four |
| Jwt.DecodeJWT | utils/jwt.ts:18-43 | a payload only for a non-empty token of three parts with a non-empty middle, and then exactly the parse of its padded base64 decoding |
| Jwt.PartsOf | utils/jwt.ts:23 | three dot-free parts joined by dots split back into themselves |
| Jwt.DecodeOfParts | utils/jwt.ts:18-43 | a token built from three dot-free parts decodes its middle part |
| Jwt.UserIdClaim | utils/jwt.ts:56 | the first truthy of userId, id and sub, and sub when none is |
| Jwt.GetUserIdFromToken | utils/jwt.ts:48-64 | nothing without a decodable token; otherwise the first truthy id claim decides: a number is the id as it is, a string is the parse of it, and any other claim gives nothing |
| Jwt.UserIdTakesPrecedence | utils/jwt.ts:56-58 | a non-zero numeric userId is the result whatever id and sub say |
| Jwt.ZeroUserIdFallsThrough | utils/jwt.ts:56-58 | a userId of 0 is falsy, so a non-zero numeric id is the result |
| Jwt.IsTokenExpired | utils/jwt.ts:69-75 | expired for an unreadable payload or a missing or zero expiry; otherwise exactly when the expiry second lies before the current whole second |
| Jwt.ExpiryIsPermanent | utils/jwt.ts:69-75 | once expired, a token stays expired as the clock moves on |
| Jwt.GetUserEmailFromToken | utils/jwt.ts:80-85 | the email claim exactly when the token decodes and carries a non-empty one |
| Jwt.IsValidJWT | utils/jwt.ts:90-107 | valid exactly when the token has three non-empty parts and its header and payload parts decode as base64 as they are |
| Jwt.SignatureNeverChecked | utils/jwt.ts:98-103 | validity does not depend on what the signature says, only on its being there |
| Jwt.ValidTokensHaveDecodableShape | utils/jwt.ts:18-107 | a valid token passes every shape check of decoding, which can then fail only in base64 or parsing |

## Left out

- Floating point: coordinates, scales and tolerances are exact reals, so rounding in `Math.sqrt`, `Math.pow` and `Math.hypot` is not modelled. Every distance is compared squared, which gives the same decisions as the square root for a tolerance of at least 0.
- PerformanceMonitor.PolygonPerformanceMonitor.UpdateFrameRate: when the frame times in the history add up to 0, the source computes `1000 / 0`, which is `Infinity`. Exact reals have no infinity, so the model keeps the previous frame rate in that case.
- The `NaN` of an empty buffer in the buffer and monitor status reports, the `1000 / average` frame rate as a float, and `toFixed` rendering of reals are not modelled. Statuses are modelled as the numbers they are computed from.
- Text: `trim` removes the full ECMAScript whitespace and line-terminator set. `toLowerCase`/`toUpperCase` map ASCII letters only, so Unicode case mapping is not modelled.
- TaskReviewFilters.GetReviewStatusOrder: takes a parsed task status, so the `?? 5` fallback that useTaskReviewFilters.ts:196 gives a status string outside the five is not modelled; every task in the model has one of the five statuses.
- Text: strings are sequences of Unicode scalar values, while JavaScript's `length` and `substring` count UTF-16 code units. ReviewWorkflow.Prefix, ReviewWorkflow.Truncate and ReviewWorkflow.FormatReviewMessage therefore measure and cut a message with characters outside the Basic Multilingual Plane, such as emoji, at a different place than reviewWorkflow.ts:258-259 does.
- The fill-opacity regular expression of the performance budget (utils/performanceBudgetSystem.ts:146-149, 171-174) is a foreign regex engine. The fill is carried through as an opaque value.
- Recommendation texts, performance summaries, the DOM performance indicator and all console logging are diagnostics. They have no effect on the modelled state.
- The web worker transport (`new Worker`, `postMessage`, `onmessage` wiring), promises, `setTimeout`, `setInterval`, `requestAnimationFrame` and the clocks are explicit events and parameters. Code that runs concurrently between two awaits of one call is not modelled.
- Network calls, cookies, `localStorage`, toasts and router navigation are parameters or plain fields. The request URLs and headers, including the `Authorization` bearer token, are not modelled, except for the request body of annotation completion.
- `atob`, `JSON.parse` and `parseInt` in the token helpers are parameters. A payload claim of another JSON type, a non-numeric `exp` and fractional ids are not modelled.
- The `hotkeys-js` calls, the keyboard-event filtering inside the bound callback and the handler closures are left out. Handlers are a set of actions, and binding is the bookkeeping of the bound keys.
- Vue reactivity (`ref`, `computed`, `readonly`, `useState`) is left out. State is a set of plain fields, and a computed value is a function of them.
- Property lookups in the label, colour and icon tables by a status string from the server: keys inherited from the JavaScript object prototype (such as `constructor`) are not modelled. Such a status takes the fallback branch in the model.
- ReviewWorkflow.GroupReviewsByRound: the model keeps which reviews fall in each round and their order, but not the insertion order of the keys of the resulting `Map`.
- TaskReviewFilters.SortTasks: the `default` branch of the sort switch cannot be reached from the seven sort options, and the model has no counterpart for it.
- TaskReviewFilters: the search query is only reset and checked for activity, since `filterTasks` never applies it to the task list.
- BackendRelations.BackendRelationsState.InitFromStorage: the stored id is taken as a number. `Number(saved)` of a text that is not a number (`NaN`) is not modelled.
- ReviewNotifications.ProjectReviewCounts.FetchAll: the answers are one fixed answer per project id, read at one clock reading. A project listed twice, or a different clock for each request of a batch, is not modelled.
- ReviewNotifications.ReviewNotificationsState.StartPolling: the refresh that `startPolling` starts at once is left to the caller as a separate Refresh call. Tick refreshes are PollTick.
- ReviewCounts: reviews are modelled by their status strings alone, since the counts read nothing else.
- DouglasPeucker.RamerDouglasPeucker: requires a tolerance of at least 0. With a negative tolerance and a collinear interior, the source splits at index 0 and recurses on the same points forever, as DouglasPeucker.NegativeThresholdRecursesOnItself shows.
- SlidingBuffer.BuildRenderWindow: requires a render skip interval above 0. With 0 or less, the source's window loop never advances.
- SlidingBuffer.SlidingBufferOptimizer.UpdateConfig: requires the updated render skip interval to stay above 0, which every call in the source meets. The source accepts any value, and one of 0 or less leads to the endless window loop above.
- DragPerformance.DragPerformanceManager.constructor: requires a rate other than 0, which every call in the source meets. The source accepts 0 and then has an infinite frame interval (`1000 / 0`), which exact reals cannot represent.
- DragPerformance.BatchedDragHandlers.constructor: requires a rate other than 0, for the same reason as the manager's constructor.
- CoordinateUtils.DisplayToOriginal: requires a scale other than 0, which every caller meets for a displayed image. The source divides by the scale anyway, and a scale of 0 gives `Infinity` or `NaN` coordinates, which exact reals cannot represent.
- CoordinateUtils.DisplaySizeToOriginal: requires a scale other than 0, for the same reason as CoordinateUtils.DisplayToOriginal.
- CoordinateUtils.DisplayPointsToOriginal: requires a scale other than 0, for the same reason as CoordinateUtils.DisplayToOriginal.
- CoordinateUtils.DisplayRoundTrip: requires a scale other than 0, for the same reason as CoordinateUtils.DisplayToOriginal.
- CoordinateUtils.OriginalRoundTrip: requires a scale other than 0, for the same reason as CoordinateUtils.DisplayToOriginal.
- CoordinateUtils.SizeRoundTrips: requires a scale other than 0, for the same reason as CoordinateUtils.DisplayToOriginal.
- CoordinateUtils.PointListRoundTrip: requires a scale other than 0, for the same reason as CoordinateUtils.DisplayToOriginal.
- DragHandlers.HandleRectangleDragEnd: requires a scale other than 0, for the same reason as CoordinateUtils.DisplayToOriginal.
- DragHandlers.HandleDotDragEnd: requires a scale other than 0, for the same reason as CoordinateUtils.DisplayToOriginal.
- DragHandlers.HandleCircleDragEnd: requires a scale other than 0, for the same reason as CoordinateUtils.DisplayToOriginal.
- DragHandlers.CircleHandlersAgree: requires a scale other than 0, for the same reason as CoordinateUtils.DisplayToOriginal.
- DragHandlers.LineOffset: requires a scale other than 0, for the same reason as CoordinateUtils.DisplayToOriginal.
- DragHandlers.HandleLineDragEnd: requires a scale other than 0, for the same reason as CoordinateUtils.DisplayToOriginal.
- TransformHandlers.HandleRectangleTransformEnd: requires a scale other than 0, for the same reason as CoordinateUtils.DisplayToOriginal.
- DragHandlers.HandlePolygonDragEnd: requires an image scale other than 0, for the same reason as CoordinateUtils.DisplayToOriginal.
- ShortcutManager: overrides saved by the server may repeat an action. Saving replaces the first entry for an action, while merging uses the last one (ShortcutManager.DuplicateOverrideShadowsSave). The shape of the server data is not known, so this is not listed as a finding.
- Components and composables that are pure HTTP wrappers or styling tables are not part of this model, nor is the submission flow that chains two requests and a navigation. useImageUrl is a pass-through to `getFullApiUrl`.

## Findings

| source | as written | input that shows it | evidently intended | confidence | as-written member | corrected member |
|---|---|---|---|---|---|---|
| public/workers/polygonSimplificationWorker.js:147 | the request's shape flag is combined as `preserveShape \|\| true`, which is always true | a request with `preserveShape: false` is still simplified with the 0.7-scaled tolerance | `preserveShape ?? true`: default to preserving the shape, but honour an explicit false | not executed | SimplificationWorker.HandleRequestAsWritten | SimplificationWorker.HandleRequest |

=== FILE: annotation.dfy ===
/**
 * The canvas annotation record shared by the drawing, drag and transform
 * code: a shape kind and the optional fields each kind uses, in original
 * image coordinates.
 */
module Annotation {
  import opened Wrappers
  import opened Geometry

  datatype AnnotationType = Rectangle | Polygon | Dot | Line | Circle | Freehand

  /** A `CanvasAnnotation`; a field the object does not have is `None`. */
  datatype CanvasAnnotation = CanvasAnnotation(
    kind: AnnotationType,
    startPoint: Option<Point>,
    endPoint: Option<Point>,
    width: Option<real>,
    height: Option<real>,
    points: Option<seq<Point>>,
    center: Option<Point>,
    radius: Option<real>,
    className: Option<string>)

  /** A number field that JavaScript treats as true: present and not zero. */
  predicate Truthy(n: Option<real>) {
    n.Some? && n.value != 0.0
  }

  /** A string field that JavaScript treats as true: present and not empty. */
  predicate NonEmpty(s: Option<string>) {
    s.Some? && s.value != ""
  }

  /** An annotation of `kind` with no fields set. */
  function Blank(kind: AnnotationType): CanvasAnnotation {
    CanvasAnnotation(kind, None, None, None, None, None, None, None, None)
  }
}

=== FILE: annotation_completion.dfy ===
/**
 * Handing an annotation in: the messages shown for the server's answer,
 * and the three requests (complete, submit for review, resubmit after
 * changes) with their busy flag and toasts.
 *
 * The server's answer to each request is a parameter, and the `await`
 * splits each call in two steps: `BeginRequest` before the answer arrives
 * and `FinishRequest` after. JavaScript truthiness of the optional fields
 * is spelled out by the `Truthy` predicates.
 */
module AnnotationCompletion {
  import opened Wrappers
  import Text
  import Tasks

  /** The answer of the completion endpoints; a missing field is `None`. */
  datatype CompletionResponse = CompletionResponse(
    requiresReview: bool,
    assignedReviewer: Option<int>,
    assignedReviewerEmail: Option<string>,
    isAutoApproved: Option<bool>,
    status: string)

  datatype CompletionMessage = CompletionMessage(title: string, description: string, color: string, icon: string)

  /** What a request may fail with: an `Error`, some other object, or any other value. */
  datatype ErrorValue =
    | ErrorInstance(errorMessage: string)
    | PlainObject(dataMessage: Option<string>, objectMessage: Option<string>)
    | NonObject

  predicate TruthyString(o: Option<string>) { o.Some? && o.value != "" }
  predicate TruthyNumber(o: Option<int>) { o.Some? && o.value != 0 }

  /** No review will follow: none is required, or the server approved it at once. */
  predicate AutoApproved(r: CompletionResponse) {
    !r.requiresReview || r.isAutoApproved == Some(true)
  }

  const UnexpectedError := "An unexpected error occurred"

  /**
   * `formatError`: an `Error`'s own message; for another object the first
   * non-empty of `data.message` and `message`; otherwise a fixed text.
   * Only an `Error` with an empty message gives an empty text.
   */
  function FormatError(e: ErrorValue): (r: string)
    ensures r == "" <==> e.ErrorInstance? && e.errorMessage == ""
    ensures e.ErrorInstance? ==> r == e.errorMessage
    ensures e.PlainObject? && TruthyString(e.dataMessage) ==> r == e.dataMessage.value
    ensures e.PlainObject? && !TruthyString(e.dataMessage) && TruthyString(e.objectMessage) ==> r == e.objectMessage.value
    ensures r == UnexpectedError
      <== e.NonObject? || (e.PlainObject? && !TruthyString(e.dataMessage) && !TruthyString(e.objectMessage))
  {
    match e
    case ErrorInstance(m) => m
    case PlainObject(d, m) =>
      if TruthyString(d) then d.value
      else if TruthyString(m) then m.value
      else UnexpectedError
    case NonObject => UnexpectedError
  }

  const AssignedToPrefix := "Your annotation has been submitted and assigned to "
  const AssignedToSuffix := " for review."

  /**
   * `getCompletionMessage`: a success message exactly when no review
   * follows; otherwise an info message naming the reviewer's email when
   * both a reviewer and an email came back, a generic one when only the
   * reviewer did, and a waiting one when no reviewer did.
   */
  function GetCompletionMessage(response: CompletionResponse): (m: CompletionMessage)
    ensures m.color == "success" <==> AutoApproved(response)
    ensures m.color == "success" || m.color == "info"
    ensures m.title == "Annotation Completed" <==> AutoApproved(response)
    ensures m.icon == "i-heroicons-user-circle"
      <==> !AutoApproved(response) && TruthyNumber(response.assignedReviewer) && TruthyString(response.assignedReviewerEmail)
    ensures m.icon == "i-heroicons-user-circle"
      ==> m.description == AssignedToPrefix + response.assignedReviewerEmail.value + AssignedToSuffix
    ensures m.icon == "i-heroicons-eye"
      <==> !AutoApproved(response) && TruthyNumber(response.assignedReviewer) && !TruthyString(response.assignedReviewerEmail)
    ensures m.icon == "i-heroicons-clock" <==> !AutoApproved(response) && !TruthyNumber(response.assignedReviewer)
  {
    if AutoApproved(response) then
      CompletionMessage("Annotation Completed", "Your annotation has been completed and auto-approved.",
                        "success", "i-heroicons-check-badge")
    else if TruthyNumber(response.assignedReviewer) && TruthyString(response.assignedReviewerEmail) then
      CompletionMessage("Submitted for Review", AssignedToPrefix + response.assignedReviewerEmail.value + AssignedToSuffix,
                        "info", "i-heroicons-user-circle")
    else if TruthyNumber(response.assignedReviewer) then
      CompletionMessage("Submitted for Review", "Your annotation has been submitted and assigned to a reviewer.",
                        "info", "i-heroicons-eye")
    else
      CompletionMessage("Submitted for Review",
                        "Your annotation has been submitted for review. You'll be notified when it's reviewed.",
                        "info", "i-heroicons-clock")
  }

  const PendingReviewBy := "Pending review by "

  /**
   * `getStatusMessage`: the inline status; an email alone is enough to be
   * named, without a reviewer id.
   */
  function GetStatusMessage(response: CompletionResponse): (s: string)
    ensures s == "Completed and auto-approved" <==> AutoApproved(response)
    ensures !AutoApproved(response) && TruthyString(response.assignedReviewerEmail)
      ==> s == PendingReviewBy + response.assignedReviewerEmail.value
    ensures s == "Pending review"
      <==> !AutoApproved(response) && !TruthyString(response.assignedReviewerEmail) && TruthyNumber(response.assignedReviewer)
    ensures s == "Submitted for review"
      <==> !AutoApproved(response) && !TruthyString(response.assignedReviewerEmail) && !TruthyNumber(response.assignedReviewer)
  {
    if AutoApproved(response) then "Completed and auto-approved"
    else if TruthyString(response.assignedReviewerEmail) then
      var named := PendingReviewBy + response.assignedReviewerEmail.value;
      assert named[0] == 'P' && |named| > |"Pending review"|;
      named
    else if TruthyNumber(response.assignedReviewer) then "Pending review"
    else "Submitted for review"
  }

  /** `isCompletionSuccessful`: the annotation is now completed or waiting for review. */
  function IsCompletionSuccessful(response: CompletionResponse): (b: bool)
    ensures b ==> response.status != "" && response.status != "rejected" && response.status != "changes_needed"
    ensures b <==> Tasks.ParseStatus(response.status) in {Some(Tasks.Completed), Some(Tasks.InReview)}
  {
    response.status == "completed" || response.status == "in_review"
  }

  /**
   * The toast and the inline status never look at the status field, which
   * alone decides success: the same message goes with a successful and an
   * unsuccessful status.
   */
  lemma {:induction false} MessagesIgnoreStatus(response: CompletionResponse)
    ensures IsCompletionSuccessful(response.(status := "completed"))
    ensures !IsCompletionSuccessful(response.(status := "rejected"))
    ensures GetCompletionMessage(response.(status := "completed")) == GetCompletionMessage(response.(status := "rejected"))
    ensures GetStatusMessage(response.(status := "completed")) == GetStatusMessage(response.(status := "rejected"))
  {
  }

  /**
   * The toast and the inline status tell the same story, except when an
   * email came back without a reviewer id: the status names the email, the
   * toast says no reviewer was assigned yet.
   */
  lemma {:induction false} StatusAgreesWithToast(response: CompletionResponse)
    ensures GetStatusMessage(response) == "Completed and auto-approved"
      <==> GetCompletionMessage(response).color == "success"
    ensures GetCompletionMessage(response).icon == "i-heroicons-user-circle"
      ==> GetStatusMessage(response) == PendingReviewBy + response.assignedReviewerEmail.value
    ensures GetCompletionMessage(response).icon == "i-heroicons-eye" <==> GetStatusMessage(response) == "Pending review"
    ensures GetStatusMessage(response) == "Submitted for review" ==> GetCompletionMessage(response).icon == "i-heroicons-clock"
    ensures !AutoApproved(response) && TruthyString(response.assignedReviewerEmail)
      && !TruthyNumber(response.assignedReviewer)
      ==> GetCompletionMessage(response).icon == "i-heroicons-clock"
          && Text.StartsWith(GetStatusMessage(response), PendingReviewBy)
  {
    var s := GetStatusMessage(response);
    if !AutoApproved(response) && TruthyString(response.assignedReviewerEmail) {
      assert s[..|PendingReviewBy|] == PendingReviewBy;
    }
  }

  /** The three requests. */
  datatype RequestKind = Complete | SubmitForReview | Resubmit

  /** What a request sends: its kind, the ids in its path, and its body. */
  datatype CompletionRequest = CompletionRequest(kind: RequestKind, projectId: int, annotationId: int, bodyTaskId: Option<int>)

  /** The server's answer to a request. */
  datatype FetchOutcome = Answered(response: CompletionResponse) | Failed(error: ErrorValue)

  datatype Toast = Toast(title: string, description: string, color: string)

  /** The toast a request ends with. */
  function ToastFor(kind: RequestKind, outcome: FetchOutcome): (t: Toast)
    ensures t.color == "error" <==> outcome.Failed?
    ensures outcome.Failed? ==> t.description == FormatError(outcome.error)
    ensures outcome.Answered? && kind != SubmitForReview ==> t.color == GetCompletionMessage(outcome.response).color
    ensures outcome.Answered? && kind == SubmitForReview ==> t.color == "info"
    ensures outcome.Answered? && kind == Resubmit
      ==> t.description == GetCompletionMessage(outcome.response).description
    ensures outcome.Answered? && kind == Complete
      ==> t.title == GetCompletionMessage(outcome.response).title
          && t.description == GetCompletionMessage(outcome.response).description
    ensures outcome.Answered? && kind == Complete ==> (t.title == "Annotation Completed" <==> AutoApproved(outcome.response))
    ensures outcome.Answered? && kind == SubmitForReview
      ==> t.title == "Submitted for Review" && t.description == "Your annotation has been submitted and is waiting for review."
    ensures outcome.Answered? && kind == Resubmit ==> t.title == "Changes Resubmitted"
    ensures outcome.Failed? && kind == Complete ==> t.title == "Failed to Complete Annotation"
    ensures outcome.Failed? && kind == SubmitForReview ==> t.title == "Failed to Submit for Review"
    ensures outcome.Failed? && kind == Resubmit ==> t.title == "Failed to Resubmit"
  {
    match outcome
    case Answered(response) =>
      var m := GetCompletionMessage(response);
      (match kind
       case Complete => Toast(m.title, m.description, m.color)
       case SubmitForReview => Toast("Submitted for Review", "Your annotation has been submitted and is waiting for review.", "info")
       case Resubmit => Toast("Changes Resubmitted", m.description, m.color))
    case Failed(error) =>
      var title := (match kind
        case Complete => "Failed to Complete Annotation"
        case SubmitForReview => "Failed to Submit for Review"
        case Resubmit => "Failed to Resubmit");
      Toast(title, FormatError(error), "error")
  }

  /** Each request names its failure in its own title. */
  lemma {:induction false} FailureTitlesDiffer(k1: RequestKind, k2: RequestKind, e1: ErrorValue, e2: ErrorValue)
    requires k1 != k2
    ensures ToastFor(k1, Failed(e1)).title != ToastFor(k2, Failed(e2)).title
  {
  }

  /** The request body carries the task id only when it is truthy, so a task id of 0 is dropped. */
  function RequestBody(taskId: Option<int>): (b: Option<int>)
    ensures b.Some? <==> TruthyNumber(taskId)
    ensures b.Some? ==> b == taskId
  {
    if TruthyNumber(taskId) then taskId else None
  }

  /** The outcome a call returns: the response, or nothing when the request failed. */
  function ResultOf(outcome: FetchOutcome): (r: Option<CompletionResponse>)
    ensures r.Some? <==> outcome.Answered?
    ensures r.Some? ==> r.value == outcome.response
  {
    match outcome
    case Answered(response) => Some(response)
    case Failed(_) => None
  }

  /** The busy flag and the toasts shown so far. */
  class CompletionState {
    var isCompleting: bool
    var toasts: seq<Toast>

    constructor ()
      ensures !isCompleting && toasts == []
    {
      isCompleting := false;
      toasts := [];
    }

    /** A request goes out: the flag is raised until its answer is handled. */
    method BeginRequest()
      modifies this
      ensures isCompleting && toasts == old(toasts)
    {
      isCompleting := true;
    }

    /** The answer arrives: one toast, the flag lowered, the response or nothing returned. */
    method FinishRequest(kind: RequestKind, outcome: FetchOutcome) returns (r: Option<CompletionResponse>)
      modifies this
      ensures !isCompleting
      ensures toasts == old(toasts) + [ToastFor(kind, outcome)]
      ensures r == ResultOf(outcome)
    {
      toasts := toasts + [ToastFor(kind, outcome)];
      r := ResultOf(outcome);
      isCompleting := false;
    }

    /** `completeAnnotation`, the whole call. */
    method CompleteAnnotation(annotationId: int, projectId: int, taskId: Option<int>, outcome: FetchOutcome)
      returns (request: CompletionRequest, r: Option<CompletionResponse>)
      modifies this
      ensures request == CompletionRequest(Complete, projectId, annotationId, RequestBody(taskId))
      ensures !isCompleting && toasts == old(toasts) + [ToastFor(Complete, outcome)]
      ensures r == ResultOf(outcome)
    {
      BeginRequest();
      request := CompletionRequest(Complete, projectId, annotationId, RequestBody(taskId));
      r := FinishRequest(Complete, outcome);
    }

    /** `submitForReview`, the whole call; it sends no body. */
    method SubmitForReviewCall(annotationId: int, projectId: int, outcome: FetchOutcome)
      returns (request: CompletionRequest, r: Option<CompletionResponse>)
      modifies this
      ensures request == CompletionRequest(SubmitForReview, projectId, annotationId, None)
      ensures !isCompleting && toasts == old(toasts) + [ToastFor(SubmitForReview, outcome)]
      ensures r == ResultOf(outcome)
    {
      BeginRequest();
      request := CompletionRequest(SubmitForReview, projectId, annotationId, None);
      r := FinishRequest(SubmitForReview, outcome);
    }

    /** `resubmitAfterChanges`, the whole call; it sends no body. */
    method ResubmitAfterChanges(annotationId: int, projectId: int, outcome: FetchOutcome)
      returns (request: CompletionRequest, r: Option<CompletionResponse>)
      modifies this
      ensures request == CompletionRequest(Resubmit, projectId, annotationId, None)
      ensures !isCompleting && toasts == old(toasts) + [ToastFor(Resubmit, outcome)]
      ensures r == ResultOf(outcome)
    {
      BeginRequest();
      request := CompletionRequest(Resubmit, projectId, annotationId, None);
      r := FinishRequest(Resubmit, outcome);
    }
  }
}

=== FILE: annotation_config.dfy ===
/**
 * The Konva configurations of polygon and freehand annotations: the points
 * are simplified for display when the shape is large and zoomed out,
 * carried to the stage by the display transform and flattened; colours,
 * widths and interactivity follow the selection and hover state.
 */
module AnnotationConfig {
  import opened Wrappers
  import opened Geometry
  import opened Distance
  import opened DouglasPeucker
  import opened Annotation
  import opened PolygonOptimization
  import opened ClassColorPalette

  datatype PolygonConfig = PolygonConfig(
    points: seq<real>,
    stroke: string,
    strokeWidth: real,
    fill: string,
    closed: bool,
    draggable: bool,
    listening: bool,
    perfectDrawEnabled: bool,
    name: string)

  datatype FreehandConfig = FreehandConfig(
    points: seq<real>,
    stroke: string,
    strokeWidth: real,
    fill: string,
    closed: bool,
    draggable: bool,
    listening: bool,
    hitStrokeWidth: real,
    tension: real,
    lineCap: string,
    lineJoin: string,
    perfectDrawEnabled: bool,
    name: string)

  const SelectedStroke := "#4285f4"
  const HoveredStroke := "#34a853"

  /** The points drawn: simplified with `baseEpsilon` scaled by the zoom when the gate allows it. */
  function ProcessedPoints(points: seq<Point>, zoomLevel: real, baseEpsilon: real): (r: seq<Point>)
    requires baseEpsilon >= 0.0
    ensures !ShouldSimplifyPolygon(|points|, zoomLevel) ==> r == points
    ensures |r| <= |points|
    ensures |points| >= 1 ==> |r| >= 1 && r[0] == points[0] && r[|r| - 1] == points[|points| - 1]
  {
    if ShouldSimplifyPolygon(|points|, zoomLevel) then
      var e := AdaptiveEpsilon(zoomLevel, baseEpsilon);
      SimplifyPolygonShape(points, e);
      AdaptiveSimplifyPolygon(points, zoomLevel, baseEpsilon)
    else points
  }

  /** Each point carried through the display transform, in order. */
  function MapPoints(t: Point -> Point, ps: seq<Point>): (r: seq<Point>)
    ensures |r| == |ps| && forall i :: 0 <= i < |ps| ==> r[i] == t(ps[i])
  {
    seq(|ps|, i requires 0 <= i < |ps| => t(ps[i]))
  }

  /** `index` is the selected or the hovered annotation. */
  predicate IsInteracting(index: int, selectedIndex: Option<int>, hoveredIndex: Option<int>) {
    selectedIndex == Some(index) || hoveredIndex == Some(index)
  }

  /**
   * `createPolygonConfig`. No points or an empty list give the empty
   * configuration (`None`). Otherwise the flat points read back as the
   * transformed processed points; selection wins over hover for stroke,
   * fill and width, and an idle polygon takes its class colour; the polygon
   * is dragged and listened to only while selected or hovered and
   * interaction is on.
   */
  function CreatePolygonConfig(
    annotation: CanvasAnnotation, index: int, selectedIndex: Option<int>, hoveredIndex: Option<int>,
    displayTransform: Point -> Point, zoomLevel: real, interactionEnabled: bool, classes: seq<string>)
    : (r: Option<PolygonConfig>)
    ensures r.None? <==> annotation.points.None? || annotation.points.value == []
    ensures r.Some? ==>
      && Pairs(r.value.points) == MapPoints(displayTransform, ProcessedPoints(annotation.points.value, zoomLevel, 1.0))
      && 2 <= |r.value.points| <= 2 * |annotation.points.value|
    ensures r.Some? && selectedIndex == Some(index) ==>
      r.value.stroke == SelectedStroke && r.value.fill == "rgba(66, 133, 244, 0.1)" && r.value.strokeWidth == 3.0
    ensures r.Some? && selectedIndex != Some(index) && hoveredIndex == Some(index) ==>
      r.value.stroke == HoveredStroke && r.value.fill == "rgba(52, 168, 83, 0.05)" && r.value.strokeWidth == 2.5
    ensures r.Some? && !IsInteracting(index, selectedIndex, hoveredIndex) ==>
      && r.value.stroke == GetClassColor(annotation.className, classes)
      && r.value.fill == WithOpacity(r.value.stroke, "0.05")
      && r.value.strokeWidth == 2.0
    ensures r.Some? ==>
      && r.value.draggable == r.value.listening == (IsInteracting(index, selectedIndex, hoveredIndex) && interactionEnabled)
      && r.value.closed && !r.value.perfectDrawEnabled && r.value.name == "polygon"
  {
    if annotation.points.None? || annotation.points.value == [] then None
    else
      var processed := ProcessedPoints(annotation.points.value, zoomLevel, 1.0);
      var displayPoints := Flatten(MapPoints(displayTransform, processed));
      PairsOfFlatten(MapPoints(displayTransform, processed));
      var isSelected := selectedIndex == Some(index);
      var isHovered := hoveredIndex == Some(index);
      var classColor := GetClassColor(annotation.className, classes);
      Some(PolygonConfig(
        displayPoints,
        if isSelected then SelectedStroke else if isHovered then HoveredStroke else classColor,
        if isSelected then 3.0 else if isHovered then 2.5 else 2.0,
        if isSelected then "rgba(66, 133, 244, 0.1)"
        else if isHovered then "rgba(52, 168, 83, 0.05)" else WithOpacity(classColor, "0.05"),
        true,
        (isSelected || isHovered) && interactionEnabled,
        (isSelected || isHovered) && interactionEnabled,
        false,
        "polygon"))
  }

  /**
   * `createFreehandConfig`. Anything but a freehand annotation with points
   * gives the empty configuration. Otherwise the path is simplified with
   * twice the polygon epsilon, the flat points read back as the transformed
   * path, selection wins over hover, and the path is open, transparent and
   * interactive only while selected or hovered.
   */
  function CreateFreehandConfig(
    annotation: CanvasAnnotation, index: int, selectedIndex: Option<int>, hoveredIndex: Option<int>,
    displayTransform: Point -> Point, zoomLevel: real, interactionEnabled: bool)
    : (r: Option<FreehandConfig>)
    ensures r.None? <==> annotation.kind != Freehand || annotation.points.None? || annotation.points.value == []
    ensures r.Some? ==>
      && Pairs(r.value.points) == MapPoints(displayTransform, ProcessedPoints(annotation.points.value, zoomLevel, 2.0))
      && 2 <= |r.value.points| <= 2 * |annotation.points.value|
    ensures r.Some? ==>
      && r.value.stroke == (if selectedIndex == Some(index) then SelectedStroke
                            else if hoveredIndex == Some(index) then HoveredStroke else DefaultColor)
      && r.value.strokeWidth == (if selectedIndex == Some(index) then 4.0
                                 else if hoveredIndex == Some(index) then 3.0 else 2.0)
    ensures r.Some? ==>
      && r.value.draggable == r.value.listening == (IsInteracting(index, selectedIndex, hoveredIndex) && interactionEnabled)
      && r.value.fill == "transparent" && !r.value.closed && r.value.hitStrokeWidth == 20.0
      && r.value.tension == 0.3 && r.value.name == "freehand"
  {
    if annotation.kind != Freehand || annotation.points.None? || annotation.points.value == [] then None
    else
      var processed := ProcessedPoints(annotation.points.value, zoomLevel, 2.0);
      PairsOfFlatten(MapPoints(displayTransform, processed));
      var isSelected := selectedIndex == Some(index);
      var isHovered := hoveredIndex == Some(index);
      Some(FreehandConfig(
        Flatten(MapPoints(displayTransform, processed)),
        if isSelected then SelectedStroke else if isHovered then HoveredStroke else "#00c851",
        if isSelected then 4.0 else if isHovered then 3.0 else 2.0,
        "transparent",
        false,
        (isSelected || isHovered) && interactionEnabled,
        (isSelected || isHovered) && interactionEnabled,
        20.0, 0.3, "round", "round", false, "freehand"))
  }

  /** A freehand path is drawn with no more points than the same points drawn as a polygon. */
  lemma {:induction false} FreehandKeepsNoMore(points: seq<Point>, zoomLevel: real)
    ensures |ProcessedPoints(points, zoomLevel, 2.0)| <= |ProcessedPoints(points, zoomLevel, 1.0)|
  {
    if ShouldSimplifyPolygon(|points|, zoomLevel) {
      var z := Max(zoomLevel, 0.1);
      var e1, e2 := AdaptiveEpsilon(zoomLevel, 1.0), AdaptiveEpsilon(zoomLevel, 2.0);
      assert e2 == 2.0 * e1 by {
        assert e1 * z == 1.0;
        assert e2 * z == 2.0;
      }
      SquareMonotone(e1, e2);
      HigherThresholdKeepsNoMore(points, LineDistSq, Square(e1), Square(e2));
    }
  }

  /** From a zoom of 1.2 on, every point of the annotation is drawn. */
  lemma {:induction false} ZoomedInDrawsEveryPoint(annotation: CanvasAnnotation, index: int, selectedIndex: Option<int>,
      hoveredIndex: Option<int>, displayTransform: Point -> Point, zoomLevel: real, interactionEnabled: bool, classes: seq<string>)
    requires zoomLevel >= 1.2 && annotation.points.Some? && annotation.points.value != []
    ensures CreatePolygonConfig(annotation, index, selectedIndex, hoveredIndex, displayTransform, zoomLevel,
      interactionEnabled, classes).value.points == Flatten(MapPoints(displayTransform, annotation.points.value))
  {
  }
}

=== FILE: annotation_lifecycle.dfy ===
/**
 * The drawing state of the annotation canvas: the annotation being drawn,
 * the freehand or polygon path, the start point, the drawing flags and the
 * mouse position, with starting, completing and cancelling an annotation.
 * The events the component emits are appended to `emitted` in order.
 */
module AnnotationLifecycle {
  import opened Wrappers
  import opened Geometry
  import opened Annotation
  import opened CoordinateUtils

  datatype Event =
    | AnnotationCompleted(annotation: CanvasAnnotation)
    | IsAnnotating(value: bool)
    /** The class selector, shown at the centre of the path; `None` is the `NaN` centre of an empty path. */
    | ShowClassSelector(annotation: CanvasAnnotation, at: Option<Point>)

  /** The sum of a list of numbers, added from the left as `reduce` does. */
  function Sum(xs: seq<real>): real {
    if xs == [] then 0.0 else Sum(xs[..|xs| - 1]) + xs[|xs| - 1]
  }

  /** A sum of `n` numbers in `[lo, hi]` lies in `[n * lo, n * hi]`. */
  lemma {:induction false} SumBounds(xs: seq<real>, lo: real, hi: real)
    requires forall i :: 0 <= i < |xs| ==> lo <= xs[i] <= hi
    ensures |xs| as real * lo <= Sum(xs) <= |xs| as real * hi
  {
    if xs != [] {
      SumBounds(xs[..|xs| - 1], lo, hi);
    }
  }

  /** The centre `completePolygon` shows the class selector at: the mean of the path's points. */
  function Centroid(path: seq<Point>): (c: Option<Point>)
    ensures c.None? <==> path == []
  {
    if path == [] then None
    else Some(Point(Sum(Xs(path)) / |path| as real, Sum(Ys(path)) / |path| as real))
  }

  /** The mean of a non-empty list lies between its least and its greatest member. */
  lemma {:induction false} MeanWithin(xs: seq<real>)
    requires xs != []
    ensures MinOf(xs) <= Sum(xs) / |xs| as real <= MaxOf(xs)
  {
    SumBounds(xs, MinOf(xs), MaxOf(xs));
    QuotientWithin(Sum(xs), |xs| as real, MinOf(xs), MaxOf(xs));
  }

  lemma {:induction false} QuotientWithin(s: real, n: real, lo: real, hi: real)
    requires n > 0.0 && n * lo <= s <= n * hi
    ensures lo <= s / n <= hi
  {
    var m := s / n;
    assert m * n == s;
    assert (m - lo) * n >= 0.0;
    assert (hi - m) * n >= 0.0;
  }

  /** The centre of a non-empty path lies within the path's bounding box. */
  lemma {:induction false} CentroidInBoundingBox(path: seq<Point>)
    requires path != []
    ensures Spans(CalculateBoundingBox(path), Centroid(path).value)
  {
    MeanWithin(Xs(path));
    MeanWithin(Ys(path));
  }

  class AnnotationLifecycle {
    var currentAnnotation: Option<CanvasAnnotation>
    var currentPath: seq<Point>
    var startPoint: Option<Point>
    var isDrawing: bool
    var isDrawingPolygon: bool
    var mousePosition: Option<Point>
    /** The project's classes, when the component was given them. */
    const classes: Option<seq<string>>
    var emitted: seq<Event>

    constructor (classes: Option<seq<string>>)
      ensures this.classes == classes && emitted == []
      ensures Idle()
    {
      this.classes := classes;
      currentAnnotation := None;
      currentPath := [];
      startPoint := None;
      isDrawing := false;
      isDrawingPolygon := false;
      mousePosition := None;
      emitted := [];
    }

    /** Nothing is being drawn: the state `resetAnnotationState` leaves. */
    predicate Idle()
      reads this
    {
      currentAnnotation.None? && currentPath == [] && startPoint.None?
      && !isDrawing && !isDrawingPolygon && mousePosition.None?
    }

    /** `isAnnotationInProgress`. */
    function IsAnnotationInProgress(): (b: bool)
      reads this
      ensures Idle() ==> !b
      ensures CurrentAnnotationType().Some? || isDrawing || isDrawingPolygon ==> b
      ensures b ==> CurrentAnnotationType().Some? || isDrawing || isDrawingPolygon
    {
      currentAnnotation.Some? || isDrawing || isDrawingPolygon
    }

    /** `currentAnnotationType`. */
    function CurrentAnnotationType(): (t: Option<AnnotationType>)
      reads this
      ensures t.Some? <==> currentAnnotation.Some?
      ensures t.Some? ==> t.value == currentAnnotation.value.kind
    {
      if currentAnnotation.Some? then Some(currentAnnotation.value.kind) else None
    }

    /** `resetAnnotationState`: every drawing field is cleared and nothing is emitted. */
    method ResetAnnotationState()
      modifies this
      ensures Idle() && emitted == old(emitted)
    {
      currentAnnotation := None;
      currentPath := [];
      startPoint := None;
      isDrawing := false;
      isDrawingPolygon := false;
      mousePosition := None;
    }

    /**
     * `startAnnotation`: from a cleared state the start point is set and
     * an annotation of `kind` begun at `p`; polygons set only the polygon
     * flag, dots no flag and the other kinds the drawing flag; then
     * `isAnnotating` true is emitted.
     */
    method StartAnnotation(kind: AnnotationType, p: Point)
      modifies this
      ensures startPoint == Some(p) && currentPath == [] && mousePosition.None?
      ensures currentAnnotation == Some(match kind
        case Rectangle => Blank(Rectangle).(startPoint := Some(p), width := Some(0.0), height := Some(0.0))
        case Polygon => Blank(Polygon).(points := Some([p]))
        case Line => Blank(Line).(startPoint := Some(p), endPoint := Some(p))
        case Circle => Blank(Circle).(center := Some(p), radius := Some(0.0))
        case Freehand => Blank(Freehand).(points := Some([p]))
        case Dot => Blank(Dot).(center := Some(p), radius := Some(5.0)))
      ensures isDrawing <==> kind in {Rectangle, Line, Circle, Freehand}
      ensures isDrawingPolygon <==> kind == Polygon
      ensures emitted == old(emitted) + [IsAnnotating(true)]
      ensures IsAnnotationInProgress()
    {
      ResetAnnotationState();
      startPoint := Some(p);
      match kind {
        case Rectangle =>
          currentAnnotation := Some(Blank(Rectangle).(startPoint := Some(p), width := Some(0.0), height := Some(0.0)));
          isDrawing := true;
        case Polygon =>
          isDrawingPolygon := true;
          currentAnnotation := Some(Blank(Polygon).(points := Some([p])));
        case Line =>
          currentAnnotation := Some(Blank(Line).(startPoint := Some(p), endPoint := Some(p)));
          isDrawing := true;
        case Circle =>
          currentAnnotation := Some(Blank(Circle).(center := Some(p), radius := Some(0.0)));
          isDrawing := true;
        case Freehand =>
          currentAnnotation := Some(Blank(Freehand).(points := Some([p])));
          isDrawing := true;
        case Dot =>
          currentAnnotation := Some(Blank(Dot).(center := Some(p), radius := Some(5.0)));
      }
      emitted := emitted + [IsAnnotating(true)];
    }

    /** `completeAnnotation`: the annotation is emitted, then `isAnnotating` false, and the state is cleared. */
    method CompleteAnnotation(a: CanvasAnnotation)
      modifies this
      ensures emitted == old(emitted) + [AnnotationCompleted(a), IsAnnotating(false)]
      ensures Idle() && !IsAnnotationInProgress()
    {
      emitted := emitted + [AnnotationCompleted(a)];
      emitted := emitted + [IsAnnotating(false)];
      ResetAnnotationState();
    }

    /**
     * `completePolygon`. With an annotation that has points: when the
     * project has classes, the class selector is shown at the path's centre
     * and the annotation stays; otherwise it is completed. In every case
     * `isAnnotating` false is emitted last and the polygon flag is cleared.
     */
    method CompletePolygon()
      modifies this
      ensures !isDrawingPolygon && |emitted| > 0 && emitted[|emitted| - 1] == IsAnnotating(false)
      ensures old(currentAnnotation).None? || old(currentAnnotation).value.points.None? ==>
        && emitted == old(emitted) + [IsAnnotating(false)]
        && currentAnnotation == old(currentAnnotation) && currentPath == old(currentPath)
        && isDrawing == old(isDrawing) && startPoint == old(startPoint) && mousePosition == old(mousePosition)
      ensures old(currentAnnotation).Some? && old(currentAnnotation).value.points.Some? && classes.Some? && classes.value != [] ==>
        && emitted == old(emitted) + [ShowClassSelector(old(currentAnnotation).value, Centroid(old(currentPath))), IsAnnotating(false)]
        && currentAnnotation == old(currentAnnotation) && currentPath == old(currentPath)
        && isDrawing == old(isDrawing) && startPoint == old(startPoint) && mousePosition == old(mousePosition)
      ensures old(currentAnnotation).Some? && old(currentAnnotation).value.points.Some? && (classes.None? || classes.value == []) ==>
        && emitted == old(emitted) + [AnnotationCompleted(old(currentAnnotation).value), IsAnnotating(false), IsAnnotating(false)]
        && Idle()
    {
      if currentAnnotation.Some? && currentAnnotation.value.points.Some? {
        if classes.Some? && |classes.value| > 0 {
          emitted := emitted + [ShowClassSelector(currentAnnotation.value, Centroid(currentPath))];
        } else {
          CompleteAnnotation(currentAnnotation.value);
        }
      }
      emitted := emitted + [IsAnnotating(false)];
      isDrawingPolygon := false;
    }

    /**
     * `completeCurrentAnnotation`: with no annotation nothing happens;
     * otherwise it takes the class name when one is given and is completed.
     */
    method CompleteCurrentAnnotation(className: Option<string>)
      modifies this
      ensures old(currentAnnotation).None? ==>
        emitted == old(emitted) && currentAnnotation.None? && currentPath == old(currentPath)
        && isDrawing == old(isDrawing) && isDrawingPolygon == old(isDrawingPolygon)
        && startPoint == old(startPoint) && mousePosition == old(mousePosition)
      ensures old(currentAnnotation).Some? ==>
        var a := old(currentAnnotation).value;
        && emitted == old(emitted)
          + [AnnotationCompleted(if NonEmpty(className) then a.(className := className) else a), IsAnnotating(false)]
        && Idle()
    {
      if currentAnnotation.Some? {
        if NonEmpty(className) {
          currentAnnotation := Some(currentAnnotation.value.(className := className));
        }
        CompleteAnnotation(currentAnnotation.value);
      }
    }

    /** `cancelCurrentAnnotation`: the state is cleared and `isAnnotating` false is emitted. */
    method CancelCurrentAnnotation()
      modifies this
      ensures Idle() && emitted == old(emitted) + [IsAnnotating(false)]
    {
      ResetAnnotationState();
      emitted := emitted + [IsAnnotating(false)];
    }
  }
}

=== FILE: api_url.dfy ===
/**
 * `getFullApiUrl`: turning a path the API returned into a URL the browser
 * can load, by putting the API base URL in front of it. The base URL comes
 * from the runtime configuration and is a parameter here.
 */
module ApiUrl {
  import opened Text

  /** Already a URL the browser can load as it is. */
  predicate IsAbsolute(url: string) {
    StartsWith(url, "http://") || StartsWith(url, "https://") || StartsWith(url, "data:")
  }

  /**
   * Empty stays empty, an absolute or data URL is kept, and anything else
   * becomes the base URL, one slash, and the path: the result starts with
   * the base and ends with the path, and a path that already starts with a
   * slash gets no second one.
   */
  function GetFullApiUrl(relativeUrl: string, apiUrl: string): (r: string)
    ensures relativeUrl == "" ==> r == ""
    ensures IsAbsolute(relativeUrl) ==> r == relativeUrl
    ensures relativeUrl != "" && !IsAbsolute(relativeUrl) ==>
      && StartsWith(r, apiUrl)
      && EndsWith(r, relativeUrl)
      && |r| == |apiUrl| + |relativeUrl| + (if relativeUrl[0] == '/' then 0 else 1)
      && r[|apiUrl|] == '/'
  {
    if relativeUrl == "" then ""
    else if StartsWith(relativeUrl, "http://") || StartsWith(relativeUrl, "https://") then relativeUrl
    else if StartsWith(relativeUrl, "data:") then relativeUrl
    else
      var normalizedUrl := if StartsWith(relativeUrl, "/") then relativeUrl else "/" + relativeUrl;
      apiUrl + normalizedUrl
  }

  /** A prefix of a prefix is a prefix. */
  lemma {:induction false} StartsWithTransitive(s: string, t: string, u: string)
    requires StartsWith(s, t) && StartsWith(t, u)
    ensures StartsWith(s, u)
  {
    assert s[..|u|] == t[..|t|][..|u|];
  }

  /**
   * With an absolute base URL, or none at all, the conversion is
   * idempotent: a converted URL is converted to itself.
   */
  lemma {:induction false} GetFullApiUrlIdempotent(relativeUrl: string, apiUrl: string)
    requires apiUrl == "" || StartsWith(apiUrl, "http://") || StartsWith(apiUrl, "https://")
    ensures GetFullApiUrl(GetFullApiUrl(relativeUrl, apiUrl), apiUrl) == GetFullApiUrl(relativeUrl, apiUrl)
  {
    var r := GetFullApiUrl(relativeUrl, apiUrl);
    if relativeUrl != "" && !IsAbsolute(relativeUrl) {
      if apiUrl == "" {
        assert StartsWith(r, "/");
        assert r != "";
      } else if StartsWith(apiUrl, "http://") {
        StartsWithTransitive(r, apiUrl, "http://");
      } else {
        StartsWithTransitive(r, apiUrl, "https://");
      }
    }
  }

  /**
   * With a relative base URL, one that starts with a slash, the base is put
   * in front again on every pass, so the conversion is not idempotent.
   */
  lemma {:induction false} RelativeBaseRepeats(relativeUrl: string, apiUrl: string)
    requires relativeUrl != "" && !IsAbsolute(relativeUrl) && StartsWith(apiUrl, "/")
    ensures GetFullApiUrl(GetFullApiUrl(relativeUrl, apiUrl), apiUrl) == apiUrl + GetFullApiUrl(relativeUrl, apiUrl)
    ensures GetFullApiUrl(GetFullApiUrl(relativeUrl, apiUrl), apiUrl) != GetFullApiUrl(relativeUrl, apiUrl)
  {
    var r := GetFullApiUrl(relativeUrl, apiUrl);
    StartsWithTransitive(r, apiUrl, "/");
    assert r[0] == '/';
    assert !StartsWith(r, "http://") && !StartsWith(r, "https://") && !StartsWith(r, "data:");
  }
}

=== FILE: backend_relations.dfy ===
/**
 * The inference backends available to an organization, cached per
 * organization, and the one selected for use, which is kept in local
 * storage across visits.
 *
 * The server's answer and the stored id are parameters; local storage is
 * the field `storedId`.
 */
module BackendRelations {
  import opened Wrappers
  import Seqs
  import Text

  /** An organization id as the callers pass it: a number or a string. */
  datatype OrgId = OrgNumber(n: int) | OrgString(s: string)

  predicate TruthyOrg(o: OrgId) {
    match o
    case OrgNumber(n) => n != 0
    case OrgString(s) => s != ""
  }

  /** `organizationId.toString()`, the key of the cache. */
  function OrgKey(o: OrgId): string {
    match o
    case OrgNumber(n) => Text.IntToString(n)
    case OrgString(s) => s
  }

  /**
   * A number and its decimal text name the same cache entry, and two
   * different numbers never share one.
   */
  lemma {:induction false} NumberAndTextShareKey(a: int, b: int)
    ensures OrgKey(OrgNumber(a)) == OrgKey(OrgString(Text.IntToString(a)))
    ensures OrgKey(OrgNumber(a)) == OrgKey(OrgNumber(b)) ==> a == b
  {
    var ka, kb := OrgKey(OrgNumber(a)), OrgKey(OrgNumber(b));
    if ka == kb {
      if a < 0 && b < 0 {
        assert ka[1..] == Text.NatToString(-a) && kb[1..] == Text.NatToString(-b);
        Text.NatToStringInjective(-a, -b);
      } else if a >= 0 && b >= 0 {
        Text.NatToStringInjective(a, b);
      }
    }
  }

  datatype Backend = Backend(id: int, name: string)

  predicate TruthyId(id: Option<int>) { id.Some? && id.value != 0 }

  /** Some backend of the list has the id. */
  predicate Listed(list: seq<Backend>, id: int) {
    exists i :: 0 <= i < |list| && list[i].id == id
  }

  /**
   * The selection after a list was fetched: with no (or a zero) selection,
   * the first backend; with a selection the list does not hold, the first
   * backend too; otherwise it is kept. An empty list changes nothing.
   */
  function SelectAfterFetch(selected: Option<int>, list: seq<Backend>): (r: Option<int>)
    ensures list != [] ==> r.Some? && Listed(list, r.value)
    ensures list == [] ==> r == selected
    ensures TruthyId(selected) && Listed(list, selected.value) ==> r == selected
    ensures list != [] && !(TruthyId(selected) && Listed(list, selected.value)) ==> r == Some(list[0].id)
  {
    if !TruthyId(selected) && |list| > 0 then
      assert Listed(list, list[0].id);
      Some(list[0].id)
    else if TruthyId(selected) then
      var sel := selected.value;
      var exists_ := Seqs.Find(list, (b: Backend) => b.id == sel);
      if exists_.None? && |list| > 0 then
        assert Listed(list, list[0].id);
        Some(list[0].id)
      else selected
    else selected
  }

  class BackendRelationsState {
    var backends: map<string, seq<Backend>>
    var selectedBackendId: Option<int>
    /** The id kept in local storage, if any. */
    var storedId: Option<int>

    constructor (storedId: Option<int>)
      ensures backends == map[] && selectedBackendId.None? && this.storedId == storedId
    {
      backends := map[];
      selectedBackendId := None;
      this.storedId := storedId;
    }

    /** On setup, an unset selection is taken from local storage. */
    method InitFromStorage()
      modifies this
      ensures selectedBackendId == if old(selectedBackendId).None? then storedId else old(selectedBackendId)
      ensures backends == old(backends) && storedId == old(storedId)
    {
      if selectedBackendId.None? && storedId.Some? {
        selectedBackendId := storedId;
      }
    }

    /** `getBackends`: the cached list, empty for a falsy id or an unknown organization. */
    function GetBackends(org: OrgId): (list: seq<Backend>)
      reads this
      ensures !TruthyOrg(org) ==> list == []
      ensures TruthyOrg(org) && OrgKey(org) in backends ==> list == backends[OrgKey(org)]
      ensures TruthyOrg(org) && OrgKey(org) !in backends ==> list == []
    {
      if !TruthyOrg(org) then []
      else if OrgKey(org) in backends then backends[OrgKey(org)]
      else []
    }

    /** `getSelectedBackend`: the organization's backend whose id is the selection, if any. */
    function GetSelectedBackend(org: OrgId): (r: Option<Backend>)
      reads this
      ensures r.Some? ==> r.value in GetBackends(org) && selectedBackendId == Some(r.value.id)
      ensures r.None? <==> selectedBackendId.None? || !Listed(GetBackends(org), selectedBackendId.value)
    {
      var list := GetBackends(org);
      var sel := selectedBackendId;
      Seqs.Find(list, (b: Backend) => sel == Some(b.id))
    }

    /**
     * `fetchBackends`: nothing for a falsy organization id; the cached
     * list when not forced and it is non-empty; otherwise the fetched list,
     * which replaces the cache and may move the selection onto it. A failed
     * request, or an answer without a list, returns what is cached (nothing
     * on failure) and changes nothing.
     */
    method FetchBackends(org: OrgId, force: bool, answer: Option<Option<seq<Backend>>>) returns (list: seq<Backend>)
      modifies this
      ensures !TruthyOrg(org) ==> list == [] && backends == old(backends) && selectedBackendId == old(selectedBackendId)
      ensures TruthyOrg(org) && !force && OrgKey(org) in old(backends) && old(backends)[OrgKey(org)] != [] ==>
        list == old(backends)[OrgKey(org)] && backends == old(backends) && selectedBackendId == old(selectedBackendId)
      ensures TruthyOrg(org) && !(!force && OrgKey(org) in old(backends) && old(backends)[OrgKey(org)] != []) ==>
        match answer
        case None => list == [] && backends == old(backends) && selectedBackendId == old(selectedBackendId)
        case Some(None) => list == old(GetBackends(org)) && backends == old(backends)
                           && selectedBackendId == old(selectedBackendId)
        case Some(Some(fetched)) =>
          && list == fetched && backends == old(backends)[OrgKey(org) := fetched]
          && selectedBackendId == SelectAfterFetch(old(selectedBackendId), fetched)
          && (fetched != [] ==> GetSelectedBackend(org).Some?)
      ensures storedId == old(storedId)
    {
      if !TruthyOrg(org) {
        return [];
      }
      var key := OrgKey(org);
      if !force && key in backends && |backends[key]| > 0 {
        return backends[key];
      }
      match answer
      case None =>
        list := [];
      case Some(data) =>
        if data.Some? {
          backends := backends[key := data.value];
          selectedBackendId := SelectAfterFetch(selectedBackendId, data.value);
          list := data.value;
          if data.value != [] {
            var i :| 0 <= i < |data.value| && data.value[i].id == selectedBackendId.value;
            assert GetBackends(org)[i] == data.value[i];
          }
        } else {
          list := if key in backends then backends[key] else [];
        }
    }

    /** `setSelectedBackend`: the selection, kept in local storage when truthy and removed from it otherwise. */
    method SetSelectedBackend(id: Option<int>)
      modifies this
      ensures selectedBackendId == id
      ensures storedId == if TruthyId(id) then id else None
      ensures backends == old(backends)
    {
      selectedBackendId := id;
      storedId := if TruthyId(id) then id else None;
    }
  }
}

=== FILE: canvas_review.dfy ===
/**
 * The review popup that opens when an annotation is clicked on the canvas:
 * which annotations may be reviewed there, and the popup state, which is
 * hidden at once on close and cleared by a timer 200 ms later.
 *
 * The timer is the explicit event `ClearTimerFires`; `pendingClears`
 * counts the timers started by closes that have not fired yet.
 */
module CanvasReview {
  import opened Wrappers
  import ReviewWorkflow
  import Tasks

  /**
   * `checkAnnotationReviewable`: the review is still open (pending or
   * changes requested) and the task is waiting on a reviewer or on changes.
   * A missing status is never reviewable.
   */
  function CheckAnnotationReviewable(reviewStatus: Option<string>, taskStatus: Option<string>): (b: bool)
    ensures b ==> reviewStatus.Some? && taskStatus.Some?
    ensures b ==> !ReviewWorkflow.IsReviewApproved(reviewStatus.value) && taskStatus.value != "completed"
    ensures b <==> && reviewStatus.Some? && taskStatus.Some?
                   && (ReviewWorkflow.IsReviewPending(reviewStatus.value)
                       || (ReviewWorkflow.IsReviewNeedsChanges(reviewStatus.value) && reviewStatus.value != "rejected"))
                   && Tasks.ParseStatus(taskStatus.value) in {Some(Tasks.InReview), Some(Tasks.ChangesNeeded)}
  {
    && (reviewStatus == Some("pending") || reviewStatus == Some("changes_requested"))
    && (taskStatus == Some("in_review") || taskStatus == Some("changes_needed"))
  }

  /**
   * A reviewable annotation's task is in the review workflow. The canvas
   * also offers a review for a task waiting on changes, which the submit
   * check of the review pages refuses.
   */
  lemma {:induction false} ReviewableIsInWorkflow(reviewStatus: Option<string>, taskStatus: Option<string>,
                                                  a: ReviewWorkflow.AnnotationForWorkflow, userId: int,
                                                  settings: ReviewWorkflow.ProjectReviewSettings)
    requires CheckAnnotationReviewable(reviewStatus, taskStatus)
    ensures Tasks.ParseStatus(taskStatus.value).Some?
    ensures Tasks.IsInReviewWorkflow(Tasks.Task(0, 0, Tasks.ParseStatus(taskStatus.value).value, None, 0, 0, 0))
    ensures a.status == taskStatus && taskStatus == Some("changes_needed")
      ==> !ReviewWorkflow.CanUserSubmitReview(a, userId, settings).can
  {
  }

  class CanvasReviewState {
    var isPopupVisible: bool
    var selectedAnnotationId: Option<int>
    var projectId: Option<int>
    var popupX: real
    var popupY: real
    var isAnnotationReviewable: bool
    /** Clearing timers started by `closeReviewPopup` that have not fired yet. */
    var pendingClears: nat

    /** Nothing selected, hidden, at the origin, not reviewable. */
    predicate Cleared()
      reads this
    {
      !isPopupVisible && selectedAnnotationId.None? && projectId.None?
      && popupX == 0.0 && popupY == 0.0 && !isAnnotationReviewable
    }

    constructor ()
      ensures Cleared() && pendingClears == 0
    {
      isPopupVisible := false;
      selectedAnnotationId := None;
      projectId := None;
      popupX, popupY := 0.0, 0.0;
      isAnnotationReviewable := false;
      pendingClears := 0;
    }

    /**
     * `openReviewPopup`: selects the annotation and its project, places the
     * popup at the click and shows it; `isReviewable` defaults to true at
     * the call site.
     */
    method OpenReviewPopup(annotationId: int, project: int, x: real, y: real, isReviewable: bool)
      modifies this
      ensures isPopupVisible && selectedAnnotationId == Some(annotationId) && projectId == Some(project)
      ensures popupX == x && popupY == y && isAnnotationReviewable == isReviewable
      ensures pendingClears == old(pendingClears)
    {
      selectedAnnotationId := Some(annotationId);
      projectId := Some(project);
      popupX, popupY := x, y;
      isAnnotationReviewable := isReviewable;
      isPopupVisible := true;
    }

    /**
     * `closeReviewPopup`: hides the popup at once and leaves the selection
     * in place for the exit animation; a timer will clear it.
     */
    method CloseReviewPopup()
      modifies this
      ensures !isPopupVisible
      ensures selectedAnnotationId == old(selectedAnnotationId) && projectId == old(projectId)
      ensures popupX == old(popupX) && popupY == old(popupY) && isAnnotationReviewable == old(isAnnotationReviewable)
      ensures pendingClears == old(pendingClears) + 1
    {
      isPopupVisible := false;
      pendingClears := pendingClears + 1;
    }

    /** The close timer: it clears the selection whether or not the popup was opened again since. */
    method ClearTimerFires()
      requires pendingClears > 0
      modifies this
      ensures selectedAnnotationId.None? && projectId.None?
      ensures popupX == 0.0 && popupY == 0.0 && !isAnnotationReviewable
      ensures isPopupVisible == old(isPopupVisible)
      ensures pendingClears == old(pendingClears) - 1
    {
      selectedAnnotationId := None;
      projectId := None;
      popupX, popupY := 0.0, 0.0;
      isAnnotationReviewable := false;
      pendingClears := pendingClears - 1;
    }

    /** `onReviewSuccess`: closes the popup, nothing more. */
    method OnReviewSuccess(review: ReviewWorkflow.Review)
      modifies this
      ensures !isPopupVisible
      ensures selectedAnnotationId == old(selectedAnnotationId) && projectId == old(projectId)
      ensures popupX == old(popupX) && popupY == old(popupY) && isAnnotationReviewable == old(isAnnotationReviewable)
      ensures pendingClears == old(pendingClears) + 1
    {
      CloseReviewPopup();
    }
  }

  /** A close followed by its timer leaves the popup fully cleared. */
  method CloseThenTimer(s: CanvasReviewState)
    requires s.pendingClears == 0
    modifies s
    ensures s.Cleared() && s.pendingClears == 0
  {
    s.CloseReviewPopup();
    s.ClearTimerFires();
  }

  /**
   * Reopening within 200 ms of a close: the earlier close's timer still
   * fires and empties the selection of the popup now on screen.
   */
  method ReopenBeforeTimer(s: CanvasReviewState, annotationId: int, project: int, x: real, y: real)
    requires s.pendingClears == 0
    modifies s
    ensures s.isPopupVisible && s.selectedAnnotationId.None? && s.projectId.None?
  {
    s.CloseReviewPopup();
    s.OpenReviewPopup(annotationId, project, x, y, true);
    s.ClearTimerFires();
  }
}

=== FILE: class_color_palette.dfy ===
/**
 * Class colours: the class at position `i` of the project's class list is
 * drawn in the `i mod 20`-th colour of a fixed palette, anything else in
 * the default green; and the `#RRGGBB` to `rgba(r, g, b, o)` conversion
 * used for translucent fills.
 */
module ClassColorPalette {
  import opened Wrappers
  import opened Text

  const Palette: seq<string> := [
    "#FF6B6B", "#4ECDC4", "#45B7D1", "#FFA07A", "#98D8C8",
    "#F7DC6F", "#BB8FCE", "#85C1E2", "#F8B739", "#52B788",
    "#E76F51", "#8E7CC3", "#F4A261", "#2A9D8F", "#E63946",
    "#A8DADC", "#457B9D", "#F1FAEE", "#E9C46A", "#264653"]

  const DefaultColor := "#00c851"

  /** `xs.indexOf(x)`: the first position holding `x`, or -1. */
  function IndexOf(xs: seq<string>, x: string): (i: int)
    ensures -1 <= i < |xs|
    ensures i == -1 <==> x !in xs
    ensures i >= 0 ==> xs[i] == x && x !in xs[..i]
  {
    if xs == [] then -1
    else if xs[0] == x then 0
    else
      var j := IndexOf(xs[1..], x);
      assert xs[1..] == xs[1..];
      if j == -1 then -1
      else
        assert xs[..j + 1] == [xs[0]] + xs[1..][..j];
        j + 1
  }

  /**
   * `getClassColor`: the default colour for a missing or empty class name,
   * an empty class list or a name not in the list; otherwise the palette
   * colour at the name's first position modulo 20.
   */
  function GetClassColor(className: Option<string>, classes: seq<string>): (c: string)
    ensures c in Palette || c == DefaultColor
    ensures className.None? || className.value == "" || className.value !in classes ==> c == DefaultColor
    ensures className.Some? && className.value != "" && className.value in classes ==>
      c == Palette[IndexOf(classes, className.value) % |Palette|]
  {
    if className.None? || className.value == "" || |classes| == 0 then DefaultColor
    else
      var index := IndexOf(classes, className.value);
      if index == -1 then DefaultColor else Palette[index % |Palette|]
  }

  /** The twenty palette colours are pairwise different. */
  lemma {:induction false} PaletteDistinct()
    ensures forall i, j :: 0 <= i < j < |Palette| ==> Palette[i] != Palette[j]
  {
    forall i, j | 0 <= i < j < |Palette| ensures Palette[i] != Palette[j] {
      assert Palette[i][1..3] != Palette[j][1..3] || Palette[i][3..] != Palette[j][3..];
    }
  }

  /**
   * Two classes of one list share a colour exactly when their positions
   * differ by a multiple of 20.
   */
  lemma {:induction false} SameColorIffSamePaletteSlot(classes: seq<string>, a: string, b: string)
    requires a != "" && b != "" && a in classes && b in classes
    ensures GetClassColor(Some(a), classes) == GetClassColor(Some(b), classes)
      <==> IndexOf(classes, a) % 20 == IndexOf(classes, b) % 20
  {
    PaletteDistinct();
  }

  predicate IsHexDigit(c: char) {
    '0' <= c <= '9' || 'a' <= c <= 'f' || 'A' <= c <= 'F'
  }

  function HexDigitValue(c: char): (v: nat)
    requires IsHexDigit(c)
    ensures v < 16
  {
    if '0' <= c <= '9' then c as int - '0' as int
    else if 'a' <= c <= 'f' then c as int - 'a' as int + 10
    else c as int - 'A' as int + 10
  }

  predicate AllHex(s: string) {
    forall i :: 0 <= i < |s| ==> IsHexDigit(s[i])
  }

  /** The number a string of hexadecimal digits denotes. */
  function HexValue(s: string): nat
    requires AllHex(s)
  {
    if s == [] then 0 else HexValue(s[..|s| - 1]) * 16 + HexDigitValue(s[|s| - 1])
  }

  /** How many hexadecimal digits `s` starts with. */
  function LeadingHexCount(s: string): (k: nat)
    ensures k <= |s| && AllHex(s[..k])
    ensures k < |s| ==> !IsHexDigit(s[k])
  {
    if s == [] || !IsHexDigit(s[0]) then 0
    else
      var k := LeadingHexCount(s[1..]);
      assert s[..k + 1] == [s[0]] + s[1..][..k];
      k + 1
  }

  /** A run of hexadecimal digits has no white space to skip and is all digits. */
  lemma PlainHexIsWhole(s: string)
    requires AllHex(s) && s != []
    ensures TrimStart(s) == s && s[0] !in "+-"
    ensures LeadingHexCount(s) == |s| && s[..|s|] == s
  {
    assert IsHexDigit(s[0]);
    assert !IsWhitespace(s[0]);
  }

  /**
   * `parseInt(s, 16)`: leading white space is skipped, then one sign, then
   * a `0x` or `0X` prefix; the longest run of hexadecimal digits that
   * follows is the value, and no digit at all is `NaN` (`None`).
   */
  function ParseHexInt(s: string): (r: Option<int>)
    ensures AllHex(s) && s != [] && !(|s| >= 2 && s[0] == '0' && s[1] in "xX") ==> r == Some(HexValue(s))
  {
    var t := TrimStart(s);
    var negative := t != [] && t[0] == '-';
    var unsigned := if t != [] && t[0] in "+-" then t[1..] else t;
    var digits := if |unsigned| >= 2 && unsigned[0] == '0' && unsigned[1] in "xX" then unsigned[2..] else unsigned;
    var k := LeadingHexCount(digits);
    assert AllHex(s) && s != [] && !(|s| >= 2 && s[0] == '0' && s[1] in "xX") ==> !negative && k == |s| > 0 && digits[..k] == s by {
      if AllHex(s) && s != [] && !(|s| >= 2 && s[0] == '0' && s[1] in "xX") {
        PlainHexIsWhole(s);
      }
    }
    var magnitude: int := if k == 0 then 0 else HexValue(digits[..k]);
    if k == 0 then None
    else if negative then Some(-magnitude)
    else Some(magnitude)
  }

  /** `s.slice(a, b)` for `0 <= a <= b`: the indices are cut back to the length. */
  function Slice(s: string, a: nat, b: nat): (r: string)
    requires a <= b
    ensures |r| <= b - a
  {
    var hi := if b <= |s| then b else |s|;
    var lo := if a <= hi then a else hi;
    s[lo..hi]
  }

  /** How a parsed component is printed in the template: `NaN` when nothing parsed. */
  function ComponentText(n: Option<int>): string {
    if n.None? then "NaN" else IntToString(n.value)
  }

  /**
   * `withOpacity`: the digit pairs at positions 1-2, 3-4 and 5-6 read as
   * hexadecimal numbers, printed as `rgba(r, g, b, opacity)`. `opacity` is
   * the text JavaScript prints for the number.
   */
  function WithOpacity(hex: string, opacity: string): (r: string)
    ensures |r| >= |opacity| + 12 && r[..5] == "rgba(" && r[|r| - 1] == ')'
    ensures r[|r| - 1 - |opacity|..|r| - 1] == opacity
  {
    RgbaText(ComponentText(ParseHexInt(Slice(hex, 1, 3))),
             ComponentText(ParseHexInt(Slice(hex, 3, 5))),
             ComponentText(ParseHexInt(Slice(hex, 5, 7))), opacity)
  }

  /** The template `rgba(${r}, ${g}, ${b}, ${opacity})`. */
  function RgbaText(r: string, g: string, b: string, opacity: string): (t: string)
    ensures |t| == |r| + |g| + |b| + |opacity| + 12
    ensures t[..5] == "rgba(" && t[|t| - 1] == ')' && t[|t| - 1 - |opacity|..|t| - 1] == opacity
  {
    var head := "rgba(" + r + ", " + g + ", " + b + ", ";
    assert "rgba(" + r + ", " + g + ", " + b + ", " + opacity + ")" == head + opacity + ")";
    assert head[..5] == "rgba(";
    head + opacity + ")"
  }

  /** `#` followed by six hexadecimal digits. */
  predicate IsHexColor(c: string) {
    |c| == 7 && c[0] == '#' && AllHex(c[1..])
  }

  /** The text `rgba(r, g, b, opacity)`. */
  function Rgba(r: nat, g: nat, b: nat, opacity: string): string {
    RgbaText(NatToString(r), NatToString(g), NatToString(b), opacity)
  }

  /** Two hexadecimal digits denote a number below 256. */
  lemma {:induction false} TwoDigitsValue(s: string)
    requires |s| == 2 && AllHex(s)
    ensures HexValue(s) == HexDigitValue(s[0]) * 16 + HexDigitValue(s[1]) < 256
  {
    var d0, d1 := HexDigitValue(s[0]), HexDigitValue(s[1]);
    assert s[..1][..0] == [] && s[..1][0] == s[0];
    assert HexValue(s[..1]) == d0;
    assert d0 * 16 <= 240;
  }

  /** The two characters at `i` of a colour are hexadecimal digits. */
  lemma {:induction false} HexPairOfColor(c: string, i: nat)
    requires IsHexColor(c) && 1 <= i <= 5
    ensures |c[i..i + 2]| == 2 && AllHex(c[i..i + 2])
  {
    assert c[1..][i - 1] == c[i] && c[1..][i] == c[i + 1];
    assert c[i..i + 2][0] == c[i] && c[i..i + 2][1] == c[i + 1];
  }

  /** The component a digit pair of a colour denotes. */
  function Component(c: string, i: nat): (n: nat)
    requires IsHexColor(c) && 1 <= i <= 5
    ensures n < 256
  {
    HexPairOfColor(c, i);
    TwoDigitsValue(c[i..i + 2]);
    HexValue(c[i..i + 2])
  }

  /** A `#RRGGBB` colour turns into the `rgba` text of its three components. */
  lemma {:induction false} WithOpacityOfHexColor(c: string, opacity: string)
    requires IsHexColor(c)
    ensures WithOpacity(c, opacity) == Rgba(Component(c, 1), Component(c, 3), Component(c, 5), opacity)
  {
    PairText(c, 1);
    PairText(c, 3);
    PairText(c, 5);
  }

  /** The digit pair at `i` of a colour is printed as its component. */
  lemma {:induction false} PairText(c: string, i: nat)
    requires IsHexColor(c) && 1 <= i <= 5
    ensures ComponentText(ParseHexInt(Slice(c, i, i + 2))) == NatToString(Component(c, i))
  {
    ParsePair(c, i);
  }

  /** The digit pair at `i` of a colour parses to its component. */
  lemma {:induction false} ParsePair(c: string, i: nat)
    requires IsHexColor(c) && 1 <= i <= 5
    ensures ParseHexInt(Slice(c, i, i + 2)) == Some(Component(c, i))
  {
    var p := c[i..i + 2];
    assert Slice(c, i, i + 2) == p;
    HexPairOfColor(c, i);
    assert !(p[1] in "xX") by { assert IsHexDigit(p[1]); }
  }

  /** Every palette colour and the default are `#RRGGBB` colours. */
  lemma {:induction false} PaletteColorsAreHex()
    ensures IsHexColor(DefaultColor)
    ensures forall i :: 0 <= i < |Palette| ==> IsHexColor(Palette[i])
  {
    forall i | 0 <= i < |Palette| ensures IsHexColor(Palette[i]) {
      assert forall j :: 1 <= j < 7 ==> Palette[i][1..][j - 1] == Palette[i][j];
    }
  }

  /** The fill of a class colour is a well-formed `rgba` text with components below 256. */
  lemma {:induction false} ClassFillIsRgba(className: Option<string>, classes: seq<string>, opacity: string)
    ensures IsHexColor(GetClassColor(className, classes))
    ensures var c := GetClassColor(className, classes);
      WithOpacity(c, opacity) == Rgba(Component(c, 1), Component(c, 3), Component(c, 5), opacity)
  {
    var c := GetClassColor(className, classes);
    PaletteColorsAreHex();
    assert IsHexColor(c);
    WithOpacityOfHexColor(c, opacity);
  }
}

=== FILE: coordinate_utils.dfy ===
/**
 * Conversions between display (stage) coordinates and original image
 * coordinates for an image drawn at `scale` with its top-left corner at
 * `offset`, the bounds test and clamp against the displayed image, and the
 * rectangle centre and bounding box of a point list.
 */
module CoordinateUtils {
  import opened Wrappers
  import opened Geometry

  datatype Size = Size(width: real, height: real)

  /** The current values of the `imageScale`, `imageOffset` and optional `displayImageSize` refs. */
  datatype View = View(scale: real, offset: Point, displaySize: Option<Size>)

  /** `displayToOriginal`: the image point that the stage scale and offset put at `p`. */
  function DisplayToOriginal(v: View, p: Point): (q: Point)
    requires v.scale != 0.0
    ensures q.x * v.scale + v.offset.x == p.x && q.y * v.scale + v.offset.y == p.y
  {
    Point((p.x - v.offset.x) / v.scale, (p.y - v.offset.y) / v.scale)
  }

  /** `originalToDisplay`: the image point scaled and then offset onto the stage. */
  function OriginalToDisplay(v: View, p: Point): (q: Point)
    ensures v.scale != 0.0 ==> (q.x - v.offset.x) / v.scale == p.x && (q.y - v.offset.y) / v.scale == p.y
  {
    Point(p.x * v.scale + v.offset.x, p.y * v.scale + v.offset.y)
  }

  /** Going to the image and back to the stage returns the stage point. */
  lemma {:induction false} DisplayRoundTrip(v: View, p: Point)
    requires v.scale != 0.0
    ensures OriginalToDisplay(v, DisplayToOriginal(v, p)) == p
  {
    var s := v.scale;
    assert (p.x - v.offset.x) / s * s == p.x - v.offset.x;
    assert (p.y - v.offset.y) / s * s == p.y - v.offset.y;
  }

  /** Going to the stage and back to the image returns the image point. */
  lemma {:induction false} OriginalRoundTrip(v: View, p: Point)
    requires v.scale != 0.0
    ensures DisplayToOriginal(v, OriginalToDisplay(v, p)) == p
  {
    var s := v.scale;
    assert (p.x * s) / s == p.x;
    assert (p.y * s) / s == p.y;
  }

  /** `displaySizeToOriginal`: the image size that the stage scale shows as `size`. */
  function DisplaySizeToOriginal(v: View, size: Size): (s: Size)
    requires v.scale != 0.0
    ensures s.width * v.scale == size.width && s.height * v.scale == size.height
  {
    Size(size.width / v.scale, size.height / v.scale)
  }

  /** `originalSizeToDisplay`: the image size scaled onto the stage; the offset plays no part. */
  function OriginalSizeToDisplay(v: View, size: Size): (s: Size)
    ensures v.scale != 0.0 ==> s.width / v.scale == size.width && s.height / v.scale == size.height
  {
    Size(size.width * v.scale, size.height * v.scale)
  }

  /** The two size conversions undo each other. */
  lemma {:induction false} SizeRoundTrips(v: View, size: Size)
    requires v.scale != 0.0
    ensures OriginalSizeToDisplay(v, DisplaySizeToOriginal(v, size)) == size
    ensures DisplaySizeToOriginal(v, OriginalSizeToDisplay(v, size)) == size
  {
    var s := v.scale;
    assert size.width / s * s == size.width;
    assert size.height / s * s == size.height;
    assert (size.width * s) / s == size.width;
    assert (size.height * s) / s == size.height;
  }

  /** `isPointInImageBounds`: inside the displayed image, edges included; always true without a display size. */
  function IsPointInImageBounds(v: View, p: Point): (b: bool)
    ensures v.displaySize.None? ==> b
    ensures b && v.displaySize.Some? ==> 0.0 <= p.x - v.offset.x <= v.displaySize.value.width
    ensures b && v.displaySize.Some? ==> 0.0 <= p.y - v.offset.y <= v.displaySize.value.height
  {
    v.displaySize.None? ||
    (v.offset.x <= p.x <= v.offset.x + v.displaySize.value.width &&
     v.offset.y <= p.y <= v.offset.y + v.displaySize.value.height)
  }

  /**
   * `clampPointToImageBounds`. Without a display size the point is returned
   * as it is; with a non-negative one the result is inside the image; a
   * point already inside is not moved.
   */
  function ClampPointToImageBounds(v: View, p: Point): (q: Point)
    ensures v.displaySize.None? ==> q == p
    ensures v.displaySize.Some? && v.displaySize.value.width >= 0.0 && v.displaySize.value.height >= 0.0
      ==> IsPointInImageBounds(v, q)
    ensures IsPointInImageBounds(v, p) ==> q == p
  {
    match v.displaySize
    case None => p
    case Some(size) =>
      Point(Max(v.offset.x, Min(p.x, v.offset.x + size.width)),
            Max(v.offset.y, Min(p.y, v.offset.y + size.height)))
  }

  /** Clamping a clamped point changes nothing. */
  lemma {:induction false} ClampIdempotent(v: View, p: Point)
    requires v.displaySize.Some? ==> v.displaySize.value.width >= 0.0 && v.displaySize.value.height >= 0.0
    ensures ClampPointToImageBounds(v, ClampPointToImageBounds(v, p)) == ClampPointToImageBounds(v, p)
  {
  }

  /** `displayPointsToOriginal`: each point converted, in order. */
  function DisplayPointsToOriginal(v: View, ps: seq<Point>): (r: seq<Point>)
    requires v.scale != 0.0
    ensures |r| == |ps| && forall i :: 0 <= i < |ps| ==> r[i] == DisplayToOriginal(v, ps[i])
  {
    seq(|ps|, i requires 0 <= i < |ps| => DisplayToOriginal(v, ps[i]))
  }

  /** `originalPointsToDisplay`: each point converted, in order. */
  function OriginalPointsToDisplay(v: View, ps: seq<Point>): (r: seq<Point>)
    ensures |r| == |ps| && forall i :: 0 <= i < |ps| ==> r[i] == OriginalToDisplay(v, ps[i])
  {
    seq(|ps|, i requires 0 <= i < |ps| => OriginalToDisplay(v, ps[i]))
  }

  /** Converting a point list to the image and back gives the list back. */
  lemma {:induction false} PointListRoundTrip(v: View, ps: seq<Point>)
    requires v.scale != 0.0
    ensures OriginalPointsToDisplay(v, DisplayPointsToOriginal(v, ps)) == ps
    ensures DisplayPointsToOriginal(v, OriginalPointsToDisplay(v, ps)) == ps
  {
    forall i | 0 <= i < |ps|
      ensures OriginalPointsToDisplay(v, DisplayPointsToOriginal(v, ps))[i] == ps[i]
      ensures DisplayPointsToOriginal(v, OriginalPointsToDisplay(v, ps))[i] == ps[i]
    {
      DisplayRoundTrip(v, ps[i]);
      OriginalRoundTrip(v, ps[i]);
    }
  }

  /** `calculateRectangleCenter`: half the size from the start corner. */
  function CalculateRectangleCenter(start: Point, size: Size): (c: Point)
    ensures c.x - start.x == start.x + size.width - c.x
    ensures c.y - start.y == start.y + size.height - c.y
  {
    Point(start.x + size.width / 2.0, start.y + size.height / 2.0)
  }

  datatype BoundingBox = BoundingBox(minX: real, minY: real, maxX: real, maxY: real, width: real, height: real)

  function Xs(ps: seq<Point>): (r: seq<real>)
    ensures |r| == |ps| && forall i :: 0 <= i < |ps| ==> r[i] == ps[i].x
  {
    seq(|ps|, i requires 0 <= i < |ps| => ps[i].x)
  }

  function Ys(ps: seq<Point>): (r: seq<real>)
    ensures |r| == |ps| && forall i :: 0 <= i < |ps| ==> r[i] == ps[i].y
  {
    seq(|ps|, i requires 0 <= i < |ps| => ps[i].y)
  }

  /** `Math.min(...xs)` of a non-empty list: a member no larger than any other. */
  function MinOf(xs: seq<real>): (m: real)
    requires |xs| > 0
    ensures forall i :: 0 <= i < |xs| ==> m <= xs[i]
    ensures exists i :: 0 <= i < |xs| && xs[i] == m
  {
    if |xs| == 1 then xs[0]
    else
      var rest := MinOf(xs[1..]);
      assert forall i :: 1 <= i < |xs| ==> xs[i] == xs[1..][i - 1];
      Min(xs[0], rest)
  }

  /** `Math.max(...xs)` of a non-empty list: a member no smaller than any other. */
  function MaxOf(xs: seq<real>): (m: real)
    requires |xs| > 0
    ensures forall i :: 0 <= i < |xs| ==> xs[i] <= m
    ensures exists i :: 0 <= i < |xs| && xs[i] == m
  {
    if |xs| == 1 then xs[0]
    else
      var rest := MaxOf(xs[1..]);
      assert forall i :: 1 <= i < |xs| ==> xs[i] == xs[1..][i - 1];
      Max(xs[0], rest)
  }

  /** The box spans `p` when `p` lies inside it, edges included. */
  predicate Spans(b: BoundingBox, p: Point) {
    b.minX <= p.x <= b.maxX && b.minY <= p.y <= b.maxY
  }

  /**
   * `calculateBoundingBox`: all zeros for no points; otherwise the smallest
   * box holding every point, each of its edges touched by some point, with
   * a non-negative width and height.
   */
  function CalculateBoundingBox(ps: seq<Point>): (b: BoundingBox)
    ensures ps == [] ==> b == BoundingBox(0.0, 0.0, 0.0, 0.0, 0.0, 0.0)
    ensures forall i :: 0 <= i < |ps| ==> Spans(b, ps[i])
    ensures ps != [] ==>
      && (exists i :: 0 <= i < |ps| && ps[i].x == b.minX)
      && (exists i :: 0 <= i < |ps| && ps[i].x == b.maxX)
      && (exists i :: 0 <= i < |ps| && ps[i].y == b.minY)
      && (exists i :: 0 <= i < |ps| && ps[i].y == b.maxY)
    ensures b.width == b.maxX - b.minX >= 0.0 && b.height == b.maxY - b.minY >= 0.0
  {
    if ps == [] then BoundingBox(0.0, 0.0, 0.0, 0.0, 0.0, 0.0)
    else
      var minX, minY := MinOf(Xs(ps)), MinOf(Ys(ps));
      var maxX, maxY := MaxOf(Xs(ps)), MaxOf(Ys(ps));
      assert minX <= Xs(ps)[0] <= maxX && minY <= Ys(ps)[0] <= maxY;
      BoundingBox(minX, minY, maxX, maxY, maxX - minX, maxY - minY)
  }
}

=== FILE: distance.dfy ===
/**
 * The two point-to-chord distances the simplifiers use, squared so that no
 * square root is needed: the distance to the SEGMENT (projection clamped to
 * the segment) and the distance to the infinite LINE through two points.
 * A zero-length chord measures the distance to its single point.
 */
module Distance {
  import opened Geometry

  /**
   * dx² + dy², the squared length of a chord. It is zero exactly when both
   * extents are zero, so testing it for zero is the source's test of a
   * zero-length chord.
   */
  function SqNorm(dx: real, dy: real): real {
    dx * dx + dy * dy
  }

  /** A tolerance as compared with squared distances. */
  function Square(x: real): (s: real)
    ensures s >= 0.0
  {
    x * x
  }

  /** Squaring keeps the order of non-negative tolerances. */
  lemma {:induction false} SquareMonotone(a: real, b: real)
    requires 0.0 <= a <= b
    ensures Square(a) <= Square(b)
  {
    assert a * (b - a) >= 0.0;
    assert b * (b - a) >= 0.0;
  }

  /** Where the projection of `p` on the line through `a` and `b` falls, clamped to [0, 1]. */
  function SegmentParameter(p: Point, a: Point, b: Point): (t: real)
    ensures 0.0 <= t <= 1.0
  {
    var dx := b.x - a.x;
    var dy := b.y - a.y;
    var den := SqNorm(dx, dy);
    var t := if den == 0.0 then 0.0 else ((p.x - a.x) * dx + (p.y - a.y) * dy) / den;
    if t < 0.0 then 0.0 else if t > 1.0 then 1.0 else t
  }

  /** The point of segment `a`–`b` nearest to `p`; the chord's start when it has no length. */
  function ClosestOnSegment(p: Point, a: Point, b: Point): Point {
    var dx := b.x - a.x;
    var dy := b.y - a.y;
    if SqNorm(dx, dy) == 0.0 then a
    else
      var t := SegmentParameter(p, a, b);
      Point(a.x + t * dx, a.y + t * dy)
  }

  /** Squared distance from `p` to the segment `a`–`b`. */
  function SegmentDistSq(p: Point, a: Point, b: Point): real {
    DistSq(p, ClosestOnSegment(p, a, b))
  }

  /** Squared distance from `p` to the infinite line through `a` and `b`. */
  function LineDistSq(p: Point, a: Point, b: Point): real {
    var dx := b.x - a.x;
    var dy := b.y - a.y;
    var den := SqNorm(dx, dy);
    if den == 0.0 then DistSq(p, a)
    else
      var n := dy * p.x - dx * p.y + b.x * a.y - b.y * a.x;
      n * n / den
  }

  /** Both measures are never negative. */
  lemma {:induction false} DistancesNonNegative(p: Point, a: Point, b: Point)
    ensures SegmentDistSq(p, a, b) >= 0.0
    ensures LineDistSq(p, a, b) >= 0.0
  {
    var dx := b.x - a.x;
    var dy := b.y - a.y;
    var den := SqNorm(dx, dy);
    if den != 0.0 {
      var n := dy * p.x - dx * p.y + b.x * a.y - b.y * a.x;
      assert den > 0.0;
      assert n * n >= 0.0;
    }
  }

  /** A chord whose ends coincide measures the distance to that one point, both ways. */
  lemma {:induction false} DegenerateChord(p: Point, a: Point)
    ensures SegmentDistSq(p, a, a) == DistSq(p, a)
    ensures LineDistSq(p, a, a) == DistSq(p, a)
  {
  }
}

=== FILE: douglas_peucker.dfy ===
/**
 * The Ramer–Douglas–Peucker simplification shared by the four simplifiers of
 * the frontend. It is generic in the measure of how far a point lies from the
 * chord joining the first and last point, and in the threshold a distance must
 * EXCEED for the farthest point to be kept.
 *
 * The search for the farthest point starts from distance 0 at index 0 and
 * replaces the candidate only on a strictly greater distance, so it finds the
 * FIRST interior point of maximal distance, and index 0 when no interior
 * distance is positive.
 */
module DouglasPeucker {
  import opened Geometry

  /** How far the first point lies from the chord between the other two. */
  type Measure = (Point, Point, Point) -> real

  /** The candidate of the farthest-point search: `maxDistance` and `maxIndex`. */
  datatype Farthest = Farthest(dist: real, index: nat)

  /** Distance of `ps[j]` from the chord `ps[0]`–`ps[|ps| - 1]`. */
  function ChordDist(ps: seq<Point>, d: Measure, j: nat): real
    requires j < |ps|
  {
    d(ps[j], ps[0], ps[|ps| - 1])
  }

  /**
   * `f` is what the search yields after visiting the interior indices `1 .. k - 1`:
   * either index 0 with distance 0 when none of them is positive, or the first
   * of them whose distance is maximal, that distance being positive.
   */
  ghost predicate IsFarthest(ps: seq<Point>, d: Measure, k: nat, f: Farthest)
    requires k <= |ps|
  {
    && (f.index == 0 ==> f.dist == 0.0 && forall j :: 1 <= j < k ==> ChordDist(ps, d, j) <= 0.0)
    && (f.index != 0 ==>
          && 1 <= f.index < k
          && f.dist == ChordDist(ps, d, f.index)
          && f.dist > 0.0
          && (forall j :: 1 <= j < k ==> ChordDist(ps, d, j) <= f.dist)
          && (forall j :: 1 <= j < f.index ==> ChordDist(ps, d, j) < f.dist))
  }

  /**
   * The state of the farthest-point search once it has visited indices
   * `1 .. k - 1`; the candidate index stays below `k`, and index 0 keeps
   * distance 0.
   */
  function Scan(ps: seq<Point>, d: Measure, k: nat): (f: Farthest)
    requires 1 <= k <= |ps|
    ensures f.index < k && (f.index == 0 ==> f.dist == 0.0)
    decreases k
  {
    if k == 1 then Farthest(0.0, 0)
    else
      var f := Scan(ps, d, k - 1);
      var dist := ChordDist(ps, d, k - 1);
      if dist > f.dist then Farthest(dist, k - 1) else f
  }

  /** The search finds the first interior point of maximal distance, if any distance is positive. */
  lemma {:induction false} ScanIsFarthest(ps: seq<Point>, d: Measure, k: nat)
    requires 1 <= k <= |ps|
    ensures IsFarthest(ps, d, k, Scan(ps, d, k))
    decreases k
  {
    if k > 1 {
      ScanIsFarthest(ps, d, k - 1);
    }
  }

  /** The search has one possible outcome: anything meeting its description is what it yields. */
  lemma {:induction false} ScanUnique(ps: seq<Point>, d: Measure, k: nat, g: Farthest)
    requires 1 <= k <= |ps|
    requires IsFarthest(ps, d, k, g)
    ensures Scan(ps, d, k) == g
  {
    var f := Scan(ps, d, k);
    ScanIsFarthest(ps, d, k);
    if f.index != 0 && g.index != 0 {
      if f.index < g.index {
        assert false;
      } else if g.index < f.index {
        assert false;
      }
    } else if f.index != 0 {
      assert false;
    } else if g.index != 0 {
      assert false;
    }
  }

  /** The outcome of the search over all interior points. */
  function FarthestInterior(ps: seq<Point>, d: Measure): (f: Farthest)
    requires 2 <= |ps|
  {
    Scan(ps, d, |ps| - 1)
  }

  /** The farthest-point loop over the interior points. */
  method FindFarthest(ps: seq<Point>, d: Measure) returns (maxDistance: real, maxIndex: nat)
    requires 2 <= |ps|
    ensures Farthest(maxDistance, maxIndex) == FarthestInterior(ps, d)
  {
    maxDistance, maxIndex := 0.0, 0;
    var first, last := ps[0], ps[|ps| - 1];
    var i := 1;
    while i < |ps| - 1
      invariant 1 <= i <= |ps| - 1
      invariant Farthest(maxDistance, maxIndex) == Scan(ps, d, i)
    {
      var distance := d(ps[i], first, last);
      if distance > maxDistance {
        maxDistance, maxIndex := distance, i;
      }
      i := i + 1;
    }
  }


  /**
   * The simplified polyline. Fewer than three points are returned unchanged;
   * otherwise the first farthest interior point splits the polyline when its
   * distance exceeds `threshold` (both halves share it and it is kept once),
   * and the polyline collapses to its endpoints when it does not.
   */
  function Simplify(ps: seq<Point>, d: Measure, threshold: real): (r: seq<Point>)
    requires threshold >= 0.0
    decreases |ps|, 1
  {
    if |ps| < 3 then ps
    else SimplifyAt(ps, d, threshold, FarthestInterior(ps, d))
  }

  /**
   * One step of the simplification, given the search's outcome `f`: split at
   * `f.index` when `f.dist` exceeds the threshold, otherwise keep the endpoints.
   */
  function SimplifyAt(ps: seq<Point>, d: Measure, threshold: real, f: Farthest): (r: seq<Point>)
    requires threshold >= 0.0 && 3 <= |ps| && f.index < |ps| - 1 && (f.index == 0 ==> f.dist == 0.0)
    decreases |ps|, 0
  {
    if f.dist > threshold then
      var left := Simplify(Prefix(ps, f.index + 1), d, threshold);
      var right := Simplify(Suffix(ps, f.index), d, threshold);
      AllButLast(left) + right
    else
      [ps[0], ps[|ps| - 1]]
  }

  /** One level of `Simplify` when the polyline is split. */
  lemma {:induction false} SplitUnfolds(ps: seq<Point>, d: Measure, threshold: real)
    requires threshold >= 0.0 && 3 <= |ps| && FarthestInterior(ps, d).dist > threshold
    ensures 1 <= FarthestInterior(ps, d).index < |ps| - 1
    ensures Simplify(ps, d, threshold)
      == AllButLast(Simplify(Prefix(ps, FarthestInterior(ps, d).index + 1), d, threshold))
         + Simplify(Suffix(ps, FarthestInterior(ps, d).index), d, threshold)
  {
    assert Simplify(ps, d, threshold) == SimplifyAt(ps, d, threshold, FarthestInterior(ps, d));
  }

  /** One level of `Simplify` when the polyline collapses to its endpoints. */
  lemma {:induction false} CollapseUnfolds(ps: seq<Point>, d: Measure, threshold: real)
    requires threshold >= 0.0 && 3 <= |ps| && FarthestInterior(ps, d).dist <= threshold
    ensures Simplify(ps, d, threshold) == [ps[0], ps[|ps| - 1]]
  {
    assert Simplify(ps, d, threshold) == SimplifyAt(ps, d, threshold, FarthestInterior(ps, d));
  }

  /** The recursive simplification procedure, as the source runs it. */
  method RamerDouglasPeucker(ps: seq<Point>, d: Measure, threshold: real) returns (r: seq<Point>)
    requires threshold >= 0.0
    ensures r == Simplify(ps, d, threshold)
    decreases |ps|
  {
    if |ps| < 3 {
      return ps;
    }
    var maxDistance, maxIndex := FindFarthest(ps, d);
    if maxDistance > threshold {
      SplitUnfolds(ps, d, threshold);
      var left := RamerDouglasPeucker(Prefix(ps, maxIndex + 1), d, threshold);
      var right := RamerDouglasPeucker(Suffix(ps, maxIndex), d, threshold);
      r := AllButLast(left) + right;
    } else {
      CollapseUnfolds(ps, d, threshold);
      r := [ps[0], ps[|ps| - 1]];
    }
  }

  /**
   * The simplification is never longer than its input, and two or more points
   * never shrink below two.
   */
  lemma {:induction false} SimplifyLength(ps: seq<Point>, d: Measure, threshold: real)
    requires threshold >= 0.0
    ensures |Simplify(ps, d, threshold)| <= |ps|
    ensures 2 <= |ps| ==> 2 <= |Simplify(ps, d, threshold)|
    decreases |ps|
  {
    if |ps| >= 3 {
      if FarthestInterior(ps, d).dist > threshold {
        var k := FarthestInterior(ps, d).index;
        SplitUnfolds(ps, d, threshold);
        SimplifyLength(Prefix(ps, k + 1), d, threshold);
        SimplifyLength(Suffix(ps, k), d, threshold);
      } else {
        CollapseUnfolds(ps, d, threshold);
      }
    }
  }

  // ---------------------------------------------------------------------------
  // Which points are kept

  /** `s.slice(0, -1)`: everything but the last element. */
  function AllButLast<T>(s: seq<T>): seq<T> {
    if |s| == 0 then [] else s[..|s| - 1]
  }

  /** `s.slice(0, n)`: the first `n` elements. */
  function Prefix<T>(s: seq<T>, n: nat): seq<T>
    requires n <= |s|
  {
    seq(n, i requires 0 <= i < n => s[i])
  }

  /** `s.slice(k)`: everything from position `k` on. */
  function Suffix<T>(s: seq<T>, k: nat): seq<T>
    requires k <= |s|
  {
    seq(|s| - k, i requires 0 <= i < |s| - k => s[i + k])
  }

  /** Gluing two pieces that share their joint gives back each piece as a slice. */
  lemma {:induction false} GluedPieces<T>(l: seq<T>, r: seq<T>)
    requires 1 <= |l| && 1 <= |r| && l[|l| - 1] == r[0]
    ensures Prefix(AllButLast(l) + r, |l|) == l
    ensures Suffix(AllButLast(l) + r, |l| - 1) == r
  {
  }

  function Shift(s: seq<nat>, k: nat): (r: seq<nat>)
    ensures |r| == |s| && forall i :: 0 <= i < |s| ==> r[i] == s[i] + k
  {
    seq(|s|, i requires 0 <= i < |s| => s[i] + k)
  }

  function Range(n: nat): (r: seq<nat>)
    ensures |r| == n && forall i :: 0 <= i < n ==> r[i] == i
  {
    seq(n, i requires 0 <= i < n => i)
  }

  /** The original positions of the points `Simplify` keeps. */
  ghost function Kept(ps: seq<Point>, d: Measure, threshold: real): (idx: seq<nat>)
    requires threshold >= 0.0
    decreases |ps|, 1
  {
    if |ps| < 3 then Range(|ps|)
    else KeptAt(ps, d, threshold, FarthestInterior(ps, d))
  }

  /** One step of `Kept`, given the search's outcome `f`. */
  ghost function KeptAt(ps: seq<Point>, d: Measure, threshold: real, f: Farthest): (idx: seq<nat>)
    requires threshold >= 0.0 && 3 <= |ps| && f.index < |ps| - 1 && (f.index == 0 ==> f.dist == 0.0)
    decreases |ps|, 0
  {
    if f.dist > threshold then
      var left := Kept(Prefix(ps, f.index + 1), d, threshold);
      var right := Kept(Suffix(ps, f.index), d, threshold);
      AllButLast(left) + Shift(right, f.index)
    else
      [0, |ps| - 1]
  }

  /** One level of `Kept` when the polyline is split. */
  lemma {:induction false} KeptSplitUnfolds(ps: seq<Point>, d: Measure, threshold: real)
    requires threshold >= 0.0 && 3 <= |ps| && FarthestInterior(ps, d).dist > threshold
    ensures 1 <= FarthestInterior(ps, d).index < |ps| - 1
    ensures Kept(ps, d, threshold)
      == AllButLast(Kept(Prefix(ps, FarthestInterior(ps, d).index + 1), d, threshold))
         + Shift(Kept(Suffix(ps, FarthestInterior(ps, d).index), d, threshold), FarthestInterior(ps, d).index)
  {
    assert Kept(ps, d, threshold) == KeptAt(ps, d, threshold, FarthestInterior(ps, d));
  }

  /** One level of `Kept` when the polyline collapses to its endpoints. */
  lemma {:induction false} KeptCollapseUnfolds(ps: seq<Point>, d: Measure, threshold: real)
    requires threshold >= 0.0 && 3 <= |ps| && FarthestInterior(ps, d).dist <= threshold
    ensures Kept(ps, d, threshold) == [0, |ps| - 1]
  {
    assert Kept(ps, d, threshold) == KeptAt(ps, d, threshold, FarthestInterior(ps, d));
  }

  /** `r` is the subsequence of `ps` at the strictly increasing positions `idx`. */
  ghost predicate SubsequenceAt(r: seq<Point>, ps: seq<Point>, idx: seq<nat>) {
    && |idx| == |r|
    && (forall j :: 0 <= j < |idx| ==> idx[j] < |ps| && r[j] == ps[idx[j]])
    && (forall i, j :: 0 <= i < j < |idx| ==> idx[i] < idx[j])
  }

  /** Positions that start at the first of `n` points and end at the last. */
  ghost predicate SpansEnds(idx: seq<nat>, n: nat) {
    1 <= |idx| && idx[0] == 0 && idx[|idx| - 1] == n - 1
  }

  /** Gluing the simplified halves at the split point keeps the subsequence property. */
  lemma {:induction false} GlueSubsequence(ps: seq<Point>, k: nat, l: seq<Point>, li: seq<nat>, r: seq<Point>, ri: seq<nat>)
    requires 1 <= k < |ps| - 1
    requires SubsequenceAt(l, Prefix(ps, k + 1), li) && SpansEnds(li, k + 1)
    requires SubsequenceAt(r, Suffix(ps, k), ri) && SpansEnds(ri, |ps| - k)
    ensures SubsequenceAt(AllButLast(l) + r, ps, AllButLast(li) + Shift(ri, k))
    ensures SpansEnds(AllButLast(li) + Shift(ri, k), |ps|)
    ensures 2 <= |l| == |li| && 2 <= |ri| && |AllButLast(li) + Shift(ri, k)| == |li| + |ri| - 1
    ensures (AllButLast(li) + Shift(ri, k))[|l| - 1] == k
  {
    assert 2 <= |li| && 2 <= |ri|;
    var m := |li| - 1;
    GlueAt(ps, k, l, li, r, ri);
    GlueIncreasing(k, li, ri);
  }

  lemma {:induction false} GlueAt(ps: seq<Point>, k: nat, l: seq<Point>, li: seq<nat>, r: seq<Point>, ri: seq<nat>)
    requires k < |ps| && 1 <= |li|
    requires SubsequenceAt(l, Prefix(ps, k + 1), li)
    requires SubsequenceAt(r, Suffix(ps, k), ri)
    requires |l| == |li|
    ensures forall j :: 0 <= j < |li| - 1 + |ri| ==>
        (AllButLast(li) + Shift(ri, k))[j] < |ps| && (AllButLast(l) + r)[j] == ps[(AllButLast(li) + Shift(ri, k))[j]]
  {
    var m := |li| - 1;
    var out := AllButLast(l) + r;
    var idx := AllButLast(li) + Shift(ri, k);
    forall j | 0 <= j < |idx| ensures idx[j] < |ps| && out[j] == ps[idx[j]] {
      if j < m {
        assert idx[j] == li[j] && out[j] == l[j];
      } else {
        assert idx[j] == ri[j - m] + k && out[j] == r[j - m];
      }
    }
  }

  lemma {:induction false} GlueIncreasing(k: nat, li: seq<nat>, ri: seq<nat>)
    requires 2 <= |li| && li[|li| - 1] == k && 1 <= |ri| && ri[0] == 0
    requires forall i, j :: 0 <= i < j < |li| ==> li[i] < li[j]
    requires forall i, j :: 0 <= i < j < |ri| ==> ri[i] < ri[j]
    ensures forall i, j :: 0 <= i < j < |AllButLast(li) + Shift(ri, k)| ==>
      (AllButLast(li) + Shift(ri, k))[i] < (AllButLast(li) + Shift(ri, k))[j]
    ensures (AllButLast(li) + Shift(ri, k))[0] == li[0]
    ensures (AllButLast(li) + Shift(ri, k))[|li| + |ri| - 2] == ri[|ri| - 1] + k
  {
    var m := |li| - 1;
    var idx := AllButLast(li) + Shift(ri, k);
    forall i, j | 0 <= i < j < |idx| ensures idx[i] < idx[j] {
      if j < m {
        assert idx[i] == li[i] && idx[j] == li[j];
      } else if i < m {
        assert li[i] < li[m];
      } else {
        assert idx[i] == ri[i - m] + k && idx[j] == ri[j - m] + k;
      }
    }
  }

  /**
   * The simplification is a subsequence of its input: the kept positions
   * increase strictly, start at the first point and end at the last.
   */
  lemma {:induction false} KeptIsSubsequence(ps: seq<Point>, d: Measure, threshold: real)
    requires threshold >= 0.0
    ensures SubsequenceAt(Simplify(ps, d, threshold), ps, Kept(ps, d, threshold))
    ensures 1 <= |ps| ==> SpansEnds(Kept(ps, d, threshold), |ps|)
    decreases |ps|, 1
  {
    if |ps| < 3 {
      assert Kept(ps, d, threshold) == Range(|ps|);
    } else if FarthestInterior(ps, d).dist > threshold {
      KeptIsSubsequenceSplit(ps, d, threshold);
    } else {
      KeptCollapseUnfolds(ps, d, threshold);
      CollapseUnfolds(ps, d, threshold);
    }
  }

  lemma {:induction false} KeptIsSubsequenceSplit(ps: seq<Point>, d: Measure, threshold: real)
    requires threshold >= 0.0 && 3 <= |ps| && FarthestInterior(ps, d).dist > threshold
    ensures SubsequenceAt(Simplify(ps, d, threshold), ps, Kept(ps, d, threshold))
    ensures SpansEnds(Kept(ps, d, threshold), |ps|)
    decreases |ps|, 0
  {
    var k := FarthestInterior(ps, d).index;
    var lp, rp := Prefix(ps, k + 1), Suffix(ps, k);
    var l, li := Simplify(lp, d, threshold), Kept(lp, d, threshold);
    var r, ri := Simplify(rp, d, threshold), Kept(rp, d, threshold);
    SplitUnfolds(ps, d, threshold);
    KeptSplitUnfolds(ps, d, threshold);
    KeptIsSubsequence(lp, d, threshold);
    KeptIsSubsequence(rp, d, threshold);
    GlueSubsequence(ps, k, l, li, r, ri);
  }

  /** The kept positions lie within `ps`, start at the first point and end at the last. */
  lemma {:induction false} KeptSpansEnds(ps: seq<Point>, d: Measure, threshold: real)
    requires threshold >= 0.0 && 1 <= |ps|
    ensures forall j :: 0 <= j < |Kept(ps, d, threshold)| ==> Kept(ps, d, threshold)[j] < |ps|
    ensures SpansEnds(Kept(ps, d, threshold), |ps|)
  {
    KeptIsSubsequence(ps, d, threshold);
  }

  /** The first and the last point are always kept. */
  lemma {:induction false} SimplifyKeepsEndpoints(ps: seq<Point>, d: Measure, threshold: real)
    requires threshold >= 0.0 && 1 <= |ps|
    ensures 1 <= |Simplify(ps, d, threshold)|
    ensures Simplify(ps, d, threshold)[0] == ps[0]
    ensures Simplify(ps, d, threshold)[|Simplify(ps, d, threshold)| - 1] == ps[|ps| - 1]
  {
    KeptIsSubsequence(ps, d, threshold);
  }

  // ---------------------------------------------------------------------------
  // What the simplification guarantees

  /** Each point of `ps` strictly between positions `a` and `b` lies within the threshold of their chord. */
  ghost predicate GapWithin(ps: seq<Point>, d: Measure, threshold: real, a: nat, b: nat) {
    forall i :: a < i < b < |ps| ==> d(ps[i], ps[a], ps[b]) <= threshold
  }

  /**
   * Each point of `ps` strictly between two consecutive positions of `idx`
   * lies within the threshold of the chord joining the points at those positions.
   */
  ghost predicate DroppedWithin(ps: seq<Point>, d: Measure, threshold: real, idx: seq<nat>) {
    forall j :: 0 <= j < |idx| - 1 ==> GapWithin(ps, d, threshold, idx[j], idx[j + 1])
  }

  lemma {:induction false} GapLeft(ps: seq<Point>, d: Measure, threshold: real, k: nat, a: nat, b: nat)
    requires k < |ps| && b < k + 1 && GapWithin(Prefix(ps, k + 1), d, threshold, a, b)
    ensures GapWithin(ps, d, threshold, a, b)
  {
    forall i | a < i < b < |ps| ensures d(ps[i], ps[a], ps[b]) <= threshold {
      assert Prefix(ps, k + 1)[i] == ps[i];
    }
  }

  lemma {:induction false} GapRight(ps: seq<Point>, d: Measure, threshold: real, k: nat, a: nat, b: nat)
    requires k < |ps| && b + k < |ps| && GapWithin(Suffix(ps, k), d, threshold, a, b)
    ensures GapWithin(ps, d, threshold, a + k, b + k)
  {
    forall i | a + k < i < b + k < |ps| ensures d(ps[i], ps[a + k], ps[b + k]) <= threshold {
      assert Suffix(ps, k)[i - k] == ps[i];
    }
  }

  /** Gluing the halves at the split point keeps every dropped point within the threshold. */
  lemma {:induction false} GlueDroppedWithin(ps: seq<Point>, d: Measure, threshold: real, k: nat, li: seq<nat>, ri: seq<nat>, idx: seq<nat>)
    requires k < |ps| && 1 <= |li| && li[|li| - 1] == k && 1 <= |ri| && ri[0] == 0
    requires forall j :: 0 <= j < |li| ==> li[j] < k + 1
    requires forall j :: 0 <= j < |ri| ==> ri[j] < |ps| - k
    requires DroppedWithin(Prefix(ps, k + 1), d, threshold, li)
    requires DroppedWithin(Suffix(ps, k), d, threshold, ri)
    requires idx == AllButLast(li) + Shift(ri, k)
    ensures DroppedWithin(ps, d, threshold, idx)
  {
    var m := |li| - 1;
    forall j | 0 <= j < |idx| - 1 ensures GapWithin(ps, d, threshold, idx[j], idx[j + 1]) {
      if j < m {
        assert idx[j] == li[j] && idx[j + 1] == li[j + 1];
        GapLeft(ps, d, threshold, k, li[j], li[j + 1]);
      } else {
        assert idx[j] == ri[j - m] + k && idx[j + 1] == ri[j + 1 - m] + k;
        GapRight(ps, d, threshold, k, ri[j - m], ri[j + 1 - m]);
      }
    }
  }

  /**
   * Every dropped point lies within the threshold of the chord joining the
   * two kept points on either side of it.
   */
  lemma {:induction false} DroppedPointsWithinThreshold(ps: seq<Point>, d: Measure, threshold: real)
    requires threshold >= 0.0
    ensures DroppedWithin(ps, d, threshold, Kept(ps, d, threshold))
    decreases |ps|, 1
  {
    if |ps| < 3 {
      assert Kept(ps, d, threshold) == Range(|ps|);
    } else if FarthestInterior(ps, d).dist > threshold {
      DroppedPointsWithinThresholdSplit(ps, d, threshold);
    } else {
      KeptCollapseUnfolds(ps, d, threshold);
      ScanIsFarthest(ps, d, |ps| - 1);
      forall i | 0 < i < |ps| - 1 ensures d(ps[i], ps[0], ps[|ps| - 1]) <= threshold {
        assert ChordDist(ps, d, i) <= FarthestInterior(ps, d).dist;
      }
      assert GapWithin(ps, d, threshold, 0, |ps| - 1);
    }
  }

  lemma {:induction false} DroppedPointsWithinThresholdSplit(ps: seq<Point>, d: Measure, threshold: real)
    requires threshold >= 0.0 && 3 <= |ps| && FarthestInterior(ps, d).dist > threshold
    ensures DroppedWithin(ps, d, threshold, Kept(ps, d, threshold))
    decreases |ps|, 0
  {
    var k := FarthestInterior(ps, d).index;
    var lp, rp := Prefix(ps, k + 1), Suffix(ps, k);
    var li, ri := Kept(lp, d, threshold), Kept(rp, d, threshold);
    KeptSplitUnfolds(ps, d, threshold);
    assert Kept(ps, d, threshold) == AllButLast(li) + Shift(ri, k);
    KeptSpansEnds(lp, d, threshold);
    KeptSpansEnds(rp, d, threshold);
    DroppedPointsWithinThreshold(lp, d, threshold);
    DroppedPointsWithinThreshold(rp, d, threshold);
    GlueDroppedWithin(ps, d, threshold, k, li, ri, Kept(ps, d, threshold));
  }

  /**
   * Raising the threshold never keeps more points: the split point does not
   * depend on the threshold, and a split at the higher one is a split at the lower one.
   */
  lemma {:induction false} HigherThresholdKeepsNoMore(ps: seq<Point>, d: Measure, t1: real, t2: real)
    requires 0.0 <= t1 <= t2
    ensures |Simplify(ps, d, t2)| <= |Simplify(ps, d, t1)|
    decreases |ps|
  {
    if |ps| >= 3 {
      var f := FarthestInterior(ps, d);
      if f.dist > t2 {
        SplitUnfolds(ps, d, t1);
        SplitUnfolds(ps, d, t2);
        HigherThresholdKeepsNoMore(Prefix(ps, f.index + 1), d, t1, t2);
        HigherThresholdKeepsNoMore(Suffix(ps, f.index), d, t1, t2);
      } else {
        CollapseUnfolds(ps, d, t2);
        SimplifyLength(ps, d, t1);
      }
    }
  }

  /**
   * A polyline of three or more points keeps an interior point exactly when
   * some interior point lies farther than the threshold from the chord.
   */
  lemma {:induction false} KeepsInteriorIffSomeFar(ps: seq<Point>, d: Measure, threshold: real)
    requires threshold >= 0.0 && 3 <= |ps|
    ensures 3 <= |Simplify(ps, d, threshold)| <==>
      exists j :: 1 <= j < |ps| - 1 && ChordDist(ps, d, j) > threshold
  {
    var f := FarthestInterior(ps, d);
    ScanIsFarthest(ps, d, |ps| - 1);
    if f.dist > threshold {
      var k := f.index;
      assert ChordDist(ps, d, k) > threshold;
      SplitUnfolds(ps, d, threshold);
      SimplifyLength(Prefix(ps, k + 1), d, threshold);
      SimplifyLength(Suffix(ps, k), d, threshold);
    } else {
      CollapseUnfolds(ps, d, threshold);
      assert forall j :: 1 <= j < |ps| - 1 ==> ChordDist(ps, d, j) <= threshold;
    }
  }

  /**
   * Why the threshold must not be negative: with every interior distance at
   * most 0 the search stays at index 0 with distance 0, which exceeds a
   * negative threshold, and the right-hand half is then the whole input again.
   */
  lemma {:induction false} NegativeThresholdRecursesOnItself(ps: seq<Point>, d: Measure, threshold: real)
    requires threshold < 0.0 && 3 <= |ps|
    requires forall j :: 1 <= j < |ps| - 1 ==> ChordDist(ps, d, j) <= 0.0
    ensures FarthestInterior(ps, d).dist > threshold
    ensures Suffix(ps, FarthestInterior(ps, d).index) == ps
  {
    ScanUnique(ps, d, |ps| - 1, Farthest(0.0, 0));
  }

  // ---------------------------------------------------------------------------
  // Idempotence

  /**
   * A subsequence that keeps both endpoints and the first farthest point of
   * `ps`, at its position `m`, has that point as its own first farthest point,
   * at the same distance.
   */
  lemma {:induction false} SubsequenceKeepsFarthest(ps: seq<Point>, q: seq<Point>, idx: seq<nat>, d: Measure, m: nat)
    requires 3 <= |ps| && SubsequenceAt(q, ps, idx) && SpansEnds(idx, |ps|)
    requires FarthestInterior(ps, d).dist > 0.0
    requires 1 <= m < |q| - 1 && idx[m] == FarthestInterior(ps, d).index
    ensures FarthestInterior(q, d) == Farthest(FarthestInterior(ps, d).dist, m)
  {
    var f := FarthestInterior(ps, d);
    ScanIsFarthest(ps, d, |ps| - 1);
    assert q[0] == ps[0] && q[|q| - 1] == ps[|ps| - 1];
    forall j | 1 <= j < |q| - 1
      ensures 1 <= idx[j] < |ps| - 1 && ChordDist(q, d, j) == ChordDist(ps, d, idx[j])
    {
      assert idx[0] < idx[j] < idx[|q| - 1];
    }
    forall j | 1 <= j < m ensures idx[j] < f.index {
      assert idx[j] < idx[m];
    }
    ScanUnique(q, d, |q| - 1, Farthest(f.dist, m));
  }

  /**
   * The positions the simplification keeps: a subsequence spanning both ends,
   * with the split point at position `m`, right after the left half's points.
   */
  lemma {:induction false} SplitPointKept(ps: seq<Point>, d: Measure, threshold: real) returns (idx: seq<nat>, m: nat)
    requires threshold >= 0.0 && 3 <= |ps| && FarthestInterior(ps, d).dist > threshold
    ensures SubsequenceAt(Simplify(ps, d, threshold), ps, idx) && SpansEnds(idx, |ps|)
    ensures 1 <= m < |idx| - 1 && idx[m] == FarthestInterior(ps, d).index
    ensures m + 1 == |Simplify(Prefix(ps, FarthestInterior(ps, d).index + 1), d, threshold)|
  {
    var k := FarthestInterior(ps, d).index;
    var lp, rp := Prefix(ps, k + 1), Suffix(ps, k);
    var l, li := Simplify(lp, d, threshold), Kept(lp, d, threshold);
    var r, ri := Simplify(rp, d, threshold), Kept(rp, d, threshold);
    SplitUnfolds(ps, d, threshold);
    KeptIsSubsequence(lp, d, threshold);
    KeptIsSubsequence(rp, d, threshold);
    GlueSubsequence(ps, k, l, li, r, ri);
    idx := AllButLast(li) + Shift(ri, k);
    m := |l| - 1;
  }

  /**
   * In the simplified polyline the old split point is again the first
   * farthest interior point, at the same distance.
   */
  lemma {:induction false} ResimplifySplitsAtSamePoint(ps: seq<Point>, d: Measure, threshold: real)
    requires threshold >= 0.0 && 3 <= |ps| && FarthestInterior(ps, d).dist > threshold
    ensures 3 <= |Simplify(ps, d, threshold)|
    ensures FarthestInterior(Simplify(ps, d, threshold), d).index
      == |Simplify(Prefix(ps, FarthestInterior(ps, d).index + 1), d, threshold)| - 1
    ensures FarthestInterior(Simplify(ps, d, threshold), d).dist == FarthestInterior(ps, d).dist
  {
    var idx, m := SplitPointKept(ps, d, threshold);
    SubsequenceKeepsFarthest(ps, Simplify(ps, d, threshold), idx, d, m);
  }

  /**
   * `q` is `l` and `r` glued at the point they share, and the search over `q`
   * finds that point first, farther than the threshold.
   */
  ghost predicate GluedAtFarthest(q: seq<Point>, l: seq<Point>, r: seq<Point>, d: Measure, threshold: real) {
    && 2 <= |l| && 2 <= |r| && l[|l| - 1] == r[0]
    && q == AllButLast(l) + r
    && FarthestInterior(q, d).index == |l| - 1 && FarthestInterior(q, d).dist > threshold
  }

  /** A polyline glued at its first farthest point splits back into the two pieces. */
  lemma {:induction false} SplitsBackIntoPieces(q: seq<Point>, l: seq<Point>, r: seq<Point>, d: Measure, threshold: real)
    requires threshold >= 0.0 && GluedAtFarthest(q, l, r, d, threshold)
    ensures Simplify(q, d, threshold) == AllButLast(Simplify(l, d, threshold)) + Simplify(r, d, threshold)
  {
    GluedPieces(l, r);
    SplitUnfolds(q, d, threshold);
  }

  /** The simplified halves of a split both have two or more points and meet at the split point. */
  lemma {:induction false} HalvesMeet(ps: seq<Point>, d: Measure, threshold: real)
    requires threshold >= 0.0 && 3 <= |ps| && FarthestInterior(ps, d).dist > threshold
    ensures 2 <= |Simplify(Prefix(ps, FarthestInterior(ps, d).index + 1), d, threshold)|
    ensures 2 <= |Simplify(Suffix(ps, FarthestInterior(ps, d).index), d, threshold)|
    ensures Simplify(Prefix(ps, FarthestInterior(ps, d).index + 1), d, threshold)[|Simplify(Prefix(ps, FarthestInterior(ps, d).index + 1), d, threshold)| - 1]
      == Simplify(Suffix(ps, FarthestInterior(ps, d).index), d, threshold)[0]
  {
    var k := FarthestInterior(ps, d).index;
    SimplifyLength(Prefix(ps, k + 1), d, threshold);
    SimplifyLength(Suffix(ps, k), d, threshold);
    SimplifyKeepsEndpoints(Prefix(ps, k + 1), d, threshold);
    SimplifyKeepsEndpoints(Suffix(ps, k), d, threshold);
  }

  /** The simplification of a split polyline is its simplified halves glued at its first farthest point. */
  lemma {:induction false} SimplifiedHalvesGlued(ps: seq<Point>, d: Measure, threshold: real)
    requires threshold >= 0.0 && 3 <= |ps| && FarthestInterior(ps, d).dist > threshold
    ensures GluedAtFarthest(Simplify(ps, d, threshold), Simplify(Prefix(ps, FarthestInterior(ps, d).index + 1), d, threshold),
                            Simplify(Suffix(ps, FarthestInterior(ps, d).index), d, threshold), d, threshold)
  {
    SplitUnfolds(ps, d, threshold);
    ResimplifySplitsAtSamePoint(ps, d, threshold);
    HalvesMeet(ps, d, threshold);
  }

  /** `q` is left unchanged by the simplification. */
  ghost predicate IsSimplified(q: seq<Point>, d: Measure, threshold: real)
    requires threshold >= 0.0
  {
    Simplify(q, d, threshold) == q
  }

  /** When both simplified halves are left unchanged by simplifying them again, so is the whole. */
  lemma {:induction false} HalvesSimplifiedWhole(ps: seq<Point>, d: Measure, threshold: real)
    requires threshold >= 0.0 && 3 <= |ps| && FarthestInterior(ps, d).dist > threshold
    requires IsSimplified(Simplify(Prefix(ps, FarthestInterior(ps, d).index + 1), d, threshold), d, threshold)
    requires IsSimplified(Simplify(Suffix(ps, FarthestInterior(ps, d).index), d, threshold), d, threshold)
    ensures IsSimplified(Simplify(ps, d, threshold), d, threshold)
  {
    SimplifiedHalvesGlued(ps, d, threshold);
    SplitsBackIntoPieces(Simplify(ps, d, threshold), Simplify(Prefix(ps, FarthestInterior(ps, d).index + 1), d, threshold),
                         Simplify(Suffix(ps, FarthestInterior(ps, d).index), d, threshold), d, threshold);
  }

  /** Simplifying a simplified polyline again changes nothing. */
  lemma {:induction false} SimplifyIdempotent(ps: seq<Point>, d: Measure, threshold: real)
    requires threshold >= 0.0
    ensures IsSimplified(Simplify(ps, d, threshold), d, threshold)
    decreases |ps|
  {
    if |ps| >= 3 {
      if FarthestInterior(ps, d).dist > threshold {
        var k := FarthestInterior(ps, d).index;
        SimplifyIdempotent(Prefix(ps, k + 1), d, threshold);
        SimplifyIdempotent(Suffix(ps, k), d, threshold);
        HalvesSimplifiedWhole(ps, d, threshold);
      } else {
        CollapseUnfolds(ps, d, threshold);
      }
    }
  }
}

=== FILE: drag_handlers.dfy ===
/**
 * What happens when the user lets go of a dragged annotation: the Konva
 * node's position is clamped so the shape stays on the image and written
 * back to the annotation in original coordinates (rectangle, dot, circle),
 * translated rigidly (line), or applied to every point only if all of them
 * stay on the image (polygon, freehand). The handlers return a new
 * annotation and reposition the node.
 *
 * The offset and the conversions a caller passes are those of one `View`.
 */
module DragHandlers {
  import opened Wrappers
  import opened Geometry
  import opened Annotation
  import opened CoordinateUtils

  /** The Konva node of a shape: its position on the stage, its scale and its size. */
  class KonvaNode {
    var x: real
    var y: real
    var scaleX: real
    var scaleY: real
    var width: real
    var height: real

    constructor (x: real, y: real, width: real, height: real)
      ensures this.x == x && this.y == y && this.width == width && this.height == height
      ensures scaleX == 1.0 && scaleY == 1.0
    {
      this.x, this.y := x, y;
      this.width, this.height := width, height;
      scaleX, scaleY := 1.0, 1.0;
    }

    /** `node.position(p)`. */
    method SetPosition(p: Point)
      modifies this
      ensures x == p.x && y == p.y
      ensures scaleX == old(scaleX) && scaleY == old(scaleY) && width == old(width) && height == old(height)
    {
      x, y := p.x, p.y;
    }
  }

  /**
   * `Math.max(lo, Math.min(v, hi))`: never below `lo`, not above `hi` when
   * the range is not empty, and a value already in range is kept.
   */
  function ClampAxis(v: real, lo: real, hi: real): (c: real)
    ensures lo <= c
    ensures lo <= hi ==> c <= hi
    ensures lo <= v <= hi ==> c == v
    ensures hi < lo ==> c == lo
  {
    Max(lo, Min(v, hi))
  }

  /** Clamping twice is clamping once. */
  lemma {:induction false} ClampAxisIdempotent(v: real, lo: real, hi: real)
    ensures ClampAxis(ClampAxis(v, lo, hi), lo, hi) == ClampAxis(v, lo, hi)
  {
    if lo <= hi {
      assert lo <= ClampAxis(v, lo, hi) <= hi;
    }
  }

  /** A larger position never clamps to a smaller one. */
  lemma {:induction false} ClampAxisMonotone(v: real, w: real, lo: real, hi: real)
    requires v <= w
    ensures ClampAxis(v, lo, hi) <= ClampAxis(w, lo, hi)
  {
  }

  /** The stage position a rectangle of `displaySize` is dropped at: its top-left corner kept on the image. */
  function RectangleDropPosition(pos: Point, offset: Point, imageSize: Size, displaySize: Size): Point {
    Point(ClampAxis(pos.x, offset.x, offset.x + imageSize.width - displaySize.width),
          ClampAxis(pos.y, offset.y, offset.y + imageSize.height - displaySize.height))
  }

  /**
   * On an image shown at a positive scale, a rectangle that fits on it is
   * dropped with its corner at or right of the image's left edge and its far
   * side at or left of the right edge, in original coordinates (likewise
   * vertically).
   */
  lemma {:induction false} RectangleDropStaysOnImage(v: View, pos: Point, imageSize: Size, size: Size)
    requires v.scale > 0.0
    requires OriginalSizeToDisplay(v, size).width <= imageSize.width
    requires OriginalSizeToDisplay(v, size).height <= imageSize.height
    ensures var s := DisplayToOriginal(v, RectangleDropPosition(pos, v.offset, imageSize, OriginalSizeToDisplay(v, size)));
      && 0.0 <= s.x && s.x * v.scale + size.width * v.scale <= imageSize.width
      && 0.0 <= s.y && s.y * v.scale + size.height * v.scale <= imageSize.height
  {
    var p := RectangleDropPosition(pos, v.offset, imageSize, OriginalSizeToDisplay(v, size));
    var s := DisplayToOriginal(v, p);
    DisplayRoundTrip(v, p);
    assert s.x * v.scale == p.x - v.offset.x;
    assert s.y * v.scale == p.y - v.offset.y;
  }

  /**
   * `handleRectangleDragEnd` (both copies). A rectangle without a non-zero
   * width and height is returned as it is and the node is left alone.
   * Otherwise the node is moved to the clamped position and only the start
   * point changes, to that position in original coordinates.
   */
  method HandleRectangleDragEnd(annotation: CanvasAnnotation, node: KonvaNode, v: View, displayImageSize: Size)
    returns (r: CanvasAnnotation)
    requires v.scale != 0.0
    modifies node
    ensures node.scaleX == old(node.scaleX) && node.scaleY == old(node.scaleY)
    ensures node.width == old(node.width) && node.height == old(node.height)
    ensures !Truthy(annotation.width) || !Truthy(annotation.height) ==>
      r == annotation && node.x == old(node.x) && node.y == old(node.y)
    ensures Truthy(annotation.width) && Truthy(annotation.height) ==>
      var p := RectangleDropPosition(Point(old(node.x), old(node.y)), v.offset, displayImageSize,
        OriginalSizeToDisplay(v, Size(annotation.width.value, annotation.height.value)));
      && node.x == p.x && node.y == p.y
      && r == annotation.(startPoint := Some(DisplayToOriginal(v, p)))
  {
    if !Truthy(annotation.width) || !Truthy(annotation.height) {
      return annotation;
    }
    var newPos := Point(node.x, node.y);
    var displaySize := OriginalSizeToDisplay(v, Size(annotation.width.value, annotation.height.value));
    newPos := newPos.(x := Max(v.offset.x, Min(newPos.x, v.offset.x + displayImageSize.width - displaySize.width)));
    newPos := newPos.(y := Max(v.offset.y, Min(newPos.y, v.offset.y + displayImageSize.height - displaySize.height)));
    node.SetPosition(newPos);
    r := annotation.(startPoint := Some(DisplayToOriginal(v, newPos)));
  }

  /** The stage position a dot or circle of stage radius `radius` is dropped at: its disc kept on the image. */
  function DiscDropPosition(pos: Point, offset: Point, imageSize: Size, radius: real): (p: Point)
    ensures 2.0 * radius <= imageSize.width ==> offset.x + radius <= p.x <= offset.x + imageSize.width - radius
    ensures 2.0 * radius <= imageSize.height ==> offset.y + radius <= p.y <= offset.y + imageSize.height - radius
  {
    Point(ClampAxis(pos.x, offset.x + radius, offset.x + imageSize.width - radius),
          ClampAxis(pos.y, offset.y + radius, offset.y + imageSize.height - radius))
  }

  /**
   * `handleDotDragEnd` (both copies) and the composable's
   * `handleCircleDragEnd`: without a centre or a non-zero radius nothing
   * changes; otherwise the node goes to the clamped position and only the
   * centre changes, to that position in original coordinates.
   */
  method HandleDotDragEnd(annotation: CanvasAnnotation, node: KonvaNode, v: View, displayImageSize: Size)
    returns (r: CanvasAnnotation)
    requires v.scale != 0.0
    modifies node
    ensures node.scaleX == old(node.scaleX) && node.scaleY == old(node.scaleY)
    ensures node.width == old(node.width) && node.height == old(node.height)
    ensures annotation.center.None? || !Truthy(annotation.radius) ==>
      r == annotation && node.x == old(node.x) && node.y == old(node.y)
    ensures annotation.center.Some? && Truthy(annotation.radius) ==>
      var p := DiscDropPosition(Point(old(node.x), old(node.y)), v.offset, displayImageSize,
        annotation.radius.value * v.scale);
      && node.x == p.x && node.y == p.y
      && r == annotation.(center := Some(DisplayToOriginal(v, p)))
  {
    if annotation.center.None? || !Truthy(annotation.radius) {
      return annotation;
    }
    var newPos := Point(node.x, node.y);
    var displayRadius := annotation.radius.value * v.scale;
    newPos := newPos.(x := Max(v.offset.x + displayRadius, Min(newPos.x, v.offset.x + displayImageSize.width - displayRadius)));
    newPos := newPos.(y := Max(v.offset.y + displayRadius, Min(newPos.y, v.offset.y + displayImageSize.height - displayRadius)));
    node.SetPosition(newPos);
    r := annotation.(center := Some(DisplayToOriginal(v, newPos)));
  }

  /**
   * The component's `handleCircleDragEnd`: the same centre as the dot
   * handler, but the node is put back at the stage origin.
   */
  method HandleCircleDragEnd(annotation: CanvasAnnotation, node: KonvaNode, v: View, displayImageSize: Size)
    returns (r: CanvasAnnotation)
    requires v.scale != 0.0
    modifies node
    ensures node.scaleX == old(node.scaleX) && node.scaleY == old(node.scaleY)
    ensures node.width == old(node.width) && node.height == old(node.height)
    ensures annotation.center.None? || !Truthy(annotation.radius) ==>
      r == annotation && node.x == old(node.x) && node.y == old(node.y)
    ensures annotation.center.Some? && Truthy(annotation.radius) ==>
      var p := DiscDropPosition(Point(old(node.x), old(node.y)), v.offset, displayImageSize,
        annotation.radius.value * v.scale);
      && node.x == 0.0 && node.y == 0.0
      && r == annotation.(center := Some(DisplayToOriginal(v, p)))
  {
    if annotation.center.None? || !Truthy(annotation.radius) {
      return annotation;
    }
    var newPos := Point(node.x, node.y);
    var displayRadius := annotation.radius.value * v.scale;
    newPos := newPos.(x := Max(v.offset.x + displayRadius, Min(newPos.x, v.offset.x + displayImageSize.width - displayRadius)));
    newPos := newPos.(y := Max(v.offset.y + displayRadius, Min(newPos.y, v.offset.y + displayImageSize.height - displayRadius)));
    node.SetPosition(Point(0.0, 0.0));
    r := annotation.(center := Some(DisplayToOriginal(v, newPos)));
  }

  /** The two circle handlers give the same annotation; they differ only in where the node is left. */
  method CircleHandlersAgree(annotation: CanvasAnnotation, v: View, displayImageSize: Size, x: real, y: real)
    returns (a: CanvasAnnotation, b: CanvasAnnotation)
    requires v.scale != 0.0
    ensures a == b
  {
    var n1 := new KonvaNode(x, y, 0.0, 0.0);
    var n2 := new KonvaNode(x, y, 0.0, 0.0);
    a := HandleDotDragEnd(annotation, n1, v, displayImageSize);
    b := HandleCircleDragEnd(annotation, n2, v, displayImageSize);
  }

  /** Every point shifted by `(dx, dy)`. */
  function Translate(ps: seq<Point>, dx: real, dy: real): (r: seq<Point>)
    ensures |r| == |ps| && forall i :: 0 <= i < |ps| ==> r[i] == Point(ps[i].x + dx, ps[i].y + dy)
  {
    seq(|ps|, i requires 0 <= i < |ps| => Point(ps[i].x + dx, ps[i].y + dy))
  }

  /** Shifting back undoes a shift. */
  lemma {:induction false} TranslateBack(ps: seq<Point>, dx: real, dy: real)
    ensures Translate(Translate(ps, dx, dy), -dx, -dy) == ps
  {
    assert forall i :: 0 <= i < |ps| ==> Translate(Translate(ps, dx, dy), -dx, -dy)[i] == ps[i];
  }

  /** Every point lies in `[0, width] x [0, height]`. */
  predicate AllInside(ps: seq<Point>, size: Size) {
    forall i :: 0 <= i < |ps| ==> 0.0 <= ps[i].x <= size.width && 0.0 <= ps[i].y <= size.height
  }

  /**
   * The points after a drag by `(dx, dy)`: all of them moved when every
   * moved point stays on the image, none of them otherwise.
   */
  function DraggedPoints(ps: seq<Point>, dx: real, dy: real, size: Size): (r: seq<Point>)
    ensures |r| == |ps|
    ensures AllInside(Translate(ps, dx, dy), size) <==> r == Translate(ps, dx, dy) && AllInside(r, size)
    ensures !AllInside(Translate(ps, dx, dy), size) ==> r == ps
  {
    var moved := Translate(ps, dx, dy);
    if AllInside(moved, size) then moved else ps
  }

  /** A shape that was on the image is still on it after any drag. */
  lemma {:induction false} DragKeepsShapeOnImage(ps: seq<Point>, dx: real, dy: real, size: Size)
    requires AllInside(ps, size)
    ensures AllInside(DraggedPoints(ps, dx, dy, size), size)
  {
  }

  /**
   * `handlePolygonDragEnd` (both copies) and `handleFreehandDragEnd`:
   * without points nothing changes; otherwise the drag, divided by the
   * scale, is applied to all points or none, and the node is put back at
   * the stage origin.
   */
  method HandlePolygonDragEnd(annotation: CanvasAnnotation, node: KonvaNode, imageScale: real, originalImageSize: Size)
    returns (r: CanvasAnnotation)
    requires imageScale != 0.0
    modifies node
    ensures node.scaleX == old(node.scaleX) && node.scaleY == old(node.scaleY)
    ensures node.width == old(node.width) && node.height == old(node.height)
    ensures annotation.points.None? ==> r == annotation && node.x == old(node.x) && node.y == old(node.y)
    ensures annotation.points.Some? ==>
      && node.x == 0.0 && node.y == 0.0
      && r == annotation.(points := Some(DraggedPoints(annotation.points.value,
           old(node.x) / imageScale, old(node.y) / imageScale, originalImageSize)))
  {
    if annotation.points.None? {
      return annotation;
    }
    var dx := node.x / imageScale;
    var dy := node.y / imageScale;
    var newPoints := Translate(annotation.points.value, dx, dy);
    var allPointsValid := AllInside(newPoints, originalImageSize);
    node.SetPosition(Point(0.0, 0.0));
    r := annotation.(points := Some(if allPointsValid then newPoints else annotation.points.value));
  }

  /** The shift of a line: the drag position less the stage origin, both taken to original coordinates. */
  function LineOffset(v: View, pos: Point): (d: Point)
    requires v.scale != 0.0
    ensures d == Point(pos.x / v.scale, pos.y / v.scale)
  {
    var a := DisplayToOriginal(v, pos);
    var z := DisplayToOriginal(v, Point(0.0, 0.0));
    assert a.x - z.x == pos.x / v.scale by {
      assert (pos.x - v.offset.x) / v.scale - (0.0 - v.offset.x) / v.scale == (pos.x - v.offset.x - (0.0 - v.offset.x)) / v.scale;
    }
    assert a.y - z.y == pos.y / v.scale by {
      assert (pos.y - v.offset.y) / v.scale - (0.0 - v.offset.y) / v.scale == (pos.y - v.offset.y - (0.0 - v.offset.y)) / v.scale;
    }
    Point(a.x - z.x, a.y - z.y)
  }

  /**
   * `handleLineDragEnd` (both copies): without both end points nothing
   * changes; otherwise both move by the same offset, so the segment keeps
   * its direction and length, and the node is put back at the stage origin.
   */
  method HandleLineDragEnd(annotation: CanvasAnnotation, node: KonvaNode, v: View) returns (r: CanvasAnnotation)
    requires v.scale != 0.0
    modifies node
    ensures node.scaleX == old(node.scaleX) && node.scaleY == old(node.scaleY)
    ensures node.width == old(node.width) && node.height == old(node.height)
    ensures annotation.startPoint.None? || annotation.endPoint.None? ==>
      r == annotation && node.x == old(node.x) && node.y == old(node.y)
    ensures annotation.startPoint.Some? && annotation.endPoint.Some? ==>
      var d := LineOffset(v, Point(old(node.x), old(node.y)));
      && node.x == 0.0 && node.y == 0.0
      && r == annotation.(startPoint := Some(Point(annotation.startPoint.value.x + d.x, annotation.startPoint.value.y + d.y)),
                          endPoint := Some(Point(annotation.endPoint.value.x + d.x, annotation.endPoint.value.y + d.y)))
      && r.endPoint.value.x - r.startPoint.value.x == annotation.endPoint.value.x - annotation.startPoint.value.x
      && r.endPoint.value.y - r.startPoint.value.y == annotation.endPoint.value.y - annotation.startPoint.value.y
  {
    if annotation.startPoint.None? || annotation.endPoint.None? {
      return annotation;
    }
    var offset := LineOffset(v, Point(node.x, node.y));
    node.SetPosition(Point(0.0, 0.0));
    var s, e := annotation.startPoint.value, annotation.endPoint.value;
    r := annotation.(startPoint := Some(Point(s.x + offset.x, s.y + offset.y)),
                     endPoint := Some(Point(e.x + offset.x, e.y + offset.y)));
  }
}

=== FILE: drag_performance.dfy ===
/**
 * Batched drag updates: positions reported while nodes are dragged are
 * collected per node and applied together in one animation frame, no more
 * often than the target frame rate allows.
 *
 * The animation frame is the `ProcessBatchedUpdates` method, called with the
 * time it runs at; a node is named by its id and applying a position is
 * reported in the map the method returns.
 */
module DragPerformance {
  import opened Geometry

  /** `Math.max(15, Math.min(fps, 120))`. */
  function ClampFps(fps: real): (r: real)
    ensures 15.0 <= r <= 120.0
    ensures 15.0 <= fps <= 120.0 ==> r == fps
  {
    Max(15.0, Min(fps, 120.0))
  }

  class DragPerformanceManager {
    /** The position waiting for each node. */
    var pendingUpdates: map<string, Point>
    var isUpdateScheduled: bool
    var targetFPS: real
    /** Whether a frame id is held (`frameId !== null`). */
    var hasFrameId: bool
    var lastUpdateTime: real
    var frameInterval: real

    /** The frame interval is the time of one frame at the target rate. */
    ghost predicate Valid()
      reads this
    {
      targetFPS != 0.0 && frameInterval == 1000.0 / targetFPS
    }

    /** The constructor takes the rate as given, without clamping it. */
    constructor (fps: real)
      requires fps != 0.0
      ensures Valid()
      ensures pendingUpdates == map[] && !isUpdateScheduled && !hasFrameId
      ensures targetFPS == fps && lastUpdateTime == 0.0
    {
      pendingUpdates := map[];
      isUpdateScheduled := false;
      targetFPS := fps;
      hasFrameId := false;
      lastUpdateTime := 0.0;
      frameInterval := 1000.0 / fps;
    }

    /**
     * `scheduleDragUpdate`: the node's latest position replaces any earlier
     * one, and a frame is requested only when none is scheduled.
     */
    method ScheduleDragUpdate(nodeId: string, position: Point) returns (requested: bool)
      requires Valid()
      modifies this`pendingUpdates, this`isUpdateScheduled, this`hasFrameId
      ensures Valid()
      ensures pendingUpdates == old(pendingUpdates)[nodeId := position]
      ensures requested == !old(isUpdateScheduled)
      ensures isUpdateScheduled && hasFrameId == (old(hasFrameId) || requested)
    {
      pendingUpdates := pendingUpdates[nodeId := position];
      requested := !isUpdateScheduled;
      if requested {
        isUpdateScheduled := true;
        hasFrameId := true;
      }
    }

    /**
     * `processBatchedUpdates`, run at `now`: sooner than one frame interval
     * after the last batch it only asks for another frame; otherwise it
     * applies every pending position once, forgets them, and records the
     * time.
     */
    method ProcessBatchedUpdates(now: real) returns (applied: map<string, Point>)
      requires Valid()
      modifies this`pendingUpdates, this`isUpdateScheduled, this`hasFrameId, this`lastUpdateTime
      ensures Valid()
      ensures now - old(lastUpdateTime) < frameInterval ==>
        && applied == map[] && hasFrameId
        && pendingUpdates == old(pendingUpdates) && isUpdateScheduled == old(isUpdateScheduled)
        && lastUpdateTime == old(lastUpdateTime)
      ensures now - old(lastUpdateTime) >= frameInterval ==>
        && applied == old(pendingUpdates) && pendingUpdates == map[]
        && !isUpdateScheduled && lastUpdateTime == now && hasFrameId == old(hasFrameId)
    {
      if now - lastUpdateTime < frameInterval {
        hasFrameId := true;
        return map[];
      }
      applied := pendingUpdates;
      pendingUpdates := map[];
      isUpdateScheduled := false;
      lastUpdateTime := now;
    }

    /** `cancelPendingUpdates`: drops every pending position, the frame and the schedule. */
    method CancelPendingUpdates()
      requires Valid()
      modifies this`pendingUpdates, this`isUpdateScheduled, this`hasFrameId
      ensures Valid()
      ensures pendingUpdates == map[] && !isUpdateScheduled && !hasFrameId
    {
      hasFrameId := false;
      pendingUpdates := map[];
      isUpdateScheduled := false;
    }

    /** `setTargetFPS`: the rate is clamped to [15, 120] and the frame interval follows it. */
    method SetTargetFPS(fps: real)
      requires Valid()
      modifies this`targetFPS, this`frameInterval
      ensures Valid()
      ensures targetFPS == ClampFps(fps)
      ensures 1000.0 / 120.0 <= frameInterval <= 1000.0 / 15.0
    {
      targetFPS := ClampFps(fps);
      frameInterval := 1000.0 / targetFPS;
      IntervalBounds(targetFPS);
    }
  }

  /** A clamped rate gives an interval between 1000/120 and 1000/15 milliseconds. */
  lemma {:induction false} IntervalBounds(fps: real)
    requires 15.0 <= fps <= 120.0
    ensures 1000.0 / 120.0 <= 1000.0 / fps <= 1000.0 / 15.0
  {
    var i := 1000.0 / fps;
    assert i * fps == 1000.0;
  }

  /** Two drags of one node in one frame: only the later position is applied. */
  method LastWriteWins(m: DragPerformanceManager, nodeId: string, first: Point, second: Point, now: real)
    returns (applied: map<string, Point>)
    requires m.Valid() && m.pendingUpdates == map[] && now - m.lastUpdateTime >= m.frameInterval
    modifies m
    ensures applied == map[nodeId := second]
  {
    var _ := m.ScheduleDragUpdate(nodeId, first);
    var _ := m.ScheduleDragUpdate(nodeId, second);
    assert m.pendingUpdates == map[nodeId := second];
    applied := m.ProcessBatchedUpdates(now);
  }

  /** The frame rate `adjustPerformanceForComplexity` picks, with its branches as written. */
  function TargetFpsForComplexity(totalPolygons: int, averagePointCount: real): real {
    if totalPolygons > 15 || averagePointCount > 50.0 then 30.0
    else if totalPolygons > 25 || averagePointCount > 100.0 then 20.0
    else 60.0
  }

  /** 20 is never picked: the rate is 30 for a complex scene and 60 otherwise. */
  lemma {:induction false} TargetFpsTwoWays(totalPolygons: int, averagePointCount: real)
    ensures TargetFpsForComplexity(totalPolygons, averagePointCount)
      == if totalPolygons > 15 || averagePointCount > 50.0 then 30.0 else 60.0
  {
  }

  class BatchedDragHandlers {
    var dragManager: DragPerformanceManager

    constructor (fps: real)
      requires fps != 0.0
      ensures dragManager.Valid() && fresh(dragManager) && dragManager.targetFPS == fps
    {
      dragManager := new DragPerformanceManager(fps);
    }

    /** `handleDragMove`. */
    method HandleDragMove(nodeId: string, position: Point)
      requires dragManager.Valid()
      modifies dragManager
      ensures dragManager.Valid()
      ensures dragManager.pendingUpdates == old(dragManager.pendingUpdates)[nodeId := position]
      ensures dragManager.isUpdateScheduled
      ensures dragManager.hasFrameId == (old(dragManager.hasFrameId) || !old(dragManager.isUpdateScheduled))
      ensures && dragManager.targetFPS == old(dragManager.targetFPS)
              && dragManager.frameInterval == old(dragManager.frameInterval)
              && dragManager.lastUpdateTime == old(dragManager.lastUpdateTime)
    {
      var _ := dragManager.ScheduleDragUpdate(nodeId, position);
    }

    /** `handleDragEnd`: cancels the pending positions of every node, not only the dragged one. */
    method HandleDragEnd(nodeId: string, finalPosition: Point)
      requires dragManager.Valid()
      modifies dragManager
      ensures dragManager.Valid()
      ensures dragManager.pendingUpdates == map[] && !dragManager.isUpdateScheduled && !dragManager.hasFrameId
      ensures && dragManager.targetFPS == old(dragManager.targetFPS)
              && dragManager.frameInterval == old(dragManager.frameInterval)
              && dragManager.lastUpdateTime == old(dragManager.lastUpdateTime)
    {
      dragManager.CancelPendingUpdates();
    }

    /** `adjustPerformanceForComplexity`: 30 frames per second for a complex scene, 60 otherwise. */
    method AdjustPerformanceForComplexity(totalPolygons: int, averagePointCount: real)
      requires dragManager.Valid()
      modifies dragManager
      ensures dragManager.Valid()
      ensures dragManager.targetFPS == if totalPolygons > 15 || averagePointCount > 50.0 then 30.0 else 60.0
      ensures dragManager.frameInterval == 1000.0 / dragManager.targetFPS
      ensures && dragManager.pendingUpdates == old(dragManager.pendingUpdates)
              && dragManager.isUpdateScheduled == old(dragManager.isUpdateScheduled)
              && dragManager.hasFrameId == old(dragManager.hasFrameId)
              && dragManager.lastUpdateTime == old(dragManager.lastUpdateTime)
    {
      TargetFpsTwoWays(totalPolygons, averagePointCount);
      dragManager.SetTargetFPS(TargetFpsForComplexity(totalPolygons, averagePointCount));
    }
  }
}

=== FILE: flat_polygon.dfy ===
/**
 * The flat-array wrapper that three of the simplifiers put around
 * Ramer–Douglas–Peucker: read the `[x0, y0, x1, y1, ...]` array into points
 * two values at a time, simplify, and write the kept points back flat.
 * Arrays of fewer than six values (three points) are returned as they are.
 */
module FlatPolygon {
  import opened Geometry
  import opened DouglasPeucker

  /** The loop `for (i = 0; i < points.length - 1; i += 2) pointObjects.push({x, y})`. */
  method ToPoints(points: seq<real>) returns (objs: seq<Point>)
    ensures objs == Pairs(points)
  {
    objs := [];
    var i := 0;
    while i < |points| - 1
      invariant 0 <= i <= |points| && i % 2 == 0
      invariant |objs| == i / 2
      invariant forall k :: 0 <= k < |objs| ==> objs[k] == Point(points[2 * k], points[2 * k + 1])
    {
      objs := objs + [Point(points[i], points[i + 1])];
      i := i + 2;
    }
    assert |objs| == |points| / 2;
  }

  /** The loop `simplified.forEach(p => result.push(p.x, p.y))`. */
  method ToFlat(ps: seq<Point>) returns (flat: seq<real>)
    ensures flat == Flatten(ps)
  {
    flat := [];
    var i := 0;
    while i < |ps|
      invariant 0 <= i <= |ps|
      invariant |flat| == 2 * i
      invariant forall k :: 0 <= k < i ==> flat[2 * k] == ps[k].x && flat[2 * k + 1] == ps[k].y
    {
      flat := flat + [ps[i].x, ps[i].y];
      i := i + 1;
    }
    assert forall j :: 0 <= j < |flat| ==> flat[j] == Flatten(ps)[j] by {
      forall j | 0 <= j < |flat| ensures flat[j] == Flatten(ps)[j] {
        var k := j / 2;
        if j % 2 == 0 {
          assert j == 2 * k && flat[2 * k] == ps[k].x;
        } else {
          assert j == 2 * k + 1 && flat[2 * k + 1] == ps[k].y;
        }
      }
    }
  }

  /**
   * The simplified flat array: unchanged below six values or three points,
   * otherwise the flattened simplification of its points.
   */
  function SimplifyFlat(points: seq<real>, d: Measure, threshold: real): seq<real>
    requires threshold >= 0.0
  {
    if |points| < 6 then points
    else
      var objs := Pairs(points);
      if |objs| < 3 then points else Flatten(Simplify(objs, d, threshold))
  }

  /** The flat-array simplifier as the source runs it: read, simplify, write back. */
  method SimplifyFlatArray(points: seq<real>, d: Measure, threshold: real) returns (r: seq<real>)
    requires threshold >= 0.0
    ensures r == SimplifyFlat(points, d, threshold)
  {
    if |points| < 6 {
      return points;
    }
    var objs := ToPoints(points);
    if |objs| < 3 {
      return points;
    }
    var simplified := RamerDouglasPeucker(objs, d, threshold);
    r := ToFlat(simplified);
  }

  /** The points of `r` are points of `points` in order, the first and last among them. */
  ghost predicate KeepsPairsOf(r: seq<real>, points: seq<real>) {
    exists idx :: SubsequenceAt(Pairs(r), Pairs(points), idx) && SpansEnds(idx, |points| / 2)
  }

  /**
   * Below six values the array comes back as it is. From six values on the
   * result is a whole number of points, at least two and no more than the
   * input holds, and those points are a subsequence of the input's points
   * that keeps the first and the last.
   */
  lemma {:induction false} SimplifyFlatShape(points: seq<real>, d: Measure, threshold: real)
    requires threshold >= 0.0
    ensures |points| < 6 ==> SimplifyFlat(points, d, threshold) == points
    ensures |points| >= 6 ==>
      && |SimplifyFlat(points, d, threshold)| % 2 == 0
      && 4 <= |SimplifyFlat(points, d, threshold)| <= |points| - |points| % 2
      && KeepsPairsOf(SimplifyFlat(points, d, threshold), points)
  {
    if |points| >= 6 {
      var objs := Pairs(points);
      assert |objs| >= 3 && 2 * |objs| == |points| - |points| % 2;
      var s := Simplify(objs, d, threshold);
      assert SimplifyFlat(points, d, threshold) == Flatten(s);
      SimplifyLength(objs, d, threshold);
      assert |Flatten(s)| == 2 * |s|;
      KeptIsSubsequence(objs, d, threshold);
      PairsOfFlatten(s);
      assert SubsequenceAt(Pairs(Flatten(s)), objs, Kept(objs, d, threshold));
      assert SpansEnds(Kept(objs, d, threshold), |points| / 2);
    }
  }

  /**
   * When no interior point lies beyond the threshold, three or more points
   * collapse to the first and the last.
   */
  lemma {:induction false} SimplifyFlatCollapses(points: seq<real>, d: Measure, threshold: real)
    requires threshold >= 0.0 && |points| >= 6
    requires FarthestInterior(Pairs(points), d).dist <= threshold
    ensures SimplifyFlat(points, d, threshold)
      == [points[0], points[1], points[|points| / 2 * 2 - 2], points[|points| / 2 * 2 - 1]]
  {
    var objs := Pairs(points);
    var n := |points| / 2;
    assert |objs| == n && n >= 3 && n * 2 - 2 == 2 * (n - 1);
    CollapseUnfolds(objs, d, threshold);
    var f := Flatten([objs[0], objs[n - 1]]);
    assert SimplifyFlat(points, d, threshold) == f;
    assert objs[n - 1] == Point(points[2 * (n - 1)], points[2 * (n - 1) + 1]);
    assert f[2] == points[2 * (n - 1)] && f[3] == points[2 * (n - 1) + 1];
  }

  /** Simplifying a simplified flat array again changes nothing. */
  lemma {:induction false} SimplifyFlatIdempotent(points: seq<real>, d: Measure, threshold: real)
    requires threshold >= 0.0
    ensures SimplifyFlat(SimplifyFlat(points, d, threshold), d, threshold) == SimplifyFlat(points, d, threshold)
  {
    var r := SimplifyFlat(points, d, threshold);
    if |points| >= 6 && |r| >= 6 {
      var s := Simplify(Pairs(points), d, threshold);
      PairsOfFlatten(s);
      SimplifyIdempotent(Pairs(points), d, threshold);
      assert Pairs(r) == s;
    }
  }

  /** A higher threshold keeps no more values. */
  lemma {:induction false} SimplifyFlatMonotone(points: seq<real>, d: Measure, t1: real, t2: real)
    requires 0.0 <= t1 <= t2
    ensures |SimplifyFlat(points, d, t2)| <= |SimplifyFlat(points, d, t1)|
  {
    if |points| >= 6 {
      HigherThresholdKeepsNoMore(Pairs(points), d, t1, t2);
    }
  }
}

=== FILE: geometry.dfy ===
/**
 * Points in the plane and the flat `[x0, y0, x1, y1, ...]` coordinate arrays
 * that the canvas library (Konva) works with.
 */
module Geometry {

  datatype Point = Point(x: real, y: real)

  function Min(a: real, b: real): real { if a <= b then a else b }
  function Max(a: real, b: real): real { if a >= b then a else b }

  /** Squared Euclidean distance between two points. */
  function DistSq(p: Point, q: Point): real {
    (p.x - q.x) * (p.x - q.x) + (p.y - q.y) * (p.y - q.y)
  }

  /** The flat array of a point list: x and y of each point, in order. */
  function Flatten(ps: seq<Point>): (flat: seq<real>)
    ensures |flat| == 2 * |ps|
    ensures forall k :: 0 <= k < |ps| ==> flat[2 * k] == ps[k].x && flat[2 * k + 1] == ps[k].y
  {
    if ps == [] then [] else [ps[0].x, ps[0].y] + Flatten(ps[1..])
  }

  /**
   * The points of a flat array, read two values at a time while a full pair
   * remains; an odd trailing value is dropped.
   */
  function Pairs(flat: seq<real>): (ps: seq<Point>)
    ensures |ps| == |flat| / 2
    ensures forall k :: 0 <= k < |ps| ==> ps[k] == Point(flat[2 * k], flat[2 * k + 1])
  {
    if |flat| < 2 then [] else [Point(flat[0], flat[1])] + Pairs(flat[2..])
  }

  /** Reading back a flattened point list gives the same points. */
  lemma PairsOfFlatten(ps: seq<Point>)
    ensures Pairs(Flatten(ps)) == ps
  {
    var r := Pairs(Flatten(ps));
    assert |r| == |ps|;
    forall k | 0 <= k < |ps| ensures r[k] == ps[k] {
      assert r[k] == Point(Flatten(ps)[2 * k], Flatten(ps)[2 * k + 1]);
    }
  }

  /** Flattening the points of an array gives the array back, minus an odd trailing value. */
  lemma {:induction false} FlattenOfPairs(flat: seq<real>)
    ensures Flatten(Pairs(flat)) == flat[..|flat| - |flat| % 2]
    decreases |flat|
  {
    if |flat| >= 2 {
      var rest := flat[2..];
      FlattenOfPairs(rest);
      assert Pairs(flat)[1..] == Pairs(rest);
      assert |rest| % 2 == |flat| % 2;
      assert flat[..|flat| - |flat| % 2] == [flat[0], flat[1]] + rest[..|rest| - |rest| % 2];
    }
  }
}

=== FILE: hitbox.dfy ===
/**
 * Two-tier polygons: the full outline is drawn while a simplified outline,
 * made with an aggressive tolerance, serves as the hit region once a polygon
 * or the scene is complex enough.
 */
module Hitbox {
  import opened Geometry
  import opened Distance
  import opened DouglasPeucker
  import opened FlatPolygon

  /**
   * `createHitboxPolygon`: the flat simplifier with the segment distance.
   * Below six values the array comes back as it is.
   */
  function CreateHitboxPolygon(points: seq<real>, tolerance: real): (r: seq<real>)
    requires tolerance >= 0.0
    ensures |points| < 6 ==> r == points
    ensures |points| >= 6 ==> |r| % 2 == 0 && 4 <= |r| <= |points| && KeepsPairsOf(r, points)
  {
    SimplifyFlatShape(points, SegmentDistSq, Square(tolerance));
    SimplifyFlat(points, SegmentDistSq, Square(tolerance))
  }

  /** `createHitboxPolygon` with its read, scan and write-back loops. */
  method CreateHitboxPolygonLoop(points: seq<real>, tolerance: real) returns (r: seq<real>)
    requires tolerance >= 0.0
    ensures r == CreateHitboxPolygon(points, tolerance)
  {
    r := SimplifyFlatArray(points, SegmentDistSq, Square(tolerance));
  }

  /** A hit region simplified once is left as it is by simplifying it again. */
  lemma {:induction false} HitboxStable(points: seq<real>, tolerance: real)
    requires tolerance >= 0.0
    ensures CreateHitboxPolygon(CreateHitboxPolygon(points, tolerance), tolerance)
      == CreateHitboxPolygon(points, tolerance)
  {
    SimplifyFlatIdempotent(points, SegmentDistSq, Square(tolerance));
  }

  /** `shouldUseSimplifiedHitbox`: more than 20 points, or 8 polygons or more. */
  predicate ShouldUseSimplifiedHitbox(pointCount: real, totalPolygons: int) {
    pointCount > 20.0 || totalPolygons >= 8
  }

  datatype HitboxPolygon = HitboxPolygon(visual: seq<real>, hitbox: seq<real>, isSimplified: bool)

  /**
   * `createTwoTierPolygon`: the outline is always drawn whole; the hit region
   * is simplified exactly when the polygon (its `length / 2` points) or the
   * scene calls for it, and `isSimplified` records that the simplifier ran,
   * not that it removed a point.
   */
  function CreateTwoTierPolygon(points: seq<real>, totalPolygons: int, tolerance: real): (h: HitboxPolygon)
    requires tolerance >= 0.0
    ensures h.visual == points
    ensures h.isSimplified <==> |points| > 40 || totalPolygons >= 8
    ensures h.isSimplified ==> h.hitbox == CreateHitboxPolygon(points, tolerance)
    ensures !h.isSimplified ==> h.hitbox == points
  {
    if ShouldUseSimplifiedHitbox(|points| as real / 2.0, totalPolygons) then
      HitboxPolygon(points, CreateHitboxPolygon(points, tolerance), true)
    else
      HitboxPolygon(points, points, false)
  }

  /** A scene of eight polygons marks even a triangle as simplified, though nothing is removed. */
  lemma {:induction false} SimplifiedFlagWithoutRemoval(a: real, b: real, tolerance: real)
    requires tolerance >= 0.0
    ensures CreateTwoTierPolygon([a, b, a, b, a, b], 8, tolerance).isSimplified
    ensures CreateTwoTierPolygon([a, b, a, b, a, b], 8, tolerance).hitbox == [a, b, a, b]
  {
    var ps := [a, b, a, b, a, b];
    var p := Point(a, b);
    assert Pairs(ps) == [p, p, p];
    DegenerateChord(p, p);
    assert ChordDist([p, p, p], SegmentDistSq, 1) == 0.0;
    assert FarthestInterior([p, p, p], SegmentDistSq) == Farthest(0.0, 0);
    SimplifyFlatCollapses(ps, SegmentDistSq, Square(tolerance));
  }

  /**
   * `calculateOptimalTolerance`: 8 above 50 points, 12 above 100 points,
   * 5 otherwise, divided by the zoom (at least 0.3), and at least 2.
   */
  function CalculateOptimalTolerance(points: seq<real>, zoomLevel: real): (t: real)
    ensures t >= 2.0
  {
    var pointCount := |points| as real / 2.0;
    var base := if pointCount > 50.0 then 8.0 else if pointCount > 100.0 then 12.0 else 5.0;
    Max(2.0, base / Max(zoomLevel, 0.3))
  }

  /**
   * The 12 is never used: the tolerance is 8 or 5 by the point count alone,
   * and it never exceeds 8 / 0.3.
   */
  lemma {:induction false} OptimalToleranceBases(points: seq<real>, zoomLevel: real)
    ensures CalculateOptimalTolerance(points, zoomLevel)
      == Max(2.0, (if |points| > 100 then 8.0 else 5.0) / Max(zoomLevel, 0.3))
    ensures CalculateOptimalTolerance(points, zoomLevel) <= 8.0 / 0.3
  {
    var z := Max(zoomLevel, 0.3);
    assert 8.0 / z <= 8.0 / 0.3;
    assert 5.0 / z <= 8.0 / 0.3;
  }
}

=== FILE: jwt.dfy ===
/**
 * Reading the claims of a JSON Web Token without checking its signature:
 * the three dot-separated parts, the padding of the payload for base64
 * decoding, and the user id, email and expiry taken from the payload.
 *
 * Base64 decoding (`atob`), JSON parsing and `parseInt` are parameters:
 * `Some` for a value, `None` where the original throws or gives NaN.
 */
module Jwt {
  import opened Wrappers
  import opened Text

  /** A claim value as JSON may give it. */
  datatype Claim = NumberClaim(n: int) | StringClaim(s: string) | OtherClaim(truthy: bool)

  /** The claims the frontend reads; a missing claim is `None`. */
  datatype JwtPayload = JwtPayload(
    userId: Option<Claim>,
    id: Option<Claim>,
    sub: Option<Claim>,
    email: Option<string>,
    exp: Option<int>)

  /** JavaScript truthiness of an optional claim. */
  predicate Truthy(c: Option<Claim>) {
    match c
    case None => false
    case Some(NumberClaim(n)) => n != 0
    case Some(StringClaim(s)) => s != ""
    case Some(OtherClaim(t)) => t
  }

  /** The pieces of `token.split('.')`. */
  function Parts(token: string): (parts: seq<string>)
    ensures 1 <= |parts|
  {
    Split(token, '.')
  }

  /** The token has a header, a payload and a signature. */
  predicate ThreeParts(token: string) {
    |Parts(token)| == 3
  }

  /**
   * `(4 - len % 4) % 4`: the one count of `=` below four that makes the
   * length a multiple of four.
   */
  function PaddingLength(len: nat): (k: nat)
    ensures k <= 3
    ensures (len + k) % 4 == 0
  {
    (4 - len % 4) % 4
  }

  function Repeat(c: char, n: nat): (r: string)
    ensures |r| == n && forall i :: 0 <= i < n ==> r[i] == c
  {
    seq(n, _ => c)
  }

  /** The payload part with its base64 padding restored. */
  function Pad(payload: string): (p: string)
    ensures |payload| <= |p| <= |payload| + 3 && |p| % 4 == 0
    ensures p[..|payload|] == payload
    ensures forall i :: |payload| <= i < |p| ==> p[i] == '='
  {
    payload + Repeat('=', PaddingLength(|payload|))
  }

  /**
   * `decodeJWT`: nothing for an empty token, one that does not have
   * exactly three parts, or one with an empty payload part; otherwise the
   * parsed, base64-decoded, padded payload part, or nothing when decoding
   * or parsing fails.
   */
  function DecodeJWT(token: string, atob: string -> Option<string>, parse: string -> Option<JwtPayload>)
    : (r: Option<JwtPayload>)
    ensures r.Some? ==> token != "" && ThreeParts(token) && Parts(token)[1] != ""
    ensures r.Some? ==> atob(Pad(Parts(token)[1])).Some? && r == parse(atob(Pad(Parts(token)[1])).value)
    ensures token != "" && ThreeParts(token) && Parts(token)[1] != "" && atob(Pad(Parts(token)[1])).Some?
      ==> r == parse(atob(Pad(Parts(token)[1])).value)
  {
    if token == "" then None
    else
      var parts := Parts(token);
      if |parts| != 3 then None
      else if parts[1] == "" then None
      else
        match atob(Pad(parts[1]))
        case None => None
        case Some(decoded) => parse(decoded)
  }

  /** Three dot-free parts joined by dots split back into those parts. */
  lemma {:induction false} PartsOf(header: string, payload: string, signature: string)
    requires '.' !in header && '.' !in payload && '.' !in signature
    ensures Parts(header + "." + payload + "." + signature) == [header, payload, signature]
  {
    var parts := [header, payload, signature];
    assert Join(parts[1..][1..], ".") == signature;
    assert Join(parts[1..], ".") == payload + "." + signature;
    assert Join(parts, ".") == header + "." + (payload + "." + signature);
    assert header + "." + payload + "." + signature == header + "." + (payload + "." + signature);
    SplitOfJoin(parts, '.');
  }

  /** A token built from three dot-free parts decodes its middle part. */
  lemma {:induction false} DecodeOfParts(header: string, payload: string, signature: string,
                                         atob: string -> Option<string>, parse: string -> Option<JwtPayload>)
    requires '.' !in header && '.' !in payload && '.' !in signature
    requires payload != ""
    ensures DecodeJWT(header + "." + payload + "." + signature, atob, parse)
      == if atob(Pad(payload)).None? then None else parse(atob(Pad(payload)).value)
  {
    PartsOf(header, payload, signature);
    var token := header + "." + payload + "." + signature;
    assert token[|header|] == '.';
  }

  /** `payload.userId || payload.id || payload.sub`: the first truthy one. */
  function UserIdClaim(p: JwtPayload): (c: Option<Claim>)
    ensures Truthy(p.userId) ==> c == p.userId
    ensures !Truthy(p.userId) && Truthy(p.id) ==> c == p.id
    ensures !Truthy(p.userId) && !Truthy(p.id) ==> c == p.sub
  {
    if Truthy(p.userId) then p.userId else if Truthy(p.id) then p.id else p.sub
  }

  /**
   * `getUserIdFromToken`: the first truthy of the three id claims; a number
   * as it is, a string through `parseInt`, anything else nothing.
   */
  function GetUserIdFromToken(token: Option<string>, atob: string -> Option<string>,
                              parse: string -> Option<JwtPayload>, parseInt: string -> Option<int>)
    : (r: Option<int>)
    ensures r.Some? ==> token.Some? && DecodeJWT(token.value, atob, parse).Some?
    ensures r.Some? ==> var c := UserIdClaim(DecodeJWT(token.value, atob, parse).value);
      || c == Some(NumberClaim(r.value))
      || (c.Some? && c.value.StringClaim? && parseInt(c.value.s) == r)
    ensures token.Some? && DecodeJWT(token.value, atob, parse).Some? ==>
      var c := UserIdClaim(DecodeJWT(token.value, atob, parse).value);
      && (c.Some? && c.value.NumberClaim? ==> r == Some(c.value.n))
      && (c.Some? && c.value.StringClaim? ==> r == parseInt(c.value.s))
      && (c.None? || c.value.OtherClaim? ==> r.None?)
  {
    if token.None? || token.value == "" then None
    else
      match DecodeJWT(token.value, atob, parse)
      case None => None
      case Some(payload) =>
        match UserIdClaim(payload)
        case Some(NumberClaim(n)) => Some(n)
        case Some(StringClaim(s)) => parseInt(s)
        case _ => None
  }

  /** A non-zero numeric `userId` wins over the other two claims. */
  lemma {:induction false} UserIdTakesPrecedence(token: string, atob: string -> Option<string>,
                                                 parse: string -> Option<JwtPayload>, parseInt: string -> Option<int>)
    requires DecodeJWT(token, atob, parse).Some?
    requires DecodeJWT(token, atob, parse).value.userId.Some?
    requires DecodeJWT(token, atob, parse).value.userId.value.NumberClaim?
    requires DecodeJWT(token, atob, parse).value.userId.value.n != 0
    ensures GetUserIdFromToken(Some(token), atob, parse, parseInt) == Some(DecodeJWT(token, atob, parse).value.userId.value.n)
  {
  }

  /** A `userId` of 0 is falsy and passes the choice on to `id`. */
  lemma {:induction false} ZeroUserIdFallsThrough(token: string, atob: string -> Option<string>,
                                                  parse: string -> Option<JwtPayload>, parseInt: string -> Option<int>, m: int)
    requires DecodeJWT(token, atob, parse).Some?
    requires DecodeJWT(token, atob, parse).value.userId == Some(NumberClaim(0))
    requires DecodeJWT(token, atob, parse).value.id == Some(NumberClaim(m)) && m != 0
    ensures GetUserIdFromToken(Some(token), atob, parse, parseInt) == Some(m)
  {
  }

  /**
   * `isTokenExpired`: expired when the payload cannot be read or has no
   * (or a zero) expiry; otherwise when the expiry, in seconds, lies before
   * the current whole second.
   */
  function IsTokenExpired(token: string, nowMs: int, atob: string -> Option<string>,
                          parse: string -> Option<JwtPayload>): (expired: bool)
    ensures DecodeJWT(token, atob, parse).None? ==> expired
    ensures DecodeJWT(token, atob, parse).Some? ==>
      var exp := DecodeJWT(token, atob, parse).value.exp;
      expired <==> exp.None? || exp.value == 0 || exp.value * 1000 + 1000 <= nowMs
  {
    var payload := DecodeJWT(token, atob, parse);
    if payload.None? || payload.value.exp.None? || payload.value.exp.value == 0 then true
    else
      var currentTime := nowMs / 1000;
      payload.value.exp.value < currentTime
  }

  /** Once expired, a token stays expired as the clock moves on. */
  lemma {:induction false} ExpiryIsPermanent(token: string, t1: int, t2: int, atob: string -> Option<string>,
                                             parse: string -> Option<JwtPayload>)
    requires t1 <= t2
    requires IsTokenExpired(token, t1, atob, parse)
    ensures IsTokenExpired(token, t2, atob, parse)
  {
  }

  /** `getUserEmailFromToken`: the email claim when there is a non-empty one. */
  function GetUserEmailFromToken(token: Option<string>, atob: string -> Option<string>,
                                 parse: string -> Option<JwtPayload>): (r: Option<string>)
    ensures r.Some? <==> (token.Some? && token.value != "" && DecodeJWT(token.value, atob, parse).Some?
                          && DecodeJWT(token.value, atob, parse).value.email.Some?
                          && DecodeJWT(token.value, atob, parse).value.email.value != "")
    ensures r.Some? ==> r == DecodeJWT(token.value, atob, parse).value.email
  {
    if token.None? || token.value == "" then None
    else
      match DecodeJWT(token.value, atob, parse)
      case None => None
      case Some(payload) => if payload.email.Some? && payload.email.value != "" then payload.email else None
  }

  /**
   * `isValidJWT`: three non-empty parts whose header and payload decode as
   * base64 as they are, without padding; the signature is never looked at.
   */
  function IsValidJWT(token: Option<string>, atob: string -> Option<string>): (valid: bool)
    ensures valid ==> token.Some? && ThreeParts(token.value)
    ensures valid ==> forall i :: 0 <= i < 3 ==> Parts(token.value)[i] != ""
    ensures valid ==> atob(Parts(token.value)[0]).Some? && atob(Parts(token.value)[1]).Some?
    ensures (token.Some? && ThreeParts(token.value) && (forall i :: 0 <= i < 3 ==> Parts(token.value)[i] != "")
             && atob(Parts(token.value)[0]).Some? && atob(Parts(token.value)[1]).Some?) ==> valid
  {
    if token.None? || token.value == "" then false
    else
      var parts := Parts(token.value);
      if |parts| != 3 then false
      else if parts[0] == "" || parts[1] == "" || parts[2] == "" then false
      else atob(parts[0]).Some? && atob(parts[1]).Some?
  }

  /** Validity does not depend on the signature, only on its being there. */
  lemma {:induction false} SignatureNeverChecked(header: string, payload: string, s1: string, s2: string,
                                                 atob: string -> Option<string>)
    requires '.' !in header && '.' !in payload && '.' !in s1 && '.' !in s2
    requires s1 != "" && s2 != ""
    ensures IsValidJWT(Some(header + "." + payload + "." + s1), atob)
      == IsValidJWT(Some(header + "." + payload + "." + s2), atob)
  {
    PartsOf(header, payload, s1);
    PartsOf(header, payload, s2);
  }

  /**
   * A token that passes `isValidJWT` passes the shape checks of
   * `decodeJWT`, so that decoding can then fail only in base64 decoding of
   * the padded payload or in parsing.
   */
  lemma {:induction false} ValidTokensHaveDecodableShape(token: string, atob: string -> Option<string>,
                                                         parse: string -> Option<JwtPayload>)
    requires IsValidJWT(Some(token), atob)
    ensures DecodeJWT(token, atob, parse)
      == if atob(Pad(Parts(token)[1])).None? then None else parse(atob(Pad(Parts(token)[1])).value)
  {
    assert Parts(token)[1] != "";
  }
}

=== FILE: performance_budget.dfy ===
/**
 * The performance budget: a complexity score of the scene picks one of four
 * quality levels, each with a fixed rendering budget that is applied to the
 * drawing configuration of a shape.
 */
module PerformanceBudget {
  import opened Wrappers
  import opened Geometry

  datatype Thresholds = Thresholds(light: int, medium: int, heavy: int, critical: int)

  const DefaultThresholds := Thresholds(8, 15, 25, 40)

  /** A `Partial<PerformanceThresholds>`. */
  datatype ThresholdsPatch = ThresholdsPatch(light: Option<int>, medium: Option<int>, heavy: Option<int>, critical: Option<int>)

  datatype SceneComplexity = SceneComplexity(
    totalAnnotations: int,
    complexPolygons: int,
    averagePointCount: real,
    isZooming: bool,
    isDragging: bool)

  datatype Level = Optimal | Good | Reduced | Minimal {
    /** The position of the level from best (0) to worst (3). */
    function Rank(): nat {
      match this
      case Optimal => 0
      case Good => 1
      case Reduced => 2
      case Minimal => 3
    }
  }

  datatype Budget = Budget(
    strokeWidth: real,
    shadowEnabled: bool,
    tension: real,
    perfectDrawEnabled: bool,
    hitStrokeWidth: real,
    dashEnabled: bool,
    fillOpacity: real)

  /** The budget table. */
  function BudgetFor(level: Level): Budget {
    match level
    case Optimal => Budget(1.0, true, 0.3, true, 0.0, false, 0.1)
    case Good => Budget(1.0, true, 0.2, false, 4.0, false, 0.08)
    case Reduced => Budget(0.8, false, 0.1, false, 6.0, true, 0.05)
    case Minimal => Budget(0.6, false, 0.05, false, 8.0, true, 0.02)
  }

  /**
   * From a better level to a worse one the stroke factor, the tension and
   * the fill opacity never grow and the hit stroke never shrinks; shadows
   * and exact drawing are dropped, dashes turned on.
   */
  lemma {:induction false} BudgetDegrades(a: Level, b: Level)
    requires a.Rank() <= b.Rank()
    ensures BudgetFor(b).strokeWidth <= BudgetFor(a).strokeWidth
    ensures BudgetFor(b).tension <= BudgetFor(a).tension
    ensures BudgetFor(b).fillOpacity <= BudgetFor(a).fillOpacity
    ensures BudgetFor(a).hitStrokeWidth <= BudgetFor(b).hitStrokeWidth
    ensures BudgetFor(b).shadowEnabled ==> BudgetFor(a).shadowEnabled
    ensures BudgetFor(b).perfectDrawEnabled ==> BudgetFor(a).perfectDrawEnabled
    ensures BudgetFor(a).dashEnabled ==> BudgetFor(b).dashEnabled
  {
    match a
    case Optimal =>
    case Good =>
    case Reduced =>
    case Minimal =>
  }

  /** The score before the interaction factor: annotations, twice the complex polygons, and a tenth of the average point count rounded down. */
  function BaseScore(c: SceneComplexity): int {
    c.totalAnnotations + c.complexPolygons * 2 + (c.averagePointCount / 10.0).Floor
  }

  /** The score as `getPerformanceLevel` computes it: 1.5 times the base while zooming or dragging. */
  function Score(c: SceneComplexity): real {
    if c.isZooming || c.isDragging then BaseScore(c) as real * 1.5 else BaseScore(c) as real
  }

  /** Twice the score, an integer: the score compared with a threshold without fractions. */
  function DoubledScore(c: SceneComplexity): int {
    if c.isZooming || c.isDragging then 3 * BaseScore(c) else 2 * BaseScore(c)
  }

  /** Comparing twice the score with twice a threshold is comparing the score with it. */
  lemma {:induction false} DoubledScoreCompares(c: SceneComplexity, threshold: int)
    ensures Score(c) <= threshold as real <==> DoubledScore(c) <= 2 * threshold
    ensures Score(c) * 2.0 == DoubledScore(c) as real
  {
  }

  /** An example: thirty annotations, two complex polygons and sixty points on average score 60 while zooming. */
  lemma {:induction false} ScoreExample()
    ensures Score(SceneComplexity(30, 2, 60.0, true, false)) == 60.0
  {
    assert (60.0 / 10.0).Floor == 6;
  }

  /**
   * `getPerformanceLevel`: optimal up to `light`, good up to `medium`,
   * reduced up to `heavy`, minimal beyond; `critical` is not consulted.
   */
  function LevelFor(t: Thresholds, c: SceneComplexity): Level {
    var s := DoubledScore(c);
    if s <= 2 * t.light then Optimal
    else if s <= 2 * t.medium then Good
    else if s <= 2 * t.heavy then Reduced
    else Minimal
  }

  /** The level is the one whose band holds the score. */
  lemma {:induction false} LevelBands(t: Thresholds, c: SceneComplexity)
    requires t.light <= t.medium <= t.heavy
    ensures LevelFor(t, c) == Optimal <==> Score(c) <= t.light as real
    ensures LevelFor(t, c) == Good <==> t.light as real < Score(c) <= t.medium as real
    ensures LevelFor(t, c) == Reduced <==> t.medium as real < Score(c) <= t.heavy as real
    ensures LevelFor(t, c) == Minimal <==> t.heavy as real < Score(c)
    ensures LevelFor(t, c) == LevelFor(t.(critical := 0), c)
  {
    DoubledScoreCompares(c, t.light);
    DoubledScoreCompares(c, t.medium);
    DoubledScoreCompares(c, t.heavy);
  }

  /** With ordered thresholds a higher score never gives a better level. */
  lemma {:induction false} LevelMonotone(t: Thresholds, c1: SceneComplexity, c2: SceneComplexity)
    requires t.light <= t.medium <= t.heavy
    requires Score(c1) <= Score(c2)
    ensures LevelFor(t, c1).Rank() <= LevelFor(t, c2).Rank()
  {
    DoubledScoreCompares(c1, t.light);
    DoubledScoreCompares(c1, t.medium);
    DoubledScoreCompares(c1, t.heavy);
    DoubledScoreCompares(c2, t.light);
    DoubledScoreCompares(c2, t.medium);
    DoubledScoreCompares(c2, t.heavy);
  }

  /**
   * The drawing configuration of a shape, as far as a budget touches it.
   * `tension` and `dash` are `None` where the configuration has no such key;
   * `rest` stands for every other key, the fill included.
   */
  datatype ShapeConfig<Rest> = ShapeConfig(
    strokeWidth: real,
    shadowEnabled: bool,
    perfectDrawEnabled: bool,
    hitStrokeWidth: Option<real>,
    tension: Option<real>,
    dash: Option<seq<int>>,
    rest: Rest)

  /**
   * `applyBudgetToPolygon`: the stroke is the base width times the budget's
   * factor but at least 1; a shadow only where the budget allows it and the
   * shape is selected or the scene is at its best, so only at the two best
   * levels; exact drawing only at the best level; the tension only where
   * the configuration has that key; a dash on shapes not selected at the
   * two levels whose budget turns dashes on.
   */
  function ApplyBudgetToPolygon<Rest>(config: ShapeConfig<Rest>, level: Level, isSelected: bool, baseStrokeWidth: real)
    : (r: ShapeConfig<Rest>)
    ensures r.strokeWidth >= 1.0 && r.strokeWidth >= baseStrokeWidth * BudgetFor(level).strokeWidth
    ensures r.strokeWidth == 1.0 || r.strokeWidth == baseStrokeWidth * BudgetFor(level).strokeWidth
    ensures r.shadowEnabled <==> level == Optimal || (level == Good && isSelected)
    ensures r.perfectDrawEnabled <==> level == Optimal
    ensures r.hitStrokeWidth == Some(BudgetFor(level).hitStrokeWidth)
    ensures r.tension.Some? <==> config.tension.Some?
    ensures config.tension.Some? ==> r.tension.value == BudgetFor(level).tension
    ensures !isSelected && level.Rank() >= 2 ==> r.dash == Some([3, 3])
    ensures isSelected || level.Rank() < 2 ==> r.dash == config.dash
    ensures r.rest == config.rest
  {
    var b := BudgetFor(level);
    config.(
      strokeWidth := Max(1.0, baseStrokeWidth * b.strokeWidth),
      shadowEnabled := b.shadowEnabled && (isSelected || level == Optimal),
      perfectDrawEnabled := b.perfectDrawEnabled,
      hitStrokeWidth := Some(b.hitStrokeWidth),
      tension := if config.tension.Some? then Some(b.tension) else None,
      dash := if !isSelected && b.dashEnabled then Some([3, 3]) else config.dash)
  }

  /** `applyBudgetToBasicShape`: stroke, shadow and exact drawing only. */
  function ApplyBudgetToBasicShape<Rest>(config: ShapeConfig<Rest>, level: Level, isSelected: bool, baseStrokeWidth: real)
    : (r: ShapeConfig<Rest>)
    ensures r.strokeWidth >= 1.0 && r.strokeWidth >= baseStrokeWidth * BudgetFor(level).strokeWidth
    ensures r.strokeWidth == 1.0 || r.strokeWidth == baseStrokeWidth * BudgetFor(level).strokeWidth
    ensures r.shadowEnabled <==> level == Optimal || (level == Good && isSelected)
    ensures r.perfectDrawEnabled <==> level == Optimal
    ensures r.hitStrokeWidth == config.hitStrokeWidth && r.tension == config.tension && r.dash == config.dash
    ensures r.rest == config.rest
  {
    var b := BudgetFor(level);
    config.(
      strokeWidth := Max(1.0, baseStrokeWidth * b.strokeWidth),
      shadowEnabled := b.shadowEnabled && (isSelected || level == Optimal),
      perfectDrawEnabled := b.perfectDrawEnabled)
  }

  /** Both appliers agree on what they both set. */
  lemma {:induction false} AppliersAgree<Rest>(config: ShapeConfig<Rest>, level: Level, isSelected: bool, baseStrokeWidth: real)
    ensures ApplyBudgetToPolygon(config, level, isSelected, baseStrokeWidth).strokeWidth
      == ApplyBudgetToBasicShape(config, level, isSelected, baseStrokeWidth).strokeWidth
    ensures ApplyBudgetToPolygon(config, level, isSelected, baseStrokeWidth).shadowEnabled
      == ApplyBudgetToBasicShape(config, level, isSelected, baseStrokeWidth).shadowEnabled
  {
  }

  /** `{ ...thresholds, ...patch }`. */
  function MergeThresholds(t: Thresholds, p: ThresholdsPatch): (r: Thresholds)
    ensures p.light.Some? ==> r.light == p.light.value
    ensures p.light.None? ==> r.light == t.light
    ensures p.medium.Some? ==> r.medium == p.medium.value
    ensures p.medium.None? ==> r.medium == t.medium
    ensures p.heavy.Some? ==> r.heavy == p.heavy.value
    ensures p.heavy.None? ==> r.heavy == t.heavy
    ensures p.critical.Some? ==> r.critical == p.critical.value
    ensures p.critical.None? ==> r.critical == t.critical
  {
    Thresholds(p.light.GetOr(t.light), p.medium.GetOr(t.medium), p.heavy.GetOr(t.heavy), p.critical.GetOr(t.critical))
  }

  /** What `getMetrics` reports. */
  datatype Metrics = Metrics(level: Level, budget: Budget, complexityScore: int, thresholds: Thresholds)

  class PerformanceBudgetManager {
    var thresholds: Thresholds

    constructor ()
      ensures thresholds == DefaultThresholds
    {
      thresholds := DefaultThresholds;
    }

    /** `getPerformanceLevel`. */
    function GetPerformanceLevel(c: SceneComplexity): Level
      reads this
    {
      LevelFor(thresholds, c)
    }

    /** `getBudget`: a copy of the level's row of the table. */
    function GetBudget(c: SceneComplexity): (b: Budget)
      reads this
      ensures b == BudgetFor(GetPerformanceLevel(c))
    {
      BudgetFor(GetPerformanceLevel(c))
    }

    /**
     * `getMetrics`: the score it reports counts annotations and twice the
     * complex polygons only, neither the point density nor the interaction
     * factor.
     */
    function GetMetrics(c: SceneComplexity): (m: Metrics)
      reads this
      ensures m.complexityScore == BaseScore(c) - (c.averagePointCount / 10.0).Floor
      ensures m.level == GetPerformanceLevel(c) && m.budget == BudgetFor(m.level)
    {
      Metrics(GetPerformanceLevel(c), GetBudget(c), c.totalAnnotations + c.complexPolygons * 2, thresholds)
    }

    /** `updateThresholds`: the supplied thresholds replace the current ones. */
    method UpdateThresholds(p: ThresholdsPatch)
      modifies this
      ensures thresholds == MergeThresholds(old(thresholds), p)
    {
      thresholds := MergeThresholds(thresholds, p);
    }
  }
}

=== FILE: performance_monitor.dfy ===
/**
 * The polygon performance monitor: counts the polygons of the scene, keeps
 * a bounded history of frame times, and from both decides when to optimize
 * and what status to show.
 */
module PerformanceMonitor {
  import opened Wrappers

  /** An annotation as the monitor sees it: its type and its flat points, if any. */
  datatype Shape = Shape(kind: string, points: Option<seq<real>>)

  predicate IsPolygonLike(s: Shape) {
    s.kind == "polygon" || s.kind == "freehand"
  }

  /** The polygons and freehand paths among the annotations, in order. */
  function Polygons(anns: seq<Shape>): (ps: seq<Shape>)
    ensures |ps| <= |anns|
    ensures forall p :: p in ps ==> p in anns && IsPolygonLike(p)
    ensures forall a :: a in anns && IsPolygonLike(a) ==> a in ps
  {
    if anns == [] then []
    else (if IsPolygonLike(anns[0]) then [anns[0]] else []) + Polygons(anns[1..])
  }

  /** How many of the polygons have more than `limit` points (more than twice as many values). */
  function ComplexCount(ps: seq<Shape>, limit: int): (n: nat)
    ensures n <= |ps|
  {
    if ps == [] then 0
    else (if ps[0].points.Some? && |ps[0].points.value| > limit * 2 then 1 else 0) + ComplexCount(ps[1..], limit)
  }

  /** The sum of the values held by the polygons; a polygon without points adds nothing. */
  function PointTotal(ps: seq<Shape>): nat {
    if ps == [] then 0
    else (if ps[0].points.Some? then |ps[0].points.value| else 0) + PointTotal(ps[1..])
  }

  /** The average number of points per polygon: the values held, halved, over the polygon count. */
  function AveragePoints(ps: seq<Shape>): real
    requires |ps| > 0
  {
    PointTotal(ps) as real / |ps| as real / 2.0
  }

  /** A higher limit counts no more polygons as complex. */
  lemma {:induction false} ComplexCountMonotone(ps: seq<Shape>, l1: int, l2: int)
    requires l1 <= l2
    ensures ComplexCount(ps, l2) <= ComplexCount(ps, l1)
  {
    if ps != [] {
      ComplexCountMonotone(ps[1..], l1, l2);
    }
  }

  /** Counting the polygons of two lists of annotations adds up. */
  lemma {:induction false} PolygonsAppend(a: seq<Shape>, b: seq<Shape>)
    ensures Polygons(a + b) == Polygons(a) + Polygons(b)
  {
    if a != [] {
      assert (a + b)[1..] == a[1..] + b;
      PolygonsAppend(a[1..], b);
    } else {
      assert a + b == b;
    }
  }

  /** The last (at most) 30 frame times. */
  function LastFrames(h: seq<real>): (r: seq<real>)
    ensures |r| <= 30 && |r| <= |h| && r == h[|h| - |r|..]
    ensures |h| <= 30 ==> r == h
  {
    if |h| > 30 then h[|h| - 30..] else h
  }

  function Sum(s: seq<real>): real {
    if s == [] then 0.0 else s[0] + Sum(s[1..])
  }

  /** Frames per second for a non-empty history of frame times in milliseconds with a non-zero total. */
  function FrameRate(h: seq<real>): real
    requires |h| > 0 && Sum(h) != 0.0
  {
    1000.0 / (Sum(h) / |h| as real)
  }

  /** The rate times the total time is 1000 per frame. */
  lemma {:induction false} FrameRateTimesTotal(h: seq<real>)
    requires |h| > 0 && Sum(h) != 0.0
    ensures FrameRate(h) * Sum(h) == 1000.0 * |h| as real
  {
    var total, n := Sum(h), |h| as real;
    var avg := total / n;
    assert avg * n == total;
    assert avg != 0.0;
    var rate := 1000.0 / avg;
    assert rate * avg == 1000.0;
    assert rate * total == rate * (avg * n);
    assert rate * (avg * n) == (rate * avg) * n;
  }

  datatype Metrics = Metrics(
    totalPolygons: int,
    complexPolygons: int,
    averagePoints: real,
    simplifiedPolygons: int,
    cachedPolygons: int,
    performanceModeActive: bool,
    lastFrameTime: real,
    frameRate: real)

  datatype MonitorConfig = MonitorConfig(
    maxPolygonsBeforeOptimization: int,
    maxPointsBeforeSimplification: int,
    targetFrameRate: real,
    performanceModeThreshold: int)

  const DefaultConfig := MonitorConfig(6, 5, 30.0, 12)

  datatype ConfigPatch = ConfigPatch(
    maxPolygonsBeforeOptimization: Option<int>,
    maxPointsBeforeSimplification: Option<int>,
    targetFrameRate: Option<real>,
    performanceModeThreshold: Option<int>)

  function MergeConfig(c: MonitorConfig, p: ConfigPatch): (r: MonitorConfig)
    ensures p.maxPolygonsBeforeOptimization.Some? ==> r.maxPolygonsBeforeOptimization == p.maxPolygonsBeforeOptimization.value
    ensures p.maxPolygonsBeforeOptimization.None? ==> r.maxPolygonsBeforeOptimization == c.maxPolygonsBeforeOptimization
    ensures p.maxPointsBeforeSimplification.Some? ==> r.maxPointsBeforeSimplification == p.maxPointsBeforeSimplification.value
    ensures p.maxPointsBeforeSimplification.None? ==> r.maxPointsBeforeSimplification == c.maxPointsBeforeSimplification
    ensures p.targetFrameRate.Some? ==> r.targetFrameRate == p.targetFrameRate.value
    ensures p.targetFrameRate.None? ==> r.targetFrameRate == c.targetFrameRate
    ensures p.performanceModeThreshold.Some? ==> r.performanceModeThreshold == p.performanceModeThreshold.value
    ensures p.performanceModeThreshold.None? ==> r.performanceModeThreshold == c.performanceModeThreshold
  {
    MonitorConfig(
      p.maxPolygonsBeforeOptimization.GetOr(c.maxPolygonsBeforeOptimization),
      p.maxPointsBeforeSimplification.GetOr(c.maxPointsBeforeSimplification),
      p.targetFrameRate.GetOr(c.targetFrameRate),
      p.performanceModeThreshold.GetOr(c.performanceModeThreshold))
  }

  datatype Status = StatusGood | StatusWarning | StatusCritical

  /** `shouldOptimize`. */
  predicate ShouldOptimize(m: Metrics, c: MonitorConfig) {
    m.totalPolygons >= c.maxPolygonsBeforeOptimization || m.frameRate < c.targetFrameRate || m.complexPolygons > 3
  }

  /** `shouldActivatePerformanceMode`. */
  predicate ShouldActivatePerformanceMode(m: Metrics, c: MonitorConfig) {
    m.totalPolygons >= c.performanceModeThreshold || m.frameRate < 20.0 || m.complexPolygons > 5
  }

  /** With the default configuration, performance mode is only ever called for when optimizing is. */
  lemma {:induction false} PerformanceModeImpliesOptimize(m: Metrics)
    ensures ShouldActivatePerformanceMode(m, DefaultConfig) ==> ShouldOptimize(m, DefaultConfig)
  {
  }

  /**
   * An example: the implication fails once the performance threshold is
   * set below the optimization threshold.
   */
  lemma {:induction false} PerformanceModeWithoutOptimize()
    ensures var m := Metrics(4, 0, 0.0, 0, 0, false, 0.0, 60.0);
            var c := DefaultConfig.(performanceModeThreshold := 3);
            ShouldActivatePerformanceMode(m, c) && !ShouldOptimize(m, c)
  {
  }

  /** `getPerformanceStatus`: critical below 15 fps or above 20 polygons, warning below 30 fps or above 10 polygons. */
  function PerformanceStatus(m: Metrics): (s: Status)
    ensures s == StatusCritical <==> m.frameRate < 15.0 || m.totalPolygons > 20
    ensures s == StatusGood <==> m.frameRate >= 30.0 && m.totalPolygons <= 10
  {
    if m.frameRate < 15.0 || m.totalPolygons > 20 then StatusCritical
    else if m.frameRate < 30.0 || m.totalPolygons > 10 then StatusWarning
    else StatusGood
  }

  class PolygonPerformanceMonitor {
    var metrics: Metrics
    var config: MonitorConfig
    var frameHistory: seq<real>
    var lastUpdateTime: real

    ghost predicate Valid()
      reads this
    {
      |frameHistory| <= 30 && 0 <= metrics.complexPolygons <= metrics.totalPolygons
    }

    constructor ()
      ensures Valid()
      ensures metrics == Metrics(0, 0, 0.0, 0, 0, false, 0.0, 60.0) && config == DefaultConfig
      ensures frameHistory == [] && lastUpdateTime == 0.0
    {
      metrics := Metrics(0, 0, 0.0, 0, 0, false, 0.0, 60.0);
      config := DefaultConfig;
      frameHistory := [];
      lastUpdateTime := 0.0;
    }

    /**
     * `updateMetrics`: counts the polygons and the complex ones, recomputes
     * the average number of points only when there are polygons, then
     * records a frame at `now`.
     */
    method UpdateMetrics(annotations: seq<Shape>, now: real)
      requires Valid()
      modifies this
      ensures Valid()
      ensures var ps := Polygons(annotations);
        && metrics.totalPolygons == |ps|
        && metrics.complexPolygons == ComplexCount(ps, config.maxPointsBeforeSimplification)
        && (|ps| > 0 ==> metrics.averagePoints == AveragePoints(ps))
        && (|ps| == 0 ==> metrics.averagePoints == old(metrics.averagePoints))
      ensures config == old(config) && lastUpdateTime == now
      ensures old(lastUpdateTime) > 0.0 ==> frameHistory == LastFrames(old(frameHistory) + [now - old(lastUpdateTime)])
      ensures old(lastUpdateTime) <= 0.0 ==> frameHistory == old(frameHistory)
      ensures && metrics.simplifiedPolygons == old(metrics.simplifiedPolygons)
              && metrics.cachedPolygons == old(metrics.cachedPolygons)
              && metrics.performanceModeActive == old(metrics.performanceModeActive)
      ensures old(lastUpdateTime) <= 0.0 ==>
        metrics.frameRate == old(metrics.frameRate) && metrics.lastFrameTime == old(metrics.lastFrameTime)
      ensures old(lastUpdateTime) > 0.0 ==>
        && metrics.lastFrameTime == now - old(lastUpdateTime)
        && (Sum(frameHistory) != 0.0 ==> metrics.frameRate == FrameRate(frameHistory))
        && (Sum(frameHistory) == 0.0 ==> metrics.frameRate == old(metrics.frameRate))
    {
      CountPolygons(annotations);
      UpdateFrameRate(now);
    }

    /** The counting half of `updateMetrics`: the polygon counts and the average, nothing else. */
    method CountPolygons(annotations: seq<Shape>)
      requires Valid()
      modifies this`metrics
      ensures Valid()
      ensures var ps := Polygons(annotations);
        metrics == old(metrics).(
          totalPolygons := |ps|,
          complexPolygons := ComplexCount(ps, config.maxPointsBeforeSimplification),
          averagePoints := if |ps| > 0 then AveragePoints(ps) else old(metrics.averagePoints))
    {
      var ps := Polygons(annotations);
      var counted := metrics.(totalPolygons := |ps|, complexPolygons := ComplexCount(ps, config.maxPointsBeforeSimplification));
      if |ps| > 0 {
        counted := counted.(averagePoints := AveragePoints(ps));
      }
      metrics := counted;
    }

    /**
     * `updateFrameRate`: from the second call on, the time since the last
     * call joins the history, which keeps its last 30 entries; the frame
     * rate is 1000 over their average.
     */
    method UpdateFrameRate(now: real)
      requires Valid()
      modifies this`frameHistory, this`metrics, this`lastUpdateTime
      ensures Valid()
      ensures lastUpdateTime == now
      ensures metrics.totalPolygons == old(metrics.totalPolygons) && metrics.complexPolygons == old(metrics.complexPolygons)
      ensures metrics.averagePoints == old(metrics.averagePoints)
      ensures metrics.simplifiedPolygons == old(metrics.simplifiedPolygons) && metrics.cachedPolygons == old(metrics.cachedPolygons)
      ensures metrics.performanceModeActive == old(metrics.performanceModeActive)
      ensures old(lastUpdateTime) <= 0.0 ==> frameHistory == old(frameHistory) && metrics == old(metrics)
      ensures old(lastUpdateTime) > 0.0 ==>
        && frameHistory == LastFrames(old(frameHistory) + [now - old(lastUpdateTime)])
        && frameHistory[|frameHistory| - 1] == now - old(lastUpdateTime)
        && metrics.lastFrameTime == now - old(lastUpdateTime)
        && (Sum(frameHistory) != 0.0 ==> metrics.frameRate == FrameRate(frameHistory))
        && (Sum(frameHistory) == 0.0 ==> metrics.frameRate == old(metrics.frameRate))
    {
      if lastUpdateTime > 0.0 {
        var frameTime := now - lastUpdateTime;
        var history := frameHistory + [frameTime];
        if |history| > 30 {
          history := history[1..];
        }
        assert history == LastFrames(frameHistory + [frameTime]);
        var m := metrics;
        if Sum(history) != 0.0 {
          m := m.(frameRate := FrameRate(history));
        }
        frameHistory := history;
        metrics := m.(lastFrameTime := frameTime);
      }
      lastUpdateTime := now;
    }

    function ShouldOptimizeNow(): bool
      reads this
    {
      ShouldOptimize(metrics, config)
    }

    function ShouldActivatePerformanceModeNow(): bool
      reads this
    {
      ShouldActivatePerformanceMode(metrics, config)
    }

    /** `updateConfig`: the supplied fields replace the current ones. */
    method UpdateConfig(p: ConfigPatch)
      modifies this`config
      ensures config == MergeConfig(old(config), p)
    {
      config := MergeConfig(config, p);
    }

    /** `setPerformanceMode`. */
    method SetPerformanceMode(active: bool)
      requires Valid()
      modifies this`metrics
      ensures Valid()
      ensures metrics == old(metrics).(performanceModeActive := active)
    {
      metrics := metrics.(performanceModeActive := active);
    }
  }
}

=== FILE: polygon_optimization.dfy ===
/**
 * Simplification of point lists for display: Ramer–Douglas–Peucker with the
 * distance to the infinite line through the chord, an epsilon scaled by the
 * zoom, and the test of whether simplifying is worth it.
 */
module PolygonOptimization {
  import opened Geometry
  import opened Distance
  import opened DouglasPeucker

  /** `simplifyPolygon`, with distances and epsilon compared squared. */
  function SimplifyPolygon(points: seq<Point>, epsilon: real): (r: seq<Point>)
    requires epsilon >= 0.0
    ensures |points| <= 2 ==> r == points
    ensures |r| <= |points| && (|points| >= 2 ==> |r| >= 2)
  {
    SimplifyLength(points, LineDistSq, Square(epsilon));
    Simplify(points, LineDistSq, Square(epsilon))
  }

  /**
   * Two points or fewer come back as they are; otherwise the result is a
   * subsequence of the points, no longer than them, with the first and the
   * last point, and at least two points.
   */
  lemma {:induction false} SimplifyPolygonShape(points: seq<Point>, epsilon: real)
    requires epsilon >= 0.0
    ensures |points| <= 2 ==> SimplifyPolygon(points, epsilon) == points
    ensures |points| >= 2 ==>
      && 2 <= |SimplifyPolygon(points, epsilon)| <= |points|
      && SimplifyPolygon(points, epsilon)[0] == points[0]
      && SimplifyPolygon(points, epsilon)[|SimplifyPolygon(points, epsilon)| - 1] == points[|points| - 1]
    ensures SubsequenceAt(SimplifyPolygon(points, epsilon), points, Kept(points, LineDistSq, Square(epsilon)))
  {
    SimplifyLength(points, LineDistSq, Square(epsilon));
    KeptIsSubsequence(points, LineDistSq, Square(epsilon));
    if |points| >= 1 {
      SimplifyKeepsEndpoints(points, LineDistSq, Square(epsilon));
    }
  }

  /** `simplifyPolygon` with its farthest-point loop. */
  method SimplifyPolygonLoop(points: seq<Point>, epsilon: real) returns (r: seq<Point>)
    requires epsilon >= 0.0
    ensures r == SimplifyPolygon(points, epsilon)
  {
    r := RamerDouglasPeucker(points, LineDistSq, Square(epsilon));
  }

  /**
   * A split happens only when the farthest point lies beyond epsilon, and
   * then at an interior index, so both halves are shorter than the input.
   */
  lemma {:induction false} SplitIsInterior(points: seq<Point>, epsilon: real)
    requires epsilon >= 0.0 && |points| >= 3
    ensures FarthestInterior(points, LineDistSq).dist > Square(epsilon) ==>
      1 <= FarthestInterior(points, LineDistSq).index < |points| - 1
    ensures FarthestInterior(points, LineDistSq).dist <= Square(epsilon) ==>
      SimplifyPolygon(points, epsilon) == [points[0], points[|points| - 1]]
  {
    if FarthestInterior(points, LineDistSq).dist > Square(epsilon) {
      SplitUnfolds(points, LineDistSq, Square(epsilon));
    } else {
      CollapseUnfolds(points, LineDistSq, Square(epsilon));
    }
  }

  /** Simplifying the result again with the same epsilon returns it unchanged. */
  lemma {:induction false} SimplifyPolygonIdempotent(points: seq<Point>, epsilon: real)
    requires epsilon >= 0.0
    ensures SimplifyPolygon(SimplifyPolygon(points, epsilon), epsilon) == SimplifyPolygon(points, epsilon)
  {
    SimplifyIdempotent(points, LineDistSq, Square(epsilon));
  }

  /** Every dropped point lies within epsilon of the line through the kept points around it. */
  lemma {:induction false} DroppedPointsNearLine(points: seq<Point>, epsilon: real)
    requires epsilon >= 0.0
    ensures DroppedWithin(points, LineDistSq, Square(epsilon), Kept(points, LineDistSq, Square(epsilon)))
  {
    DroppedPointsWithinThreshold(points, LineDistSq, Square(epsilon));
  }

  /** The epsilon `adaptiveSimplifyPolygon` uses: the base divided by the zoom, at least 0.1. */
  function AdaptiveEpsilon(zoomLevel: real, baseEpsilon: real): (e: real)
    requires baseEpsilon >= 0.0
    ensures 0.0 <= e <= baseEpsilon * 10.0
    ensures zoomLevel >= 1.0 ==> e <= baseEpsilon
  {
    var z := Max(zoomLevel, 0.1);
    assert baseEpsilon / z <= baseEpsilon / 0.1;
    baseEpsilon / z
  }

  /** `adaptiveSimplifyPolygon`. */
  function AdaptiveSimplifyPolygon(points: seq<Point>, zoomLevel: real, baseEpsilon: real): (r: seq<Point>)
    requires baseEpsilon >= 0.0
    ensures r == SimplifyPolygon(points, AdaptiveEpsilon(zoomLevel, baseEpsilon))
  {
    SimplifyPolygon(points, AdaptiveEpsilon(zoomLevel, baseEpsilon))
  }

  /** Zooming out never keeps more points: a smaller zoom means a larger epsilon. */
  lemma {:induction false} ZoomOutKeepsNoMore(points: seq<Point>, z1: real, z2: real, baseEpsilon: real)
    requires baseEpsilon >= 0.0 && z1 <= z2
    ensures |AdaptiveSimplifyPolygon(points, z1, baseEpsilon)| <= |AdaptiveSimplifyPolygon(points, z2, baseEpsilon)|
  {
    var a, b := Max(z1, 0.1), Max(z2, 0.1);
    assert baseEpsilon / b <= baseEpsilon / a by {
      assert a <= b;
      assert baseEpsilon / b * b == baseEpsilon;
      assert baseEpsilon / a * a == baseEpsilon;
    }
    SquareMonotone(AdaptiveEpsilon(z2, baseEpsilon), AdaptiveEpsilon(z1, baseEpsilon));
    HigherThresholdKeepsNoMore(points, LineDistSq,
      Square(AdaptiveEpsilon(z2, baseEpsilon)), Square(AdaptiveEpsilon(z1, baseEpsilon)));
  }

  /** `shouldSimplifyPolygon`: more than five points while zoomed out below 1.2. */
  predicate ShouldSimplifyPolygon(pointCount: int, zoomLevel: real) {
    pointCount > 5 && zoomLevel < 1.2
  }
}

=== FILE: review_counts.dfy ===
/**
 * The review count badges of the navigation: the pending reviews assigned
 * to the user, and per-project counts, both derived from the assigned-to-me
 * review lists and kept for 30 seconds.
 *
 * A server answer is the list of review statuses it returned (`None` when
 * the request fails; a missing list is the empty one); the clock is a
 * parameter.
 */
module ReviewCounts {
  import opened Wrappers

  datatype ReviewCounts = ReviewCounts(pending: int, completedToday: int, changesRequested: int)

  datatype ProjectReviewCounts = ProjectReviewCounts(
    projectId: int,
    pending: int,
    approved: int,
    changesRequested: int,
    completedToday: int)

  const CacheDuration := 30 * 1000

  /** How many of the reviews have the status. */
  function CountStatus(statuses: seq<string>, status: string): (n: nat)
    ensures n <= |statuses|
    ensures n == 0 <==> status !in statuses
  {
    if statuses == [] then 0
    else (if statuses[0] == status then 1 else 0) + CountStatus(statuses[1..], status)
  }

  /** Three different statuses never count a review twice. */
  lemma {:induction false} StatusCountsBounded(statuses: seq<string>)
    ensures CountStatus(statuses, "pending") + CountStatus(statuses, "approved")
      + CountStatus(statuses, "changes_requested") <= |statuses|
  {
    if statuses != [] {
      StatusCountsBounded(statuses[1..]);
    }
  }

  /** The global counts of one answer: pending and changes requested; nothing is known about today. */
  function GlobalCountsOf(statuses: seq<string>): (c: ReviewCounts)
    ensures c.completedToday == 0
    ensures c.pending + c.changesRequested <= |statuses|
    ensures c.pending == CountStatus(statuses, "pending") && c.changesRequested == CountStatus(statuses, "changes_requested")
  {
    StatusCountsBounded(statuses);
    ReviewCounts(CountStatus(statuses, "pending"), 0, CountStatus(statuses, "changes_requested"))
  }

  /** The counts of one project's answer. */
  function ProjectCountsOf(projectId: int, statuses: seq<string>): (c: ProjectReviewCounts)
    ensures c.projectId == projectId && c.completedToday == 0
    ensures c.pending + c.approved + c.changesRequested <= |statuses|
    ensures c.pending == CountStatus(statuses, "pending") && c.approved == CountStatus(statuses, "approved")
    ensures c.changesRequested == CountStatus(statuses, "changes_requested")
  {
    StatusCountsBounded(statuses);
    ProjectReviewCounts(projectId, CountStatus(statuses, "pending"), CountStatus(statuses, "approved"),
                        CountStatus(statuses, "changes_requested"), 0)
  }

  /** The shared count state. */
  class ReviewCountsState {
    var globalPendingCount: int
    var isLoadingGlobal: bool
    var projectCountsCache: map<int, ProjectReviewCounts>
    var lastFetchTime: int

    constructor ()
      ensures globalPendingCount == 0 && !isLoadingGlobal && projectCountsCache == map[] && lastFetchTime == 0
    {
      globalPendingCount := 0;
      isLoadingGlobal := false;
      projectCountsCache := map[];
      lastFetchTime := 0;
    }

    /** `isCacheValid`: the last global fetch is less than 30 seconds old. */
    predicate IsCacheValid(now: int)
      reads this
    {
      now - lastFetchTime < CacheDuration
    }

    /**
     * `fetchGlobalCounts`: the cached pending count while the cache is
     * valid and that count is positive, so that a cached 0 is always asked
     * again; otherwise the counts of the answer, whose pending count and
     * time are kept; all zeros on failure, which keeps nothing.
     */
    method FetchGlobalCounts(now: int, answer: Option<seq<string>>, doneAt: int) returns (counts: ReviewCounts)
      modifies this
      ensures old(IsCacheValid(now)) && old(globalPendingCount) > 0 ==>
        && counts == ReviewCounts(old(globalPendingCount), 0, 0)
        && globalPendingCount == old(globalPendingCount) && lastFetchTime == old(lastFetchTime)
        && isLoadingGlobal == old(isLoadingGlobal)
      ensures !(old(IsCacheValid(now)) && old(globalPendingCount) > 0) && answer.Some? ==>
        && counts == GlobalCountsOf(answer.value)
        && globalPendingCount == counts.pending && lastFetchTime == doneAt && !isLoadingGlobal
      ensures !(old(IsCacheValid(now)) && old(globalPendingCount) > 0) && answer.None? ==>
        && counts == ReviewCounts(0, 0, 0)
        && globalPendingCount == old(globalPendingCount) && lastFetchTime == old(lastFetchTime) && !isLoadingGlobal
      ensures projectCountsCache == old(projectCountsCache)
    {
      if IsCacheValid(now) && globalPendingCount > 0 {
        return ReviewCounts(globalPendingCount, 0, 0);
      }
      isLoadingGlobal := true;
      if answer.Some? {
        counts := GlobalCountsOf(answer.value);
        globalPendingCount := counts.pending;
        lastFetchTime := doneAt;
      } else {
        counts := ReviewCounts(0, 0, 0);
      }
      isLoadingGlobal := false;
    }

    /**
     * `fetchProjectCounts`: the cached counts while the global cache time
     * is valid; otherwise the counts of the answer, which are cached for
     * the project; all zeros on failure, which caches nothing. The global
     * fetch time is never moved here.
     */
    method FetchProjectCounts(projectId: int, now: int, answer: Option<seq<string>>) returns (counts: ProjectReviewCounts)
      modifies this
      ensures projectId in old(projectCountsCache) && old(IsCacheValid(now)) ==>
        counts == old(projectCountsCache)[projectId] && projectCountsCache == old(projectCountsCache)
      ensures !(projectId in old(projectCountsCache) && old(IsCacheValid(now))) && answer.Some? ==>
        counts == ProjectCountsOf(projectId, answer.value)
        && projectCountsCache == old(projectCountsCache)[projectId := counts]
      ensures !(projectId in old(projectCountsCache) && old(IsCacheValid(now))) && answer.None? ==>
        counts == ProjectReviewCounts(projectId, 0, 0, 0, 0) && projectCountsCache == old(projectCountsCache)
      ensures globalPendingCount == old(globalPendingCount) && lastFetchTime == old(lastFetchTime)
      ensures isLoadingGlobal == old(isLoadingGlobal)
    {
      if projectId in projectCountsCache && IsCacheValid(now) {
        return projectCountsCache[projectId];
      }
      if answer.Some? {
        counts := ProjectCountsOf(projectId, answer.value);
        projectCountsCache := projectCountsCache[projectId := counts];
      } else {
        counts := ProjectReviewCounts(projectId, 0, 0, 0, 0);
      }
    }

    /** `getProjectPendingCount`: the cached pending count, 0 when the project is not cached. */
    function GetProjectPendingCount(projectId: int): (n: int)
      reads this
      ensures projectId !in projectCountsCache ==> n == 0
      ensures projectId in projectCountsCache ==> n == projectCountsCache[projectId].pending
    {
      if projectId in projectCountsCache then projectCountsCache[projectId].pending else 0
    }

    /** `clearCache`: everything back to zero and empty. */
    method ClearCache()
      modifies this
      ensures globalPendingCount == 0 && projectCountsCache == map[] && lastFetchTime == 0
      ensures forall p :: GetProjectPendingCount(p) == 0
      ensures isLoadingGlobal == old(isLoadingGlobal)
    {
      globalPendingCount := 0;
      projectCountsCache := map[];
      lastFetchTime := 0;
    }

    /**
     * `refresh`: the cache is invalidated and the global counts fetched; at
     * any time 30 seconds or more after the epoch that means a real fetch;
     * earlier, a positive cached count is still taken from the cache.
     */
    method Refresh(now: int, answer: Option<seq<string>>, doneAt: int)
      modifies this
      ensures now >= CacheDuration && answer.Some? ==>
        globalPendingCount == CountStatus(answer.value, "pending") && lastFetchTime == doneAt
      ensures now >= CacheDuration && answer.None? ==>
        globalPendingCount == old(globalPendingCount) && lastFetchTime == 0
      ensures now < CacheDuration && old(globalPendingCount) > 0 ==>
        && globalPendingCount == old(globalPendingCount) && lastFetchTime == 0
        && isLoadingGlobal == old(isLoadingGlobal)
      ensures !(now < CacheDuration && old(globalPendingCount) > 0) ==>
        && !isLoadingGlobal
        && (answer.Some? ==> globalPendingCount == CountStatus(answer.value, "pending") && lastFetchTime == doneAt)
        && (answer.None? ==> globalPendingCount == old(globalPendingCount) && lastFetchTime == 0)
      ensures projectCountsCache == old(projectCountsCache)
    {
      lastFetchTime := 0;
      var counts := FetchGlobalCounts(now, answer, doneAt);
    }
  }

  /**
   * A project's cached counts are honoured only within 30 seconds of the
   * last global fetch: fetching a project never keeps its own counts fresh.
   */
  method ProjectCacheFollowsGlobalTime(s: ReviewCountsState, projectId: int, t: int, answer: seq<string>,
                                       later: int, second: seq<string>)
    requires !s.IsCacheValid(t) && later >= t
    modifies s
    ensures projectId in s.projectCountsCache && s.projectCountsCache[projectId] == ProjectCountsOf(projectId, second)
  {
    var first := s.FetchProjectCounts(projectId, t, Some(answer));
    var again := s.FetchProjectCounts(projectId, later, Some(second));
  }
}

=== FILE: review_notifications.dfy ===
/**
 * The review notification badge: pending reviews assigned to the user,
 * reviews of the user's own annotations not yet seen, per-project pending
 * counts, a 30-second cache and a polling switch, all shared by every
 * component that uses them.
 *
 * Server answers and the clock are parameters of the operations; the
 * polling timer's tick is the explicit event `PollTick`.
 */
module ReviewNotifications {
  import opened Wrappers

  /** A review of one of the user's own annotations. */
  datatype OwnAnnotationReview = OwnAnnotationReview(
    reviewId: int,
    taskId: int,
    projectId: int,
    status: string,
    comment: Option<string>,
    reviewedAt: int,
    seen: bool)

  const CacheDurationMs := 30 * 1000
  const DefaultPollIntervalMs := 30 * 1000

  /** How many of the reviews have not been seen. */
  function CountUnseen(reviews: seq<OwnAnnotationReview>): (n: nat)
    ensures n <= |reviews|
    ensures n == 0 <==> forall i :: 0 <= i < |reviews| ==> reviews[i].seen
  {
    if reviews == [] then 0
    else (if reviews[0].seen then 0 else 1) + CountUnseen(reviews[1..])
  }

  lemma {:induction false} CountUnseenAppend(a: seq<OwnAnnotationReview>, b: seq<OwnAnnotationReview>)
    ensures CountUnseen(a + b) == CountUnseen(a) + CountUnseen(b)
    decreases |a|
  {
    if a == [] {
      assert a + b == b;
    } else {
      assert (a + b)[1..] == a[1..] + b;
      CountUnseenAppend(a[1..], b);
    }
  }

  /** Replacing one review changes the count by that review alone. */
  lemma {:induction false} CountUnseenUpdate(reviews: seq<OwnAnnotationReview>, i: nat, r: OwnAnnotationReview)
    requires i < |reviews|
    ensures CountUnseen(reviews[i := r])
      == CountUnseen(reviews) - (if reviews[i].seen then 0 else 1) + (if r.seen then 0 else 1)
    decreases i
  {
    if i > 0 {
      assert reviews[i := r][1..] == reviews[1..][i - 1 := r];
      CountUnseenUpdate(reviews[1..], i - 1, r);
    } else {
      assert reviews[i := r][1..] == reviews[1..];
    }
  }

  /** The review ids present. */
  function ReviewIds(reviews: seq<OwnAnnotationReview>): set<int> {
    set r | r in reviews :: r.reviewId
  }

  /** The fetched reviews whose ids are not already present, in fetched order. */
  function NewReviews(existing: set<int>, fetched: seq<OwnAnnotationReview>): (r: seq<OwnAnnotationReview>)
    ensures forall i :: 0 <= i < |r| ==> r[i] in fetched && r[i].reviewId !in existing
    ensures forall i :: 0 <= i < |fetched| && fetched[i].reviewId !in existing ==> fetched[i] in r
    ensures |r| <= |fetched|
  {
    if fetched == [] then []
    else
      var rest := NewReviews(existing, fetched[1..]);
      assert forall i :: 1 <= i < |fetched| ==> fetched[i] == fetched[1..][i - 1];
      if fetched[0].reviewId in existing then rest else [fetched[0]] + rest
  }

  /**
   * The merge of a fetch into the list: the list as it was, seen flags
   * included, then the fetched reviews it did not know yet.
   */
  function MergeReviews(current: seq<OwnAnnotationReview>, fetched: seq<OwnAnnotationReview>)
    : (merged: seq<OwnAnnotationReview>)
    ensures |merged| == |current| + |NewReviews(ReviewIds(current), fetched)|
    ensures merged[..|current|] == current
    ensures forall i :: |current| <= i < |merged| ==> merged[i] in fetched && merged[i].reviewId !in ReviewIds(current)
  {
    var added := NewReviews(ReviewIds(current), fetched);
    var merged := if |added| > 0 then current + added else current;
    assert merged == current + added;
    assert forall i :: |current| <= i < |merged| ==> merged[i] == added[i - |current|];
    merged
  }

  /**
   * After a merge every fetched id is present, no other new id is, and the
   * unseen count grows by the unseen reviews added.
   */
  lemma {:induction false} MergedIds(current: seq<OwnAnnotationReview>, fetched: seq<OwnAnnotationReview>)
    ensures ReviewIds(MergeReviews(current, fetched)) == ReviewIds(current) + set r | r in fetched :: r.reviewId
    ensures CountUnseen(MergeReviews(current, fetched))
      == CountUnseen(current) + CountUnseen(NewReviews(ReviewIds(current), fetched))
  {
    var added := NewReviews(ReviewIds(current), fetched);
    assert MergeReviews(current, fetched) == current + added;
    CountUnseenAppend(current, added);
    forall id | id in set r | r in fetched :: r.reviewId
      ensures id in ReviewIds(current + added)
    {
      var r :| r in fetched && r.reviewId == id;
      if id !in ReviewIds(current) {
        assert r in added;
        assert r in current + added;
      }
      else {
        var q :| q in current && q.reviewId == id;
        assert q in current + added;
      }
    }
    forall id | id in ReviewIds(current + added)
      ensures id in ReviewIds(current) + set r | r in fetched :: r.reviewId
    {
      var r :| r in current + added && r.reviewId == id;
      if r !in current {
        assert r in added;
      }
    }
  }

  /** The reviews after an answer of the own-reviews endpoint, which may fail. */
  function MergeAnswer(current: seq<OwnAnnotationReview>, own: Option<seq<OwnAnnotationReview>>)
    : (merged: seq<OwnAnnotationReview>)
  {
    if own.Some? then MergeReviews(current, own.value) else current
  }

  /** Merging the same answer twice adds nothing the second time. */
  lemma {:induction false} MergeIdempotent(current: seq<OwnAnnotationReview>, fetched: seq<OwnAnnotationReview>)
    ensures MergeReviews(MergeReviews(current, fetched), fetched) == MergeReviews(current, fetched)
  {
    var merged := MergeReviews(current, fetched);
    MergedIds(current, fetched);
    NothingNew(ReviewIds(merged), fetched);
    assert merged + [] == merged;
  }

  lemma {:induction false} NothingNew(existing: set<int>, fetched: seq<OwnAnnotationReview>)
    requires forall r :: r in fetched ==> r.reviewId in existing
    ensures NewReviews(existing, fetched) == []
    decreases |fetched|
  {
    if fetched != [] {
      assert fetched[0] in fetched;
      assert forall r :: r in fetched[1..] ==> r in fetched;
      NothingNew(existing, fetched[1..]);
    }
  }

  /** Index of the first review with the id, if any (`Array.prototype.find`). */
  function FindReview(reviews: seq<OwnAnnotationReview>, reviewId: int): (i: Option<nat>)
    ensures i.None? <==> reviewId !in ReviewIds(reviews)
    ensures i.Some? ==> (i.value < |reviews| && reviews[i.value].reviewId == reviewId
                         && forall j :: 0 <= j < i.value ==> reviews[j].reviewId != reviewId)
  {
    if reviews == [] then None
    else if reviews[0].reviewId == reviewId then Some(0)
    else
      var rest := FindReview(reviews[1..], reviewId);
      assert forall r :: r in reviews[1..] ==> r in reviews;
      assert reviewId in ReviewIds(reviews[1..]) <==> reviewId in ReviewIds(reviews) by {
        assert reviews == [reviews[0]] + reviews[1..];
      }
      if rest.None? then None else Some(rest.value + 1)
  }

  /** The reviews with the first one carrying the id marked seen. */
  function MarkSeen(reviews: seq<OwnAnnotationReview>, reviewId: int): (r: seq<OwnAnnotationReview>)
    ensures |r| == |reviews|
    ensures reviewId !in ReviewIds(reviews) ==> r == reviews
    ensures forall i :: 0 <= i < |r| ==> r[i].reviewId == reviews[i].reviewId
    ensures reviewId in ReviewIds(reviews) ==>
      var i := FindReview(reviews, reviewId).value;
      r[i].seen && forall j :: 0 <= j < |r| && j != i ==> r[j] == reviews[j]
  {
    var i := FindReview(reviews, reviewId);
    if i.None? then reviews else reviews[i.value := reviews[i.value].(seen := true)]
  }

  /** The shared notification state. */
  class ReviewNotificationsState {
    var pendingCount: int
    var ownAnnotationReviews: seq<OwnAnnotationReview>
    var projectPendingCounts: map<int, int>
    var isLoading: bool
    var lastRefreshed: Option<int>
    var lastFetchTime: int
    var isPollingActive: bool
    /** The interval of the installed polling timer, if one is installed. */
    var pollingInterval: Option<int>

    constructor ()
      ensures pendingCount == 0 && ownAnnotationReviews == [] && projectPendingCounts == map[]
      ensures !isLoading && lastRefreshed.None? && lastFetchTime == 0
      ensures !isPollingActive && pollingInterval.None?
    {
      pendingCount := 0;
      ownAnnotationReviews := [];
      projectPendingCounts := map[];
      isLoading := false;
      lastRefreshed := None;
      lastFetchTime := 0;
      isPollingActive := false;
      pollingInterval := None;
    }

    /** `ownReviewedCount`. */
    function OwnReviewedCount(): (n: nat)
      reads this
      ensures n <= |ownAnnotationReviews|
      ensures n == 0 <==> forall i :: 0 <= i < |ownAnnotationReviews| ==> ownAnnotationReviews[i].seen
    {
      CountUnseen(ownAnnotationReviews)
    }

    /** `hasNotifications`: something pending, or something reviewed and not seen. */
    function HasNotifications(): (b: bool)
      reads this
      ensures !b <==> pendingCount <= 0 && forall i :: 0 <= i < |ownAnnotationReviews| ==> ownAnnotationReviews[i].seen
    {
      pendingCount > 0 || OwnReviewedCount() > 0
    }

    /** `isCacheValid`: the last fetch is less than 30 seconds old. */
    predicate IsCacheValid(now: int)
      reads this
    {
      now - lastFetchTime < CacheDurationMs
    }

    /** The conditions under which `refresh` skips fetching. */
    predicate RefreshSkips(now: int, hasToken: bool)
      reads this
    {
      (IsCacheValid(now) && pendingCount >= 0) || !hasToken
    }

    /**
     * `refresh`: nothing while the cache is valid or without a token.
     * Otherwise the pending count is taken from the stats answer (0 when
     * that fails), the reviews fetched are merged in (nothing when that
     * fails), and the fetch time is stamped with `doneAt` either way.
     */
    method Refresh(now: int, hasToken: bool, stats: Option<int>, own: Option<seq<OwnAnnotationReview>>, doneAt: int)
      modifies this
      ensures old(RefreshSkips(now, hasToken)) ==>
        && pendingCount == old(pendingCount) && ownAnnotationReviews == old(ownAnnotationReviews)
        && lastFetchTime == old(lastFetchTime) && lastRefreshed == old(lastRefreshed)
        && isLoading == old(isLoading)
      ensures !old(RefreshSkips(now, hasToken)) ==>
        && pendingCount == stats.GetOr(0)
        && ownAnnotationReviews == MergeAnswer(old(ownAnnotationReviews), own)
        && lastFetchTime == doneAt && lastRefreshed == Some(doneAt)
        && !isLoading
      ensures projectPendingCounts == old(projectPendingCounts)
      ensures isPollingActive == old(isPollingActive) && pollingInterval == old(pollingInterval)
    {
      if IsCacheValid(now) && pendingCount >= 0 {
        return;
      }
      if !hasToken {
        return;
      }
      Fetch(stats, own, doneAt);
    }

    /** The fetching part of `refresh`. */
    method Fetch(stats: Option<int>, own: Option<seq<OwnAnnotationReview>>, doneAt: int)
      modifies this
      ensures pendingCount == stats.GetOr(0)
      ensures ownAnnotationReviews == MergeAnswer(old(ownAnnotationReviews), own)
      ensures lastFetchTime == doneAt && lastRefreshed == Some(doneAt) && !isLoading
      ensures projectPendingCounts == old(projectPendingCounts)
      ensures isPollingActive == old(isPollingActive) && pollingInterval == old(pollingInterval)
    {
      ownAnnotationReviews := MergeAnswer(ownAnnotationReviews, own);
      isLoading := true;
      pendingCount := stats.GetOr(0);
      lastFetchTime := doneAt;
      lastRefreshed := Some(doneAt);
      isLoading := false;
    }

    /**
     * `fetchProjectPendingCount`: a cached count while the cache is valid;
     * 0 without a token; a fetched count, which is stored; 0 on failure,
     * which stores nothing.
     */
    method FetchProjectPendingCount(projectId: int, now: int, hasToken: bool, answer: Option<int>)
      returns (count: int)
      modifies this
      ensures projectId in old(projectPendingCounts) && old(IsCacheValid(now)) ==>
        count == old(projectPendingCounts)[projectId] && projectPendingCounts == old(projectPendingCounts)
      ensures !(projectId in old(projectPendingCounts) && old(IsCacheValid(now))) ==>
        && count == (if hasToken then answer.GetOr(0) else 0)
        && projectPendingCounts == (if hasToken && answer.Some? then old(projectPendingCounts)[projectId := answer.value]
                                    else old(projectPendingCounts))
      ensures pendingCount == old(pendingCount) && ownAnnotationReviews == old(ownAnnotationReviews)
      ensures lastFetchTime == old(lastFetchTime) && lastRefreshed == old(lastRefreshed)
      ensures isLoading == old(isLoading)
      ensures isPollingActive == old(isPollingActive) && pollingInterval == old(pollingInterval)
    {
      if projectId in projectPendingCounts && IsCacheValid(now) {
        return projectPendingCounts[projectId];
      }
      if !hasToken {
        return 0;
      }
      match answer
      case Some(c) =>
        projectPendingCounts := projectPendingCounts[projectId := c];
        count := c;
      case None =>
        count := 0;
    }

    /**
     * `markOwnReviewSeen`: the first review with the id is marked seen;
     * nothing happens when there is none.
     */
    method MarkOwnReviewSeen(reviewId: int)
      modifies this
      ensures ownAnnotationReviews == MarkSeen(old(ownAnnotationReviews), reviewId)
      ensures pendingCount == old(pendingCount) && projectPendingCounts == old(projectPendingCounts)
      ensures lastFetchTime == old(lastFetchTime) && lastRefreshed == old(lastRefreshed)
      ensures isLoading == old(isLoading)
      ensures isPollingActive == old(isPollingActive) && pollingInterval == old(pollingInterval)
    {
      var i := FindReview(ownAnnotationReviews, reviewId);
      if i.Some? {
        ownAnnotationReviews := ownAnnotationReviews[i.value := ownAnnotationReviews[i.value].(seen := true)];
      }
      assert ownAnnotationReviews == MarkSeen(old(ownAnnotationReviews), reviewId);
    }

    /**
     * `startPolling`: nothing while polling is already on; otherwise turns
     * it on and installs the timer. The first refresh that follows is the
     * caller's `Refresh`.
     */
    method StartPolling(intervalMs: int) returns (started: bool)
      modifies this
      ensures started <==> !old(isPollingActive)
      ensures isPollingActive
      ensures pollingInterval == if started then Some(intervalMs) else old(pollingInterval)
      ensures pendingCount == old(pendingCount) && ownAnnotationReviews == old(ownAnnotationReviews)
      ensures projectPendingCounts == old(projectPendingCounts)
      ensures lastFetchTime == old(lastFetchTime) && lastRefreshed == old(lastRefreshed)
      ensures isLoading == old(isLoading)
    {
      if isPollingActive {
        return false;
      }
      isPollingActive := true;
      pollingInterval := Some(intervalMs);
      started := true;
    }

    /**
     * The polling timer fires: the cache is invalidated and a refresh runs,
     * so it fetches unless the clock is still within the cache window of
     * the epoch, or there is no token.
     */
    method PollTick(now: int, hasToken: bool, stats: Option<int>, own: Option<seq<OwnAnnotationReview>>, doneAt: int)
      requires pollingInterval.Some?
      modifies this
      ensures now >= CacheDurationMs && hasToken ==> pendingCount == stats.GetOr(0) && lastFetchTime == doneAt
      ensures (now < CacheDurationMs && old(pendingCount) >= 0) || !hasToken ==>
        && pendingCount == old(pendingCount) && ownAnnotationReviews == old(ownAnnotationReviews)
        && lastFetchTime == 0 && lastRefreshed == old(lastRefreshed) && isLoading == old(isLoading)
      ensures !((now < CacheDurationMs && old(pendingCount) >= 0) || !hasToken) ==>
        && pendingCount == stats.GetOr(0)
        && ownAnnotationReviews == MergeAnswer(old(ownAnnotationReviews), own)
        && lastFetchTime == doneAt && lastRefreshed == Some(doneAt) && !isLoading
      ensures projectPendingCounts == old(projectPendingCounts)
      ensures isPollingActive == old(isPollingActive) && pollingInterval == old(pollingInterval)
    {
      lastFetchTime := 0;
      Refresh(now, hasToken, stats, own, doneAt);
    }

    /** `stopPolling`: the timer is removed and polling is off. */
    method StopPolling()
      modifies this
      ensures !isPollingActive && pollingInterval.None?
      ensures pendingCount == old(pendingCount) && ownAnnotationReviews == old(ownAnnotationReviews)
      ensures projectPendingCounts == old(projectPendingCounts)
      ensures lastFetchTime == old(lastFetchTime) && lastRefreshed == old(lastRefreshed)
      ensures isLoading == old(isLoading)
    {
      pollingInterval := None;
      isPollingActive := false;
    }

    /** `clearCache`: counts, reviews, project counts and times are forgotten; polling is left alone. */
    method ClearCache()
      modifies this
      ensures pendingCount == 0 && ownAnnotationReviews == [] && projectPendingCounts == map[]
      ensures lastFetchTime == 0 && lastRefreshed.None?
      ensures !HasNotifications()
      ensures isLoading == old(isLoading)
      ensures isPollingActive == old(isPollingActive) && pollingInterval == old(pollingInterval)
    {
      pendingCount := 0;
      ownAnnotationReviews := [];
      projectPendingCounts := map[];
      lastFetchTime := 0;
      lastRefreshed := None;
    }

    /** `Promise.all` over `fetchProjectPendingCount` for one batch of projects. */
    method FetchBatch(batch: seq<int>, now: int, hasToken: bool, answers: int -> Option<int>)
      modifies this
      ensures projectPendingCounts == StoreAll(old(projectPendingCounts), batch, old(IsCacheValid(now)), hasToken, answers)
      ensures pendingCount == old(pendingCount) && ownAnnotationReviews == old(ownAnnotationReviews)
      ensures lastFetchTime == old(lastFetchTime) && lastRefreshed == old(lastRefreshed)
      ensures isLoading == old(isLoading)
      ensures isPollingActive == old(isPollingActive) && pollingInterval == old(pollingInterval)
    {
      ghost var m0 := projectPendingCounts;
      ghost var valid := IsCacheValid(now);
      var j := 0;
      while j < |batch|
        invariant 0 <= j <= |batch|
        invariant projectPendingCounts == StoreAll(m0, batch[..j], valid, hasToken, answers)
        invariant IsCacheValid(now) == valid
        invariant pendingCount == old(pendingCount) && ownAnnotationReviews == old(ownAnnotationReviews)
        invariant lastFetchTime == old(lastFetchTime) && lastRefreshed == old(lastRefreshed)
        invariant isLoading == old(isLoading)
        invariant isPollingActive == old(isPollingActive) && pollingInterval == old(pollingInterval)
      {
        assert batch[..j + 1][..j] == batch[..j];
        var count := FetchProjectPendingCount(batch[j], now, hasToken, answers(batch[j]));
        j := j + 1;
      }
      assert batch[..j] == batch;
    }

    /** The loop of `fetchAll`: one batch of at most five projects after the other. */
    method FetchInBatches(list: seq<int>, now: int, hasToken: bool, answers: int -> Option<int>)
      returns (sent: seq<seq<int>>)
      modifies this
      ensures sent == Batches(list)
      ensures projectPendingCounts == StoreAll(old(projectPendingCounts), list, old(IsCacheValid(now)), hasToken, answers)
      ensures pendingCount == old(pendingCount) && ownAnnotationReviews == old(ownAnnotationReviews)
      ensures lastFetchTime == old(lastFetchTime) && lastRefreshed == old(lastRefreshed)
      ensures isLoading == old(isLoading)
      ensures isPollingActive == old(isPollingActive) && pollingInterval == old(pollingInterval)
    {
      ghost var m0 := projectPendingCounts;
      ghost var valid := IsCacheValid(now);
      sent := [];
      var i := 0;
      while i < |list|
        invariant 0 <= i <= |list|
        invariant sent + Batches(list[i..]) == Batches(list)
        invariant projectPendingCounts == StoreAll(m0, list[..i], valid, hasToken, answers)
        invariant IsCacheValid(now) == valid
        invariant pendingCount == old(pendingCount) && ownAnnotationReviews == old(ownAnnotationReviews)
        invariant lastFetchTime == old(lastFetchTime) && lastRefreshed == old(lastRefreshed)
        invariant isLoading == old(isLoading)
        invariant isPollingActive == old(isPollingActive) && pollingInterval == old(pollingInterval)
      {
        var end := if i + BatchSize < |list| then i + BatchSize else |list|;
        var batch := list[i..end];
        BatchesStep(list, i);
        StoreAllAppend(m0, list[..i], batch, valid, hasToken, answers);
        assert list[..i] + batch == list[..end];
        FetchBatch(batch, now, hasToken, answers);
        sent := sent + [batch];
        i := end;
      }
      assert list[..i] == list;
    }

    /** `getCount` of `useProjectReviewCounts`: the cached count, 0 when none. */
    function GetCount(projectId: int): (n: int)
      reads this
      ensures projectId !in projectPendingCounts ==> n == 0
      ensures projectId in projectPendingCounts ==> n == projectPendingCounts[projectId]
    {
      if projectId in projectPendingCounts then projectPendingCounts[projectId] else 0
    }
  }

  /** Marking a review seen lowers the unseen count by one if it was unseen, and never raises it. */
  lemma {:induction false} MarkSeenNeverRaisesUnseen(reviews: seq<OwnAnnotationReview>, reviewId: int)
    ensures |MarkSeen(reviews, reviewId)| == |reviews|
    ensures CountUnseen(MarkSeen(reviews, reviewId)) <= CountUnseen(reviews)
    ensures CountUnseen(MarkSeen(reviews, reviewId)) < CountUnseen(reviews)
      <==> exists i :: 0 <= i < |reviews| && reviews[i].reviewId == reviewId && FindReview(reviews, reviewId) == Some(i)
                       && !reviews[i].seen
  {
    var i := FindReview(reviews, reviewId);
    if i.Some? {
      CountUnseenUpdate(reviews, i.value, reviews[i.value].(seen := true));
    }
  }

  /** A fetched count is what `getCount` then reports. */
  method FetchedCountIsReported(s: ReviewNotificationsState, projectId: int, now: int, c: int)
    requires !s.IsCacheValid(now)
    modifies s
    ensures s.GetCount(projectId) == c
  {
    var count := s.FetchProjectPendingCount(projectId, now, true, Some(c));
  }

  /** `useProjectReviewCounts` asks for at most this many project counts at once. */
  const BatchSize := 5

  /** The project ids cut into consecutive batches, in order. */
  function Batches(ids: seq<int>): (batches: seq<seq<int>>)
    ensures forall b :: b in batches ==> 1 <= |b| <= BatchSize
    decreases |ids|
  {
    if ids == [] then []
    else if |ids| <= BatchSize then [ids]
    else [ids[..BatchSize]] + Batches(ids[BatchSize..])
  }

  function Concat(batches: seq<seq<int>>): seq<int> {
    if batches == [] then [] else batches[0] + Concat(batches[1..])
  }

  /** The batches hold every id once, in order, and there are as few as the batch size allows. */
  lemma {:induction false} BatchesCoverIds(ids: seq<int>)
    ensures Concat(Batches(ids)) == ids
    ensures |Batches(ids)| == (|ids| + BatchSize - 1) / BatchSize
    decreases |ids|
  {
    if |ids| > BatchSize {
      BatchesCoverIds(ids[BatchSize..]);
      var bs := Batches(ids);
      assert bs[1..] == Batches(ids[BatchSize..]);
      assert ids == ids[..BatchSize] + ids[BatchSize..];
    } else if ids != [] {
      assert Batches(ids)[1..] == [];
    }
  }

  /** The batches from position `i` on: one batch here, then the rest. */
  lemma {:induction false} BatchesStep(ids: seq<int>, i: nat)
    requires i < |ids|
    ensures var end := if i + BatchSize < |ids| then i + BatchSize else |ids|;
      Batches(ids[i..]) == [ids[i..end]] + Batches(ids[end..])
  {
    var end := if i + BatchSize < |ids| then i + BatchSize else |ids|;
    if |ids[i..]| > BatchSize {
      assert ids[i..][..BatchSize] == ids[i..end];
      assert ids[i..][BatchSize..] == ids[end..];
    } else {
      assert ids[i..] == ids[i..end];
      assert ids[end..] == [];
      assert Batches(ids[end..]) == [];
    }
  }

  /** One `fetchProjectPendingCount`'s effect on the project counts. */
  function StoreOne(m: map<int, int>, id: int, cacheValid: bool, hasToken: bool, answers: int -> Option<int>)
    : map<int, int>
  {
    if id in m && cacheValid then m
    else if hasToken && answers(id).Some? then m[id := answers(id).value]
    else m
  }

  /** The project counts after fetching the ids one after the other. */
  function StoreAll(m: map<int, int>, ids: seq<int>, cacheValid: bool, hasToken: bool, answers: int -> Option<int>)
    : map<int, int>
    decreases |ids|
  {
    if ids == [] then m
    else StoreOne(StoreAll(m, ids[..|ids| - 1], cacheValid, hasToken, answers), ids[|ids| - 1], cacheValid, hasToken, answers)
  }

  /**
   * After fetching a list of projects: projects outside the list are as
   * they were, and every listed project that was not served from the cache
   * and got an answer holds that answer.
   */
  lemma {:induction false} StoreAllFacts(m: map<int, int>, ids: seq<int>, cacheValid: bool, hasToken: bool,
                                         answers: int -> Option<int>, k: int)
    ensures k !in ids ==> (k in StoreAll(m, ids, cacheValid, hasToken, answers) <==> k in m)
    ensures k !in ids && k in m ==> StoreAll(m, ids, cacheValid, hasToken, answers)[k] == m[k]
    ensures k in ids && hasToken && answers(k).Some? && !(k in m && cacheValid) ==>
      k in StoreAll(m, ids, cacheValid, hasToken, answers)
      && StoreAll(m, ids, cacheValid, hasToken, answers)[k] == answers(k).value
    decreases |ids|
  {
    if ids != [] {
      var init := ids[..|ids| - 1];
      StoreAllFacts(m, init, cacheValid, hasToken, answers, k);
      assert ids == init + [ids[|ids| - 1]];
      assert k in ids ==> k in init || k == ids[|ids| - 1];
    }
  }

  /** Fetching two lists one after the other is fetching their concatenation. */
  lemma {:induction false} StoreAllAppend(m: map<int, int>, a: seq<int>, b: seq<int>, cacheValid: bool, hasToken: bool,
                                          answers: int -> Option<int>)
    ensures StoreAll(m, a + b, cacheValid, hasToken, answers)
      == StoreAll(StoreAll(m, a, cacheValid, hasToken, answers), b, cacheValid, hasToken, answers)
    decreases |b|
  {
    if b == [] {
      assert a + b == a;
    } else {
      StoreAllAppend(m, a, b[..|b| - 1], cacheValid, hasToken, answers);
      assert (a + b)[..|a + b| - 1] == a + b[..|b| - 1];
    }
  }

  /** `useProjectReviewCounts`: counts for a list of projects, over the shared notification state. */
  class ProjectReviewCounts {
    const notifications: ReviewNotificationsState
    var ids: seq<int>
    var isLoading: bool

    constructor (notifications: ReviewNotificationsState, ids: seq<int>)
      ensures this.notifications == notifications && this.ids == ids && !isLoading
    {
      this.notifications := notifications;
      this.ids := ids;
      isLoading := false;
    }

    /**
     * `fetchAll`: the counts of every listed project, asked for in
     * batches of five; `answers` is the server's count for each project,
     * `None` where its request fails. Returns the batches in the order
     * they were sent.
     */
    method FetchAll(now: int, hasToken: bool, answers: int -> Option<int>) returns (sent: seq<seq<int>>)
      modifies this, notifications
      ensures sent == Batches(ids)
      ensures notifications.projectPendingCounts
        == StoreAll(old(notifications.projectPendingCounts), ids, old(notifications.IsCacheValid(now)), hasToken, answers)
      ensures isLoading == (old(isLoading) && ids == [])
      ensures ids == old(ids)
      ensures notifications.pendingCount == old(notifications.pendingCount)
      ensures notifications.ownAnnotationReviews == old(notifications.ownAnnotationReviews)
      ensures notifications.lastFetchTime == old(notifications.lastFetchTime)
      ensures notifications.isPollingActive == old(notifications.isPollingActive)
      ensures notifications.pollingInterval == old(notifications.pollingInterval)
      ensures notifications.lastRefreshed == old(notifications.lastRefreshed)
      ensures notifications.isLoading == old(notifications.isLoading)
    {
      if |ids| == 0 {
        return [];
      }
      isLoading := true;
      sent := notifications.FetchInBatches(ids, now, hasToken, answers);
      isLoading := false;
    }
  }
}

=== FILE: review_workflow.dfy ===
/**
 * The review workflow rules shared by the review pages: how a task's state
 * is shown, who may submit a review, the label and color tables, how a
 * reviewer's message is shortened for display, and the sorting, grouping and
 * latest-review helpers over a list of reviews.
 *
 * Statuses arrive as strings from the server, so they are kept as strings
 * here; a value outside the known ones takes the fallback branch of each
 * lookup.
 */
module ReviewWorkflow {
  import opened Wrappers
  import opened Text
  import opened Seqs
  import opened StableSort

  const TaskStatuses: set<string> := {"unassigned", "annotating", "in_review", "changes_needed", "completed"}
  const ReviewStatuses: set<string> := {"pending", "approved", "rejected", "changes_requested"}

  /** A badge: its label, its color theme and its icon. */
  datatype WorkflowStatusDisplay = WorkflowStatusDisplay(title: string, color: string, icon: string)

  /** The annotation fields the workflow looks at; each may be missing. */
  datatype AnnotationForWorkflow = AnnotationForWorkflow(
    annotatorId: Option<int>,
    status: Option<string>,
    reviewStatus: Option<string>)

  /** The project settings a review submission depends on. */
  datatype ProjectReviewSettings = ProjectReviewSettings(reviewMode: string, allowSelfReview: bool)

  /** Whether a review may be submitted, and why not when it may not. */
  datatype CanSubmitReviewResult = CanSubmitReviewResult(can: bool, reason: Option<string>)

  /** A review as the server sends it; `message` may be null. */
  datatype Review = Review(
    id: string,
    status: string,
    message: Option<string>,
    isAutoApproved: bool,
    reviewRound: int,
    createdAt: int)

  // ---------------------------------------------------------------------------
  // Label and color tables
  // ---------------------------------------------------------------------------

  /**
   * `getTaskStatusColor`: the theme of each known task status, `neutral`
   * for anything else.
   */
  function GetTaskStatusColor(taskStatus: string): (c: string)
    ensures taskStatus !in TaskStatuses ==> c == "neutral"
    ensures c in {"neutral", "info", "warning", "error", "success"}
  {
    if taskStatus == "unassigned" then "neutral"
    else if taskStatus == "annotating" then "info"
    else if taskStatus == "in_review" then "warning"
    else if taskStatus == "changes_needed" then "error"
    else if taskStatus == "completed" then "success"
    else "neutral"
  }

  /** `getTaskStatusLabel`: the label of each known task status, the status itself otherwise. */
  function GetTaskStatusLabel(taskStatus: string): (l: string)
    ensures taskStatus !in TaskStatuses ==> l == taskStatus
    ensures taskStatus in TaskStatuses ==> l != taskStatus && l != ""
  {
    if taskStatus == "unassigned" then "Unassigned"
    else if taskStatus == "annotating" then "Annotating"
    else if taskStatus == "in_review" then "In Review"
    else if taskStatus == "changes_needed" then "Changes Needed"
    else if taskStatus == "completed" then "Completed"
    else taskStatus
  }

  /** `getReviewActionLabel`: the label of each known review status or action, the input otherwise. */
  function GetReviewActionLabel(status: string): (l: string)
    ensures status !in ReviewStatuses ==> l == status
    ensures status in ReviewStatuses ==> l != status && l != ""
  {
    if status == "approved" then "Approve"
    else if status == "rejected" then "Reject"
    else if status == "changes_requested" then "Request Changes"
    else if status == "pending" then "Pending"
    else status
  }

  /** Distinct known statuses get distinct labels, in both tables. */
  lemma {:induction false} KnownLabelsDistinct(a: string, b: string)
    ensures a in TaskStatuses && b in TaskStatuses && a != b ==> GetTaskStatusLabel(a) != GetTaskStatusLabel(b)
    ensures a in ReviewStatuses && b in ReviewStatuses && a != b ==> GetReviewActionLabel(a) != GetReviewActionLabel(b)
  {
  }

  // ---------------------------------------------------------------------------
  // Status display and permission
  // ---------------------------------------------------------------------------

  /**
   * `getWorkflowStatusDisplay`: the badge follows the task status; the
   * review status refines it while in review (pending) and once completed
   * (approved), and the `always-skip` mode marks a completed task as never
   * reviewed whatever its review status. The badge color is always the
   * task-status color, and only an unknown or missing status is `Unknown`.
   */
  function GetWorkflowStatusDisplay(a: AnnotationForWorkflow, workflowMode: string): (d: WorkflowStatusDisplay)
    ensures a.status.Some? ==> d.color == GetTaskStatusColor(a.status.value)
    ensures a.status.None? ==> d.color == "neutral"
    ensures d.title == "Unknown" <==> (a.status.None? || a.status.value !in TaskStatuses)
    ensures a.status == Some("in_review") ==> (d.title == "Pending Review" <==> a.reviewStatus == Some("pending"))
    ensures a.status == Some("completed") && workflowMode == "always-skip" ==> d.title == "Completed (No Review)"
    ensures a.status == Some("completed") ==>
      (d.title == "Approved" <==> (workflowMode != "always-skip" && a.reviewStatus == Some("approved")))
  {
    var unknown := WorkflowStatusDisplay("Unknown", "neutral", "i-heroicons-question-mark-circle");
    match a.status
    case None => unknown
    case Some(s) =>
      if s == "unassigned" then
        WorkflowStatusDisplay("Unassigned", "neutral", "i-heroicons-user-minus")
      else if s == "annotating" then
        WorkflowStatusDisplay("In Progress", "info", "i-heroicons-pencil-square")
      else if s == "in_review" then
        if a.reviewStatus == Some("pending") then
          WorkflowStatusDisplay("Pending Review", "warning", "i-heroicons-clock")
        else
          WorkflowStatusDisplay("In Review", "warning", "i-heroicons-eye")
      else if s == "changes_needed" then
        WorkflowStatusDisplay("Changes Requested", "error", "i-heroicons-exclamation-triangle")
      else if s == "completed" then
        if workflowMode == "always-skip" then
          WorkflowStatusDisplay("Completed (No Review)", "success", "i-heroicons-check-circle")
        else if a.reviewStatus == Some("approved") then
          WorkflowStatusDisplay("Approved", "success", "i-heroicons-check-badge")
        else
          WorkflowStatusDisplay("Completed", "success", "i-heroicons-check-circle")
      else unknown
  }

  /**
   * The review status changes the badge only while in review or once
   * completed, and the workflow mode only once completed.
   */
  lemma {:induction false} DisplayDependsOnlyWhereRead(a: AnnotationForWorkflow, rs: Option<string>, mode: string, other: string)
    ensures a.status != Some("in_review") && a.status != Some("completed") ==>
      GetWorkflowStatusDisplay(a.(reviewStatus := rs), mode) == GetWorkflowStatusDisplay(a, mode)
    ensures a.status != Some("completed") ==>
      GetWorkflowStatusDisplay(a, other) == GetWorkflowStatusDisplay(a, mode)
  {
  }

  const NotInReview := "This annotation is not currently in review"
  const OwnAnnotation := "You cannot review your own annotations"
  const ReviewsDisabled := "Reviews are disabled for this project"

  /**
   * `canUserSubmitReview`: a review may be submitted exactly when the
   * annotation is in review, it is not the user's own unless self-review is
   * allowed, and the project does not skip reviews. The checks run in that
   * order, the first failing one gives the reason, and a reason is given
   * exactly when the answer is no.
   */
  function CanUserSubmitReview(a: AnnotationForWorkflow, currentUserId: int, settings: ProjectReviewSettings)
    : (r: CanSubmitReviewResult)
    ensures r.can <==> r.reason.None?
    ensures r.can <==>
      && a.status == Some("in_review")
      && !(a.annotatorId == Some(currentUserId) && !settings.allowSelfReview)
      && settings.reviewMode != "always-skip"
    ensures a.status != Some("in_review") ==> r.reason == Some(NotInReview)
    ensures a.status == Some("in_review") && a.annotatorId == Some(currentUserId) && !settings.allowSelfReview
      ==> r.reason == Some(OwnAnnotation)
    ensures && a.status == Some("in_review")
            && !(a.annotatorId == Some(currentUserId) && !settings.allowSelfReview)
            && settings.reviewMode == "always-skip"
      ==> r.reason == Some(ReviewsDisabled)
    ensures r.reason == Some(ReviewsDisabled) ==>
      a.status == Some("in_review") && settings.reviewMode == "always-skip"
  {
    if a.status != Some("in_review") then
      CanSubmitReviewResult(false, Some(NotInReview))
    else if a.annotatorId == Some(currentUserId) && !settings.allowSelfReview then
      CanSubmitReviewResult(false, Some(OwnAnnotation))
    else if settings.reviewMode == "always-skip" then
      CanSubmitReviewResult(false, Some(ReviewsDisabled))
    else
      CanSubmitReviewResult(true, None)
  }

  /** A task that may be reviewed is shown with an in-review badge. */
  lemma {:induction false} SubmittableIsShownInReview(a: AnnotationForWorkflow, currentUserId: int, settings: ProjectReviewSettings)
    requires CanUserSubmitReview(a, currentUserId, settings).can
    ensures GetWorkflowStatusDisplay(a, settings.reviewMode).color == "warning"
    ensures GetWorkflowStatusDisplay(a, settings.reviewMode).title in {"Pending Review", "In Review"}
  {
  }

  // ---------------------------------------------------------------------------
  // Messages
  // ---------------------------------------------------------------------------

  const AutoApprovedShort := "Automatically approved"
  const NoFeedbackShort := "No feedback provided"
  const AutoApprovedFull := "This annotation was automatically approved based on project settings."
  const NoFeedbackFull := "No feedback was provided with this review."
  const DefaultMaxLength := 100

  /** A missing message, an empty one or one of white space only: what `!m || m.trim() === ''` catches. */
  predicate Blank(message: Option<string>) {
    message.None? || Trim(message.value) == ""
  }

  /** `substring(0, n)` of a string longer than `n`: a negative `n` counts as 0. */
  function Prefix(s: string, n: int): (p: string)
    requires n < |s|
    ensures |p| == if n < 0 then 0 else n
    ensures p == s[..|p|]
  {
    if n < 0 then [] else s[..n]
  }

  /** What `substring(0, maxLength).trim()` keeps of a message longer than `maxLength`. */
  lemma {:induction false} CutOfMessage(message: string, maxLength: int)
    requires maxLength < |message|
    ensures var cut := Trim(Prefix(message, maxLength));
      && |cut| <= (if maxLength < 0 then 0 else maxLength)
      && InfixOf(cut, message)
      && StartsWith(TrimStart(message), cut)
      && (message != [] && !IsWhitespace(message[0]) ==> StartsWith(message, cut))
  {
    var p := Prefix(message, maxLength);
    TrimIsInfix(p);
    assert InfixAt(p, message, 0);
    InfixTransitive(Trim(p), p, message);
    TrimOfPrefixStarts(message, p);
  }

  /**
   * The cut of a message longer than `maxLength`: its first `maxLength`
   * characters trimmed again and followed by `...`. What precedes the dots
   * is a piece of the message, at most `maxLength` characters long; where
   * it stands in the message is `TruncateKeepsStart`.
   */
  function Truncate(message: string, maxLength: int): (r: string)
    requires maxLength < |message|
    ensures EndsWith(r, "...")
    ensures |r| <= (if maxLength < 0 then 0 else maxLength) + 3
    ensures InfixOf(r[..|r| - 3], message)
  {
    var cut := Trim(Prefix(message, maxLength));
    CutOfMessage(message, maxLength);
    assert (cut + "...")[..|cut + "..."| - 3] == cut;
    cut + "..."
  }

  /**
   * What precedes the dots starts the message once its leading white space
   * is dropped, so it is a prefix of a message that does not start with
   * white space.
   */
  lemma {:induction false} TruncateKeepsStart(message: string, maxLength: int)
    requires maxLength < |message|
    ensures var r := Truncate(message, maxLength);
      && StartsWith(TrimStart(message), r[..|r| - 3])
      && (message != [] && !IsWhitespace(message[0]) ==> StartsWith(message, r[..|r| - 3]))
  {
    var r := Truncate(message, maxLength);
    CutOfMessage(message, maxLength);
    assert r[..|r| - 3] == Trim(Prefix(message, maxLength));
  }

  /**
   * `formatReviewMessage`: an auto-approved review says so whatever its
   * message; a blank message gives the no-feedback text; a trimmed message of
   * at most `maxLength` characters is shown whole; a longer one is cut as
   * `Truncate` says. The result is never empty.
   */
  function FormatReviewMessage(review: Review, maxLength: int): (r: string)
    ensures r != ""
    ensures review.isAutoApproved ==> r == AutoApprovedShort
    ensures !review.isAutoApproved && Blank(review.message) ==> r == NoFeedbackShort
    ensures !review.isAutoApproved && !Blank(review.message) && |Trim(review.message.value)| <= maxLength
      ==> r == Trim(review.message.value)
    ensures !review.isAutoApproved && !Blank(review.message) && |Trim(review.message.value)| > maxLength ==>
      && EndsWith(r, "...")
      && |r| <= (if maxLength < 0 then 0 else maxLength) + 3
      && InfixOf(r[..|r| - 3], Trim(review.message.value))
      && StartsWith(Trim(review.message.value), r[..|r| - 3])
  {
    if review.isAutoApproved then AutoApprovedShort
    else if Blank(review.message) then NoFeedbackShort
    else
      var message := Trim(review.message.value);
      if |message| > maxLength then
        TruncateKeepsStart(message, maxLength);
        Truncate(message, maxLength)
      else message
  }

  /**
   * `formatReviewMessageFull`: the same order of cases, with the long
   * texts and the trimmed message never cut. The result is never empty.
   */
  function FormatReviewMessageFull(review: Review): (r: string)
    ensures r != ""
    ensures review.isAutoApproved ==> r == AutoApprovedFull
    ensures !review.isAutoApproved && Blank(review.message) ==> r == NoFeedbackFull
    ensures !review.isAutoApproved && !Blank(review.message) ==> r == Trim(review.message.value)
  {
    if review.isAutoApproved then AutoApprovedFull
    else if Blank(review.message) then NoFeedbackFull
    else Trim(review.message.value)
  }

  /**
   * A reviewer's own message that fits in `maxLength` once trimmed reads the
   * same in the short and the full form.
   */
  lemma {:induction false} ShortFormIsFullWhenItFits(review: Review, maxLength: int)
    requires !review.isAutoApproved && !Blank(review.message)
    requires |Trim(review.message.value)| <= maxLength
    ensures FormatReviewMessage(review, maxLength) == FormatReviewMessageFull(review)
  {
  }

  // ---------------------------------------------------------------------------
  // Sorting
  // ---------------------------------------------------------------------------

  function Round(r: Review): int { r.reviewRound }

  function CreatedAt(r: Review): int { r.createdAt }

  /**
   * `sortReviewsByRound`: a new list of the same reviews from the highest
   * round to the lowest, reviews of one round in their input order.
   */
  function SortReviewsByRound(reviews: seq<Review>): (r: seq<Review>)
    ensures multiset(r) == multiset(reviews)
    ensures SortedDescending(r, Round)
    ensures forall k :: Filter(r, HasKey(Round, k)) == Filter(reviews, HasKey(Round, k))
  {
    SortIsStable(reviews, Round);
    SortDescending(reviews, Round)
  }

  /**
   * `sortReviewsByDate`: a new list of the same reviews from the newest to
   * the oldest, reviews made at the same time in their input order.
   */
  function SortReviewsByDate(reviews: seq<Review>): (r: seq<Review>)
    ensures multiset(r) == multiset(reviews)
    ensures SortedDescending(r, CreatedAt)
    ensures forall k :: Filter(r, HasKey(CreatedAt, k)) == Filter(reviews, HasKey(CreatedAt, k))
  {
    SortIsStable(reviews, CreatedAt);
    SortDescending(reviews, CreatedAt)
  }

  // ---------------------------------------------------------------------------
  // Grouping
  // ---------------------------------------------------------------------------

  /** The rounds that occur among the reviews. */
  function Rounds(reviews: seq<Review>): set<int> {
    set i | 0 <= i < |reviews| :: reviews[i].reviewRound
  }

  /** A map that is not empty has a key. */
  lemma {:induction false} NonEmptyMap(m: map<int, seq<Review>>)
    requires m != map[]
    ensures exists k :: k in m
  {
    if forall k :: k !in m {
      assert false;
    }
  }

  /** The number of reviews held by the groups of a map from round to reviews. */
  ghost function GroupTotal(m: map<int, seq<Review>>): nat
    decreases |m.Keys|
  {
    if m == map[] then 0
    else
      NonEmptyMap(m);
      var k :| k in m;
      |m[k]| + GroupTotal(m - {k})
  }

  /** The total may be counted starting from any group. */
  lemma {:induction false} GroupTotalAt(m: map<int, seq<Review>>, k: int)
    requires k in m
    ensures GroupTotal(m) == |m[k]| + GroupTotal(m - {k})
    decreases |m.Keys|
  {
    var j :| j in m && GroupTotal(m) == |m[j]| + GroupTotal(m - {j});
    if j != k {
      assert (m - {j}).Keys == m.Keys - {j};
      assert (m - {k}).Keys == m.Keys - {k};
      GroupTotalAt(m - {j}, k);
      GroupTotalAt(m - {k}, j);
      assert m - {j} - {k} == m - {k} - {j};
    }
  }

  /** Adding one review to a group, new or existing, adds one to the total. */
  lemma {:induction false} GroupTotalAdd(m: map<int, seq<Review>>, k: int, x: Review)
    ensures GroupTotal(m[k := (if k in m then m[k] else []) + [x]]) == GroupTotal(m) + 1
  {
    var m' := m[k := (if k in m then m[k] else []) + [x]];
    GroupTotalAt(m', k);
    assert m' - {k} == m - {k};
    if k in m {
      GroupTotalAt(m, k);
    } else {
      assert m - {k} == m;
    }
  }

  /** A round that does not occur has no reviews. */
  lemma {:induction false} NoRoundNoReviews(reviews: seq<Review>, round: int)
    requires round !in Rounds(reviews)
    ensures Filter(reviews, HasKey(Round, round)) == []
    decreases |reviews|
  {
    if reviews != [] {
      var init := reviews[..|reviews| - 1];
      assert reviews[|reviews| - 1].reviewRound in Rounds(reviews);
      assert Rounds(init) <= Rounds(reviews) by {
        assert forall j :: 0 <= j < |init| ==> init[j] == reviews[j];
      }
      NoRoundNoReviews(init, round);
      FilterLast(reviews, HasKey(Round, round));
      assert !HasKey(Round, round)(reviews[|reviews| - 1]);
    }
  }

  /** `m` holds, for each round of `reviews`, exactly that round's reviews in order. */
  ghost predicate GroupsOf(m: map<int, seq<Review>>, reviews: seq<Review>) {
    && m.Keys == Rounds(reviews)
    && forall k :: k in m ==> m[k] == Filter(reviews, HasKey(Round, k))
  }

  /** The group of round `k` after `x` joins its round, when `x` is the last of `all`. */
  lemma {:induction false} GroupStepAt(m: map<int, seq<Review>>, reviews: seq<Review>, x: Review, k: int)
    requires k in m ==> m[k] == Filter(reviews, HasKey(Round, k))
    requires k !in m ==> k !in Rounds(reviews)
    ensures var m' := m[x.reviewRound := (if x.reviewRound in m then m[x.reviewRound] else []) + [x]];
      k in m' ==> m'[k] == Filter(reviews + [x], HasKey(Round, k))
  {
    var round := x.reviewRound;
    var all := reviews + [x];
    FilterLast(all, HasKey(Round, k));
    assert all[..|reviews|] == reviews;
    if k == round && round !in m {
      NoRoundNoReviews(reviews, round);
    }
  }

  /** Appending a review to its round's group, new or existing, keeps the grouping of one more review. */
  lemma {:induction false} GroupStep(m: map<int, seq<Review>>, reviews: seq<Review>, i: int)
    requires 0 <= i < |reviews|
    requires GroupsOf(m, reviews[..i])
    ensures GroupsOf(m[reviews[i].reviewRound := (if reviews[i].reviewRound in m then m[reviews[i].reviewRound] else [])
                                                 + [reviews[i]]], reviews[..i + 1])
  {
    var x := reviews[i];
    var prefix := reviews[..i];
    var m' := m[x.reviewRound := (if x.reviewRound in m then m[x.reviewRound] else []) + [x]];
    assert reviews[..i + 1] == prefix + [x];
    assert Rounds(prefix + [x]) == Rounds(prefix) + {x.reviewRound} by {
      assert forall j :: 0 <= j < i ==> (prefix + [x])[j] == prefix[j];
      assert (prefix + [x])[i] == x;
    }
    forall k | k in m'
      ensures m'[k] == Filter(prefix + [x], HasKey(Round, k))
    {
      GroupStepAt(m, prefix, x, k);
    }
  }

  /**
   * `groupReviewsByRound`: one group per round that occurs, holding that
   * round's reviews in their input order; the groups together hold every
   * review once.
   */
  method GroupReviewsByRound(reviews: seq<Review>) returns (grouped: map<int, seq<Review>>)
    ensures grouped.Keys == Rounds(reviews)
    ensures forall k :: k in grouped ==> grouped[k] == Filter(reviews, HasKey(Round, k))
    ensures GroupTotal(grouped) == |reviews|
  {
    grouped := map[];
    var i := 0;
    while i < |reviews|
      invariant 0 <= i <= |reviews|
      invariant GroupsOf(grouped, reviews[..i])
      invariant GroupTotal(grouped) == i
    {
      var review := reviews[i];
      var round := review.reviewRound;
      var existing := if round in grouped then grouped[round] else [];
      GroupTotalAdd(grouped, round, review);
      GroupStep(grouped, reviews, i);
      grouped := grouped[round := existing + [review]];
      i := i + 1;
    }
    assert reviews[..i] == reviews;
  }

  // ---------------------------------------------------------------------------
  // Status predicates and the latest review
  // ---------------------------------------------------------------------------

  /** `isReviewApproved`. */
  predicate IsReviewApproved(status: string) { status == "approved" }

  /** `isReviewNeedsChanges`: a change request and a rejection both send the work back. */
  predicate IsReviewNeedsChanges(status: string) { status == "changes_requested" || status == "rejected" }

  /** `isReviewPending`. */
  predicate IsReviewPending(status: string) { status == "pending" }

  /** Every known review status satisfies exactly one of the three predicates, and an unknown one none. */
  lemma {:induction false} ReviewStatusPartition(status: string)
    ensures status in ReviewStatuses ==>
      (if IsReviewApproved(status) then 1 else 0) + (if IsReviewNeedsChanges(status) then 1 else 0)
      + (if IsReviewPending(status) then 1 else 0) == 1
    ensures status !in ReviewStatuses ==>
      !IsReviewApproved(status) && !IsReviewNeedsChanges(status) && !IsReviewPending(status)
  {
  }

  /** The reduce step's test: `c` is in a later round, or the same round and made later. */
  predicate LaterThan(c: Review, l: Review) {
    c.reviewRound > l.reviewRound || (c.reviewRound == l.reviewRound && c.createdAt > l.createdAt)
  }

  /**
   * The position `reduce` ends on: no review is later than the one there,
   * and it is strictly later than every review before it, so on a full tie
   * the earliest is kept.
   */
  function LatestIndex(reviews: seq<Review>): (i: nat)
    requires |reviews| > 0
    ensures i < |reviews|
    ensures forall j :: 0 <= j < |reviews| ==> !LaterThan(reviews[j], reviews[i])
    ensures forall j :: 0 <= j < i ==> LaterThan(reviews[i], reviews[j])
    decreases |reviews|
  {
    var n := |reviews|;
    if n == 1 then 0
    else
      var init := reviews[..n - 1];
      var p := LatestIndex(init);
      assert forall j :: 0 <= j < n - 1 ==> init[j] == reviews[j];
      if LaterThan(reviews[n - 1], reviews[p]) then n - 1 else p
  }

  /**
   * `getLatestReview`: nothing for no reviews; otherwise one of them that
   * no other review is later than, and that is strictly later than every
   * review listed before it.
   */
  function GetLatestReview(reviews: seq<Review>): (r: Option<Review>)
    ensures r.None? <==> |reviews| == 0
    ensures r.Some? ==> r.value in reviews
    ensures r.Some? ==> forall j :: 0 <= j < |reviews| ==> !LaterThan(reviews[j], r.value)
  {
    if |reviews| == 0 then None else Some(reviews[LatestIndex(reviews)])
  }

  /** The latest review is in the round that sorting by round puts first. */
  lemma {:induction false} LatestIsInFirstSortedRound(reviews: seq<Review>)
    requires |reviews| > 0
    ensures GetLatestReview(reviews).value.reviewRound == SortReviewsByRound(reviews)[0].reviewRound
  {
    var latest := GetLatestReview(reviews).value;
    var sorted := SortReviewsByRound(reviews);
    assert |sorted| == |reviews| by {
      assert |multiset(sorted)| == |multiset(reviews)|;
    }
    assert sorted[0] in multiset(reviews);
    var i :| 0 <= i < |reviews| && reviews[i] == sorted[0];
    assert latest in multiset(sorted);
    var j :| 0 <= j < |sorted| && sorted[j] == latest;
    assert Round(sorted[0]) >= Round(sorted[j]);
    assert !LaterThan(reviews[i], latest);
  }
}

=== FILE: seqs.dfy ===
/** The array operations the core builds on: `filter` and `find`, order kept. */
module Seqs {
  import opened Wrappers

  /** `xs.filter(p)`: the members satisfying `p`, in their order. */
  function Filter<T>(xs: seq<T>, p: T -> bool): (r: seq<T>)
    ensures |r| <= |xs|
    ensures forall i :: 0 <= i < |r| ==> r[i] in xs && p(r[i])
    ensures forall i :: 0 <= i < |xs| && p(xs[i]) ==> xs[i] in r
    decreases |xs|
  {
    if xs == [] then []
    else
      var rest := Filter(xs[..|xs| - 1], p);
      assert forall i :: 0 <= i < |xs| - 1 ==> xs[i] == xs[..|xs| - 1][i];
      if p(xs[|xs| - 1]) then rest + [xs[|xs| - 1]] else rest
  }

  /** The positions of the members satisfying `p`, in increasing order. */
  function PassingPositions<T>(xs: seq<T>, p: T -> bool): (idx: seq<int>)
    ensures forall k :: 0 <= k < |idx| ==> 0 <= idx[k] < |xs| && p(xs[idx[k]])
    ensures forall k, l :: 0 <= k < l < |idx| ==> idx[k] < idx[l]
    ensures forall i :: 0 <= i < |xs| && p(xs[i]) ==> i in idx
    decreases |xs|
  {
    if xs == [] then []
    else
      var rest := PassingPositions(xs[..|xs| - 1], p);
      assert forall k :: 0 <= k < |rest| ==> xs[rest[k]] == xs[..|xs| - 1][rest[k]];
      if p(xs[|xs| - 1]) then rest + [|xs| - 1] else rest
  }

  /**
   * `filter` keeps order: its result is the list read at the passing
   * positions, one member per position, in increasing position order.
   */
  lemma {:induction false} FilterAtPassingPositions<T>(xs: seq<T>, p: T -> bool)
    ensures |Filter(xs, p)| == |PassingPositions(xs, p)|
    ensures forall k :: 0 <= k < |Filter(xs, p)| ==> Filter(xs, p)[k] == xs[PassingPositions(xs, p)[k]]
    decreases |xs|
  {
    if xs != [] {
      var init := xs[..|xs| - 1];
      FilterAtPassingPositions(init, p);
      var r, idx := Filter(init, p), PassingPositions(init, p);
      forall k | 0 <= k < |r|
        ensures Filter(xs, p)[k] == xs[PassingPositions(xs, p)[k]]
      {
        assert Filter(xs, p)[k] == r[k];
        assert PassingPositions(xs, p)[k] == idx[k];
        assert init[idx[k]] == xs[idx[k]];
      }
    }
  }

  /**
   * `r` is `xs` read at the positions that pass `p`, one member per
   * position, in increasing position order.
   */
  predicate ReadAtPassingPositions<T(==)>(r: seq<T>, xs: seq<T>, p: T -> bool) {
    var idx := PassingPositions(xs, p);
    |r| == |idx| && forall k :: 0 <= k < |r| ==> r[k] == xs[idx[k]]
  }

  /** Filtering a concatenation filters each part. */
  lemma {:induction false} FilterAppend<T>(xs: seq<T>, ys: seq<T>, p: T -> bool)
    ensures Filter(xs + ys, p) == Filter(xs, p) + Filter(ys, p)
    decreases |ys|
  {
    if ys == [] {
      assert xs + ys == xs;
    } else {
      var zs := ys[..|ys| - 1];
      assert (xs + ys)[..|xs + ys| - 1] == xs + zs;
      assert (xs + ys)[|xs + ys| - 1] == ys[|ys| - 1];
      FilterAppend(xs, zs, p);
    }
  }

  /** Filtering a filtered list again with the same test changes nothing. */
  lemma {:induction false} FilterIdempotent<T>(xs: seq<T>, p: T -> bool)
    ensures Filter(Filter(xs, p), p) == Filter(xs, p)
    decreases |xs|
  {
    if xs != [] {
      var init := xs[..|xs| - 1];
      FilterIdempotent(init, p);
      if p(xs[|xs| - 1]) {
        FilterAppend(Filter(init, p), [xs[|xs| - 1]], p);
        assert [xs[|xs| - 1]][..0] == [];
      }
    }
  }

  /** No two members of `xs` share a value of `f`. */
  predicate DistinctBy<T, K(==)>(xs: seq<T>, f: T -> K) {
    forall i, j :: 0 <= i < j < |xs| ==> f(xs[i]) != f(xs[j])
  }

  /** Filtering keeps members apart: a filtered list of distinct members is distinct. */
  lemma {:induction false} FilterDistinctBy<T, K>(xs: seq<T>, p: T -> bool, f: T -> K)
    requires DistinctBy(xs, f)
    ensures DistinctBy(Filter(xs, p), f)
    decreases |xs|
  {
    if xs != [] {
      var init := xs[..|xs| - 1];
      var last := xs[|xs| - 1];
      assert DistinctBy(init, f);
      FilterDistinctBy(init, p, f);
      var rest := Filter(init, p);
      if p(last) {
        forall i | 0 <= i < |rest|
          ensures f(rest[i]) != f(last)
        {
          var j :| 0 <= j < |init| && init[j] == rest[i];
          assert xs[j] == rest[i];
        }
      }
    }
  }

  /** `xs.find(p)`: the first member satisfying `p`, or nothing. */
  function Find<T>(xs: seq<T>, p: T -> bool): (r: Option<T>)
    ensures r.None? <==> forall i :: 0 <= i < |xs| ==> !p(xs[i])
    ensures r.Some? ==>
      exists i :: 0 <= i < |xs| && xs[i] == r.value && p(xs[i]) && forall j :: 0 <= j < i ==> !p(xs[j])
  {
    if xs == [] then None
    else if p(xs[0]) then Some(xs[0])
    else
      var r := Find(xs[1..], p);
      assert forall i :: 1 <= i < |xs| ==> xs[i] == xs[1..][i - 1];
      r
  }

  /** `find` as a loop over the list: the first member that passes, if any. */
  method FindLoop<T>(xs: seq<T>, p: T -> bool) returns (r: Option<T>)
    ensures r == Find(xs, p)
  {
    var i := 0;
    while i < |xs|
      invariant 0 <= i <= |xs|
      invariant forall j :: 0 <= j < i ==> !p(xs[j])
    {
      if p(xs[i]) {
        FindFirst(xs, p, i);
        return Some(xs[i]);
      }
      i := i + 1;
    }
    return None;
  }

  /** `find` stops at the first member that passes. */
  lemma {:induction false} FindFirst<T>(xs: seq<T>, p: T -> bool, i: int)
    requires 0 <= i < |xs| && p(xs[i])
    requires forall j :: 0 <= j < i ==> !p(xs[j])
    ensures Find(xs, p) == Some(xs[i])
    decreases i
  {
    if i > 0 {
      FindFirst(xs[1..], p, i - 1);
    }
  }

  /** `filter` of a one-element list. */
  lemma {:induction false} FilterSingleton<T>(a: T, p: T -> bool)
    ensures Filter([a], p) == if p(a) then [a] else []
  {
    assert [a][..0] == [];
  }

  /** `filter` seen from the first element. */
  lemma FilterCons<T>(a: T, xs: seq<T>, p: T -> bool)
    ensures Filter([a] + xs, p) == (if p(a) then [a] else []) + Filter(xs, p)
  {
    FilterAppend([a], xs, p);
    FilterSingleton(a, p);
  }

  /** `filter` seen from the last element. */
  lemma {:induction false} FilterLast<T>(xs: seq<T>, p: T -> bool)
    requires xs != []
    ensures Filter(xs, p) == Filter(xs[..|xs| - 1], p) + (if p(xs[|xs| - 1]) then [xs[|xs| - 1]] else [])
  {
  }
}

=== FILE: shortcut_manager.dfy ===
/**
 * The shortcut manager of one scope: the user's saved overrides, the merged
 * table in force, the actions that have a handler and the keys bound to
 * the keyboard library. Server calls are the outcome they report, passed
 * in; the auth cookie is an argument.
 */
module ShortcutManager {
  import opened Wrappers
  import opened Seqs
  import opened Shortcuts

  /** One entry of a bulk save. */
  datatype KeyAssignment = KeyAssignment(action: string, key: string)

  /** A cookie counts only when it is a non-empty string. */
  predicate HasToken(token: Option<string>) {
    token.Some? && token.value != ""
  }

  /** An assignment whose key `isValidKeyCombo` refuses. */
  predicate InvalidAssignment(a: KeyAssignment) {
    !IsValidKeyCombo(a.key)
  }

  function OverrideAction(o: ShortcutOverride): string {
    o.action
  }

  function MergedAction(m: MergedShortcut): string {
    m.action
  }

  /** `findIndex(o => o.action === action)`: the first override for `action`, or -1. */
  function FirstOverrideIndex(os: seq<ShortcutOverride>, action: string): (i: int)
    ensures -1 <= i < |os|
    ensures i >= 0 ==> os[i].action == action
    ensures forall j :: 0 <= j < |os| && (i < 0 || j < i) ==> os[j].action != action
  {
    if os == [] then -1
    else if os[0].action == action then 0
    else
      var k := FirstOverrideIndex(os[1..], action);
      assert forall j :: 1 <= j < |os| ==> os[j] == os[1..][j - 1];
      if k < 0 then -1 else k + 1
  }

  /** The overrides after saving `o`: the first one for its action is replaced by `o`, or `o` is appended. */
  function Upsert(os: seq<ShortcutOverride>, o: ShortcutOverride): (r: seq<ShortcutOverride>)
    ensures o in r
    ensures |r| == |os| || r == os + [o]
  {
    var i := FirstOverrideIndex(os, o.action);
    if i >= 0 then
      assert os[i := o][i] == o;
      os[i := o]
    else os + [o]
  }

  /** The overrides after a bulk save of `assignments` in `scope`, one upsert after another. */
  function UpsertAll(os: seq<ShortcutOverride>, assignments: seq<KeyAssignment>, scope: Scope): seq<ShortcutOverride>
    decreases |assignments|
  {
    if assignments == [] then os
    else
      var last := assignments[|assignments| - 1];
      Upsert(UpsertAll(os, assignments[..|assignments| - 1], scope), ShortcutOverride(last.action, last.key, scope))
  }

  /** The update loop of a bulk save: each assignment upserted in turn. */
  method UpsertEach(os: seq<ShortcutOverride>, assignments: seq<KeyAssignment>, scope: Scope)
    returns (updated: seq<ShortcutOverride>)
    ensures updated == UpsertAll(os, assignments, scope)
  {
    updated := os;
    var i := 0;
    while i < |assignments|
      invariant 0 <= i <= |assignments|
      invariant updated == UpsertAll(os, assignments[..i], scope)
    {
      assert assignments[..i + 1][..i] == assignments[..i];
      var a := assignments[i];
      updated := Upsert(updated, ShortcutOverride(a.action, a.key, scope));
      i := i + 1;
    }
    assert assignments[..i] == assignments;
  }

  /** The overrides after resetting `action`: every override for it is dropped. */
  function WithoutAction(os: seq<ShortcutOverride>, action: string): (r: seq<ShortcutOverride>)
    ensures forall i :: 0 <= i < |r| ==> r[i] in os && r[i].action != action
    ensures forall i :: 0 <= i < |os| && os[i].action != action ==> os[i] in r
  {
    Filter(os, (o: ShortcutOverride) => o.action != action)
  }

  /** The entry of the table for `action`, as `find` returns it. */
  function EntryFor(shortcuts: seq<MergedShortcut>, action: string): Option<MergedShortcut> {
    Find(shortcuts, (s: MergedShortcut) => s.action == action)
  }

  /** The keys of the table entries of the actions, for those that have one. */
  function KeysOfEntries(shortcuts: seq<MergedShortcut>, actions: seq<string>): set<string>
    decreases |actions|
  {
    if actions == [] then {}
    else
      var last := actions[|actions| - 1];
      KeysOfEntries(shortcuts, actions[..|actions| - 1])
        + if EntryFor(shortcuts, last).Some? then {EntryFor(shortcuts, last).value.key} else {}
  }

  /** The actions of a list, as a set. */
  function ActionSet(actions: seq<string>): set<string> {
    set a | a in actions
  }

  /** One more action adds the key of its entry, if it has one. */
  lemma KeysOfEntriesStep(shortcuts: seq<MergedShortcut>, actions: seq<string>, i: int)
    requires 0 <= i < |actions|
    ensures ActionSet(actions[..i + 1]) == ActionSet(actions[..i]) + {actions[i]}
    ensures KeysOfEntries(shortcuts, actions[..i + 1]) == KeysOfEntries(shortcuts, actions[..i])
      + if EntryFor(shortcuts, actions[i]).Some? then {EntryFor(shortcuts, actions[i]).value.key} else {}
  {
    assert actions[..i + 1] == actions[..i] + [actions[i]];
    assert actions[..i + 1][..i] == actions[..i];
  }

  /** A key is among those of the actions' entries exactly when one of the actions has an entry with that key. */
  lemma {:induction false} KeysOfEntriesMembers(shortcuts: seq<MergedShortcut>, actions: seq<string>, k: string)
    ensures k in KeysOfEntries(shortcuts, actions) <==>
      exists j :: 0 <= j < |actions| && EntryFor(shortcuts, actions[j]).Some? && EntryFor(shortcuts, actions[j]).value.key == k
    decreases |actions|
  {
    if actions != [] {
      var init := actions[..|actions| - 1];
      KeysOfEntriesMembers(shortcuts, init, k);
      assert forall j :: 0 <= j < |init| ==> init[j] == actions[j];
    }
  }

  /** The keys of the shortcuts whose action has a handler. */
  function BoundKeysFor(shortcuts: seq<MergedShortcut>, handlers: set<string>): (keys: set<string>)
    ensures forall k :: k in keys <==>
      exists i :: 0 <= i < |shortcuts| && shortcuts[i].key == k && shortcuts[i].action in handlers
    decreases |shortcuts|
  {
    if shortcuts == [] then {}
    else
      var init := shortcuts[..|shortcuts| - 1];
      var last := shortcuts[|shortcuts| - 1];
      var keys := BoundKeysFor(init, handlers);
      assert forall i :: 0 <= i < |init| ==> init[i] == shortcuts[i];
      if last.action in handlers then keys + {last.key} else keys
  }

  /** With one entry per action, an entry is the one `find` returns for its action. */
  lemma {:induction false} EntryOfIndex(shortcuts: seq<MergedShortcut>, i: int)
    requires DistinctBy(shortcuts, MergedAction) && 0 <= i < |shortcuts|
    ensures EntryFor(shortcuts, shortcuts[i].action) == Some(shortcuts[i])
  {
    var r := EntryFor(shortcuts, shortcuts[i].action);
    var j :| 0 <= j < |shortcuts| && shortcuts[j] == r.value;
    assert MergedAction(shortcuts[j]) == MergedAction(shortcuts[i]);
  }

  /**
   * Dropping the handler of `action` and unbinding the key of its entry
   * leaves only keys that a remaining handler's entry holds.
   */
  lemma {:induction false} DropHandlerKeepsBound(shortcuts: seq<MergedShortcut>, handlers: set<string>,
                                                 bound: set<string>, action: string)
    requires DistinctBy(shortcuts, MergedAction)
    requires bound <= BoundKeysFor(shortcuts, handlers)
    ensures (if EntryFor(shortcuts, action).Some? then bound - {EntryFor(shortcuts, action).value.key} else bound)
      <= BoundKeysFor(shortcuts, handlers - {action})
  {
    var sc := EntryFor(shortcuts, action);
    var rest := if sc.Some? then bound - {sc.value.key} else bound;
    forall k | k in rest
      ensures k in BoundKeysFor(shortcuts, handlers - {action})
    {
      var i :| 0 <= i < |shortcuts| && shortcuts[i].key == k && shortcuts[i].action in handlers;
      EntryOfIndex(shortcuts, i);
    }
  }

  /**
   * Two override lists that agree on where the overrides for `action` are
   * and on those overrides give the same override for it.
   */
  lemma {:induction false} OverrideForAgree(xs: seq<ShortcutOverride>, ys: seq<ShortcutOverride>, action: string)
    requires |xs| == |ys|
    requires forall j :: 0 <= j < |xs| ==> (xs[j].action == action <==> ys[j].action == action)
    requires forall j :: 0 <= j < |xs| && xs[j].action == action ==> xs[j] == ys[j]
    ensures OverrideFor(xs, action) == OverrideFor(ys, action)
  {
  }

  /** An override appended for another action does not change the override found for `action`. */
  lemma {:induction false} OverrideForAppendOther(os: seq<ShortcutOverride>, o: ShortcutOverride, action: string)
    requires o.action != action
    ensures OverrideFor(os + [o], action) == OverrideFor(os, action)
  {
    assert (os + [o])[..|os|] == os;
  }

  /** Saving an override leaves the override in force for every other action as it was. */
  lemma {:induction false} UpsertKeepsOthers(os: seq<ShortcutOverride>, o: ShortcutOverride, action: string)
    requires action != o.action
    ensures OverrideFor(Upsert(os, o), action) == OverrideFor(os, action)
  {
    var i := FirstOverrideIndex(os, o.action);
    if i >= 0 {
      OverrideForAgree(Upsert(os, o), os, action);
    } else {
      OverrideForAppendOther(os, o, action);
    }
  }

  /**
   * While there is at most one override per action, saving `o` makes it the
   * override in force for its action and keeps one override per action.
   */
  lemma {:induction false} UpsertTakesEffect(os: seq<ShortcutOverride>, o: ShortcutOverride)
    requires DistinctBy(os, OverrideAction)
    ensures OverrideFor(Upsert(os, o), o.action) == Some(o)
    ensures DistinctBy(Upsert(os, o), OverrideAction)
  {
    var r := Upsert(os, o);
    var i := FirstOverrideIndex(os, o.action);
    if i >= 0 {
      assert forall j :: 0 <= j < |r| && j != i ==> r[j] == os[j] && os[j].action != o.action;
      assert LastOverrideIndex(r, o.action) == i;
    } else {
      assert LastOverrideIndex(r, o.action) == |os|;
    }
  }

  /** Two overrides for one action: saving replaces the first, and the second still wins the merge. */
  lemma {:induction false} DuplicateOverrideShadowsSave(a: ShortcutOverride, b: ShortcutOverride, o: ShortcutOverride)
    requires a.action == o.action && b.action == o.action && b != o
    ensures OverrideFor(Upsert([a, b], o), o.action) == Some(b)
  {
    assert Upsert([a, b], o) == [o, b];
  }

  /** A reset leaves no override for its action. */
  lemma {:induction false} ResetTakesEffect(os: seq<ShortcutOverride>, action: string)
    ensures OverrideFor(WithoutAction(os, action), action) == None
  {
  }

  /** A reset leaves the override in force for every other action as it was. */
  lemma {:induction false} ResetKeepsOthers(os: seq<ShortcutOverride>, action: string, other: string)
    requires other != action
    ensures OverrideFor(WithoutAction(os, action), other) == OverrideFor(os, other)
    decreases |os|
  {
    if os != [] {
      var init := os[..|os| - 1];
      var last := os[|os| - 1];
      var p := (o: ShortcutOverride) => o.action != action;
      ResetKeepsOthers(init, action, other);
      assert Filter(os, p) == if p(last) then Filter(init, p) + [last] else Filter(init, p);
      if last.action == other {
        assert Filter(os, p) == Filter(init, p) + [last];
        assert LastOverrideIndex(os, other) == |os| - 1;
        assert LastOverrideIndex(Filter(os, p), other) == |Filter(os, p)| - 1;
      } else {
        assert LastOverrideIndex(os, other) == LastOverrideIndex(init, other);
        if p(last) {
          OverrideForAppendOther(Filter(init, p), last, other);
        }
      }
    }
  }

  /** Every override of a bulk save is in force afterwards for its action, the last one for an action winning. */
  lemma {:induction false} BulkSaveTakesEffect(os: seq<ShortcutOverride>, assignments: seq<KeyAssignment>, scope: Scope, j: int)
    requires DistinctBy(os, OverrideAction)
    requires 0 <= j < |assignments|
    requires forall k :: j < k < |assignments| ==> assignments[k].action != assignments[j].action
    ensures OverrideFor(UpsertAll(os, assignments, scope), assignments[j].action)
      == Some(ShortcutOverride(assignments[j].action, assignments[j].key, scope))
    ensures DistinctBy(UpsertAll(os, assignments, scope), OverrideAction)
    decreases |assignments|
  {
    BulkSaveDistinct(os, assignments, scope);
    var n := |assignments|;
    var init := assignments[..n - 1];
    var last := assignments[n - 1];
    var before := UpsertAll(os, init, scope);
    var o := ShortcutOverride(last.action, last.key, scope);
    assert UpsertAll(os, assignments, scope) == Upsert(before, o);
    if j == n - 1 {
      BulkSaveDistinct(os, init, scope);
      UpsertTakesEffect(before, o);
    } else {
      assert init[j] == assignments[j];
      assert forall k :: j < k < |init| ==> init[k] == assignments[k];
      BulkSaveTakesEffect(os, init, scope, j);
      UpsertKeepsOthers(before, o, assignments[j].action);
    }
  }

  /** A bulk save keeps one override per action. */
  lemma {:induction false} BulkSaveDistinct(os: seq<ShortcutOverride>, assignments: seq<KeyAssignment>, scope: Scope)
    requires DistinctBy(os, OverrideAction)
    ensures DistinctBy(UpsertAll(os, assignments, scope), OverrideAction)
    decreases |assignments|
  {
    if assignments != [] {
      var n := |assignments|;
      var last := assignments[n - 1];
      BulkSaveDistinct(os, assignments[..n - 1], scope);
      UpsertTakesEffect(UpsertAll(os, assignments[..n - 1], scope), ShortcutOverride(last.action, last.key, scope));
    }
  }

  /** Merging keeps the table's actions, so a table with one entry per action merges to one. */
  lemma {:induction false} MergedActionsDistinct(defaults: seq<ShortcutConfig>, os: seq<ShortcutOverride>)
    requires DistinctBy(defaults, ActionOf)
    ensures DistinctBy(MergeShortcuts(defaults, os), MergedAction)
  {
    var m := MergeShortcuts(defaults, os);
    forall i, j | 0 <= i < j < |m|
      ensures MergedAction(m[i]) != MergedAction(m[j])
    {
      assert ActionOf(defaults[i]) != ActionOf(defaults[j]);
    }
  }

  /**
   * After saving `o`, the table entry for its action has the saved key and
   * is custom, and every other entry is as it was.
   */
  lemma {:induction false} SaveShowsInTable(defaults: seq<ShortcutConfig>, os: seq<ShortcutOverride>, o: ShortcutOverride)
    requires DistinctBy(os, OverrideAction)
    ensures forall i :: 0 <= i < |defaults| && defaults[i].action == o.action ==>
      MergeShortcuts(defaults, Upsert(os, o))[i].key == o.key && MergeShortcuts(defaults, Upsert(os, o))[i].isCustom
    ensures forall i :: 0 <= i < |defaults| && defaults[i].action != o.action ==>
      MergeShortcuts(defaults, Upsert(os, o))[i] == MergeShortcuts(defaults, os)[i]
  {
    UpsertTakesEffect(os, o);
    forall i | 0 <= i < |defaults| && defaults[i].action != o.action
      ensures MergeShortcuts(defaults, Upsert(os, o))[i] == MergeShortcuts(defaults, os)[i]
    {
      UpsertKeepsOthers(os, o, defaults[i].action);
    }
  }

  /** After a reset the table entry for the action is back to its factory key, and every other entry is as it was. */
  lemma {:induction false} ResetShowsInTable(defaults: seq<ShortcutConfig>, os: seq<ShortcutOverride>, action: string)
    ensures forall i :: 0 <= i < |defaults| && defaults[i].action == action ==>
      MergeShortcuts(defaults, WithoutAction(os, action))[i].key == defaults[i].key
      && !MergeShortcuts(defaults, WithoutAction(os, action))[i].isCustom
    ensures forall i :: 0 <= i < |defaults| && defaults[i].action != action ==>
      MergeShortcuts(defaults, WithoutAction(os, action))[i] == MergeShortcuts(defaults, os)[i]
  {
    ResetTakesEffect(os, action);
    forall i | 0 <= i < |defaults| && defaults[i].action != action
      ensures MergeShortcuts(defaults, WithoutAction(os, action))[i] == MergeShortcuts(defaults, os)[i]
    {
      ResetKeepsOthers(os, action, defaults[i].action);
    }
  }

  class ShortcutManager {
    const scope: Scope
    /** The factory entries of the scope. */
    const defaults: seq<ShortcutConfig>
    /** The merged table in force. */
    var shortcuts: seq<MergedShortcut>
    var userOverrides: seq<ShortcutOverride>
    var isLoading: bool
    var error: Option<string>
    var isInitialized: bool
    /** The actions that have a registered handler. */
    var handlers: set<string>
    /** The keys bound to the keyboard library. */
    var boundKeys: set<string>

    /** One table entry per action, and every bound key belongs to an entry whose action has a handler. */
    ghost predicate Valid()
      reads this
    {
      && DistinctBy(defaults, ActionOf)
      && DistinctBy(shortcuts, MergedAction)
      && boundKeys <= BoundKeysFor(shortcuts, handlers)
    }

    constructor (scope: Scope)
      ensures Valid()
      ensures this.scope == scope && defaults == GetShortcutsByScope(scope)
      ensures shortcuts == [] && userOverrides == [] && !isLoading && error == None
      ensures !isInitialized && handlers == {} && boundKeys == {}
    {
      ScopedActionsDistinct(scope);
      this.scope := scope;
      defaults := GetShortcutsByScope(scope);
      shortcuts := [];
      userOverrides := [];
      isLoading := false;
      error := None;
      isInitialized := false;
      handlers := {};
      boundKeys := {};
    }

    /** `getShortcut`: the table entry for `action`. */
    function GetShortcut(action: string): (r: Option<MergedShortcut>)
      reads this
      ensures r.Some? ==> r.value in shortcuts && r.value.action == action
      ensures r.None? <==> forall i :: 0 <= i < |shortcuts| ==> shortcuts[i].action != action
    {
      EntryFor(shortcuts, action)
    }

    /** `checkConflicts`: the entries whose key is `key`, other than the excluded action's. */
    function CheckConflicts(key: string, excludeAction: Option<string>): (r: seq<MergedShortcut>)
      reads this
      ensures forall i :: 0 <= i < |r| ==>
        r[i] in shortcuts && NormalizeKey(r[i].key) == NormalizeKey(key) && Some(r[i].action) != excludeAction
      ensures forall i :: 0 <= i < |shortcuts| ==>
        NormalizeKey(shortcuts[i].key) == NormalizeKey(key) && Some(shortcuts[i].action) != excludeAction
        ==> shortcuts[i] in r
    {
      FindConflicts(shortcuts, key, excludeAction)
    }

    /**
     * `fetchUserOverrides`: without a token the overrides are emptied and
     * nothing else changes; otherwise they become the fetched list, or an
     * empty one with an error when the call fails.
     */
    method FetchUserOverrides(token: Option<string>, response: Result<Option<seq<ShortcutOverride>>>)
      modifies this`userOverrides, this`isLoading, this`error
      ensures !HasToken(token) ==> userOverrides == [] && isLoading == old(isLoading) && error == old(error)
      ensures HasToken(token) && response.Ok? ==> userOverrides == response.value.GetOr([]) && error == None && !isLoading
      ensures HasToken(token) && response.Err? ==>
        userOverrides == [] && error == Some("Failed to load custom shortcuts") && !isLoading
    {
      if !HasToken(token) {
        userOverrides := [];
        return;
      }
      isLoading := true;
      error := None;
      match response {
        case Ok(data) =>
          userOverrides := data.GetOr([]);
        case Err(_) =>
          error := Some("Failed to load custom shortcuts");
          userOverrides := [];
      }
      isLoading := false;
    }

    /** `updateMergedShortcuts`: the scope's factory entries merged with the overrides. */
    method UpdateMergedShortcuts()
      requires DistinctBy(defaults, ActionOf)
      modifies this`shortcuts
      ensures shortcuts == MergeShortcuts(defaults, userOverrides)
      ensures DistinctBy(shortcuts, MergedAction)
    {
      shortcuts := MergeShortcuts(defaults, userOverrides);
      MergedActionsDistinct(defaults, userOverrides);
    }

    /** `bindShortcut`: the key is bound only when the action has a handler. */
    method BindShortcut(shortcut: MergedShortcut)
      modifies this`boundKeys
      ensures boundKeys == if shortcut.action in handlers then old(boundKeys) + {shortcut.key} else old(boundKeys)
    {
      if shortcut.action !in handlers {
        return;
      }
      boundKeys := boundKeys + {shortcut.key};
    }

    /** `unbindShortcut`. */
    method UnbindShortcut(key: string)
      modifies this`boundKeys
      ensures boundKeys == old(boundKeys) - {key}
    {
      if key in boundKeys {
        boundKeys := boundKeys - {key};
      }
    }

    /** `unbindAllShortcuts`, also run when the component unmounts. */
    method UnbindAllShortcuts()
      requires Valid()
      modifies this`boundKeys
      ensures Valid()
      ensures boundKeys == {}
    {
      boundKeys := {};
    }

    /** `rebindAllShortcuts`: afterwards exactly the keys of the entries that have a handler are bound. */
    method RebindAllShortcuts()
      requires DistinctBy(defaults, ActionOf) && DistinctBy(shortcuts, MergedAction)
      modifies this`boundKeys
      ensures Valid()
      ensures boundKeys == BoundKeysFor(shortcuts, handlers)
    {
      boundKeys := {};
      var i := 0;
      while i < |shortcuts|
        invariant 0 <= i <= |shortcuts|
        invariant boundKeys == BoundKeysFor(shortcuts[..i], handlers)
      {
        assert shortcuts[..i + 1][..i] == shortcuts[..i];
        if shortcuts[i].action in handlers {
          BindShortcut(shortcuts[i]);
        }
        i := i + 1;
      }
      assert shortcuts[..i] == shortcuts;
    }

    /** `registerHandler`: the handler is kept, and once initialised the action's key is bound at once. */
    method RegisterHandler(action: string)
      requires Valid()
      modifies this`handlers, this`boundKeys
      ensures Valid()
      ensures handlers == old(handlers) + {action}
      ensures boundKeys == if isInitialized && GetShortcut(action).Some?
        then old(boundKeys) + {GetShortcut(action).value.key} else old(boundKeys)
    {
      handlers := handlers + {action};
      if isInitialized {
        var shortcut := GetShortcut(action);
        if shortcut.Some? {
          BindShortcut(shortcut.value);
        }
      }
    }

    /** `unregisterHandler`: the handler is dropped and the key of the action's entry is unbound. */
    method UnregisterHandler(action: string)
      requires Valid()
      modifies this`handlers, this`boundKeys
      ensures Valid()
      ensures handlers == old(handlers) - {action}
      ensures boundKeys == if GetShortcut(action).Some? then old(boundKeys) - {GetShortcut(action).value.key}
        else old(boundKeys)
    {
      var shortcut := GetShortcut(action);
      DropHandlerKeepsBound(shortcuts, handlers, boundKeys, action);
      handlers := handlers - {action};
      if shortcut.Some? {
        UnbindShortcut(shortcut.value.key);
      }
    }

    /** `registerHandlers`: each handler registered in turn. */
    method RegisterHandlers(actions: seq<string>)
      requires Valid()
      modifies this`handlers, this`boundKeys
      ensures Valid()
      ensures handlers == old(handlers) + ActionSet(actions)
      ensures boundKeys == if isInitialized then old(boundKeys) + KeysOfEntries(shortcuts, actions) else old(boundKeys)
    {
      var i := 0;
      while i < |actions|
        invariant 0 <= i <= |actions|
        invariant Valid()
        invariant handlers == old(handlers) + ActionSet(actions[..i])
        invariant isInitialized ==> boundKeys == old(boundKeys) + KeysOfEntries(shortcuts, actions[..i])
        invariant !isInitialized ==> boundKeys == old(boundKeys)
      {
        RegisterHandler(actions[i]);
        KeysOfEntriesStep(shortcuts, actions, i);
        i := i + 1;
      }
      assert actions[..i] == actions;
    }
      /** The success path shared by the save and reset calls: store the overrides, merge, bind, stop loading. */
    method Commit(overrides: seq<ShortcutOverride>)
      requires Valid()
      modifies this`userOverrides, this`shortcuts, this`boundKeys, this`isLoading
      ensures Valid()
      ensures userOverrides == overrides && shortcuts == MergeShortcuts(defaults, overrides)
      ensures boundKeys == BoundKeysFor(shortcuts, handlers) && !isLoading
    {
      userOverrides := overrides;
      UpdateMergedShortcuts();
      RebindAllShortcuts();
      isLoading := false;
    }

    /** `initialize`: once only; fetch the overrides, merge, bind, and only then mark the manager initialised. */
    method Initialize(token: Option<string>, response: Result<Option<seq<ShortcutOverride>>>)
      requires Valid()
      modifies this
      ensures Valid()
      ensures old(isInitialized) ==>
        && shortcuts == old(shortcuts) && userOverrides == old(userOverrides) && boundKeys == old(boundKeys)
        && isLoading == old(isLoading) && error == old(error) && isInitialized
      ensures !old(isInitialized) ==>
        && isInitialized
        && (!HasToken(token) || response.Err? ==> userOverrides == [])
        && (HasToken(token) && response.Ok? ==> userOverrides == response.value.GetOr([]))
        && shortcuts == MergeShortcuts(defaults, userOverrides)
        && boundKeys == BoundKeysFor(shortcuts, handlers)
      ensures !old(isInitialized) && !HasToken(token) ==> error == old(error) && isLoading == old(isLoading)
      ensures !old(isInitialized) && HasToken(token) && response.Ok? ==> error == None && !isLoading
      ensures !old(isInitialized) && HasToken(token) && response.Err? ==>
        error == Some("Failed to load custom shortcuts") && !isLoading
      ensures handlers == old(handlers)
    {
      if isInitialized {
        return;
      }
      FetchUserOverrides(token, response);
      UpdateMergedShortcuts();
      RebindAllShortcuts();
      isInitialized := true;
    }

    /**
     * `saveShortcutOverride`: without a token or with an invalid key only the
     * error is set; a failed call sets its error; a saved override is upserted
     * and the table is merged and bound again.
     */
    method SaveShortcutOverride(action: string, key: string, token: Option<string>, saved: bool) returns (ok: bool)
      requires Valid()
      modifies this`userOverrides, this`shortcuts, this`boundKeys, this`isLoading, this`error
      ensures Valid()
      ensures ok <==> HasToken(token) && IsValidKeyCombo(key) && saved
      ensures !HasToken(token) ==> error == Some("Authentication required") && isLoading == old(isLoading)
      ensures HasToken(token) && !IsValidKeyCombo(key) ==>
        error == Some("Invalid key combination") && isLoading == old(isLoading)
      ensures HasToken(token) && IsValidKeyCombo(key) && !saved ==>
        error == Some("Failed to save shortcut") && !isLoading
      ensures !ok ==> userOverrides == old(userOverrides) && shortcuts == old(shortcuts) && boundKeys == old(boundKeys)
      ensures ok ==>
        && userOverrides == Upsert(old(userOverrides), ShortcutOverride(action, key, scope))
        && shortcuts == MergeShortcuts(defaults, userOverrides)
        && boundKeys == BoundKeysFor(shortcuts, handlers)
        && error == None && !isLoading
    {
      if !HasToken(token) {
        error := Some("Authentication required");
        return false;
      }
      if !IsValidKeyCombo(key) {
        error := Some("Invalid key combination");
        return false;
      }
      isLoading := true;
      error := None;
      if !saved {
        error := Some("Failed to save shortcut");
        isLoading := false;
        return false;
      }
      Commit(Upsert(userOverrides, ShortcutOverride(action, key, scope)));
      return true;
    }

    /**
     * `saveShortcutOverrides`: every key is checked before anything is sent,
     * the first invalid one aborting the batch; a saved batch is upserted in
     * order and the table is merged and bound again.
     */
    method SaveShortcutOverrides(assignments: seq<KeyAssignment>, token: Option<string>, saved: bool) returns (ok: bool)
      requires Valid()
      modifies this`userOverrides, this`shortcuts, this`boundKeys, this`isLoading, this`error
      ensures Valid()
      ensures ok <==> HasToken(token) && saved && Find(assignments, InvalidAssignment).None?
      ensures !HasToken(token) ==> error == Some("Authentication required") && isLoading == old(isLoading)
      ensures HasToken(token) && Find(assignments, InvalidAssignment).Some? ==>
        && error == Some("Invalid key combination for "
                         + Find(assignments, InvalidAssignment).value.action)
        && isLoading == old(isLoading)
      ensures HasToken(token) && Find(assignments, InvalidAssignment).None? && !saved ==>
        error == Some("Failed to save shortcuts") && !isLoading
      ensures !ok ==> userOverrides == old(userOverrides) && shortcuts == old(shortcuts) && boundKeys == old(boundKeys)
      ensures ok ==>
        && userOverrides == UpsertAll(old(userOverrides), assignments, scope)
        && shortcuts == MergeShortcuts(defaults, userOverrides)
        && boundKeys == BoundKeysFor(shortcuts, handlers)
        && error == None && !isLoading
    {
      if !HasToken(token) {
        error := Some("Authentication required");
        return false;
      }
      var invalid := FindLoop(assignments, InvalidAssignment);
      if invalid.Some? {
        error := Some("Invalid key combination for " + invalid.value.action);
        return false;
      }
      isLoading := true;
      error := None;
      if !saved {
        error := Some("Failed to save shortcuts");
        isLoading := false;
        return false;
      }
      var updated := UpsertEach(userOverrides, assignments, scope);
      Commit(updated);
      return true;
    }

    /** `resetShortcut`: a confirmed reset drops every override for the action and merges and binds again. */
    method ResetShortcut(action: string, token: Option<string>, deleted: bool) returns (ok: bool)
      requires Valid()
      modifies this`userOverrides, this`shortcuts, this`boundKeys, this`isLoading, this`error
      ensures Valid()
      ensures ok <==> HasToken(token) && deleted
      ensures !HasToken(token) ==> error == Some("Authentication required") && isLoading == old(isLoading)
      ensures HasToken(token) && !deleted ==> error == Some("Failed to reset shortcut") && !isLoading
      ensures !ok ==> userOverrides == old(userOverrides) && shortcuts == old(shortcuts) && boundKeys == old(boundKeys)
      ensures ok ==>
        && userOverrides == WithoutAction(old(userOverrides), action)
        && shortcuts == MergeShortcuts(defaults, userOverrides)
        && boundKeys == BoundKeysFor(shortcuts, handlers)
        && error == None && !isLoading
    {
      if !HasToken(token) {
        error := Some("Authentication required");
        return false;
      }
      isLoading := true;
      error := None;
      if !deleted {
        error := Some("Failed to reset shortcut");
        isLoading := false;
        return false;
      }
      Commit(WithoutAction(userOverrides, action));
      return true;
    }

    /** `resetAllShortcuts`: a confirmed reset drops every override, so the table is the factory one. */
    method ResetAllShortcuts(token: Option<string>, deleted: bool) returns (ok: bool)
      requires Valid()
      modifies this`userOverrides, this`shortcuts, this`boundKeys, this`isLoading, this`error
      ensures Valid()
      ensures ok <==> HasToken(token) && deleted
      ensures !HasToken(token) ==> error == Some("Authentication required") && isLoading == old(isLoading)
      ensures HasToken(token) && !deleted ==> error == Some("Failed to reset shortcuts") && !isLoading
      ensures !ok ==> userOverrides == old(userOverrides) && shortcuts == old(shortcuts) && boundKeys == old(boundKeys)
      ensures ok ==>
        && userOverrides == []
        && shortcuts == MergeShortcuts(defaults, [])
        && boundKeys == BoundKeysFor(shortcuts, handlers)
        && error == None && !isLoading
    {
      if !HasToken(token) {
        error := Some("Authentication required");
        return false;
      }
      isLoading := true;
      error := None;
      if !deleted {
        error := Some("Failed to reset shortcuts");
        isLoading := false;
        return false;
      }
      Commit([]);
      return true;
    }
  }
}

=== FILE: shortcuts.dfy ===
/**
 * Keyboard shortcuts: the factory table, the merge of the table with the
 * user's saved overrides, key validation, conflict search and the display
 * form of a key combination.
 */
module Shortcuts {
  import opened Wrappers
  import opened Text
  import opened Seqs

  datatype Scope = Canvas | Global | Review
  datatype Category = Tools | Actions | Navigation | Edit | View

  datatype ShortcutConfig = ShortcutConfig(
    action: string, key: string, displayLabel: string, description: string, scope: Scope, category: Category)

  /** A saved user override. */
  datatype ShortcutOverride = ShortcutOverride(action: string, key: string, scope: Scope)

  /** A table entry with the key in force, whether the user changed it, and the factory key. */
  datatype MergedShortcut = MergedShortcut(
    action: string, key: string, displayLabel: string, description: string, scope: Scope, category: Category,
    isCustom: bool, defaultKey: string)

  /** The actions of `DEFAULT_SHORTCUTS`, in table order. */
  const DefaultActions: seq<string> := [
    "TOOL_SELECT",
    "TOOL_RECTANGLE",
    "TOOL_POLYGON",
    "TOOL_DOT",
    "TOOL_LINE",
    "TOOL_CIRCLE",
    "TOOL_MAGIC",
    "TOOL_FREEHAND",
    "SAVE_ANNOTATION",
    "COMPLETE_ANNOTATION",
    "CANCEL_ANNOTATION",
    "DELETE_SELECTED",
    "DUPLICATE_SELECTED",
    "CLEAR_ALL",
    "NEXT_TASK",
    "REFRESH_PAGE",
    "UNDO",
    "REDO",
    "ZOOM_IN",
    "ZOOM_OUT",
    "RESET_ZOOM",
    "FIT_TO_SCREEN"]

  /** The rest of a factory entry: its key, label, description, scope and category. */
  datatype ShortcutDefaults = ShortcutDefaults(
    key: string, displayLabel: string, description: string, scope: Scope, category: Category)

  /** The rest of each entry of `DEFAULT_SHORTCUTS`, in the order of `DefaultActions`. */
  const DefaultEntries: seq<ShortcutDefaults> := [
    ShortcutDefaults("v", "Select Tool", "Select and move annotations", Canvas, Tools),  // TOOL_SELECT
    ShortcutDefaults("r", "Rectangle Tool", "Draw rectangle annotations", Canvas, Tools),  // TOOL_RECTANGLE
    ShortcutDefaults("p", "Polygon Tool", "Draw polygon annotations", Canvas, Tools),  // TOOL_POLYGON
    ShortcutDefaults("d", "Point Tool", "Add point annotations", Canvas, Tools),  // TOOL_DOT
    ShortcutDefaults("l", "Line Tool", "Draw line annotations", Canvas, Tools),  // TOOL_LINE
    ShortcutDefaults("c", "Circle Tool", "Draw circle annotations", Canvas, Tools),  // TOOL_CIRCLE
    ShortcutDefaults("m", "Magic Stick", "AI-assisted annotation tool", Canvas, Tools),  // TOOL_MAGIC
    ShortcutDefaults("f", "Freehand Tool", "Draw freehand annotations", Canvas, Tools),  // TOOL_FREEHAND
    ShortcutDefaults("ctrl+s", "Save Annotation", "Save current annotations to database", Canvas, Actions),  // SAVE_ANNOTATION
    ShortcutDefaults("enter", "Complete Annotation", "Complete current annotation drawing", Canvas, Actions),  // COMPLETE_ANNOTATION
    ShortcutDefaults("escape", "Cancel Annotation", "Cancel current annotation drawing", Canvas, Actions),  // CANCEL_ANNOTATION
    ShortcutDefaults("delete", "Delete Selected", "Delete the selected annotation", Canvas, Actions),  // DELETE_SELECTED
    ShortcutDefaults("ctrl+d", "Duplicate Selected", "Duplicate the selected annotation", Canvas, Actions),  // DUPLICATE_SELECTED
    ShortcutDefaults("ctrl+shift+delete", "Clear All", "Clear all annotations from canvas", Canvas, Actions),  // CLEAR_ALL
    ShortcutDefaults("ctrl+right", "Next Task", "Save and go to next task", Canvas, Navigation),  // NEXT_TASK
    ShortcutDefaults("ctrl+r", "Refresh", "Reload task data", Canvas, Navigation),  // REFRESH_PAGE
    ShortcutDefaults("ctrl+z", "Undo", "Undo last action", Canvas, Edit),  // UNDO
    ShortcutDefaults("ctrl+y", "Redo", "Redo last undone action", Canvas, Edit),  // REDO
    ShortcutDefaults("ctrl+=", "Zoom In", "Zoom in on canvas", Canvas, View),  // ZOOM_IN
    ShortcutDefaults("ctrl+-", "Zoom Out", "Zoom out on canvas", Canvas, View),  // ZOOM_OUT
    ShortcutDefaults("ctrl+0", "Reset Zoom", "Reset zoom to 100%", Canvas, View),  // RESET_ZOOM
    ShortcutDefaults("ctrl+1", "Fit to Screen", "Fit image to screen", Canvas, View)]  // FIT_TO_SCREEN

  /** The factory entry of an action. */
  function WithAction(action: string, e: ShortcutDefaults): ShortcutConfig {
    ShortcutConfig(action, e.key, e.displayLabel, e.description, e.scope, e.category)
  }

  /** Each action with the entry at its position. */
  function Table(actions: seq<string>, entries: seq<ShortcutDefaults>): (table: seq<ShortcutConfig>)
    requires |actions| == |entries|
    ensures |table| == |actions|
    ensures forall i :: 0 <= i < |actions| ==> table[i] == WithAction(actions[i], entries[i])
  {
    seq(|actions|, i requires 0 <= i < |actions| => WithAction(actions[i], entries[i]))
  }

  /** `DEFAULT_SHORTCUTS`. */
  const DefaultShortcuts: seq<ShortcutConfig> := Table(DefaultActions, DefaultEntries)

  /** `getDefaultShortcut`: the first table entry for `action`. */
  function GetDefaultShortcut(action: string): (r: Option<ShortcutConfig>)
    ensures r.Some? ==> r.value in DefaultShortcuts && r.value.action == action
    ensures r.None? <==> forall i :: 0 <= i < |DefaultShortcuts| ==> DefaultShortcuts[i].action != action
  {
    Find(DefaultShortcuts, (s: ShortcutConfig) => s.action == action)
  }

  /** `getShortcutsByCategory`: the table entries of `category`, in table order. */
  function GetShortcutsByCategory(category: Category): (r: seq<ShortcutConfig>)
    ensures forall i :: 0 <= i < |r| ==> r[i] in DefaultShortcuts && r[i].category == category
    ensures forall i :: 0 <= i < |DefaultShortcuts| && DefaultShortcuts[i].category == category ==>
      DefaultShortcuts[i] in r
  {
    Filter(DefaultShortcuts, InCategory(category))
  }

  /** The test "belongs to `category`". */
  function InCategory(category: Category): ShortcutConfig -> bool {
    (s: ShortcutConfig) => s.category == category
  }

  /** The test "belongs to `scope`". */
  function InScope(scope: Scope): ShortcutConfig -> bool {
    (s: ShortcutConfig) => s.scope == scope
  }

  /** `getShortcutsByScope`: the table entries of `scope`, in table order. */
  function GetShortcutsByScope(scope: Scope): (r: seq<ShortcutConfig>)
    ensures forall i :: 0 <= i < |r| ==> r[i] in DefaultShortcuts && r[i].scope == scope
    ensures forall i :: 0 <= i < |DefaultShortcuts| && DefaultShortcuts[i].scope == scope ==>
      DefaultShortcuts[i] in r
  {
    Filter(DefaultShortcuts, InScope(scope))
  }

  /** The entries of a category keep the table's order: one per table position of that category, ascending. */
  lemma {:induction false} CategoryInTableOrder(category: Category)
    ensures ReadAtPassingPositions(GetShortcutsByCategory(category), DefaultShortcuts, InCategory(category))
  {
    FilterAtPassingPositions(DefaultShortcuts, InCategory(category));
  }

  /** The entries of a scope keep the table's order: one per table position of that scope, ascending. */
  lemma {:induction false} ScopeInTableOrder(scope: Scope)
    ensures ReadAtPassingPositions(GetShortcutsByScope(scope), DefaultShortcuts, InScope(scope))
  {
    FilterAtPassingPositions(DefaultShortcuts, InScope(scope));
  }

  /** The action of a table entry. */
  function ActionOf(s: ShortcutConfig): string {
    s.action
  }

  /** The factory actions are pairwise different. */
  lemma {:induction false} ActionsDistinct()
    ensures forall i, j :: 0 <= i < j < |DefaultActions| ==> DefaultActions[i] != DefaultActions[j]
  {
  }

  /** No two factory entries share an action. */
  lemma {:induction false} DefaultActionsDistinct()
    ensures DistinctBy(DefaultShortcuts, ActionOf)
  {
    ActionsDistinct();
  }

  /** No two factory entries of one scope share an action. */
  lemma {:induction false} ScopedActionsDistinct(scope: Scope)
    ensures DistinctBy(GetShortcutsByScope(scope), ActionOf)
  {
    DefaultActionsDistinct();
    FilterDistinctBy(DefaultShortcuts, InScope(scope), ActionOf);
  }

  /** The position of the last override for `action`, or -1. */
  function LastOverrideIndex(overrides: seq<ShortcutOverride>, action: string): (i: int)
    ensures -1 <= i < |overrides|
    ensures i >= 0 ==> overrides[i].action == action
    ensures forall j :: i < j < |overrides| ==> overrides[j].action != action
  {
    if overrides == [] then -1
    else if overrides[|overrides| - 1].action == action then |overrides| - 1
    else LastOverrideIndex(overrides[..|overrides| - 1], action)
  }

  /**
   * What `new Map(overrides.map(o => [o.action, o])).get(action)` finds:
   * the last override for `action`.
   */
  function OverrideFor(overrides: seq<ShortcutOverride>, action: string): (r: Option<ShortcutOverride>)
    ensures r.None? <==> forall i :: 0 <= i < |overrides| ==> overrides[i].action != action
    ensures r.Some? ==> r.value.action == action && r.value == overrides[LastOverrideIndex(overrides, action)]
  {
    var i := LastOverrideIndex(overrides, action);
    if i < 0 then None else Some(overrides[i])
  }

  /** One table entry merged with the overrides. */
  function MergeOne(d: ShortcutConfig, overrides: seq<ShortcutOverride>): MergedShortcut {
    var o := OverrideFor(overrides, d.action);
    MergedShortcut(d.action, if o.Some? then o.value.key else d.key, d.displayLabel, d.description, d.scope, d.category,
                   o.Some?, d.key)
  }

  /**
   * `mergeShortcuts`: one entry per table entry, in table order, with the
   * table's fields; the key is that of the last override for the action
   * when there is one and the table key otherwise, `isCustom` says whether
   * there is one, and `defaultKey` is the table key.
   */
  function MergeShortcuts(defaults: seq<ShortcutConfig>, overrides: seq<ShortcutOverride>): (r: seq<MergedShortcut>)
    ensures |r| == |defaults|
    ensures forall i :: 0 <= i < |r| ==>
      && r[i].action == defaults[i].action && r[i].displayLabel == defaults[i].displayLabel
      && r[i].description == defaults[i].description && r[i].scope == defaults[i].scope
      && r[i].category == defaults[i].category && r[i].defaultKey == defaults[i].key
      && (r[i].isCustom <==> exists j :: 0 <= j < |overrides| && overrides[j].action == defaults[i].action)
      && r[i].key == (if r[i].isCustom then OverrideFor(overrides, defaults[i].action).value.key else defaults[i].key)
  {
    seq(|defaults|, i requires 0 <= i < |defaults| => MergeOne(defaults[i], overrides))
  }

  /** Without overrides every entry keeps its table key and is not custom. */
  lemma {:induction false} MergeWithoutOverrides(defaults: seq<ShortcutConfig>)
    ensures forall i :: 0 <= i < |defaults| ==>
      MergeShortcuts(defaults, [])[i].key == defaults[i].key && !MergeShortcuts(defaults, [])[i].isCustom
  {
  }

  /** A later override for an action wins over every earlier one. */
  lemma {:induction false} LastOverrideWins(defaults: seq<ShortcutConfig>, overrides: seq<ShortcutOverride>, o: ShortcutOverride)
    ensures forall i :: 0 <= i < |defaults| && defaults[i].action == o.action ==>
      MergeShortcuts(defaults, overrides + [o])[i].key == o.key && MergeShortcuts(defaults, overrides + [o])[i].isCustom
  {
  }

  /** An override for an action the table does not have changes nothing. */
  lemma {:induction false} UnknownOverrideIgnored(defaults: seq<ShortcutConfig>, overrides: seq<ShortcutOverride>, o: ShortcutOverride)
    requires forall i :: 0 <= i < |defaults| ==> defaults[i].action != o.action
    ensures MergeShortcuts(defaults, overrides + [o]) == MergeShortcuts(defaults, overrides)
  {
    forall i | 0 <= i < |defaults|
      ensures MergeShortcuts(defaults, overrides + [o])[i] == MergeShortcuts(defaults, overrides)[i]
    {
      var a := defaults[i].action;
      assert (overrides + [o])[..|overrides|] == overrides;
      assert OverrideFor(overrides + [o], a) == OverrideFor(overrides, a);
    }
  }

  const Modifiers: seq<string> := ["ctrl", "alt", "shift", "meta", "command"]

  /** The `+`-separated parts of a key, lowercased and trimmed. */
  function KeyParts(key: string): (parts: seq<string>)
    ensures |parts| == |Split(ToLower(key), '+')|
  {
    var raw := Split(ToLower(key), '+');
    seq(|raw|, i requires 0 <= i < |raw| => Trim(raw[i]))
  }

  /**
   * `isValidKeyCombo`: false for an empty or blank key; otherwise true
   * exactly when some part is not a modifier.
   */
  function IsValidKeyCombo(key: string): (b: bool)
    ensures b <==> Trim(key) != "" && !(forall i :: 0 <= i < |KeyParts(key)| ==> KeyParts(key)[i] in Modifiers)
  {
    if key == "" || Trim(key) == "" then false
    else
      var parts := KeyParts(key);
      exists i :: 0 <= i < |parts| && parts[i] !in Modifiers
  }

  /** A key with nothing but whitespace is never valid. */
  lemma {:induction false} BlankKeyInvalid(key: string)
    requires forall i :: 0 <= i < |key| ==> IsWhitespace(key[i])
    ensures !IsValidKeyCombo(key)
  {
  }

  /** A lower-case string without capitals, `+` or whitespace at its ends: a well-formed key part. */
  predicate PlainPart(a: string) {
    && '+' !in a
    && (forall i :: 0 <= i < |a| ==> !('A' <= a[i] <= 'Z'))
    && (a == [] || (!IsWhitespace(a[0]) && !IsWhitespace(a[|a| - 1])))
  }

  /** The parts of `a+b` for lower-case `a` and `b` without `+` are their trims. */
  lemma {:induction false} KeyPartsOfPair(a: string, b: string)
    requires '+' !in a && '+' !in b
    requires forall i :: 0 <= i < |a| ==> !('A' <= a[i] <= 'Z')
    requires forall i :: 0 <= i < |b| ==> !('A' <= b[i] <= 'Z')
    ensures KeyParts(a + "+" + b) == [Trim(a), Trim(b)]
  {
    var k := a + "+" + b;
    ToLowerOfLower(k);
    SplitTwo(a, b, '+');
  }

  /** The parts of `a+b` for plain parts are `a` and `b`. */
  lemma {:induction false} PairParts(a: string, b: string)
    requires PlainPart(a) && PlainPart(b)
    ensures KeyParts(a + "+" + b) == [a, b]
  {
    KeyPartsOfPair(a, b);
    TrimOfTrimmed(a);
    TrimOfTrimmed(b);
  }

  /** A non-blank key with two parts is valid exactly when one of them is not a modifier. */
  lemma {:induction false} TwoPartValidity(k: string, a: string, b: string)
    requires Trim(k) == k && k != [] && KeyParts(k) == [a, b]
    ensures IsValidKeyCombo(k) <==> (a !in Modifiers || b !in Modifiers)
  {
    var parts := KeyParts(k);
    if a !in Modifiers {
      assert parts[0] !in Modifiers;
    } else if b !in Modifiers {
      assert parts[1] !in Modifiers;
    }
  }

  /** A single plain key is valid exactly when it is not a modifier. */
  lemma {:induction false} SingleKeyValidity(a: string)
    requires PlainPart(a) && a != []
    ensures IsValidKeyCombo(a) <==> a !in Modifiers
  {
    TrimOfTrimmed(a);
    ToLowerOfLower(a);
    assert Split(a, '+') == [a];
    var parts := KeyParts(a);
    assert parts == [a];
    if a !in Modifiers {
      assert parts[0] !in Modifiers;
    }
  }

  /** `ctrl+shift` is its own trim and splits into its two modifiers. */
  lemma {:induction false} CtrlShiftParts()
    ensures Trim("ctrl+shift") == "ctrl+shift"
    ensures KeyParts("ctrl+shift") == ["ctrl", "shift"]
  {
    assert PlainPart("ctrl");
    assert PlainPart("shift");
    PairParts("ctrl", "shift");
    assert "ctrl+shift" == "ctrl" + "+" + "shift";
    TrimOfTrimmed("ctrl+shift");
  }

  /** Modifiers alone are not a key combination. */
  lemma {:induction false} ModifiersOnlyInvalid()
    ensures !IsValidKeyCombo("ctrl+shift")
  {
    CtrlShiftParts();
    TwoPartValidity("ctrl+shift", "ctrl", "shift");
  }

  /** `ctrl+` is its own trim and splits into `ctrl` and an empty part. */
  lemma {:induction false} TrailingPlusParts()
    ensures Trim("ctrl+") == "ctrl+"
    ensures KeyParts("ctrl+") == ["ctrl", ""]
  {
    TrimOfTrimmed("ctrl+");
    calc {
      KeyParts("ctrl+");
      { assert "ctrl+" == "ctrl" + "+" + ""; }
      KeyParts("ctrl" + "+" + "");
      { PairParts("ctrl", ""); }
      ["ctrl", ""];
    }
  }

  /** A trailing `+` leaves an empty part, which is not a modifier, so the key passes. */
  lemma {:induction false} TrailingPlusValid()
    ensures IsValidKeyCombo("ctrl+")
  {
    TrailingPlusParts();
    TwoPartValidity("ctrl+", "ctrl", "");
  }

  /** `s.toLowerCase().trim()`. */
  function NormalizeKey(s: string): (r: string)
    ensures |r| <= |s|
    ensures r == [] || (!IsWhitespace(r[0]) && !IsWhitespace(r[|r| - 1]))
  {
    Trim(ToLower(s))
  }

  /**
   * `findConflicts`: the shortcuts, in order, whose normalised key is the
   * normalised new key and whose action is not the excluded one.
   */
  function FindConflicts(shortcuts: seq<MergedShortcut>, newKey: string, excludeAction: Option<string>)
    : (r: seq<MergedShortcut>)
    ensures |r| <= |shortcuts|
    ensures forall i :: 0 <= i < |r| ==>
      r[i] in shortcuts && NormalizeKey(r[i].key) == NormalizeKey(newKey) && Some(r[i].action) != excludeAction
    ensures forall i :: 0 <= i < |shortcuts| ==>
      NormalizeKey(shortcuts[i].key) == NormalizeKey(newKey) && Some(shortcuts[i].action) != excludeAction
      ==> shortcuts[i] in r
  {
    var k := NormalizeKey(newKey);
    Filter(shortcuts, (s: MergedShortcut) => NormalizeKey(s.key) == k && Some(s.action) != excludeAction)
  }

  /** The display symbol of one part of a key. */
  function FormatPart(part: string): string {
    var normalized := Trim(ToLower(part));
    if normalized == "ctrl" then "\U{2318}"
    else if normalized == "alt" then "\U{2325}"
    else if normalized == "shift" then "\U{21e7}"
    else if normalized == "enter" then "\U{21b5}"
    else if normalized == "escape" then "Esc"
    else if normalized == "delete" then "Del"
    else if normalized == "backspace" then "\U{232b}"
    else if normalized == "space" then "Space"
    else if normalized == "left" then "\U{2190}"
    else if normalized == "right" then "\U{2192}"
    else if normalized == "up" then "\U{2191}"
    else if normalized == "down" then "\U{2193}"
    else ToUpper(part)
  }

  /** The display symbols of the parts of a key, one per `+`-separated part. */
  function FormattedParts(key: string): (r: seq<string>)
    ensures |r| == |Split(key, '+')|
    ensures forall i :: 0 <= i < |r| ==> r[i] == FormatPart(Split(key, '+')[i])
  {
    var parts := Split(key, '+');
    seq(|parts|, i requires 0 <= i < |parts| => FormatPart(parts[i]))
  }

  /** `formatKeyForDisplay`: the display symbols of the parts joined by ` + `. */
  function FormatKeyForDisplay(key: string): (r: string)
    ensures '+' !in key ==> r == FormatPart(key)
  {
    assert '+' !in key ==> Split(key, '+') == [key];
    Join(FormattedParts(key), " + ")
  }
}

=== FILE: simplification_worker.dfy ===
/**
 * The polygon simplification worker: a Ramer–Douglas–Peucker simplifier of
 * flat coordinate arrays whose tolerance is scaled by 0.7 when the shape is
 * to be preserved, and the message handler that validates a request and
 * answers it with the simplified points or an error.
 */
module SimplificationWorker {
  import opened Wrappers
  import opened Distance
  import opened FlatPolygon

  /** The tolerance the split test uses: 0.7 of the requested one when the shape is preserved. */
  function EffectiveTolerance(tolerance: real, preserveShape: bool): (t: real)
    ensures !preserveShape ==> t == tolerance
    ensures tolerance >= 0.0 ==> 0.0 <= t <= tolerance
    ensures tolerance > 0.0 ==> t > 0.0
  {
    if preserveShape then tolerance * 0.7 else tolerance
  }

  /**
   * `PolygonSimplifier.simplifyPolygon`. The recursion passes the requested
   * tolerance down and scales it again at every level, so every level
   * compares with the same effective tolerance; distances are compared
   * squared.
   */
  function SimplifyPolygon(points: seq<real>, tolerance: real, preserveShape: bool): (r: seq<real>)
    requires tolerance >= 0.0
    ensures |points| < 6 ==> r == points
    ensures |points| >= 6 ==> |r| % 2 == 0 && 4 <= |r| <= |points| && KeepsPairsOf(r, points)
  {
    var eff := EffectiveTolerance(tolerance, preserveShape);
    SimplifyFlatShape(points, SegmentDistSq, Square(eff));
    SimplifyFlat(points, SegmentDistSq, Square(eff))
  }

  /** The simplifier as the worker runs it: the read, scan and write-back loops. */
  method SimplifyPolygonLoop(points: seq<real>, tolerance: real, preserveShape: bool) returns (r: seq<real>)
    requires tolerance >= 0.0
    ensures r == SimplifyPolygon(points, tolerance, preserveShape)
  {
    var eff := EffectiveTolerance(tolerance, preserveShape);
    r := SimplifyFlatArray(points, SegmentDistSq, Square(eff));
  }

  /**
   * Preserving the shape never keeps fewer points than simplifying with the
   * requested tolerance, and it is the same as asking for 0.7 of it.
   */
  lemma {:induction false} PreserveShapeKeepsMore(points: seq<real>, tolerance: real)
    requires tolerance >= 0.0
    ensures |SimplifyPolygon(points, tolerance, false)| <= |SimplifyPolygon(points, tolerance, true)|
    ensures SimplifyPolygon(points, tolerance, true) == SimplifyPolygon(points, tolerance * 0.7, false)
  {
    PreserveShapeIsScaled(points, tolerance);
    ScaledToleranceAtMost(tolerance);
    SimplifyPolygonMonotone(points, tolerance, true, tolerance, false);
  }

  /** The scaled tolerance lies between zero and the requested one. */
  lemma ScaledToleranceAtMost(tolerance: real)
    requires tolerance >= 0.0
    ensures 0.0 <= EffectiveTolerance(tolerance, true) <= EffectiveTolerance(tolerance, false)
  {
  }

  /** Simplifying with the shape preserved is simplifying with 0.7 of the tolerance. */
  lemma PreserveShapeIsScaled(points: seq<real>, tolerance: real)
    requires tolerance >= 0.0
    ensures SimplifyPolygon(points, tolerance, true) == SimplifyPolygon(points, tolerance * 0.7, false)
  {
    assert EffectiveTolerance(tolerance, true) == EffectiveTolerance(tolerance * 0.7, false);
  }

  /** A larger effective tolerance never keeps more points. */
  lemma {:induction false} SimplifyPolygonMonotone(points: seq<real>, t1: real, p1: bool, t2: real, p2: bool)
    requires t1 >= 0.0 && t2 >= 0.0
    requires EffectiveTolerance(t1, p1) <= EffectiveTolerance(t2, p2)
    ensures |SimplifyPolygon(points, t2, p2)| <= |SimplifyPolygon(points, t1, p1)|
  {
    var e1, e2 := EffectiveTolerance(t1, p1), EffectiveTolerance(t2, p2);
    assert 0.0 <= e1;
    SquareMonotone(e1, e2);
    SimplifyFlatMonotone(points, SegmentDistSq, Square(e1), Square(e2));
  }

  /** A message from the page; a missing or non-array `points` or a non-number `tolerance` is `None`. */
  datatype Request = Request(
    id: string,
    kind: string,
    points: Option<seq<real>>,
    tolerance: Option<real>,
    preserveShape: Option<bool>)

  /** A message to the page. */
  datatype Response =
    | Simplified(id: string, originalPoints: real, simplifiedPoints: seq<real>, compressionRatio: real)
    | Error(id: string, message: string)
    | Ready(message: string)

  /** The message the worker posts once it has loaded. */
  const ReadyMessage := Ready("Polygon simplification worker ready")

  const InvalidPoints := "Invalid points array: must have at least 6 elements (3 coordinate pairs)"
  const InvalidTolerance := "Invalid tolerance: must be a positive number"

  /** The flag as written: `request.preserveShape || true` is true whatever was sent. */
  function PreserveShapeAsWritten(flag: Option<bool>): bool {
    (flag.Some? && flag.value) || true
  }

  /** The flag as evidently intended: `request.preserveShape ?? true`, true only by default. */
  function PreserveShapeIntended(flag: Option<bool>): (b: bool)
    ensures flag.Some? ==> b == flag.value
    ensures flag.None? ==> b
  {
    flag.GetOr(true)
  }

  /** A request that asks not to preserve the shape is still simplified with the 0.7 factor. */
  lemma {:induction false} PreserveShapeFlagIgnored(tolerance: real)
    requires tolerance > 0.0
    ensures PreserveShapeAsWritten(Some(false))
    ensures EffectiveTolerance(tolerance, PreserveShapeAsWritten(Some(false))) != tolerance
    ensures EffectiveTolerance(tolerance, PreserveShapeIntended(Some(false))) == tolerance
  {
  }

  /** The ratio of kept to original points, in percent, as the worker computes it. */
  function CompressionRatio(simplified: seq<real>, original: seq<real>): (ratio: real)
    requires |original| > 0
    ensures ratio * (|original| as real) == 100.0 * (|simplified| as real)
  {
    ((|simplified| as real / 2.0) / (|original| as real / 2.0)) * 100.0
  }

  /** A result that keeps at least one value and no more than it was given is above 0 and at most 100 percent. */
  lemma {:induction false} CompressionRatioBounds(simplified: seq<real>, original: seq<real>)
    requires 0 < |simplified| <= |original|
    ensures 0.0 < CompressionRatio(simplified, original) <= 100.0
  {
    var s := |simplified| as real;
    var o := |original| as real;
    assert (s / 2.0) / (o / 2.0) == s / o;
    RatioInUnitInterval(s, o);
  }

  /** A positive quotient of a number by one at least as large is at most one. */
  lemma RatioInUnitInterval(s: real, o: real)
    requires 0.0 < s <= o
    ensures 0.0 < s / o <= 1.0
  {
    var q := s / o;
    assert q * o == s;
    assert (1.0 - q) * o == o - s;
  }

  /**
   * `self.onmessage` for one request: anything but `simplify` is an unknown
   * type; a `simplify` needs an array of at least six values and a positive
   * tolerance, in that order; a valid request is answered with the
   * simplified points, the original point count and the compression ratio.
   * Every answer carries the request's id.
   */
  function HandleRequest(req: Request): (resp: Response)
    ensures !resp.Ready? && resp.id == req.id
    ensures req.kind != "simplify" ==> resp == Error(req.id, "Unknown request type: " + req.kind)
    ensures req.kind == "simplify" && (req.points.None? || |req.points.value| < 6)
      ==> resp == Error(req.id, InvalidPoints)
    ensures req.kind == "simplify" && req.points.Some? && |req.points.value| >= 6
      && (req.tolerance.None? || req.tolerance.value <= 0.0)
      ==> resp == Error(req.id, InvalidTolerance)
    ensures resp.Simplified? <==>
      req.kind == "simplify" && req.points.Some? && |req.points.value| >= 6
      && req.tolerance.Some? && req.tolerance.value > 0.0
    ensures resp.Simplified? ==>
      && resp.simplifiedPoints
         == SimplifyPolygon(req.points.value, req.tolerance.value, PreserveShapeIntended(req.preserveShape))
      && resp.originalPoints == |req.points.value| as real / 2.0
      && 0.0 < resp.compressionRatio <= 100.0
      && KeepsPairsOf(resp.simplifiedPoints, req.points.value)
  {
    if req.kind != "simplify" then
      Error(req.id, "Unknown request type: " + req.kind)
    else if req.points.None? || |req.points.value| < 6 then
      Error(req.id, InvalidPoints)
    else if req.tolerance.None? || req.tolerance.value <= 0.0 then
      Error(req.id, InvalidTolerance)
    else
      var points := req.points.value;
      var simplified := SimplifyPolygon(points, req.tolerance.value, PreserveShapeIntended(req.preserveShape));
      CompressionRatioBounds(simplified, points);
      Simplified(req.id, |points| as real / 2.0, simplified, CompressionRatio(simplified, points))
  }

  /** The handler as written, with the shape always preserved. */
  function HandleRequestAsWritten(req: Request): (resp: Response)
    ensures resp == HandleRequest(req.(preserveShape := Some(true)))
  {
    HandleRequest(req.(preserveShape := Some(PreserveShapeAsWritten(req.preserveShape))))
  }

  /** As written, a request to drop the shape factor is answered exactly as one that keeps it. */
  lemma {:induction false} AsWrittenAnswersAlike(req: Request)
    ensures HandleRequestAsWritten(req.(preserveShape := Some(false)))
      == HandleRequestAsWritten(req.(preserveShape := Some(true)))
    ensures HandleRequest(req.(preserveShape := Some(false))).Simplified? ==>
      |HandleRequest(req.(preserveShape := Some(false))).simplifiedPoints|
      <= |HandleRequest(req.(preserveShape := Some(true))).simplifiedPoints|
  {
    var f := HandleRequest(req.(preserveShape := Some(false)));
    if f.Simplified? {
      PreserveShapeKeepsMore(req.points.value, req.tolerance.value);
    }
  }
}

=== FILE: sliding_buffer.dfy ===
/**
 * The sliding capture buffer that records a polygon while it is drawn
 * (`SlidingBufferOptimizer`). Points are admitted through a distance-and-time
 * throttle and appended to a flat buffer; what is drawn meanwhile is a short
 * window of that buffer; a pending flag lets one animation frame refresh the
 * window for any number of points added before it runs.
 *
 * The clock is the `now` argument of `AddPoint`, the animation frame is the
 * `Flush` method, and the outcome of the background worker is an argument of
 * `OptimizedCompletePolygonAsync`.
 */
module SlidingBuffer {
  import opened Wrappers
  import opened Geometry
  import opened Distance
  import opened FlatPolygon

  datatype BufferConfig = BufferConfig(
    maxVisiblePoints: int,
    simplificationThreshold: int,
    renderSkipInterval: int,
    bufferSize: int,
    minDistance: real,
    minTimeInterval: real,
    batchDrawUpdates: bool)

  /** The configuration an optimizer starts with (the same as `Balanced`). */
  const DefaultConfig := BufferConfig(8, 10, 2, 50, 2.0, 16.0, true)
  const Smooth := BufferConfig(12, 8, 1, 100, 1.5, 8.0, true)
  const Balanced := BufferConfig(8, 10, 2, 50, 2.0, 16.0, true)
  const Performance := BufferConfig(6, 6, 3, 30, 3.0, 33.0, true)

  /** A `Partial<BufferConfig>`: the fields an update supplies. */
  datatype ConfigPatch = ConfigPatch(
    maxVisiblePoints: Option<int>,
    simplificationThreshold: Option<int>,
    renderSkipInterval: Option<int>,
    bufferSize: Option<int>,
    minDistance: Option<real>,
    minTimeInterval: Option<real>,
    batchDrawUpdates: Option<bool>)

  /** `{ ...config, ...patch }`. */
  function Merge(c: BufferConfig, p: ConfigPatch): BufferConfig {
    BufferConfig(
      p.maxVisiblePoints.GetOr(c.maxVisiblePoints),
      p.simplificationThreshold.GetOr(c.simplificationThreshold),
      p.renderSkipInterval.GetOr(c.renderSkipInterval),
      p.bufferSize.GetOr(c.bufferSize),
      p.minDistance.GetOr(c.minDistance),
      p.minTimeInterval.GetOr(c.minTimeInterval),
      p.batchDrawUpdates.GetOr(c.batchDrawUpdates))
  }

  /** Applying the same update twice is applying it once, and an empty update changes nothing. */
  lemma {:induction false} MergeIdempotent(c: BufferConfig, p: ConfigPatch)
    ensures Merge(Merge(c, p), p) == Merge(c, p)
    ensures Merge(c, ConfigPatch(None, None, None, None, None, None, None)) == c
  {
  }

  // ---------------------------------------------------------------------------
  // The admission filter

  /**
   * `sqrt(dSq) < minDistance` without the square root: a negative or zero
   * minimum is never beaten, a positive one exactly when the squared distance
   * is below its square.
   */
  predicate CloserThan(dSq: real, minDistance: real) {
    0.0 < minDistance && dSq < minDistance * minDistance
  }

  /**
   * Whether `addPoint` records (x, y): a forced point and the first point
   * always, any other point unless it is both closer than `minDistance` to
   * the last point and sooner than `minTimeInterval` after it.
   */
  predicate Admits(c: BufferConfig, last: Option<Point>, lastTime: real, x: real, y: real, now: real, force: bool) {
    force || last.None?
    || !(CloserThan(DistSq(Point(x, y), last.value), c.minDistance) && now - lastTime < c.minTimeInterval)
  }

  /** A point is turned away exactly when it is unforced, follows a recorded point, and is both near and soon. */
  lemma {:induction false} RejectionRule(c: BufferConfig, last: Option<Point>, lastTime: real, x: real, y: real, now: real, force: bool)
    ensures !Admits(c, last, lastTime, x, y, now, force) <==>
      && !force && last.Some?
      && CloserThan(DistSq(Point(x, y), last.value), c.minDistance)
      && now - lastTime < c.minTimeInterval
    ensures last.Some? && !force && DistSq(Point(x, y), last.value) >= c.minDistance * c.minDistance
      ==> Admits(c, last, lastTime, x, y, now, force)
  {
  }

  // ---------------------------------------------------------------------------
  // The render window

  /** The context values: the first six values, or all of a shorter buffer. */
  function Context(full: seq<real>): seq<real> {
    full[..if |full| < 6 then |full| else 6]
  }

  /** Where the recent part of the window starts: `max(6, length - 2 * maxVisiblePoints)`. */
  function RecentStart(full: seq<real>, maxVisible: int): nat {
    if 6 >= |full| - 2 * maxVisible then 6 else |full| - 2 * maxVisible
  }

  /** The pairs `(full[i], full[i + 1])` read from `i` on, `step` values apart, while `i + 1` is inside. */
  function Recent(full: seq<real>, i: nat, step: int): seq<real>
    requires step > 0
    decreases |full| - i
  {
    if i >= |full| then []
    else (if i + 1 < |full| then [full[i], full[i + 1]] else []) + Recent(full, i + step, step)
  }

  /** The last pair of values, when there is one. */
  function LastPair(full: seq<real>): seq<real> {
    if |full| >= 2 then [full[|full| - 2], full[|full| - 1]] else []
  }

  /**
   * What `getOptimizedRenderPoints` shows: the whole buffer while it holds no
   * more than `maxVisiblePoints` points, otherwise the context values, the
   * recent pairs and the last pair once more.
   */
  function RenderWindow(full: seq<real>, c: BufferConfig): seq<real>
    requires c.renderSkipInterval > 0
  {
    if |full| <= 2 * c.maxVisiblePoints then full
    else Context(full) + Recent(full, RecentStart(full, c.maxVisiblePoints), c.renderSkipInterval) + LastPair(full)
  }

  /** `getOptimizedRenderPoints`: the three loops that build the window. */
  method BuildRenderWindow(full: seq<real>, c: BufferConfig) returns (window: seq<real>)
    requires c.renderSkipInterval > 0
    ensures window == RenderWindow(full, c)
  {
    if |full| <= 2 * c.maxVisiblePoints {
      return full;
    }
    window := [];
    var i := 0;
    while i < (if |full| < 6 then |full| else 6)
      invariant 0 <= i <= (if |full| < 6 then |full| else 6)
      invariant window == full[..i]
    {
      window := window + [full[i]];
      i := i + 1;
    }
    var start := RecentStart(full, c.maxVisiblePoints);
    var context := window;
    i := start;
    while i < |full|
      invariant start <= i
      invariant window + Recent(full, i, c.renderSkipInterval)
        == context + Recent(full, start, c.renderSkipInterval)
      decreases |full| - i
    {
      if i + 1 < |full| {
        window := window + [full[i], full[i + 1]];
      }
      i := i + c.renderSkipInterval;
    }
    var lastIdx := |full| - 2;
    if lastIdx >= 0 && lastIdx + 1 < |full| {
      window := window + [full[lastIdx], full[lastIdx + 1]];
    }
  }

  /**
   * A buffer of no more than `maxVisiblePoints` points is shown whole. A
   * longer one of at least three points is shown starting with its first
   * three points and ending with its last point.
   */
  lemma {:induction false} RenderWindowEnds(full: seq<real>, c: BufferConfig)
    requires c.renderSkipInterval > 0
    ensures |full| <= 2 * c.maxVisiblePoints ==> RenderWindow(full, c) == full
    ensures |full| > 2 * c.maxVisiblePoints && |full| >= 6 ==>
      && |RenderWindow(full, c)| >= 8
      && RenderWindow(full, c)[..6] == full[..6]
      && RenderWindow(full, c)[|RenderWindow(full, c)| - 2..] == full[|full| - 2..]
  {
    if |full| > 2 * c.maxVisiblePoints && |full| >= 6 {
      var w := RenderWindow(full, c);
      var mid := Recent(full, RecentStart(full, c.maxVisiblePoints), c.renderSkipInterval);
      assert w == Context(full) + mid + LastPair(full);
      assert w[..6] == Context(full);
      assert w[|w| - 2..] == LastPair(full);
    }
  }

  /** With a step of two or more values, the recent pairs take no more values than they range over. */
  lemma {:induction false} RecentLength(full: seq<real>, i: nat, step: int)
    requires step >= 2
    ensures |Recent(full, i, step)| <= if i >= |full| then 0 else |full| - i
    decreases |full| - i
  {
    if i < |full| {
      RecentLength(full, i + step, step);
    }
  }

  /**
   * With a step of two or more values the window holds at most the context,
   * `maxVisiblePoints` recent points and the last point.
   */
  lemma {:induction false} RenderWindowBound(full: seq<real>, c: BufferConfig)
    requires c.renderSkipInterval >= 2 && c.maxVisiblePoints >= 0
    ensures |RenderWindow(full, c)| <= 6 + 2 * c.maxVisiblePoints + 2
  {
    if |full| > 2 * c.maxVisiblePoints {
      RecentLength(full, RecentStart(full, c.maxVisiblePoints), c.renderSkipInterval);
    }
  }

  /** With a step of one the window may hold nearly twice as many recent values as points. */
  lemma {:induction false} RecentStepOne(full: seq<real>, i: nat)
    ensures i + 1 < |full| ==> |Recent(full, i, 1)| == 2 * (|full| - 1 - i)
    decreases |full| - i
  {
    if i + 1 < |full| {
      RecentStepOne(full, i + 1);
      if i + 2 == |full| {
        assert Recent(full, i + 2, 1) == [];
        assert |Recent(full, i + 1, 1)| == 0;
      }
      assert |Recent(full, i, 1)| == 2 + |Recent(full, i + 1, 1)|;
    }
  }

  /** Reading pairs from an array split at an even position reads each part on its own. */
  lemma {:induction false} PairsOfConcat(a: seq<real>, b: seq<real>)
    requires |a| % 2 == 0
    ensures Pairs(a + b) == Pairs(a) + Pairs(b)
    decreases |a|
  {
    if |a| >= 2 {
      PairsOfConcat(a[2..], b);
      assert (a + b)[2..] == a[2..] + b;
    } else {
      assert a == [];
      assert a + b == b;
    }
  }

  /**
   * With an even start and an even step every recent pair is a point of the
   * buffer: its x and its y.
   */
  lemma {:induction false} EvenStepReadsPoints(full: seq<real>, i: nat, step: int)
    requires step > 0 && step % 2 == 0 && i % 2 == 0
    ensures forall q :: q in Pairs(Recent(full, i, step)) ==> q in Pairs(full)
    decreases |full| - i
  {
    if i < |full| {
      EvenStepReadsPoints(full, i + step, step);
      var head := if i + 1 < |full| then [full[i], full[i + 1]] else [];
      PairsOfConcat(head, Recent(full, i + step, step));
      if i + 1 < |full| {
        assert Pairs(head) == [Point(full[i], full[i + 1])];
        assert Pairs(full)[i / 2] == Point(full[i], full[i + 1]);
      }
    }
  }

  /**
   * With an odd step the second recent pair starts at an odd position: it
   * is the y of one point and the x of the next, not a point.
   */
  lemma {:induction false} OddStepMisreadsPoints(full: seq<real>, i: nat, step: int)
    requires step > 0 && step % 2 == 1 && i % 2 == 0 && i + step + 1 < |full|
    ensures (i + step) % 2 == 1
    ensures |Recent(full, i, step)| >= 4
    ensures Pairs(Recent(full, i, step))[1] == Point(full[i + step], full[i + step + 1])
  {
    var rest := Recent(full, i + step, step);
    assert Recent(full, i, step) == [full[i], full[i + 1]] + rest;
    assert rest == [full[i + step], full[i + step + 1]] + Recent(full, i + 2 * step, step);
    PairsOfConcat([full[i], full[i + 1]], rest);
    PairsOfConcat([full[i + step], full[i + step + 1]], Recent(full, i + 2 * step, step));
  }

  // ---------------------------------------------------------------------------
  // The completed polygon

  /**
   * `simplifyPoints`: the flat simplifier with the segment distance and the
   * squared tolerance. Below six values the array is returned as it is.
   */
  function SimplifyPoints(points: seq<real>, tolerance: real): (r: seq<real>)
    requires tolerance >= 0.0
    ensures |points| < 6 ==> r == points
    ensures |points| >= 6 ==> |r| % 2 == 0 && 4 <= |r| <= |points| && KeepsPairsOf(r, points)
  {
    SimplifyFlatShape(points, SegmentDistSq, Square(tolerance));
    SimplifyFlat(points, SegmentDistSq, Square(tolerance))
  }

  /** `ramerDouglasPeucker` with `perpendicularDistance`, the segment measure, as a procedure. */
  method SimplifyPointsLoop(points: seq<real>, tolerance: real) returns (r: seq<real>)
    requires tolerance >= 0.0
    ensures r == SimplifyPoints(points, tolerance)
  {
    r := SimplifyFlatArray(points, SegmentDistSq, Square(tolerance));
  }

  class SlidingBufferOptimizer {
    var config: BufferConfig
    var fullBuffer: seq<real>
    var renderBuffer: seq<real>
    var isOptimizing: bool
    var lastPointTime: real
    var lastPoint: Option<Point>
    var pendingRenderUpdate: bool
    var hasRenderCallback: bool

    /**
     * The buffer holds whole points; the last point is recorded exactly when
     * the buffer is not empty, and it is the buffer's last pair; optimizing
     * starts only once a point is recorded; the window step is positive.
     */
    ghost predicate Valid()
      reads this
    {
      && config.renderSkipInterval > 0
      && |fullBuffer| % 2 == 0
      && (lastPoint.None? <==> fullBuffer == [])
      && (lastPoint.Some? ==>
            fullBuffer[|fullBuffer| - 2] == lastPoint.value.x && fullBuffer[|fullBuffer| - 1] == lastPoint.value.y)
      && (isOptimizing ==> fullBuffer != [])
    }

    constructor ()
      ensures Valid()
      ensures config == DefaultConfig && fullBuffer == [] && renderBuffer == []
      ensures !isOptimizing && lastPointTime == 0.0 && lastPoint.None?
      ensures !pendingRenderUpdate && !hasRenderCallback
    {
      config := DefaultConfig;
      fullBuffer := [];
      renderBuffer := [];
      isOptimizing := false;
      lastPointTime := 0.0;
      lastPoint := None;
      pendingRenderUpdate := false;
      hasRenderCallback := false;
    }

    /**
     * `addPoint`: a rejected point returns `None` and changes nothing. An
     * admitted one is appended and becomes the last point; optimizing turns
     * on at `simplificationThreshold` points. With batching the window is
     * left to the next frame and the current one is returned; otherwise the
     * window is rebuilt now and returned.
     */
    method AddPoint(x: real, y: real, now: real, forceAdd: bool) returns (r: Option<seq<real>>)
      requires Valid()
      modifies this
      ensures Valid()
      ensures !Admits(old(config), old(lastPoint), old(lastPointTime), x, y, now, forceAdd) ==>
        r.None? && unchanged(this)
      ensures Admits(old(config), old(lastPoint), old(lastPointTime), x, y, now, forceAdd) ==>
        && fullBuffer == old(fullBuffer) + [x, y]
        && lastPoint == Some(Point(x, y)) && lastPointTime == now
        && isOptimizing == (old(isOptimizing) || |fullBuffer| >= 2 * config.simplificationThreshold)
        && config == old(config) && hasRenderCallback == old(hasRenderCallback)
        && (config.batchDrawUpdates ==>
              r == Some(old(renderBuffer)) && renderBuffer == old(renderBuffer) && pendingRenderUpdate)
        && (!config.batchDrawUpdates ==>
              r == Some(RenderWindow(fullBuffer, config)) && renderBuffer == RenderWindow(fullBuffer, config)
              && pendingRenderUpdate == old(pendingRenderUpdate))
    {
      if !forceAdd && lastPoint.Some? {
        var distanceSq := DistSq(Point(x, y), lastPoint.value);
        var timeDiff := now - lastPointTime;
        if CloserThan(distanceSq, config.minDistance) && timeDiff < config.minTimeInterval {
          return None;
        }
      }
      fullBuffer := fullBuffer + [x, y];
      lastPoint := Some(Point(x, y));
      lastPointTime := now;
      // pointCount = length / 2 >= threshold, compared without the division
      if |fullBuffer| >= 2 * config.simplificationThreshold && !isOptimizing {
        isOptimizing := true;
      }
      if config.batchDrawUpdates {
        var _ := ScheduleBatchedRender();
        r := Some(renderBuffer);
      } else {
        var window := GetOptimizedRenderPoints();
        r := Some(window);
      }
    }

    /** `scheduleBatchedRender`: requests a frame only when none is pending. */
    method ScheduleBatchedRender() returns (scheduled: bool)
      modifies this`pendingRenderUpdate
      ensures scheduled == !old(pendingRenderUpdate)
      ensures pendingRenderUpdate
    {
      if pendingRenderUpdate {
        return false;
      }
      pendingRenderUpdate := true;
      scheduled := true;
    }

    /**
     * The animation frame requested by `scheduleBatchedRender`: rebuilds the
     * window, clears the pending flag and reports whether a render callback
     * is set to be notified.
     */
    method Flush() returns (notified: bool)
      requires Valid()
      modifies this`renderBuffer, this`pendingRenderUpdate
      ensures Valid()
      ensures renderBuffer == RenderWindow(fullBuffer, config)
      ensures !pendingRenderUpdate
      ensures notified == hasRenderCallback
    {
      var window := GetOptimizedRenderPoints();
      pendingRenderUpdate := false;
      notified := hasRenderCallback;
    }

    /** `setRenderCallback`. */
    method SetRenderCallback()
      modifies this`hasRenderCallback
      ensures hasRenderCallback
    {
      hasRenderCallback := true;
    }

    /** `getOptimizedRenderPoints`: rebuilds the window, stores it and returns it. */
    method GetOptimizedRenderPoints() returns (window: seq<real>)
      requires Valid()
      modifies this`renderBuffer
      ensures Valid()
      ensures window == RenderWindow(fullBuffer, config) && renderBuffer == window
    {
      window := BuildRenderWindow(fullBuffer, config);
      renderBuffer := window;
    }

    /** `getCompletePolygon`: a copy of every recorded value. */
    function CompletePolygon(): (r: seq<real>)
      requires Valid()
      reads this
      ensures |r| % 2 == 0 && (r == [] <==> lastPoint.None?)
      ensures lastPoint.Some? ==> r[|r| - 2] == lastPoint.value.x && r[|r| - 1] == lastPoint.value.y
    {
      fullBuffer
    }

    /**
     * `getOptimizedCompletePolygon`: a copy of a buffer of fewer than six
     * values, otherwise the simplified buffer.
     */
    function OptimizedCompletePolygon(tolerance: real): (r: seq<real>)
      requires tolerance >= 0.0
      reads this
      ensures |fullBuffer| < 6 ==> r == fullBuffer
      ensures |fullBuffer| >= 6 ==> |r| <= |fullBuffer| && KeepsPairsOf(r, fullBuffer)
    {
      if |fullBuffer| < 6 then fullBuffer else SimplifyPoints(fullBuffer, tolerance)
    }

    /**
     * `getOptimizedCompletePolygonAsync`, given what the worker returned: a
     * copy of a short buffer, the worker's points on success, and the
     * synchronous simplification when the worker failed.
     */
    function OptimizedCompletePolygonAsync(tolerance: real, worker: Result<seq<real>>): (r: seq<real>)
      requires tolerance >= 0.0
      reads this
      ensures |fullBuffer| < 6 ==> r == fullBuffer
      ensures |fullBuffer| >= 6 && worker.Ok? ==> r == worker.value
      ensures worker.Err? ==> r == OptimizedCompletePolygon(tolerance)
    {
      if |fullBuffer| < 6 then fullBuffer
      else match worker
        case Ok(points) => points
        case Err(_) => SimplifyPoints(fullBuffer, tolerance)
    }

    /** `reset`: forgets every point and flag, keeping the configuration. */
    method Reset()
      modifies this
      ensures Valid() == (config.renderSkipInterval > 0)
      ensures fullBuffer == [] && renderBuffer == [] && !isOptimizing
      ensures lastPoint.None? && lastPointTime == 0.0 && !pendingRenderUpdate
      ensures config == old(config) && hasRenderCallback == old(hasRenderCallback)
    {
      fullBuffer := [];
      renderBuffer := [];
      isOptimizing := false;
      lastPoint := None;
      lastPointTime := 0.0;
      pendingRenderUpdate := false;
    }

    /** `updateConfig`: the supplied fields replace the current ones. */
    method UpdateConfig(patch: ConfigPatch)
      requires Valid() && Merge(config, patch).renderSkipInterval > 0
      modifies this`config
      ensures Valid()
      ensures config == Merge(old(config), patch)
    {
      config := Merge(config, patch);
    }
  }
}

=== FILE: stable_sort.dfy ===
/**
 * The stable sort that JavaScript's `Array.prototype.sort` performs with a
 * numeric comparator, written as an insertion sort from the largest key to
 * the smallest; an ascending sort is the same sort on the negated key.
 */
module StableSort {
  import opened Seqs

  /** No later element has a larger key than an earlier one. */
  predicate SortedDescending<T>(xs: seq<T>, key: T -> int) {
    forall i, j :: 0 <= i < j < |xs| ==> key(xs[i]) >= key(xs[j])
  }

  /** The test "has key `k`", used to state that equal keys keep their order. */
  function HasKey<T>(key: T -> int, k: int): T -> bool {
    y => key(y) == k
  }

  /** Puts `x` before the first element whose key is not larger than its own. */
  function Insert<T>(x: T, ys: seq<T>, key: T -> int): (r: seq<T>)
    ensures multiset(r) == multiset(ys) + multiset{x}
    ensures |r| > 0 && (r[0] == x || (|ys| > 0 && r[0] == ys[0]))
  {
    if ys == [] || key(ys[0]) <= key(x) then [x] + ys
    else
      var rest := Insert(x, ys[1..], key);
      assert ys == [ys[0]] + ys[1..];
      [ys[0]] + rest
  }

  /** Inserting into a sorted list keeps it sorted. */
  lemma {:induction false} InsertSorted<T>(x: T, ys: seq<T>, key: T -> int)
    requires SortedDescending(ys, key)
    ensures SortedDescending(Insert(x, ys, key), key)
    decreases |ys|
  {
    if ys == [] || key(ys[0]) <= key(x) {
      SortedCons(x, ys, key);
    } else {
      var rest := Insert(x, ys[1..], key);
      assert SortedDescending(ys[1..], key);
      InsertSorted(x, ys[1..], key);
      assert key(ys[0]) >= key(rest[0]) by {
        if rest[0] != x { assert key(ys[0]) >= key(ys[1]); }
      }
      SortedCons(ys[0], rest, key);
    }
  }

  /** An element no smaller than the head of a sorted list can go in front of it. */
  lemma SortedCons<T>(y: T, ys: seq<T>, key: T -> int)
    requires SortedDescending(ys, key)
    requires ys == [] || key(y) >= key(ys[0])
    ensures SortedDescending([y] + ys, key)
  {
    var r := [y] + ys;
    forall i, j | 0 <= i < j < |r| ensures key(r[i]) >= key(r[j]) {
      if i == 0 {
        assert r[j] == ys[j - 1];
        assert key(ys[0]) >= key(ys[j - 1]) by { if j > 1 { } }
      } else {
        assert r[i] == ys[i - 1] && r[j] == ys[j - 1];
      }
    }
  }

  /** Inserting `x` puts it in front of the elements with its key and leaves the others' order alone. */
  lemma {:induction false} InsertKeepsTies<T>(x: T, ys: seq<T>, key: T -> int, k: int)
    ensures key(x) == k ==> Filter(Insert(x, ys, key), HasKey(key, k)) == [x] + Filter(ys, HasKey(key, k))
    ensures key(x) != k ==> Filter(Insert(x, ys, key), HasKey(key, k)) == Filter(ys, HasKey(key, k))
    decreases |ys|
  {
    var p := HasKey(key, k);
    if ys == [] || key(ys[0]) <= key(x) {
      assert Insert(x, ys, key) == [x] + ys;
      FilterCons(x, ys, p);
    } else {
      var y, tail := ys[0], ys[1..];
      var rest := Insert(x, tail, key);
      InsertKeepsTies(x, tail, key, k);
      assert ys == [y] + tail;
      assert Insert(x, ys, key) == [y] + rest;
      TiesPastLarger(x, y, tail, rest, key, k);
    }
  }

  /** Putting an element with a larger key in front of both lists keeps the relation between their ties. */
  lemma TiesPastLarger<T>(x: T, y: T, tail: seq<T>, rest: seq<T>, key: T -> int, k: int)
    requires key(y) > key(x)
    requires key(x) == k ==> Filter(rest, HasKey(key, k)) == [x] + Filter(tail, HasKey(key, k))
    requires key(x) != k ==> Filter(rest, HasKey(key, k)) == Filter(tail, HasKey(key, k))
    ensures key(x) == k ==> Filter([y] + rest, HasKey(key, k)) == [x] + Filter([y] + tail, HasKey(key, k))
    ensures key(x) != k ==> Filter([y] + rest, HasKey(key, k)) == Filter([y] + tail, HasKey(key, k))
  {
    FilterCons(y, rest, HasKey(key, k));
    FilterCons(y, tail, HasKey(key, k));
  }

  /**
   * A sort from the largest key to the smallest by insertion: the result is
   * a permutation of the input ordered by non-increasing key.
   */
  function SortDescending<T>(xs: seq<T>, key: T -> int): (r: seq<T>)
    ensures multiset(r) == multiset(xs)
    ensures SortedDescending(r, key)
  {
    if xs == [] then []
    else
      assert xs == [xs[0]] + xs[1..];
      InsertSorted(xs[0], SortDescending(xs[1..], key), key);
      Insert(xs[0], SortDescending(xs[1..], key), key)
  }

  /** The sort is stable: the elements that share a key keep their input order. */
  lemma {:induction false} SortKeepsTies<T>(xs: seq<T>, key: T -> int, k: int)
    ensures Filter(SortDescending(xs, key), HasKey(key, k)) == Filter(xs, HasKey(key, k))
  {
    if xs != [] {
      var x, tail := xs[0], xs[1..];
      var p := HasKey(key, k);
      var rest := SortDescending(tail, key);
      assert xs == [x] + tail;
      assert SortDescending(xs, key) == Insert(x, rest, key);
      SortKeepsTies(tail, key, k);
      InsertKeepsTies(x, rest, key, k);
      FilterAppend([x], tail, p);
      FilterSingleton(x, p);
    }
  }

  /** Stability for every key at once. */
  lemma {:induction false} SortIsStable<T>(xs: seq<T>, key: T -> int)
    ensures forall k :: Filter(SortDescending(xs, key), HasKey(key, k)) == Filter(xs, HasKey(key, k))
  {
    forall k ensures Filter(SortDescending(xs, key), HasKey(key, k)) == Filter(xs, HasKey(key, k)) {
      SortKeepsTies(xs, key, k);
    }
  }

  /** Sorting a sorted list again changes nothing. */
  lemma {:induction false} SortIdempotent<T>(xs: seq<T>, key: T -> int)
    ensures SortDescending(SortDescending(xs, key), key) == SortDescending(xs, key)
  {
    var s := SortDescending(xs, key);
    var t := SortDescending(s, key);
    SortIsStable(s, key);
    SortIsStable(xs, key);
    StableSortUnique(t, s, key);
  }

  /** An element of `a` with key `k` is an element of any list that has the same elements with key `k`. */
  lemma {:induction false} SharedByFilter<T>(a: seq<T>, b: seq<T>, key: T -> int, i: int)
    requires 0 <= i < |a|
    requires Filter(a, HasKey(key, key(a[i]))) == Filter(b, HasKey(key, key(a[i])))
    ensures exists j :: 0 <= j < |b| && b[j] == a[i]
  {
    var f := Filter(b, HasKey(key, key(a[i])));
    assert a[i] in f;
    var t :| 0 <= t < |f| && f[t] == a[i];
    assert f[t] in b;
  }

  /** Two sorted lists with the same elements per key end on the same key. */
  lemma {:induction false} SameLastKey<T>(a: seq<T>, b: seq<T>, key: T -> int)
    requires a != [] && b != []
    requires SortedDescending(a, key) && SortedDescending(b, key)
    requires forall k :: Filter(a, HasKey(key, k)) == Filter(b, HasKey(key, k))
    ensures key(a[|a| - 1]) == key(b[|b| - 1])
  {
    var ea, eb := a[|a| - 1], b[|b| - 1];
    assert Filter(a, HasKey(key, key(ea))) == Filter(b, HasKey(key, key(ea)));
    SharedByFilter(a, b, key, |a| - 1);
    var j :| 0 <= j < |b| && b[j] == ea;
    assert key(ea) >= key(eb) by {
      if j < |b| - 1 {
        assert key(b[j]) >= key(b[|b| - 1]);
      }
    }
    assert Filter(b, HasKey(key, key(eb))) == Filter(a, HasKey(key, key(eb)));
    SharedByFilter(b, a, key, |b| - 1);
    var i :| 0 <= i < |a| && a[i] == eb;
    assert key(eb) >= key(ea) by {
      if i < |a| - 1 {
        assert key(a[i]) >= key(a[|a| - 1]);
      }
    }
  }

  /** Two sorted lists with the same elements per key, in the same order, end on the same element. */
  lemma {:induction false} SameLast<T>(a: seq<T>, b: seq<T>, key: T -> int)
    requires a != [] && b != []
    requires SortedDescending(a, key) && SortedDescending(b, key)
    requires forall k :: Filter(a, HasKey(key, k)) == Filter(b, HasKey(key, k))
    ensures a[|a| - 1] == b[|b| - 1]
  {
    SameLastKey(a, b, key);
    var p := HasKey(key, key(a[|a| - 1]));
    FilterLast(a, p);
    FilterLast(b, p);
    var fa, fb := Filter(a[..|a| - 1], p), Filter(b[..|b| - 1], p);
    assert fa + [a[|a| - 1]] == fb + [b[|b| - 1]];
    assert (fa + [a[|a| - 1]])[|fa|] == a[|a| - 1];
  }

  /** Dropping the same last element from two lists with equal filters keeps the filters equal. */
  lemma {:induction false} SameInit<T>(a: seq<T>, b: seq<T>, p: T -> bool)
    requires a != [] && b != [] && a[|a| - 1] == b[|b| - 1]
    requires Filter(a, p) == Filter(b, p)
    ensures Filter(a[..|a| - 1], p) == Filter(b[..|b| - 1], p)
  {
    FilterLast(a, p);
    FilterLast(b, p);
    var fa, fb := Filter(a[..|a| - 1], p), Filter(b[..|b| - 1], p);
    if p(a[|a| - 1]) {
      assert fa == (fa + [a[|a| - 1]])[..|fa|];
      assert fb == (fb + [b[|b| - 1]])[..|fb|];
    }
  }

  /** Lists with the same elements per key are both empty or both non-empty. */
  lemma {:induction false} SameTiesEmpty<T>(a: seq<T>, b: seq<T>, key: T -> int)
    requires forall k :: Filter(a, HasKey(key, k)) == Filter(b, HasKey(key, k))
    ensures a == [] <==> b == []
  {
    if a != [] {
      assert Filter(a, HasKey(key, key(a[0]))) == Filter(b, HasKey(key, key(a[0])));
      SharedByFilter(a, b, key, 0);
    }
    if b != [] {
      assert Filter(b, HasKey(key, key(b[0]))) == Filter(a, HasKey(key, key(b[0])));
      SharedByFilter(b, a, key, 0);
    }
  }

  /** Dropping a shared last element keeps the elements per key the same. */
  lemma {:induction false} SameTiesInit<T>(a: seq<T>, b: seq<T>, key: T -> int)
    requires a != [] && b != [] && a[|a| - 1] == b[|b| - 1]
    requires forall k :: Filter(a, HasKey(key, k)) == Filter(b, HasKey(key, k))
    ensures forall k :: Filter(a[..|a| - 1], HasKey(key, k)) == Filter(b[..|b| - 1], HasKey(key, k))
  {
    forall k ensures Filter(a[..|a| - 1], HasKey(key, k)) == Filter(b[..|b| - 1], HasKey(key, k)) {
      SameInit(a, b, HasKey(key, k));
    }
  }

  /** A prefix of a sorted list is sorted. */
  lemma {:induction false} SortedInit<T>(a: seq<T>, key: T -> int)
    requires a != [] && SortedDescending(a, key)
    ensures SortedDescending(a[..|a| - 1], key)
  {
    var a' := a[..|a| - 1];
    forall i, j | 0 <= i < j < |a'| ensures key(a'[i]) >= key(a'[j]) {
      assert a'[i] == a[i] && a'[j] == a[j];
    }
  }

  /** Lists with the same last element and the same elements before it are equal. */
  lemma SameInitAndLast<T>(a: seq<T>, b: seq<T>)
    requires a != [] && b != []
    requires a[..|a| - 1] == b[..|b| - 1] && a[|a| - 1] == b[|b| - 1]
    ensures a == b
  {
    assert a == a[..|a| - 1] + [a[|a| - 1]];
    assert b == b[..|b| - 1] + [b[|b| - 1]];
  }

  /**
   * Two sorted lists with the same elements per key, in the same order, are
   * equal: a stable sort has only one possible result.
   */
  lemma {:induction false} StableSortUnique<T>(a: seq<T>, b: seq<T>, key: T -> int)
    requires SortedDescending(a, key) && SortedDescending(b, key)
    requires forall k :: Filter(a, HasKey(key, k)) == Filter(b, HasKey(key, k))
    ensures a == b
    decreases |a|
  {
    SameTiesEmpty(a, b, key);
    if a != [] {
      var a', b' := a[..|a| - 1], b[..|b| - 1];
      SameLast(a, b, key);
      SameTiesInit(a, b, key);
      SortedInit(a, key);
      SortedInit(b, key);
      StableSortUnique(a', b', key);
      SameInitAndLast(a, b);
    }
  }
}

=== FILE: task_review_filters.dfy ===
/**
 * The filter and sort bar of the task list: a filter by task status or by
 * "needs my review", seven sort orders, the per-option counts shown in the
 * filter dropdown, and the selection state with its reset.
 */
module TaskReviewFilters {
  import opened Wrappers
  import opened Seqs
  import opened StableSort
  import opened Tasks

  /** The task fields the filters and sorts read. */
  datatype FilterableTask = FilterableTask(
    id: int,
    status: TaskStatus,
    priority: int,
    createdAt: int,
    updatedAt: int,
    reviewStatus: Option<string>,
    isAutoApproved: Option<bool>,
    isCurrentUserReview: Option<bool>)

  /** A filter: every task, the tasks of one status, or those waiting for the current user's review. */
  datatype TaskFilterOption = All | ByStatus(status: TaskStatus) | NeedsMyReview

  datatype TaskSortOption =
    | CreatedDesc | CreatedAsc | UpdatedDesc | UpdatedAsc | PriorityDesc | PriorityAsc | ReviewStatusOrder

  /** An entry of the filter dropdown. */
  datatype FilterOptionItem = FilterOptionItem(value: TaskFilterOption, title: string, icon: string, description: string)

  /** An entry of the filter dropdown with the number of tasks it would show. */
  datatype FilterOptionWithCount = FilterOptionWithCount(option: FilterOptionItem, count: nat)

  /** The filter dropdown, in its order. */
  const FilterOptions: seq<FilterOptionItem> := [
    FilterOptionItem(All, "All Tasks", "i-heroicons-squares-2x2", "Show all tasks regardless of status"),
    FilterOptionItem(ByStatus(Unassigned), "Unassigned", "i-heroicons-user-minus", "Tasks not yet assigned to anyone"),
    FilterOptionItem(ByStatus(Annotating), "In Progress", "i-heroicons-pencil-square", "Tasks currently being annotated"),
    FilterOptionItem(ByStatus(InReview), "Pending Review", "i-heroicons-clock", "Tasks waiting for review"),
    FilterOptionItem(ByStatus(ChangesNeeded), "Changes Requested", "i-heroicons-exclamation-triangle", "Tasks that need revisions"),
    FilterOptionItem(ByStatus(Completed), "Completed", "i-heroicons-check-circle", "Tasks that have been approved"),
    FilterOptionItem(NeedsMyReview, "Needs My Review", "i-heroicons-clipboard-document-check", "Tasks assigned to you for review")
  ]

  /** The sort dropdown, in its order. */
  const SortOptions: seq<(TaskSortOption, string)> := [
    (CreatedDesc, "Newest First"), (CreatedAsc, "Oldest First"),
    (UpdatedDesc, "Recently Updated"), (UpdatedAsc, "Least Recently Updated"),
    (PriorityDesc, "Highest Priority"), (PriorityAsc, "Lowest Priority"),
    (ReviewStatusOrder, "By Review Status")
  ]

  /** The test "has status `s`". */
  function HasStatus(s: TaskStatus): FilterableTask -> bool {
    (t: FilterableTask) => t.status == s
  }

  /** The test "in review and assigned to the current user" (`isCurrentUserReview === true`). */
  predicate NeedsMine(t: FilterableTask) {
    t.status == InReview && t.isCurrentUserReview == Some(true)
  }

  /**
   * `filterTasks`: the list itself for `all`, otherwise the tasks that pass
   * the option's test, in their order.
   */
  function FilterTasks(tasks: seq<FilterableTask>, filter: TaskFilterOption): (r: seq<FilterableTask>)
    ensures filter.All? ==> r == tasks
    ensures |r| <= |tasks|
    ensures filter.ByStatus? ==> forall i :: 0 <= i < |r| ==> r[i] in tasks && r[i].status == filter.status
    ensures filter.ByStatus? ==> forall i :: 0 <= i < |tasks| && tasks[i].status == filter.status ==> tasks[i] in r
    ensures filter.NeedsMyReview? ==> forall i :: 0 <= i < |r| ==> r[i] in tasks && NeedsMine(r[i])
    ensures filter.NeedsMyReview? ==> forall i :: 0 <= i < |tasks| && NeedsMine(tasks[i]) ==> tasks[i] in r
  {
    match filter
    case All => tasks
    case NeedsMyReview => Filter(tasks, NeedsMine)
    case ByStatus(s) => Filter(tasks, HasStatus(s))
  }

  /** The test of a filter option other than `all`. */
  function OptionTest(filter: TaskFilterOption): FilterableTask -> bool {
    match filter
    case All => (t: FilterableTask) => true
    case NeedsMyReview => NeedsMine
    case ByStatus(s) => HasStatus(s)
  }

  /** A filtered list keeps the input's order: one task per passing position, ascending. */
  lemma {:induction false} FilterTasksInOrder(tasks: seq<FilterableTask>, filter: TaskFilterOption)
    requires !filter.All?
    ensures ReadAtPassingPositions(FilterTasks(tasks, filter), tasks, OptionTest(filter))
  {
    FilterAtPassingPositions(tasks, OptionTest(filter));
  }

  /** Filtering again with the same option changes nothing. */
  lemma {:induction false} FilterTasksIdempotent(tasks: seq<FilterableTask>, filter: TaskFilterOption)
    ensures FilterTasks(FilterTasks(tasks, filter), filter) == FilterTasks(tasks, filter)
  {
    match filter
    case All =>
    case NeedsMyReview => FilterIdempotent(tasks, NeedsMine);
    case ByStatus(s) => FilterIdempotent(tasks, HasStatus(s));
  }

  /** `getReviewStatusOrder`: the stages that need attention first, finished work last. */
  function GetReviewStatusOrder(s: TaskStatus): (n: nat)
    ensures n < 5
    ensures s == ChangesNeeded <==> n == 0
    ensures s == InReview <==> n == 1
    ensures s == Annotating <==> n == 2
    ensures s == Unassigned <==> n == 3
    ensures s == Completed <==> n == 4
  {
    match s
    case ChangesNeeded => 0
    case InReview => 1
    case Annotating => 2
    case Unassigned => 3
    case Completed => 4
  }

  /** Distinct statuses have distinct places in the order. */
  lemma {:induction false} ReviewStatusOrderInjective(a: TaskStatus, b: TaskStatus)
    requires GetReviewStatusOrder(a) == GetReviewStatusOrder(b)
    ensures a == b
  {
  }

  /** Whether a sort runs from the largest key down. */
  predicate Descending(sort: TaskSortOption) {
    sort.CreatedDesc? || sort.UpdatedDesc? || sort.PriorityDesc?
  }

  /** The field a sort compares by. */
  function SortField(sort: TaskSortOption, t: FilterableTask): int {
    match sort
    case CreatedDesc => t.createdAt
    case CreatedAsc => t.createdAt
    case UpdatedDesc => t.updatedAt
    case UpdatedAsc => t.updatedAt
    case PriorityDesc => t.priority
    case PriorityAsc => t.priority
    case ReviewStatusOrder => GetReviewStatusOrder(t.status)
  }

  /** The key the descending sort uses: the field, negated for the ascending orders. */
  function SortKey(sort: TaskSortOption): FilterableTask -> int {
    (t: FilterableTask) => if Descending(sort) then SortField(sort, t) else -SortField(sort, t)
  }

  /**
   * `sortTasks`: a sorted copy. It holds the same tasks, ordered by the
   * option's field, downwards for the `desc` orders and upwards otherwise,
   * tasks with equal fields in their input order.
   */
  function SortTasks(tasks: seq<FilterableTask>, sort: TaskSortOption): (r: seq<FilterableTask>)
    ensures multiset(r) == multiset(tasks)
    ensures Descending(sort) ==> forall i, j :: 0 <= i < j < |r| ==> SortField(sort, r[i]) >= SortField(sort, r[j])
    ensures !Descending(sort) ==> forall i, j :: 0 <= i < j < |r| ==> SortField(sort, r[i]) <= SortField(sort, r[j])
    ensures forall k :: Filter(r, HasKey(SortKey(sort), k)) == Filter(tasks, HasKey(SortKey(sort), k))
  {
    var r := SortDescending(tasks, SortKey(sort));
    SortIsStable(tasks, SortKey(sort));
    assert forall i, j :: 0 <= i < j < |r| ==> SortKey(sort)(r[i]) >= SortKey(sort)(r[j]);
    r
  }

  /**
   * `processedTasks`: the filtered tasks, sorted; as many as the filter's
   * count in the dropdown.
   */
  function ProcessedTasks(tasks: seq<FilterableTask>, filter: TaskFilterOption, sort: TaskSortOption)
    : (r: seq<FilterableTask>)
    ensures multiset(r) == multiset(FilterTasks(tasks, filter))
    ensures |r| == CountFor(GetFilterCounts(tasks), filter)
  {
    var r := SortTasks(FilterTasks(tasks, filter), sort);
    assert |r| == |multiset(r)|;
    r
  }

  /** The count of every dropdown entry. */
  datatype FilterCounts = FilterCounts(
    all: nat, unassigned: nat, annotating: nat, inReview: nat, changesNeeded: nat, completed: nat,
    needsMyReview: nat)

  /** `counts[option]`. */
  function CountFor(c: FilterCounts, filter: TaskFilterOption): nat {
    match filter
    case All => c.all
    case NeedsMyReview => c.needsMyReview
    case ByStatus(s) =>
      match s
      case Unassigned => c.unassigned
      case Annotating => c.annotating
      case InReview => c.inReview
      case ChangesNeeded => c.changesNeeded
      case Completed => c.completed
  }

  /**
   * `getFilterCounts`: each entry is the number of tasks the option's filter
   * keeps; the five status counts add up to all tasks, and the tasks that
   * need my review are among those in review.
   */
  function GetFilterCounts(tasks: seq<FilterableTask>): (c: FilterCounts)
    ensures forall f: TaskFilterOption :: CountFor(c, f) == |FilterTasks(tasks, f)|
    ensures c.unassigned + c.annotating + c.inReview + c.changesNeeded + c.completed == c.all
    ensures c.needsMyReview <= c.inReview
  {
    StatusCountsAddUp(tasks);
    NeedsMineAreInReview(tasks);
    FilterCounts(
      |tasks|,
      |Filter(tasks, HasStatus(Unassigned))|,
      |Filter(tasks, HasStatus(Annotating))|,
      |Filter(tasks, HasStatus(InReview))|,
      |Filter(tasks, HasStatus(ChangesNeeded))|,
      |Filter(tasks, HasStatus(Completed))|,
      |Filter(tasks, NeedsMine)|)
  }

  /** Every task has exactly one of the five statuses. */
  lemma {:induction false} StatusCountsAddUp(tasks: seq<FilterableTask>)
    ensures |Filter(tasks, HasStatus(Unassigned))| + |Filter(tasks, HasStatus(Annotating))|
      + |Filter(tasks, HasStatus(InReview))| + |Filter(tasks, HasStatus(ChangesNeeded))|
      + |Filter(tasks, HasStatus(Completed))| == |tasks|
    decreases |tasks|
  {
    if tasks != [] {
      StatusCountsAddUp(tasks[..|tasks| - 1]);
      FilterLast(tasks, HasStatus(Unassigned));
      FilterLast(tasks, HasStatus(Annotating));
      FilterLast(tasks, HasStatus(InReview));
      FilterLast(tasks, HasStatus(ChangesNeeded));
      FilterLast(tasks, HasStatus(Completed));
    }
  }

  /** A task that needs my review is in review. */
  lemma {:induction false} NeedsMineAreInReview(tasks: seq<FilterableTask>)
    ensures |Filter(tasks, NeedsMine)| <= |Filter(tasks, HasStatus(InReview))|
    decreases |tasks|
  {
    if tasks != [] {
      NeedsMineAreInReview(tasks[..|tasks| - 1]);
      FilterLast(tasks, NeedsMine);
      FilterLast(tasks, HasStatus(InReview));
    }
  }

  /**
   * `getFilterOptionsWithCounts`: the dropdown entries in their order, each
   * with the number of tasks its filter keeps.
   */
  function GetFilterOptionsWithCounts(tasks: seq<FilterableTask>): (r: seq<FilterOptionWithCount>)
    ensures |r| == |FilterOptions|
    ensures forall i :: 0 <= i < |r| ==>
      r[i].option == FilterOptions[i] && r[i].count == |FilterTasks(tasks, FilterOptions[i].value)|
  {
    var counts := GetFilterCounts(tasks);
    seq(|FilterOptions|, i requires 0 <= i < |FilterOptions| =>
      FilterOptionWithCount(FilterOptions[i], CountFor(counts, FilterOptions[i].value)))
  }

  /** The selection of the filter bar. */
  class FilterState {
    var selectedFilter: TaskFilterOption
    var selectedSort: TaskSortOption
    var searchQuery: string

    /** `hasActiveFilters`: anything differs from the defaults. */
    predicate HasActiveFilters()
      reads this
    {
      selectedFilter != All || selectedSort != CreatedDesc || searchQuery != ""
    }

    constructor ()
      ensures selectedFilter == All && selectedSort == CreatedDesc && searchQuery == ""
      ensures !HasActiveFilters()
    {
      selectedFilter := All;
      selectedSort := CreatedDesc;
      searchQuery := "";
    }

    /** `resetFilters`: back to the defaults, so no filter is active. */
    method ResetFilters()
      modifies this
      ensures selectedFilter == All && selectedSort == CreatedDesc && searchQuery == ""
      ensures !HasActiveFilters()
    {
      selectedFilter := All;
      selectedSort := CreatedDesc;
      searchQuery := "";
    }

    /** `currentFilter`: the dropdown entry of the selected filter, which always exists. */
    function CurrentFilter(): (r: Option<FilterOptionItem>)
      reads this
      ensures r.Some? && r.value in FilterOptions && r.value.value == selectedFilter
    {
      var f := selectedFilter;
      var p := (o: FilterOptionItem) => o.value == f;
      assert p(FilterOptions[OptionIndex(f)]);
      Find(FilterOptions, p)
    }

    /** `currentSort`: the dropdown entry of the selected sort, which always exists. */
    function CurrentSort(): (r: Option<(TaskSortOption, string)>)
      reads this
      ensures r.Some? && r.value in SortOptions && r.value.0 == selectedSort
    {
      var s := selectedSort;
      var p := (o: (TaskSortOption, string)) => o.0 == s;
      assert p(SortOptions[SortIndex(s)]);
      Find(SortOptions, p)
    }
  }

  /** Where a filter sits in the dropdown. */
  function OptionIndex(f: TaskFilterOption): (i: nat)
    ensures i < |FilterOptions| && FilterOptions[i].value == f
  {
    match f
    case All => 0
    case NeedsMyReview => 6
    case ByStatus(s) =>
      match s
      case Unassigned => 1
      case Annotating => 2
      case InReview => 3
      case ChangesNeeded => 4
      case Completed => 5
  }

  /** Where a sort sits in the dropdown. */
  function SortIndex(s: TaskSortOption): (i: nat)
    ensures i < |SortOptions| && SortOptions[i].0 == s
  {
    match s
    case CreatedDesc => 0
    case CreatedAsc => 1
    case UpdatedDesc => 2
    case UpdatedAsc => 3
    case PriorityDesc => 4
    case PriorityAsc => 5
    case ReviewStatusOrder => 6
  }
}

=== FILE: tasks.dfy ===
/**
 * The task status of the task pages: the five stages a data item passes
 * through, their badge tables, and the two tests that place a task in the
 * review workflow.
 */
module Tasks {
  import opened Wrappers
  import ReviewWorkflow

  datatype TaskStatus = Unassigned | Annotating | InReview | ChangesNeeded | Completed

  /** The name a status has on the wire. */
  function StatusName(s: TaskStatus): (n: string)
    ensures n in ReviewWorkflow.TaskStatuses
  {
    match s
    case Unassigned => "unassigned"
    case Annotating => "annotating"
    case InReview => "in_review"
    case ChangesNeeded => "changes_needed"
    case Completed => "completed"
  }

  /** The status a wire name stands for, if any. */
  function ParseStatus(n: string): (r: Option<TaskStatus>)
    ensures r.Some? <==> n in ReviewWorkflow.TaskStatuses
  {
    if n == "unassigned" then Some(Unassigned)
    else if n == "annotating" then Some(Annotating)
    else if n == "in_review" then Some(InReview)
    else if n == "changes_needed" then Some(ChangesNeeded)
    else if n == "completed" then Some(Completed)
    else None
  }

  /** Names and statuses correspond one to one. */
  lemma {:induction false} StatusNameRoundTrip(s: TaskStatus, n: string)
    ensures ParseStatus(StatusName(s)) == Some(s)
    ensures ParseStatus(n).Some? ==> StatusName(ParseStatus(n).value) == n
  {
  }

  /** A task as the task list holds it. */
  datatype Task = Task(
    id: int,
    projectId: int,
    status: TaskStatus,
    assignedTo: Option<int>,
    priority: int,
    createdAt: int,
    updatedAt: int)

  /** `getTaskStatusLabel` of the task pages. */
  function GetTaskStatusLabel(s: TaskStatus): (l: string)
    ensures l != ""
  {
    match s
    case Unassigned => "Unassigned"
    case Annotating => "In Progress"
    case InReview => "In Review"
    case ChangesNeeded => "Changes Needed"
    case Completed => "Completed"
  }

  /** `getTaskStatusColor` of the task pages. */
  function GetTaskStatusColor(s: TaskStatus): (c: string)
    ensures c != ""
  {
    match s
    case Unassigned => "neutral"
    case Annotating => "info"
    case InReview => "warning"
    case ChangesNeeded => "error"
    case Completed => "success"
  }

  /** `getTaskStatusIcon`. */
  function GetTaskStatusIcon(s: TaskStatus): (i: string)
    ensures i != ""
  {
    match s
    case Unassigned => "i-heroicons-user-minus"
    case Annotating => "i-heroicons-pencil-square"
    case InReview => "i-heroicons-clock"
    case ChangesNeeded => "i-heroicons-exclamation-triangle"
    case Completed => "i-heroicons-check-circle"
  }

  /** Each table tells the five statuses apart. */
  lemma {:induction false} TablesDistinguishStatuses(a: TaskStatus, b: TaskStatus)
    requires a != b
    ensures GetTaskStatusLabel(a) != GetTaskStatusLabel(b)
    ensures GetTaskStatusIcon(a) != GetTaskStatusIcon(b)
    ensures GetTaskStatusColor(a) != GetTaskStatusColor(b)
  {
  }

  /**
   * The two color tables agree on every status; the two label tables agree
   * on every status but `annotating`, which one calls "In Progress" and the
   * other "Annotating".
   */
  lemma {:induction false} TablesAgreeWithReviewWorkflow(s: TaskStatus)
    ensures ReviewWorkflow.GetTaskStatusColor(StatusName(s)) == GetTaskStatusColor(s)
    ensures ReviewWorkflow.GetTaskStatusLabel(StatusName(s)) == GetTaskStatusLabel(s) <==> s != Annotating
  {
  }

  /**
   * The badge of the review pages for a task without a review status
   * matches this table's icon and color, except that an in-review task
   * shows an eye rather than a clock.
   */
  lemma {:induction false} IconsAgreeWithWorkflowDisplay(s: TaskStatus, mode: string)
    requires mode != "always-skip"
    ensures var d := ReviewWorkflow.GetWorkflowStatusDisplay(
      ReviewWorkflow.AnnotationForWorkflow(None, Some(StatusName(s)), None), mode);
      && d.color == GetTaskStatusColor(s)
      && (d.icon == GetTaskStatusIcon(s) <==> s != InReview)
  {
  }

  /** `canSubmitForReview`: an annotator may hand the task in while annotating or after changes were asked for. */
  function CanSubmitForReview(task: Task): (b: bool)
    ensures b <==> task.status != Unassigned && task.status != InReview && task.status != Completed
  {
    task.status == Annotating || task.status == ChangesNeeded
  }

  /** `isInReviewWorkflow`: the task has been handed in at least once. */
  function IsInReviewWorkflow(task: Task): (b: bool)
    ensures b <==> task.status != Unassigned && task.status != Annotating
  {
    task.status == InReview || task.status == ChangesNeeded || task.status == Completed
  }

  /**
   * The two tests overlap only on `changes_needed`, and only an unassigned
   * task passes neither.
   */
  lemma {:induction false} SubmitAndWorkflowOverlap(task: Task)
    ensures CanSubmitForReview(task) && IsInReviewWorkflow(task) <==> task.status == ChangesNeeded
    ensures !CanSubmitForReview(task) && !IsInReviewWorkflow(task) <==> task.status == Unassigned
  {
  }
}

=== FILE: text.dfy ===
/**
 * The JavaScript string operations the core relies on: decimal rendering of
 * integers, `trim`, ASCII case mapping, `split` on one character, `join`,
 * `startsWith` and `endsWith`.
 */
module Text {

  predicate IsDigit(c: char) { '0' <= c <= '9' }

  predicate AllDigits(s: string) { forall i :: 0 <= i < |s| ==> IsDigit(s[i]) }

  function DigitChar(d: nat): (c: char)
    requires d < 10
  {
    "0123456789"[d]
  }

  /** Decimal rendering of a natural number, as `String(n)` prints it. */
  function NatToString(n: nat): (s: string)
    ensures 1 <= |s| && AllDigits(s)
    ensures |s| > 1 ==> s[0] != '0'
    decreases n
  {
    if n < 10 then [DigitChar(n)] else NatToString(n / 10) + [DigitChar(n % 10)]
  }

  /** The number a string of decimal digits denotes. */
  function DigitsValue(s: string): nat
    requires AllDigits(s)
  {
    if s == [] then 0 else DigitsValue(s[..|s| - 1]) * 10 + (s[|s| - 1] as int - '0' as int)
  }

  lemma {:induction false} NatToStringRoundTrip(n: nat)
    ensures DigitsValue(NatToString(n)) == n
    decreases n
  {
    if n >= 10 {
      NatToStringRoundTrip(n / 10);
      var s := NatToString(n);
      assert s[..|s| - 1] == NatToString(n / 10);
    }
  }

  /** Two numbers render to the same text only when they are equal. */
  lemma NatToStringInjective(a: nat, b: nat)
    requires NatToString(a) == NatToString(b)
    ensures a == b
  {
    NatToStringRoundTrip(a);
    NatToStringRoundTrip(b);
  }

  /** Decimal rendering of an integer, with a leading `-` when negative. */
  function IntToString(i: int): string {
    if i < 0 then "-" + NatToString(-i) else NatToString(i)
  }

  /** ECMAScript WhiteSpace and LineTerminator code points: what `trim` removes. */
  predicate IsWhitespace(c: char) {
    c == '\t' || c == '\n' || c == '\U{B}' || c == '\U{C}' || c == '\r' || c == ' '
    || c == '\U{A0}' || c == '\U{1680}' || ('\U{2000}' <= c <= '\U{200A}')
    || c == '\U{2028}' || c == '\U{2029}' || c == '\U{202F}' || c == '\U{205F}'
    || c == '\U{3000}' || c == '\U{FEFF}'
  }

  function TrimStart(s: string): (r: string)
    ensures |r| <= |s| && r == s[|s| - |r|..]
    ensures forall i :: 0 <= i < |s| - |r| ==> IsWhitespace(s[i])
    ensures r == [] || !IsWhitespace(r[0])
  {
    if s != [] && IsWhitespace(s[0]) then TrimStart(s[1..]) else s
  }

  function TrimEnd(s: string): (r: string)
    ensures |r| <= |s| && r == s[..|r|]
    ensures forall i :: |r| <= i < |s| ==> IsWhitespace(s[i])
    ensures r == [] || !IsWhitespace(r[|r| - 1])
  {
    if s != [] && IsWhitespace(s[|s| - 1]) then TrimEnd(s[..|s| - 1]) else s
  }

  /** `s.trim()`: the longest infix with no whitespace at either end. */
  function Trim(s: string): (r: string)
    ensures r == [] || (!IsWhitespace(r[0]) && !IsWhitespace(r[|r| - 1]))
    ensures |r| <= |s|
  {
    TrimEnd(TrimStart(s))
  }

  function LowerChar(c: char): char {
    if 'A' <= c <= 'Z' then (c as int + 32) as char else c
  }

  function UpperChar(c: char): char {
    if 'a' <= c <= 'z' then (c as int - 32) as char else c
  }

  /** `s.toLowerCase()` restricted to the ASCII letters. */
  function ToLower(s: string): string {
    seq(|s|, i requires 0 <= i < |s| => LowerChar(s[i]))
  }

  /** `s.toUpperCase()` restricted to the ASCII letters. */
  function ToUpper(s: string): string {
    seq(|s|, i requires 0 <= i < |s| => UpperChar(s[i]))
  }

  predicate StartsWith(s: string, prefix: string) {
    |prefix| <= |s| && s[..|prefix|] == prefix
  }

  predicate EndsWith(s: string, suffix: string) {
    |suffix| <= |s| && s[|s| - |suffix|..] == suffix
  }

  /** Position of the first occurrence of `c` in `s`. */
  function IndexOf(s: string, c: char): (i: nat)
    requires c in s
    ensures i < |s| && s[i] == c && c !in s[..i]
  {
    if s[0] == c then 0 else 1 + IndexOf(s[1..], c)
  }

  /** `parts.join(sep)`. */
  function Join(parts: seq<string>, sep: string): string {
    if parts == [] then ""
    else if |parts| == 1 then parts[0]
    else parts[0] + sep + Join(parts[1..], sep)
  }

  /** `s.split(sep)` for a one-character separator: the pieces between separators, empty ones included. */
  function Split(s: string, sep: char): (parts: seq<string>)
    ensures 1 <= |parts| <= |s| + 1
    ensures forall i :: 0 <= i < |parts| ==> sep !in parts[i]
    decreases |s|
  {
    if sep !in s then [s]
    else
      var i := IndexOf(s, sep);
      [s[..i]] + Split(s[i + 1..], sep)
  }

  /** Joining the pieces of a split with the separator gives the string back. */
  lemma {:induction false} JoinOfSplit(s: string, sep: char)
    ensures Join(Split(s, sep), [sep]) == s
    decreases |s|
  {
    if sep in s {
      var i := IndexOf(s, sep);
      var rest := Split(s[i + 1..], sep);
      var parts := Split(s, sep);
      assert parts == [s[..i]] + rest;
      assert parts[1..] == rest;
      JoinOfSplit(s[i + 1..], sep);
      assert Join(parts, [sep]) == s[..i] + [sep] + s[i + 1..];
      assert s == s[..i] + [sep] + s[i + 1..];
    } else {
      assert Split(s, sep) == [s];
    }
  }

  /** Splitting a join of separator-free pieces gives the pieces back. */
  lemma {:induction false} SplitOfJoin(parts: seq<string>, sep: char)
    requires 1 <= |parts|
    requires forall i :: 0 <= i < |parts| ==> sep !in parts[i]
    ensures Split(Join(parts, [sep]), sep) == parts
    decreases |parts|
  {
    var s := Join(parts, [sep]);
    if |parts| == 1 {
      assert s == parts[0];
    } else {
      var rest := Join(parts[1..], [sep]);
      assert s == parts[0] + [sep] + rest;
      assert sep in s by { assert s[|parts[0]|] == sep; }
      var i := IndexOf(s, sep);
      assert i == |parts[0]|;
      assert s[..i] == parts[0];
      assert s[i + 1..] == rest;
      SplitOfJoin(parts[1..], sep);
    }
  }

  /** Leading white space is dropped one character at a time. */
  lemma {:induction false} TrimStartSkipsWhitespace(s: string)
    requires s != [] && IsWhitespace(s[0])
    ensures TrimStart(s) == TrimStart(s[1..])
  {
  }

  /** Trimming the start of a prefix gives a prefix of the string with its start trimmed. */
  lemma {:induction false} TrimStartOfPrefix(s: string, n: nat)
    requires n <= |s|
    ensures StartsWith(TrimStart(s), TrimStart(s[..n]))
    decreases |s|
  {
    var t := s[..n];
    if n == 0 {
      assert t == [];
    } else if IsWhitespace(s[0]) {
      var s1, t1 := s[1..], s[1..][..n - 1];
      assert t[0] == s[0] && t[1..] == t1;
      TrimStartSkipsWhitespace(s);
      TrimStartSkipsWhitespace(t);
      TrimStartOfPrefix(s1, n - 1);
    } else {
      assert t[0] == s[0];
      assert TrimStart(t) == t && TrimStart(s) == s;
    }
  }

  /**
   * The trim of a prefix starts the string once its leading white space is
   * dropped, and starts the string itself when that has none.
   */
  lemma {:induction false} TrimOfPrefixStarts(s: string, p: string)
    requires StartsWith(s, p)
    ensures StartsWith(TrimStart(s), Trim(p))
    ensures s != [] && !IsWhitespace(s[0]) ==> StartsWith(s, Trim(p))
  {
    assert p == s[..|p|];
    TrimStartOfPrefix(s, |p|);
    var a, c := TrimStart(p), Trim(p);
    assert c == a[..|c|];
    assert TrimStart(s)[..|a|] == a;
    assert TrimStart(s)[..|c|] == c;
    if s != [] && !IsWhitespace(s[0]) {
      assert TrimStart(s) == s;
    }
  }

  /** A string with no white space at either end is its own trim. */
  lemma {:induction false} TrimOfTrimmed(s: string)
    requires s == [] || (!IsWhitespace(s[0]) && !IsWhitespace(s[|s| - 1]))
    ensures Trim(s) == s
  {
  }

  /** A string without capital letters is its own lower case. */
  lemma {:induction false} ToLowerOfLower(s: string)
    requires forall i :: 0 <= i < |s| ==> !('A' <= s[i] <= 'Z')
    ensures ToLower(s) == s
  {
  }

  /** Two separator-free pieces around one separator split back into the two pieces. */
  lemma {:induction false} SplitTwo(a: string, b: string, sep: char)
    requires sep !in a && sep !in b
    ensures Split(a + [sep] + b, sep) == [a, b]
  {
    assert Join([a, b], [sep]) == a + [sep] + b by {
      assert Join([a, b][1..], [sep]) == b;
    }
    SplitOfJoin([a, b], sep);
  }

  /** `a` occurs in `b` starting at position `i`. */
  predicate InfixAt(a: string, b: string, i: int) {
    0 <= i <= |b| - |a| && b[i..i + |a|] == a
  }

  /** `a` occurs in `b` as a contiguous piece. */
  ghost predicate InfixOf(a: string, b: string) {
    exists i :: InfixAt(a, b, i)
  }

  /** A trimmed string is a piece of the string it was trimmed from. */
  lemma {:induction false} TrimIsInfix(s: string)
    ensures InfixOf(Trim(s), s)
  {
    var t := TrimStart(s);
    var r := Trim(s);
    var off := |s| - |t|;
    assert r == t[..|r|];
    assert InfixAt(r, s, off);
  }

  /** A piece of a piece of `c` is a piece of `c`. */
  lemma {:induction false} InfixTransitive(a: string, b: string, c: string)
    requires InfixOf(a, b) && InfixOf(b, c)
    ensures InfixOf(a, c)
  {
    var i :| InfixAt(a, b, i);
    var j :| InfixAt(b, c, j);
    forall t | 0 <= t < |a|
      ensures c[j + i + t] == a[t]
    {
      assert a[t] == b[i + t];
      assert b[i + t] == c[j + i + t];
    }
    assert InfixAt(a, c, j + i);
  }
}

=== FILE: transform_handlers.dfy ===
/**
 * What happens when the user finishes resizing a rectangle: the node's
 * scaled size and position are taken to original coordinates, the size is
 * raised to at least 5, the corner is kept on the image, the size is cut
 * back to the image's edge, and the node's scale is reset to 1.
 */
module TransformHandlers {
  import opened Wrappers
  import opened Geometry
  import opened Annotation
  import opened CoordinateUtils
  import opened DragHandlers

  const MinSize := 5.0

  /** A start and a length along one axis. */
  datatype Span = Span(start: real, length: real)

  /**
   * Where a rectangle side ends up along an axis of extent `limit`: the
   * start is never negative and the far end never beyond `limit`; the
   * length is the requested one raised to 5 and cut to `limit`, so it is
   * at least 5 whenever the image is; a span that already fits is kept.
   */
  function FitAxis(start: real, length: real, limit: real): (s: Span)
    ensures 0.0 <= s.start && s.start + s.length <= limit
    ensures s.length == Min(Max(MinSize, length), limit)
    ensures limit >= MinSize ==> s.length >= MinSize
    ensures 0.0 <= start && start + Max(MinSize, length) <= limit ==> s == Span(start, Max(MinSize, length))
  {
    var len := Max(MinSize, length);
    Span(Max(0.0, Min(start, limit - len)), Min(len, limit))
  }

  /**
   * `handleRectangleTransformEnd`: the returned copy differs from the
   * annotation only in its start point, width and height, which are the
   * fitted spans of the node's position and scaled size in original
   * coordinates; the node's scale is reset to 1 and nothing else of it
   * changes.
   */
  method HandleRectangleTransformEnd(annotation: CanvasAnnotation, node: KonvaNode, v: View, originalImageSize: Size)
    returns (r: CanvasAnnotation)
    requires v.scale != 0.0
    modifies node
    ensures node.scaleX == 1.0 && node.scaleY == 1.0
    ensures node.x == old(node.x) && node.y == old(node.y) && node.width == old(node.width) && node.height == old(node.height)
    ensures var size := DisplaySizeToOriginal(v, Size(old(node.width * node.scaleX), old(node.height * node.scaleY)));
      var start := DisplayToOriginal(v, Point(old(node.x), old(node.y)));
      var sx := FitAxis(start.x, size.width, originalImageSize.width);
      var sy := FitAxis(start.y, size.height, originalImageSize.height);
      r == annotation.(startPoint := Some(Point(sx.start, sy.start)), width := Some(sx.length), height := Some(sy.length))
  {
    var newSize := DisplaySizeToOriginal(v, Size(node.width * node.scaleX, node.height * node.scaleY));
    var newStart := DisplayToOriginal(v, Point(node.x, node.y));
    ghost var size0, start0 := newSize, newStart;
    newSize := newSize.(width := Max(MinSize, newSize.width));
    newSize := newSize.(height := Max(MinSize, newSize.height));
    newStart := newStart.(x := Max(0.0, Min(newStart.x, originalImageSize.width - newSize.width)));
    newStart := newStart.(y := Max(0.0, Min(newStart.y, originalImageSize.height - newSize.height)));
    if newStart.x + newSize.width > originalImageSize.width {
      newSize := newSize.(width := originalImageSize.width - newStart.x);
    }
    if newStart.y + newSize.height > originalImageSize.height {
      newSize := newSize.(height := originalImageSize.height - newStart.y);
    }
    assert Span(newStart.x, newSize.width) == FitAxis(start0.x, size0.width, originalImageSize.width);
    assert Span(newStart.y, newSize.height) == FitAxis(start0.y, size0.height, originalImageSize.height);
    r := annotation.(startPoint := Some(newStart), width := Some(newSize.width), height := Some(newSize.height));
    node.scaleX := 1.0;
    node.scaleY := 1.0;
  }

  /** Fitting a fitted span again changes nothing. */
  lemma {:induction false} FitAxisIdempotent(start: real, length: real, limit: real)
    requires limit >= MinSize
    ensures var s := FitAxis(start, length, limit); FitAxis(s.start, s.length, limit) == s
  {
  }
}

=== FILE: worker_manager.dfy ===
/**
 * The page-side manager of the simplification worker: it creates the worker
 * once, validates a request, gives it a fresh id and keeps it in a map of
 * pending requests until the worker answers, the request times out, or the
 * worker fails or is terminated.
 *
 * Messages, timeouts and worker errors are explicit method calls; the clock
 * and the outcome of the start-up handshake are arguments; a settled promise
 * is the `Settlement` a method returns.
 */
module WorkerManager {
  import opened Wrappers
  import opened Text
  import SimplificationWorker

  /** The id of the `n`-th request made at `ms` milliseconds: `simplify_<n>_<ms>`. */
  function RequestId(n: nat, ms: int): string {
    "simplify_" + (NatToString(n) + "_" + IntToString(ms))
  }

  /** Two request ids are equal only for the same request number. */
  lemma {:induction false} RequestIdInjective(a: nat, ta: int, b: nat, tb: int)
    requires RequestId(a, ta) == RequestId(b, tb)
    ensures a == b
  {
    var ra := NatToString(a) + "_" + IntToString(ta);
    var rb := NatToString(b) + "_" + IntToString(tb);
    assert ra == RequestId(a, ta)[9..];
    assert rb == RequestId(b, tb)[9..];
    DigitRunBeforeUnderscore(NatToString(a), IntToString(ta), NatToString(b), IntToString(tb));
    NatToStringInjective(a, b);
  }

  /** In a run of digits followed by `_`, the first `_` ends the run. */
  lemma UnderscoreEndsDigits(s: string, t: string)
    requires AllDigits(s)
    ensures (s + "_" + t)[|s|] == '_'
    ensures forall i :: 0 <= i < |s| ==> (s + "_" + t)[i] != '_'
  {
    forall i | 0 <= i < |s| ensures (s + "_" + t)[i] != '_' {
      assert (s + "_" + t)[i] == s[i];
    }
  }

  /** The digits before the first `_` are the same in two equal strings. */
  lemma DigitRunBeforeUnderscore(sa: string, ta: string, sb: string, tb: string)
    requires AllDigits(sa) && AllDigits(sb)
    requires sa + "_" + ta == sb + "_" + tb
    ensures sa == sb
  {
    var w := sa + "_" + ta;
    UnderscoreEndsDigits(sa, ta);
    UnderscoreEndsDigits(sb, tb);
    assert |sa| == |sb|;
    assert sa == w[..|sa|];
    assert sb == w[..|sb|];
  }

  /** `k` is the id of one of the first `bound` requests. */
  ghost predicate Issued(k: string, bound: nat) {
    exists n: nat, ms: int :: 1 <= n <= bound && k == RequestId(n, ms)
  }

  /** An id made from a number beyond `bound` was not issued among the first `bound` requests. */
  lemma {:induction false} FreshId(n: nat, ms: int, bound: nat)
    requires bound < n
    ensures !Issued(RequestId(n, ms), bound)
  {
    if Issued(RequestId(n, ms), bound) {
      var m: nat, t: int :| 1 <= m <= bound && RequestId(n, ms) == RequestId(m, t);
      RequestIdInjective(n, ms, m, t);
    }
  }

  /**
   * The next request's id is not pending and counts as issued once the
   * counter moves on, as does every id that was pending before.
   */
  lemma AddFreshRequest(pending: set<string>, counter: nat, ms: int)
    requires forall k :: k in pending ==> Issued(k, counter)
    ensures RequestId(counter + 1, ms) !in pending
    ensures Issued(RequestId(counter + 1, ms), counter + 1)
    ensures forall k :: k in pending ==> Issued(k, counter + 1)
  {
    FreshId(counter + 1, ms, counter);
    forall k | k in pending ensures Issued(k, counter + 1) {
      var m: nat, t: int :| 1 <= m <= counter && k == RequestId(m, t);
      assert 1 <= m <= counter + 1;
    }
  }

  /** How the worker's start-up goes: it signals ready within 5 seconds, it does not, or it cannot be created. */
  datatype Handshake = ReadyInTime | ReadyTimeout | CreationFails(reason: string)

  /** A message from the worker: its `type`, its `id` when it has one, and its payload. */
  datatype WorkerMessage = WorkerMessage(kind: string, id: Option<string>, message: string, simplifiedPoints: seq<real>)

  /** What happens to the promise of a request. */
  datatype Settlement =
    | Untouched
    | Resolved(id: string, simplifiedPoints: seq<real>)
    | Rejected(id: string, reason: string)

  const InitFailure := "Failed to initialize polygon simplification worker: "
  const InitTimeout := "Error: Worker initialization timeout"
  const RequestTimeout := "Polygon simplification timeout"
  const WorkerTerminated := "Worker terminated"

  /** The promise of each of `ids` rejected with `reason`. */
  function Rejections(ids: set<string>, reason: string): (s: set<Settlement>)
    ensures forall id :: id in ids <==> Rejected(id, reason) in s
    ensures forall x :: x in s ==> x.Rejected? && x.reason == reason
  {
    set id | id in ids :: Rejected(id, reason)
  }

  class PolygonSimplificationWorkerManager {
    var hasWorker: bool
    var isWorkerReady: bool
    /** The pending requests, by id, with the time each was made. */
    var pendingRequests: map<string, real>
    var requestCounter: nat

    /** Every pending id is the id of a request already counted; a ready worker exists. */
    ghost predicate Valid()
      reads this
    {
      && (forall k :: k in pendingRequests ==> Issued(k, requestCounter))
      && (isWorkerReady ==> hasWorker)
    }

    constructor ()
      ensures Valid()
      ensures !hasWorker && !isWorkerReady && pendingRequests == map[] && requestCounter == 0
    {
      hasWorker := false;
      isWorkerReady := false;
      pendingRequests := map[];
      requestCounter := 0;
    }

    /**
     * `initialize`: nothing happens once a worker object exists, even when
     * its handshake timed out. Otherwise the worker is created, and it is
     * ready when it signalled so in time; a timeout keeps the worker but
     * fails, and a worker that cannot be created fails without one.
     */
    method Initialize(handshake: Handshake) returns (r: Result<()>)
      requires Valid()
      modifies this`hasWorker, this`isWorkerReady
      ensures Valid()
      ensures old(hasWorker) ==> r.Ok? && hasWorker == old(hasWorker) && isWorkerReady == old(isWorkerReady)
      ensures !old(hasWorker) ==> match handshake
        case ReadyInTime => r.Ok? && hasWorker && isWorkerReady
        case ReadyTimeout => r == Err(InitFailure + InitTimeout) && hasWorker && !isWorkerReady
        case CreationFails(e) => r == Err(InitFailure + e) && !hasWorker && !isWorkerReady
      ensures r.Ok? ==> hasWorker
    {
      if hasWorker {
        return Ok(());
      }
      match handshake {
        case CreationFails(e) =>
          return Err(InitFailure + e);
        case ReadyTimeout =>
          hasWorker := true;
          return Err(InitFailure + InitTimeout);
        case ReadyInTime =>
          hasWorker := true;
          isWorkerReady := true;
          return Ok(());
      }
    }

    /**
     * The `ready` listener left in place after a handshake timeout: a late
     * ready signal still marks the worker ready.
     */
    method LateReady()
      requires Valid()
      modifies this`isWorkerReady
      ensures Valid()
      ensures isWorkerReady == (old(isWorkerReady) || hasWorker)
    {
      if hasWorker {
        isWorkerReady := true;
      }
    }

    /**
     * `simplifyPolygon`: starts the worker when there is none or it is not
     * ready, then rejects fewer than six values or a tolerance that is not
     * positive without counting the request; otherwise the request gets the
     * next number, an id that no pending request has, and a pending entry,
     * and is what the worker is sent.
     */
    method SimplifyPolygon(points: seq<real>, tolerance: real, preserveShape: bool,
                           handshake: Handshake, now: real, nowMs: int)
      returns (r: Result<SimplificationWorker.Request>)
      requires Valid()
      modifies this
      ensures Valid()
      ensures r.Err? ==> pendingRequests == old(pendingRequests) && requestCounter == old(requestCounter)
      ensures old(hasWorker) ==> hasWorker && isWorkerReady == old(isWorkerReady)
      ensures !old(hasWorker) ==> match handshake
        case ReadyInTime => hasWorker && isWorkerReady
        case ReadyTimeout => r == Err(InitFailure + InitTimeout) && hasWorker && !isWorkerReady
        case CreationFails(e) => r == Err(InitFailure + e) && !hasWorker && !isWorkerReady
      ensures (old(hasWorker) || handshake.ReadyInTime?) && |points| < 6
        ==> r == Err(SimplificationWorker.InvalidPoints)
      ensures (old(hasWorker) || handshake.ReadyInTime?) && |points| >= 6 && tolerance <= 0.0
        ==> r == Err(SimplificationWorker.InvalidTolerance)
      ensures (old(hasWorker) || handshake.ReadyInTime?) && |points| >= 6 && tolerance > 0.0 ==> r.Ok?
      ensures r.Ok? ==>
        && hasWorker && |points| >= 6 && tolerance > 0.0
        && requestCounter == old(requestCounter) + 1
        && r.value == SimplificationWorker.Request(RequestId(requestCounter, nowMs), "simplify",
                                                   Some(points), Some(tolerance), Some(preserveShape))
        && r.value.id !in old(pendingRequests)
        && pendingRequests == old(pendingRequests)[r.value.id := now]
    {
      if !hasWorker || !isWorkerReady {
        var init := Initialize(handshake);
        if init.Err? {
          return Err(init.error);
        }
      }
      r := PostRequest(points, tolerance, preserveShape, now, nowMs);
    }

    /** The part of `simplifyPolygon` after the worker is up: validate, then register the request. */
    method PostRequest(points: seq<real>, tolerance: real, preserveShape: bool, now: real, nowMs: int)
      returns (r: Result<SimplificationWorker.Request>)
      requires Valid()
      modifies this`pendingRequests, this`requestCounter
      ensures Valid()
      ensures |points| < 6 ==> r == Err(SimplificationWorker.InvalidPoints)
      ensures |points| >= 6 && tolerance <= 0.0 ==> r == Err(SimplificationWorker.InvalidTolerance)
      ensures r.Err? ==> pendingRequests == old(pendingRequests) && requestCounter == old(requestCounter)
      ensures |points| >= 6 && tolerance > 0.0 ==>
        && r.Ok?
        && requestCounter == old(requestCounter) + 1
        && r.value == SimplificationWorker.Request(RequestId(requestCounter, nowMs), "simplify",
                                                   Some(points), Some(tolerance), Some(preserveShape))
        && r.value.id !in old(pendingRequests)
        && pendingRequests == old(pendingRequests)[r.value.id := now]
    {
      if |points| < 6 {
        return Err(SimplificationWorker.InvalidPoints);
      }
      if tolerance <= 0.0 {
        return Err(SimplificationWorker.InvalidTolerance);
      }
      AddFreshRequest(pendingRequests.Keys, requestCounter, nowMs);
      var id := RequestId(requestCounter + 1, nowMs);
      requestCounter := requestCounter + 1;
      pendingRequests := pendingRequests[id := now];
      r := Ok(SimplificationWorker.Request(id, "simplify", Some(points), Some(tolerance), Some(preserveShape)));
    }

    /**
     * `handleWorkerMessage`: a ready signal, a message without an id and
     * one for an id that is not pending change nothing. Otherwise that entry
     * alone is removed and its promise is resolved with the simplified
     * points, rejected with the worker's message, or rejected as an unknown
     * response type.
     */
    method HandleWorkerMessage(msg: WorkerMessage) returns (s: Settlement)
      requires Valid()
      modifies this`pendingRequests
      ensures Valid()
      ensures msg.kind == "ready" || msg.id.None? || msg.id.value !in old(pendingRequests) ==>
        s == Untouched && pendingRequests == old(pendingRequests)
      ensures msg.kind != "ready" && msg.id.Some? && msg.id.value in old(pendingRequests) ==>
        && pendingRequests == old(pendingRequests) - {msg.id.value}
        && s == (if msg.kind == "simplified" then Resolved(msg.id.value, msg.simplifiedPoints)
                 else if msg.kind == "error" then Rejected(msg.id.value, msg.message)
                 else Rejected(msg.id.value, "Unknown response type: " + msg.kind))
    {
      if msg.kind == "ready" || msg.id.None? || msg.id.value !in pendingRequests {
        return Untouched;
      }
      var id := msg.id.value;
      pendingRequests := pendingRequests - {id};
      if msg.kind == "simplified" {
        s := Resolved(id, msg.simplifiedPoints);
      } else if msg.kind == "error" {
        s := Rejected(id, msg.message);
      } else {
        s := Rejected(id, "Unknown response type: " + msg.kind);
      }
    }

    /** The 10-second timer of request `id`: it removes and rejects the request only while it is pending. */
    method Timeout(id: string) returns (s: Settlement)
      requires Valid()
      modifies this`pendingRequests
      ensures Valid()
      ensures id in old(pendingRequests) ==>
        s == Rejected(id, RequestTimeout) && pendingRequests == old(pendingRequests) - {id}
      ensures id !in old(pendingRequests) ==> s == Untouched && pendingRequests == old(pendingRequests)
    {
      if id in pendingRequests {
        pendingRequests := pendingRequests - {id};
        return Rejected(id, RequestTimeout);
      }
      return Untouched;
    }

    /** `rejectAllPending`: every pending request is rejected with `reason` and none is left. */
    method RejectAllPending(reason: string) returns (rejected: set<Settlement>)
      requires Valid()
      modifies this`pendingRequests
      ensures Valid()
      ensures rejected == Rejections(old(pendingRequests).Keys, reason) && pendingRequests == map[]
    {
      rejected := Rejections(pendingRequests.Keys, reason);
      pendingRequests := map[];
    }

    /** The worker's `onerror` handler: everything pending is rejected with the worker's message. */
    method WorkerError(message: string) returns (rejected: set<Settlement>)
      requires Valid()
      modifies this`pendingRequests
      ensures Valid()
      ensures rejected == Rejections(old(pendingRequests).Keys, "Worker error: " + message)
      ensures pendingRequests == map[]
    {
      rejected := RejectAllPending("Worker error: " + message);
    }

    /**
     * `terminate`: with a worker, every pending request is rejected and the
     * worker is dropped and no longer ready; without one nothing happens.
     */
    method Terminate() returns (rejected: set<Settlement>)
      requires Valid()
      modifies this`pendingRequests, this`hasWorker, this`isWorkerReady
      ensures Valid()
      ensures old(hasWorker) ==>
        && rejected == Rejections(old(pendingRequests).Keys, WorkerTerminated)
        && pendingRequests == map[] && !hasWorker && !isWorkerReady
      ensures !old(hasWorker) ==>
        rejected == {} && pendingRequests == old(pendingRequests) && !hasWorker && isWorkerReady == old(isWorkerReady)
    {
      rejected := {};
      if hasWorker {
        rejected := RejectAllPending(WorkerTerminated);
        hasWorker := false;
        isWorkerReady := false;
      }
    }

    /** A response that arrives after its request timed out is dropped. */
    method TimeoutThenResponse(id: string, msg: WorkerMessage) returns (first: Settlement, second: Settlement)
      requires Valid() && id in pendingRequests && msg.id == Some(id)
      modifies this`pendingRequests
      ensures Valid()
      ensures first == Rejected(id, RequestTimeout) && second == Untouched
      ensures pendingRequests == old(pendingRequests) - {id}
    {
      first := Timeout(id);
      second := HandleWorkerMessage(msg);
    }
  }

  /** A request the manager sends always passes the worker's own validation. */
  lemma {:induction false} SentRequestsAreSimplified(points: seq<real>, tolerance: real, preserveShape: bool, n: nat, ms: int)
    requires |points| >= 6 && tolerance > 0.0
    ensures SimplificationWorker.HandleRequest(
      SimplificationWorker.Request(RequestId(n, ms), "simplify", Some(points), Some(tolerance), Some(preserveShape))).Simplified?
  {
  }
}

=== FILE: wrappers.dfy ===
/** Optional values and fallible results, shared by every module of the model. */
module Wrappers {

  /** A value that may be missing: JavaScript's `undefined`, `null` and other falsy slots. */
  datatype Option<T> = None | Some(value: T) {
    function GetOr(default: T): T {
      if Some? then value else default
    }
  }

  /** The outcome of an operation that either produces a value or fails with a message. */
  datatype Result<T> = Ok(value: T) | Err(error: string)
}
